=== FILE: README.md ===
# TECSUP Rooms back end — a Dafny model of its core

This project models the services at the centre of the TECSUP Rooms landlord
back end, a NestJS application on TypeORM and MySQL, and proves properties
of that model in Dafny. The model covers:

- the one-to-one **chat**: the service, the socket.io gateway, and the REST
  controller's handling of `limit`;
- the **presigned upload keys** of the storage service, with the property
  ownership gate;
- the **e-mail domain validator** used at sign-in;
- the **users** service: create, update, the combined user-and-landlord
  update and the registration-status report;
- the **properties** service: creating and updating a listing with its
  gallery and included services, and the owner-scoped lookup behind update
  and remove;
- the create/find/update/remove services and ownership checks of
  **requests**, **media**, **roles**, **tenants**, **landlords** and
  **admins**, and the admin controller's requester check;
- **Google sign-in**: the account upsert and the token payload;
- the validation rules of the registration **DTOs**.

Each service becomes a module of pure functions over immutable tables:

- A table is a `seq` of rows in insertion order.
- A uniqueness constraint is `Tables.UniqueBy` and a foreign key is a `Holds`
  predicate. Each module has a `Valid` predicate that states the table's
  constraints, and lemmas show that every write keeps it.
- Every exception becomes a `Result` error: `NotFound`, `Forbidden`,
  `Conflict`, `Unauthorized`, `BadRequest`, or `QueryFailed` when the
  database refuses a statement.
- Things the program gets from outside become parameters: the generated
  uuid, the clock, token verification, the signed upload URL, the
  environment, and the configured domain restrictions.

Modelling decisions that a reader of the source should know:

- **Row order.** `find` and `findBy` return rows in storage order.
  `ORDER BY … DESC` is a stable sort of that order (`Seqs.Sort`), and the
  model states only what the order guarantees.
- **The chat clock.** The message log is ordered by creation time
  (`ChatService.LogOrdered`), so `ORDER BY createdAt` agrees with the log.
- **`Promise.all`.** In `create` and `update` of properties the two branches
  touch disjoint tables, so the model runs them one after the other.
- **`LIMIT` and `OFFSET`** follow TypeORM's MySQL rendering (`Seqs.Window`).
  A zero or absent value writes no clause, a negative value makes the
  statement fail, and an offset without a limit is refused.
- **Undefined where-conditions.** TypeORM drops a condition whose value is
  `undefined`. The model follows this in `Users.RoleExists` and
  `Storage.FindsProperty`.
- **Case-insensitive tests** only ever compare against ASCII text
  (`"360"`, `"tour"`, search terms), so lower-casing is modelled on ASCII
  letters only.
- **The collation.** The MySQL connection (src/database/database.module.ts:9-22)
  sets only the `utf8mb4` character set, whose default collation ignores
  letter case. So `WHERE email = …`, `WHERE name = …` and the unique indexes
  on `users.email` and `roles.name` compare under `Tables.Collate`, and
  `LIKE` is `Tables.Like`. Ids and Google ids are compared exactly (see Left
  out).
- **Loaded relations.** When the service loads a row with a relation that
  shares the row's foreign-key column (the admin's `user`, the request's
  `property`), TypeORM writes that column from the relation on `save`. A
  bare foreign-key value in the body is then not written
  (`Admins.UpdateUserIdNotWritten`, `Requests.UpdatePropertyIdNotWritten`).
- **Unvalidated bodies.** A body typed `Partial<…>` (roles, admins, media)
  has no class for the validation pipe to check, so it can carry any key,
  the primary key included. The model assigns every key such a body can
  set.

Parts of the source that are not wired together, and parts that disagree:

- The root module (src/app.module.ts:10-21) imports only the configuration,
  database, auth, users, properties, tenants and landlords modules; the
  roles module comes in through the auth module. The chat, media, storage,
  requests and admins services are modelled as their own source states them;
  they answer requests only once their module is mounted. Findings rows 1,
  3, 4, 5 and 6 and the chat rows are about behaviour that becomes reachable
  then.
- The media controller calls `createFolder` with three arguments
  (src/modules/media/media.controller.ts:19) where the service declares two
  (src/modules/media/media.service.ts:16). The extra e-mail is ignored at run
  time, and `Media.CreateFolder` follows the service.

- The root module loads the configuration module with no factory, and nothing
  calls the factory in `src/config/auth.config.ts`. So the validator finds no
  domain restrictions and accepts every address that has a domain. Were the
  factory loaded, its rules sit under `landlords` and `tenants` while the
  lookup uses `landlord` and `tenant`, so they would still never apply (see
  Findings). Sign-in checks only the landlord type.
- The user entity declares only a `role` enum column. The users service
  instead selects a `roleId` column and loads a `role` relation, which the
  entity does not declare. The model follows the service: a user carries a
  role id that the roles table resolves to a name (see Left out).
- The requests controller passes the authenticated user's id as
  `userTenantId`, while request rows hold the tenant profile's id. So
  `Requests.Update` and `Requests.Remove` refuse a tenant's own request unless
  the two ids coincide. The model keeps the service's comparison as written.

## Model

| member | source | states |
|---|---|---|
| Auth.ValidateGoogleUser | src/modules/auth/services/auth.service.ts:15-50 | the landlord domain rule runs before any lookup and a refused address ends in Unauthorized; a successful sign-in returns a user that is in the returned user table |
| Auth.UpsertCases | src/modules/auth/services/auth.service.ts:25-49 | the account is looked up by e-mail up to letter case, as the collation compares; an unknown e-mail appends exactly one verified row carrying the new id, the Google id, the e-mail as Google sent it and "given family" as its name; an account already linked to Google comes back unchanged and nothing is written; an unlinked account gets the Google id, the verified flag and the photo (the stored one when Google sends none), with the other tables untouched |
| Auth.SignInIdempotent | src/modules/auth/services/auth.service.ts:15-50 | for a profile with a non-empty Google id and a fresh new id, signing in a second time returns the same user and writes nothing, because the first sign-in leaves the account linked |
| Auth.RefusedDomainWritesNothing | src/modules/auth/services/auth.service.ts:23 | an address without a domain is refused with Unauthorized whatever the tables hold |
| Auth.SignUpDto | src/modules/auth/services/auth.service.ts:29-39 | a first sign-in registers the Google e-mail, the name "given family", the Google id, the verified flag and the photo, with blank phone, DNI and address, no properties and no role |
| Auth.LinkPatch | src/modules/auth/services/auth.service.ts:42-46 | linking sets only the Google id, the verified flag and the picture, and leaves name, e-mail and role alone |
| Auth.PayloadIdentifiesUser | src/modules/auth/services/auth.service.ts:52-58 | the `{sub, email}` payload identifies the same user again, both to the chat gateway (`sub` first) and to the admin controller (which falls back to `sub` since the payload has no `id`) |
| DomainValidation.Domain | src/modules/auth/services/domain-validation.service.ts:14 | `split('@')[1]` is undefined exactly when the address has no '@', and never contains an '@' |
| DomainValidation.DomainOf | src/modules/auth/services/domain-validation.service.ts:14 | the domain of `local@domain` is `domain`, even when a further '@' follows |
| DomainValidation.ValidateEmailDomain | src/modules/auth/services/domain-validation.service.ts:13-60 | accepts (with `true`) exactly when the domain is present and non-empty and either nothing is configured, the type has no rule, or the rule admits it (empty or '*' or listing allow list, not restricted); every refusal is Unauthorized |
| DomainValidation.SomeAllows | src/modules/auth/services/domain-validation.service.ts:34-39 | the allow-list test holds exactly when some entry is '*' or equals the domain |
| DomainValidation.RestrictedBeatsWildcard | src/modules/auth/services/domain-validation.service.ts:33-57 | a restricted domain is refused even when the allow list is '*' |
| DomainValidation.MissingDomainRefused | src/modules/auth/services/domain-validation.service.ts:14-18 | an address with no '@', or nothing after it, is refused before the configuration is consulted |
| DomainValidation.DeployedAcceptsAnyDomain | src/modules/auth/services/domain-validation.service.ts:20-24 | with no restrictions loaded, as the application runs, every address with a non-empty domain is accepted for either user type |
| DomainValidation.DeployedAcceptsGmailTenant | src/modules/auth/services/domain-validation.service.ts:20-24 | example of the statement above: `alumno@gmail.com` passes the tenant check |
| DomainValidation.ShippedAcceptsAnyTenantDomain | src/config/auth.config.ts:15-26 | were the configuration factory loaded, its plural keys still leave a tenant address on any domain accepted, since no rule is found under the looked-up key |
| DomainValidation.IntendedTenantRule | src/config/auth.config.ts:21-25 | with the rules loaded under the keys the lookup uses, a tenant is accepted exactly on `tecsup.edu.pe` |
| DomainValidation.IntendedLandlordRule | src/config/auth.config.ts:16-20 | with the rules loaded under the keys the lookup uses, a landlord is accepted on any non-empty domain |
| Tables.Collate | src/modules/users/entities/user.entity.ts:20-22 | the key under which the unique e-mail and role-name indexes and the lookups compare text: each character is lower-cased, so names equal up to ASCII letter case collide |
| Tables.LikePrefix | src/modules/media/media.service.ts:26 | a LIKE pattern of a literal without `%` or backslash followed by `%` matches exactly the texts that start with the literal, compared character by character up to letter case with `_` matching any character |
| Users.RoleExists | src/modules/users/services/users.service.ts:29 | a given role id passes exactly when the roles service finds it; an absent one passes whenever any role exists, since the ORM drops the undefined condition |
| Users.Create | src/modules/users/services/users.service.ts:21-33 | an e-mail some user holds up to letter case is a Conflict before the role is looked up, an unresolved role is NotFound, and a clash on the unique Google id is refused by the database; the create succeeds exactly when none of the three applies; success appends exactly one row with the new id and the body's name, e-mail, Google id and verified flag (false when absent), other tables unchanged |
| Users.FindByEmail | src/modules/users/services/users.service.ts:54-58 | finds nothing exactly when no row's e-mail equals the given one up to letter case, and otherwise a row of the table whose e-mail does |
| Users.FindById | src/modules/users/services/users.service.ts:168-172 | finds nothing exactly when no row has the id, and otherwise that user's row |
| Users.Update | src/modules/users/services/users.service.ts:60-67 | an unknown id is NotFound, and the only other error is a refusal by the database; on a consistent table the update succeeds exactly when the user exists, a named role resolves, and the patched e-mail and Google id clash with no other user; success rewrites only that user's row, to the row with the body's defined fields assigned over it |
| Auth.FirstSignInOutcome | src/modules/auth/services/auth.service.ts:25-39 | a first Google sign-in with an admitted, unheld address creates the user exactly when a role exists and the Google id is free, is NotFound without roles, and on success appends one row with the new id |
| Users.CreateKeepsValid | src/modules/users/services/users.service.ts:21-33 | a create with a fresh id keeps the primary key, the unique e-mail and the unique Google id |
| Users.UpdateKeepsValid | src/modules/users/services/users.service.ts:60-67 | a successful update keeps those constraints; a clash is refused by the database |
| Users.SaveLandlord | src/modules/users/services/users.service.ts:121-141 | the user's existing landlord profile is merged in place; without one, exactly one new profile is appended |
| Users.UpdateUserAndLandlord | src/modules/users/services/users.service.ts:104-155 | fails, with NotFound and nothing written, exactly when the user is missing; otherwise only that user's row changes, and only its name; roles and tenants are untouched; the landlord table changes only when the body has a landlord part |
| Users.UpdateCreatesLandlordDefaults | src/modules/users/services/users.service.ts:124-133 | for a user without a profile, a body with only a landlord part succeeds and the user's profile is then exactly the one built from the body: an absent phone becomes '', the count is `propertiesCount` when given, and '' when neither count is |
| Users.UpdateKeepsUndefinedFields | src/modules/users/services/users.service.ts:134-139 | with a profile present, each field the body leaves undefined keeps its stored value, each defined one is overwritten, and the profile keeps its id |
| Users.UpdateUserAndLandlordKeepsOneProfile | src/modules/users/services/users.service.ts:121-141 | the combined update keeps one landlord profile per user, with unique ids |
| Users.RoundedPercent | src/modules/users/services/users.service.ts:224 | the rounded percentage of completed checks (a zero total counting as one) is the integer nearest to the exact percentage, halves rounded up, between 0 and 100, and 0 when nothing is counted |
| Users.CheckRegistrationStatus | src/modules/users/services/users.service.ts:158-232 | the percentage is 100 for a complete profile and otherwise the completed share of the reported fields, rounded, so it lies in 0..100; the completed and missing fields together number the checked fields; there are never more next steps than missing fields |
| Users.IsCompleteIff | src/modules/users/services/users.service.ts:177-208 | `isComplete` holds exactly when the user's role is landlord (tenant) and that profile exists with every checked column filled |
| Users.LandlordChecksDone | src/modules/users/services/users.service.ts:181-196 | the four per-field landlord checks all pass exactly when the profile counts as complete |
| Users.TenantChecksDone | src/modules/users/services/users.service.ts:200-221 | the six per-field tenant checks all pass exactly when the profile counts as complete |
| Users.AccountFieldsReported | src/modules/users/services/users.service.ts:173-176 | `fullName` (`email`) is among the completed fields exactly when the user exists and the value is not blank after trimming, and among the missing fields exactly otherwise |
| Users.LandlordFieldsReported | src/modules/users/services/users.service.ts:188-197 | for a landlord with a profile, phone, DNI, address and property count are each among the completed fields exactly when filled, and among the missing fields exactly otherwise |
| Users.TenantFieldsReported | src/modules/users/services/users.service.ts:209-222 | for a tenant with a profile, phone, code, career, cycle and origin department are each completed exactly when filled and missing otherwise; the budget is always completed |
| Users.NoProfileFieldsReported | src/modules/users/services/users.service.ts:177-223 | without a landlord or tenant role together with the matching profile, no profile field is reported at all |
| Users.NextStepsForProfileOnly | src/modules/users/services/users.service.ts:165-222 | there are as many missing fields as next steps plus missing account fields, which have no step; a user without a role profile gets no next steps |
| Landlords.Create | src/modules/landlords/services/landlords.service.ts:15-23 | refused exactly when the user already has a profile (Conflict) or the user does not exist (QueryFailed, the `user_id` foreign key); otherwise appends one profile with the body's fields and `String(propertyCount)`, '' when absent |
| Landlords.EnsureExistsForUser | src/modules/landlords/services/landlords.service.ts:25-32 | returns the user's existing profile and writes nothing; otherwise appends and returns a blank profile, and fails with QueryFailed exactly when there is no profile and the user does not exist |
| Landlords.EnsureExistsIdempotent | src/modules/landlords/services/landlords.service.ts:25-32 | a second call returns the profile of the first and writes nothing |
| Landlords.FindOne | src/modules/landlords/services/landlords.service.ts:38-42 | NotFound exactly when no profile has the id; otherwise that profile |
| Landlords.FindByUserId | src/modules/landlords/services/landlords.service.ts:44-46 | absent exactly when the user has no profile; otherwise the user's profile |
| Landlords.Update | src/modules/landlords/services/landlords.service.ts:48-52 | NotFound for an unknown id, QueryFailed when the body moves the profile to a user that does not exist; success rewrites only that profile, with the body's present keys assigned over it; for valid rows and a known id it succeeds exactly when the user is unchanged, or exists and has no landlord profile |
| Landlords.UpdateOverwritesOnlyPresent | src/modules/landlords/services/landlords.service.ts:48-52 | each column the body leaves out keeps its value, each present one takes the body's value, and the id stays |
| Landlords.Remove | src/modules/landlords/services/landlords.service.ts:54-58 | NotFound exactly for an unknown id; otherwise the table loses one row, keeps only rows it had, and, when its constraints held, no longer holds the id and still satisfies them |
| Landlords.CreateKeepsValid | src/modules/landlords/services/landlords.service.ts:15-23 | create keeps unique ids and one profile per user |
| Landlords.EnsureExistsKeepsValid | src/modules/landlords/services/landlords.service.ts:25-32 | `ensureExistsForUser` keeps unique ids and one profile per user |
| Landlords.UpdateKeepsValid | src/modules/landlords/services/landlords.service.ts:48-52 | a successful update keeps unique ids and one profile per user |
| Tenants.ToNumber | src/modules/tenants/services/tenants.service.ts:60 | a blank (empty or white-space) text reads as 0, and any other text as the number it writes, kept as text |
| Tenants.Create | src/modules/tenants/services/tenants.service.ts:15-23 | refused exactly when the user already has a profile (Conflict) or the user does not exist (QueryFailed, the `user_id` foreign key); otherwise appends one profile with the body's fields, a budget of 0 when the submitted one is absent or blank, and otherwise the number it writes |
| Tenants.EnsureExistsForUser | src/modules/tenants/services/tenants.service.ts:39-54 | returns the user's existing profile and writes nothing; otherwise appends and returns a blank profile with a zero budget, and fails with QueryFailed exactly when there is no profile and the user does not exist |
| Tenants.EnsureExistsIdempotent | src/modules/tenants/services/tenants.service.ts:39-54 | a second call returns the profile of the first and writes nothing |
| Tenants.FindOne | src/modules/tenants/services/tenants.service.ts:29-33 | NotFound exactly when no profile has the id; otherwise that profile |
| Tenants.FindByUserId | src/modules/tenants/services/tenants.service.ts:35-37 | absent exactly when the user has no profile; otherwise the user's profile |
| Tenants.Update | src/modules/tenants/services/tenants.service.ts:56-62 | NotFound for an unknown id, QueryFailed when the body moves the profile to a user that does not exist; success rewrites only that profile with the present keys, the budget through `Number`, and an absent phone or budget keeps its value; for valid rows and a known id it succeeds exactly when the user is unchanged, or exists and has no tenant profile |
| Tenants.Remove | src/modules/tenants/services/tenants.service.ts:65-69 | NotFound exactly for an unknown id; otherwise the table loses one row, keeps only rows it had, and, when its constraints held, no longer holds the id and still satisfies them |
| Tenants.CreateKeepsValid | src/modules/tenants/services/tenants.service.ts:15-23 | create keeps unique ids and one profile per user |
| Tenants.EnsureExistsKeepsValid | src/modules/tenants/services/tenants.service.ts:39-54 | `ensureExistsForUser` keeps unique ids and one profile per user |
| Tenants.UpdateKeepsValid | src/modules/tenants/services/tenants.service.ts:56-63 | a successful update keeps unique ids and one profile per user |
| Roles.Create | src/modules/roles/services/roles.service.ts:14-22 | refused with Conflict exactly when some role's name equals the new one up to letter case, as the case-insensitive collation compares them; otherwise appends exactly the new role |
| Roles.FindOne | src/modules/roles/services/roles.service.ts:30-36 | NotFound exactly when no role has the id; otherwise that role |
| Roles.FindByName | src/modules/roles/services/roles.service.ts:38-40 | absent exactly when no role's name equals the given one up to letter case; otherwise such a role |
| Roles.Update | src/modules/roles/services/roles.service.ts:42-54 | NotFound for an unknown id; Conflict exactly when a non-empty name differing from the current one, character for character, is held by a role up to letter case; a success is the patched role saved under whatever id it now carries; for a patch without an id and valid roles, it succeeds exactly when the name is absent, unchanged, or free up to letter case |
| Roles.UpdateSameNameAllowed | src/modules/roles/services/roles.service.ts:45 | keeping a role's current name, character for character, is never a conflict |
| Roles.UpdateRenameConflict | src/modules/roles/services/roles.service.ts:45-50 | renaming to a non-empty name another role holds is a Conflict |
| Roles.UpdateRecaseConflict | src/modules/roles/services/roles.service.ts:45-50 | changing only the letter case of a role's own name is a Conflict: the service compares exactly, the lookup finds the role itself |
| Roles.UpdateRewritesOther | src/modules/roles/services/roles.service.ts:42-54 | a body carrying another role's id succeeds and rewrites that other role with the patched columns, while the role named in the path stays as it was |
| Roles.SaveRole | src/modules/roles/services/roles.service.ts:53 | the save overwrites the row holding the entity's id, or appends when none does, and the unique name index refuses a name another row holds up to letter case |
| Roles.Remove | src/modules/roles/services/roles.service.ts:56-59 | NotFound exactly for an unknown id; otherwise the table loses one row, keeps only rows it had, and, when its constraints held, no longer holds the id and still satisfies them |
| Roles.FindAllSorted | src/modules/roles/services/roles.service.ts:24-28 | `findAll` returns every role exactly once, in ascending name order |
| Roles.CreateKeepsValid | src/modules/roles/services/roles.service.ts:14-22 | create keeps unique ids and unique names |
| Roles.UpdateKeepsValid | src/modules/roles/services/roles.service.ts:42-54 | a successful update keeps unique ids and unique names |
| Admins.Create | src/modules/admins/services/admins.service.ts:14-22 | refused exactly when the user already has an admin profile (Conflict) or the user does not exist (QueryFailed, the `user_id` foreign key); otherwise appends exactly the new profile |
| Admins.FindOne | src/modules/admins/services/admins.service.ts:30-39 | NotFound exactly when no profile has the id; otherwise that profile |
| Admins.FindByUserId | src/modules/admins/services/admins.service.ts:41-46 | absent exactly when the user has no admin profile; otherwise the user's profile |
| Admins.Update | src/modules/admins/services/admins.service.ts:48-52 | NotFound for an unknown id; a success is the patched profile saved under whatever id it now carries, its user being the body's `user` relation when present and otherwise the loaded one, so a bare `userId` is never written; for a patch without an id and valid rows, it succeeds exactly when the user is unchanged or exists and holds no other profile |
| Admins.SaveAdmin | src/modules/admins/services/admins.service.ts:51 | the save overwrites the row holding the entity's id, or appends when none does; the unique `user_id` refuses a user another row holds and the foreign key a user that does not exist |
| Admins.UpdateChecked | src/modules/admins/services/admins.service.ts:48-52 | corrected update: a body naming id, `userId` or `user` is BadRequest; otherwise NotFound exactly for an unknown id, success exactly for a known one, and only that row changes, keeping its id and user |
| Admins.UpdateLastLogin | src/modules/admins/services/admins.service.ts:54-60 | only the user's own profile gets the new login time; without a profile nothing changes |
| Admins.Remove | src/modules/admins/services/admins.service.ts:62-65 | NotFound exactly for an unknown id; otherwise the table loses one row, keeps only rows it had, and, when its constraints held, no longer holds the id and still satisfies them |
| Admins.CreateKeepsValid | src/modules/admins/services/admins.service.ts:14-22 | create keeps unique ids and one admin profile per user |
| Admins.UpdateLastLoginKeepsValid | src/modules/admins/services/admins.service.ts:54-60 | recording a login keeps those constraints |
| Admins.Requester | src/modules/admins/controllers/admins.controller.ts:39 | the requester is the `id` claim when it is non-empty, and the `sub` claim otherwise |
| Admins.FindOneHandler | src/modules/admins/controllers/admins.controller.ts:37-44 | NotFound exactly for an unknown id, Forbidden exactly when the requester is not the profile's user, and otherwise the profile |
| Admins.UpdateHandler | src/modules/admins/controllers/admins.controller.ts:46-56 | NotFound for an unknown path id, Forbidden exactly when the requester is not the path profile's user, and only then the service update |
| Admins.RemoveHandler | src/modules/admins/controllers/admins.controller.ts:61-68 | the same two refusals, and only an owner reaches the service remove |
| Admins.HandlersAdmitOnlyOwner | src/modules/admins/controllers/admins.controller.ts:37-68 | whatever succeeds through the controller was asked for by the user of the profile named in the path (the row written may be another, see `Admins.UpdateOverwritesOther`) |
| Admins.SubFallback | src/modules/admins/controllers/admins.controller.ts:39 | a token with no or an empty `id` is judged by its `sub`; a request without either owns nothing |
| Admins.UpdateOverwritesOther | src/modules/admins/controllers/admins.controller.ts:49-55 | the owner of one profile, sending another profile's id and user in the body, passes the check on their own profile and overwrites the other user's permissions, leaving their own row unchanged |
| Admins.UpdateUserIdNotWritten | src/modules/admins/entities/admin.entity.ts:11-17 | a body holding only `userId` succeeds and writes nothing: the loaded relation keeps the column |
| Admins.UpdateHandlerChecked | src/modules/admins/controllers/admins.controller.ts:46-56 | corrected controller path: NotFound and Forbidden as before; a success was asked for by the owner of the path profile and rewrites exactly that row, keeping its id and user |
| Admins.UpdateCheckedKeepsOwners | src/modules/admins/controllers/admins.controller.ts:37-56 | after a checked update, every user is admitted to or refused every profile exactly as before |
| Requests.Create | src/modules/requests/services/requests.service.ts:15-18 | the request is stamped with the caller's tenant and starts pending; a dangling property or tenant is refused by the foreign keys |
| Requests.CreateThenFind | src/modules/requests/services/requests.service.ts:15-24 | a created request is found again by its id, pending and carrying the caller's tenant |
| Requests.CreateKeepsValid | src/modules/requests/services/requests.service.ts:15-18 | a create with a fresh id keeps the primary key and both foreign keys |
| Requests.FindOne | src/modules/requests/services/requests.service.ts:20-24 | NotFound exactly when no request has the id; otherwise that request |
| Requests.UpdateStatus | src/modules/requests/services/requests.service.ts:43-50 | NotFound first, then Forbidden exactly when the request's property belongs to another landlord; success changes only that request's status, to any value |
| Requests.OwnerSetsAnyStatus | src/modules/requests/services/requests.service.ts:43-50 | the property's landlord can move a request to any status, and it then appears in that landlord's list filtered by the new status |
| Requests.OtherLandlordForbidden | src/modules/requests/services/requests.service.ts:45-47 | any other landlord is refused |
| Requests.Update | src/modules/requests/services/requests.service.ts:52-59 | NotFound first, then Forbidden exactly when a non-empty tenant id is given and differs from the request's, and no other error; success rewrites only that request, whose property stays the loaded one whatever the body says |
| Requests.UpdatePropertyIdNotWritten | src/modules/requests/entities/request.entity.ts:26-32 | a body naming another property succeeds and stores the request unchanged, because the loaded `property` relation supplies `property_id` |
| Requests.UpdateKeepsValid | src/modules/requests/services/requests.service.ts:52-59 | an update keeps the primary key and both foreign keys |
| Requests.Remove | src/modules/requests/services/requests.service.ts:61-68 | NotFound first, then Forbidden exactly as for update; success leaves one request fewer, only requests that were there, the other tables untouched, and for a valid store the id gone and both foreign keys kept |
| Requests.TenantCheckOnlyWhenGiven | src/modules/requests/services/requests.service.ts:52-68 | an absent or empty tenant id skips the ownership check entirely |
| Requests.ListForTenantSpec | src/modules/requests/services/requests.service.ts:37-41 | the tenant's list holds exactly the tenant's requests of the asked status (all when none), newest first |
| Requests.ListForLandlordSpec | src/modules/requests/services/requests.service.ts:26-35 | the landlord's list holds exactly the requests on the landlord's properties of the asked status, newest first |
| Media.CreateFolder | src/modules/media/media.service.ts:16-19 | appends exactly one folder, owned by the caller |
| Media.RegisterFile | src/modules/media/media.service.ts:31-34 | appends exactly one file owned by the caller; a folder id that does not exist is refused by the foreign key |
| Media.RegisteredFileListed | src/modules/media/media.service.ts:31-67 | a registered file appears in its owner's unfiltered file list |
| Media.ListFoldersByPropertySpec | src/modules/media/media.service.ts:21-29 | the list holds exactly the caller's folders whose path matches the pattern `properties/<id>/%` under LIKE, newest first |
| Media.ListFoldersByPlainId | src/modules/media/media.service.ts:22-26 | for an id without `%` or backslash, a folder is listed exactly when its path starts with `properties/<id>/` compared character by character up to letter case, an `_` of the id matching any character |
| Media.WildcardIdExample | src/modules/media/media.service.ts:22-26 | example of `Media.ListFoldersByPlainId`: the id `a_b` lists a folder under `Properties/AXB/` |
| Media.ListFilesByProperty | src/modules/media/media.service.ts:36-38 | the list holds exactly the caller's files attached to the property, and every file of the caller when the property id is absent (the condition drops out) |
| Media.OwnedFolder | src/modules/media/media.service.ts:70-72 | NotFound exactly for an unknown folder; Forbidden only when a folder with that id has another owner; otherwise the position of the first folder with the id, which the caller owns |
| Media.ListFilesByFolder | src/modules/media/media.service.ts:40-45 | fails as the ownership guard does; otherwise lists exactly the folder's files |
| Media.UpdateFolder | src/modules/media/media.service.ts:69-75 | fails exactly as the ownership guard does; otherwise every key the patch holds, id and owner included, is assigned over the owned folder, which is then saved under its resulting id |
| Media.UpdateFolderHandsOver | src/modules/media/media.service.ts:69-75 | a patch naming another owner succeeds, after which the old owner is refused the folder and the named user is admitted |
| Media.UpdateFolderTakesOver | src/modules/media/media.service.ts:69-75 | the owner of one folder who patches it with another user's folder id then owns that other folder |
| Media.UpdateFolderKeepsValid | src/modules/media/media.service.ts:69-75 | whatever the patch, a successful update keeps folder ids unique and every file's folder existing |
| Media.UpdateFolderChecked | src/modules/media/media.service.ts:69-75 | with the body limited to the DTO's fields, a patch naming the id or owner is BadRequest; otherwise fails as the guard does, and success rewrites only that folder in place, to the patched folder, keeping its id and owner |
| Media.UpdateFolderCheckedKeepsOwners | src/modules/media/media.service.ts:69-75 | through the checked update, the guard's answer for every folder and user is unchanged |
| Media.DeleteFolder | src/modules/media/media.service.ts:77-83 | fails as the ownership guard does; otherwise the folder table loses one row and keeps only rows it had, and the folder's files stay, detached |
| Media.Detach | src/modules/media/entities/media-file.entity.ts:59 | the files of the deleted folder lose their folder link and nothing else changes |
| Media.DeleteFolderKeepsValid | src/modules/media/media.service.ts:77-83 | deleting a folder keeps the files' folder foreign key intact |
| Media.OwnedFile | src/modules/media/media.service.ts:86-88 | NotFound exactly for an unknown file; Forbidden only when a file with that id has another owner; otherwise the position of a file with the id that the caller owns |
| Media.UpdateFile | src/modules/media/media.service.ts:85-91 | a guard failure is returned as it is; past the guard the update succeeds exactly when the patched file's folder id is absent or names a folder; on success every key the patch holds is assigned over the owned file, which is saved under its resulting id |
| Media.UpdateFileHandsOver | src/modules/media/media.service.ts:85-91 | a patch naming another owner succeeds, after which the old owner is refused the file and the named user is admitted |
| Media.UpdateFileKeepsValid | src/modules/media/media.service.ts:85-91 | whatever the patch, a successful update keeps file ids unique and the folder foreign key intact |
| Media.UpdateFileChecked | src/modules/media/media.service.ts:85-91 | with the body limited to the DTO's fields, a patch naming the id or owner is BadRequest; past that and the guard it succeeds exactly when the patched folder id is absent or names a folder; success rewrites only that file in place, to the patched file, keeping its id and owner |
| Media.UpdateFileCheckedKeepsOwners | src/modules/media/media.service.ts:85-91 | through the checked update, the guard's answer for every file and user is unchanged |
| Media.DeleteFile | src/modules/media/media.service.ts:93-99 | fails as the ownership guard does; otherwise the file table loses one row and keeps only rows it had, and the folders are untouched |
| Media.MyFilesSpec | src/modules/media/media.service.ts:47-55 | before paging, the caller's list holds exactly the caller's files of the asked type, newest first |
| Media.ListMyFiles | src/modules/media/media.service.ts:47-67 | without a search the result is that list paged by limit and offset; any non-empty search fails in the database |
| Media.SearchAlwaysFails | src/modules/media/media.service.ts:56-58 | example of `Media.ListMyFiles`'s failing search: searching for "casa" fails whatever the caller's files are |
| Media.ListMyFilesMatching | src/modules/media/media.service.ts:56-58 | with the intended search, every listed file is the caller's, of the asked type, and matches the search in name or url |
| Media.MatchingFindsAll | src/modules/media/media.service.ts:56-58 | without paging, the intended search keeps every one of the caller's matching files |
| Seqs.Window | src/modules/media/media.service.ts:59-64 | a page is the rows from the offset on, cut to `limit` (empty when the offset passes the end); absent or zero values leave the rows whole, and a negative value or an offset without a limit fails |
| Seqs.WindowPagesTile | src/modules/media/media.service.ts:59-64 | two consecutive pages of `l` rows, read back to back, are the page of `2 * l` rows from the same offset: paging neither skips nor repeats a row |
| Storage.OrElse | src/modules/storage/storage.service.ts:28-32 | a falsy-default keeps a non-empty value and otherwise takes the default |
| Storage.PropertyFolderId | src/modules/storage/storage.service.ts:33 | the pattern matches exactly a folder that starts with `properties/`, 36 hex digits or dashes and a slash, and captures those 36 characters |
| Storage.SanitizeSegment | src/modules/storage/storage.service.ts:56-61 | a sanitised segment holds only letters, digits, '-', '_' and '/', has no double dash, and gains no slash |
| Storage.SanitizedHasNoSpace | src/modules/storage/storage.service.ts:56-61 | no white space survives sanitising |
| Storage.SanitizeFixed | src/modules/storage/storage.service.ts:56-61 | a segment already in sanitised form is left alone |
| Storage.SanitizeIdempotent | src/modules/storage/storage.service.ts:56-61 | sanitising twice is sanitising once |
| Storage.RawSegments | src/modules/storage/storage.service.ts:52-65 | the folder's segments are non-empty and contain neither '/' nor '\\' |
| Storage.CollapseFirstSlashRunIdentity | src/modules/storage/storage.service.ts:69 | the slash-collapsing replace leaves a key with no double slash as it is |
| Storage.KeyOfCleanFolder | src/modules/storage/storage.service.ts:52-69 | when sanitising leaves at least one segment and every segment non-empty, the normalised folder splits back into exactly its sanitised segments, and the final slash collapse leaves a key built on it unchanged |
| Storage.ExtensionSpec | src/modules/storage/storage.service.ts:29 | the extension is the text between the first '/' of the content type and the next one |
| Storage.Presign | src/modules/storage/storage.service.ts:21-88 | BadRequest exactly for a content type outside image/ and video/; Forbidden exactly when the substituted folder names a property and the role is barred or the property is not the caller's; otherwise the key, `base/key` url, bucket and a 300-second expiry |
| Storage.SlashedFolderKey | src/modules/storage/storage.service.ts:52-69 | a folder written `/a/b/` with clean segments yields the key `a/b/<uuid>.<ext>` |
| Storage.LeadingSlashSkipsGate | src/modules/storage/storage.service.ts:33-69 | a tenant, with no property on record at all, gets a key under `properties/<id>/` by writing the folder with a leading slash |
| Storage.PresignGuarded | src/modules/storage/storage.service.ts:31-49 | with the gate applied to the final key, a key under a property is issued only to a permitted role for whom the owner-scoped lookup finds that property; bad content types are refused as before |
| Storage.GuardedRefusesLeadingSlash | src/modules/storage/storage.service.ts:31-49 | the leading-slash request is refused once the gate reads the key |
| Storage.PropertyKeyGated | src/modules/storage/storage.service.ts:33 | a key under `properties/<id>/` names that property to the gate |
| ChatService.IsParticipantIff | src/modules/chat/chat.service.ts:112-115 | the membership test holds exactly when a participant row links the user to the conversation |
| ChatService.FindConversationById | src/modules/chat/chat.service.ts:52-62 | NotFound exactly for an unknown conversation, Forbidden exactly for a non-participant, otherwise the conversation with its participant rows |
| ChatService.CreateConversation | src/modules/chat/chat.service.ts:19-50 | Forbidden exactly for a conversation with oneself, NotFound exactly when either user is missing; an existing conversation between the two is returned with nothing written; otherwise the new conversation is appended with exactly two participant rows, creator then partner, both take part in it, and users and messages are untouched |
| ChatService.ExistingBetweenSymmetric | src/modules/chat/chat.service.ts:31-35 | the double participant join finds the same conversation whichever user starts |
| ChatService.CreateConversationIdempotent | src/modules/chat/chat.service.ts:19-50 | after a create, the partner opening a conversation back gets the same conversation and nothing is written |
| ChatService.CreateConversationValid | src/modules/chat/chat.service.ts:19-50 | creating with a fresh id keeps the store invariant: unique ids, one membership row per user and conversation, exactly two participants per conversation, every conversation, user and sender reference resolving, and the log in time order |
| ChatService.LastMessage | src/modules/chat/chat.service.ts:73 | a conversation has a last message exactly when it has any message, and it is one of its messages |
| ChatService.LastMessageIsNewest | src/modules/chat/chat.service.ts:73 | that last message is the newest of the conversation |
| ChatService.ListConversationsSorted | src/modules/chat/chat.service.ts:86-88 | the conversation list is ordered by last activity, newest first |
| ChatService.ListConversationsSound | src/modules/chat/chat.service.ts:64-85 | each listed entry is a conversation the user takes part in, with its last message, its last activity (the creation time when there is no message), and its count of messages newer than the user's read marker sent by others |
| ChatService.ListConversationsComplete | src/modules/chat/chat.service.ts:64-85 | every conversation the user takes part in is listed |
| ChatService.ListMessages | src/modules/chat/chat.service.ts:91-100 | Forbidden exactly for a non-participant, QueryFailed exactly for a negative limit; otherwise only the conversation's messages older than the cursor |
| ChatService.ListMessagesPage | src/modules/chat/chat.service.ts:91-100 | the page is the newest `limit` of those messages (all of them for a zero limit), returned oldest first |
| ChatService.SendMessage | src/modules/chat/chat.service.ts:102-110 | Forbidden exactly for a non-participant; otherwise exactly one message by the sender is appended to the log and nothing else changes |
| ChatService.SendKeepsSenderUnread | src/modules/chat/chat.service.ts:78-82 | a user's own message never adds to their unread count |
| ChatService.SendRaisesOthersUnread | src/modules/chat/chat.service.ts:78-82 | another participant's count grows by one exactly when the message is newer than their read marker |
| ChatService.SendMessageValid | src/modules/chat/chat.service.ts:102-110 | a participant sending with a fresh id at a time not before the log's last keeps the store invariant, the new sender reference included |
| ChatService.MarkAsRead | src/modules/chat/chat.service.ts:117-123 | Forbidden exactly for a non-participant; otherwise only the caller's read marker changes, to `now` rounded to the second as the `datetime` column keeps it, and the receipt names the conversation, the user and `now` itself |
| ChatService.StoredSecond | src/modules/chat/entities/conversation-participant.entity.ts:20-21 | the kept value is a whole second, within half a second of the written time |
| ChatService.MarkAsReadClearsUnread | src/modules/chat/chat.service.ts:117-123 | reading clears the reader's count when no message is newer than the second the marker keeps |
| ChatService.MarkAsReadLeavesSameSecond | src/modules/chat/chat.service.ts:78-82 | a message from another participant stamped after the kept second but not after the read stays unread after reading |
| ChatService.MarkAsReadHidesLaterMessage | src/modules/chat/chat.service.ts:78-82 | a message another participant sends after the read, within the half second the marker was rounded up by, never raises the reader's count |
| ChatService.MarkAsReadExact | src/modules/chat/chat.service.ts:117-123 | corrected read: Forbidden exactly for a non-participant; otherwise only the caller's marker changes, to `now` exactly |
| ChatService.MarkAsReadExactCounts | src/modules/chat/chat.service.ts:78-82 | with the exact marker, reading clears the count and every later message from another participant raises it by one |
| ChatService.MarkAsReadOverwrites | src/modules/chat/chat.service.ts:120-121 | the marker is overwritten, not maximised: reading at an earlier time moves it back to that time's second |
| ChatService.MarkAsReadValid | src/modules/chat/chat.service.ts:117-123 | marking as read keeps the store invariant |
| ChatGateway.ExtractTokenSpec | src/modules/chat/chat.gateway.ts:53-58 | the credential read fails exactly when it is not a string; a `Bearer ` prefix is cut off and any other string is the token |
| ChatGateway.AuthTokenTakesPrecedence | src/modules/chat/chat.gateway.ts:54 | a truthy `auth.token` wins whatever the header holds |
| ChatGateway.FalsyAuthTokenDefers | src/modules/chat/chat.gateway.ts:54 | an absent or empty `auth.token` defers to the header |
| ChatGateway.RoomInjective | src/modules/chat/chat.gateway.ts:60-62 | two conversations share a room name only when they are the same conversation |
| ChatGateway.UserIdOf | src/modules/chat/chat.gateway.ts:17 | the socket's user is `sub`, else `id`, else `userId`, each taken only when non-empty |
| ChatGateway.HandleConnection | src/modules/chat/chat.gateway.ts:13-24 | a socket whose token fails to read or verify is dropped; one whose token names a user stays connected with exactly its user's conversation rooms; other sockets and the store are untouched |
| ChatGateway.RoomsOfSpec | src/modules/chat/chat.gateway.ts:19-20 | the rooms joined on connect are exactly those of the conversations the user takes part in |
| ChatGateway.OnSendMessage | src/modules/chat/chat.gateway.ts:26-33 | a non-participant is refused with nothing emitted; otherwise the message is stored and emitted once to every socket in the room, the sender's included |
| ChatGateway.SendReachesOnlyParticipants | src/modules/chat/chat.gateway.ts:26-33 | while every joined room is justified by a membership, a send emits only after the service has stored the message, emits exactly that stored message, and reaches only connected sockets of the conversation's participants |
| ChatGateway.OnTyping | src/modules/chat/chat.gateway.ts:35-41 | typing changes nothing and notifies every socket in the room except the sender |
| ChatGateway.OnRead | src/modules/chat/chat.gateway.ts:43-51 | a non-participant is refused with nothing emitted; otherwise the receipt goes to the room except the sender and is the reply |
| ChatGateway.RoomMembersAreParticipants | src/modules/chat/chat.gateway.ts:31 | while every joined room is justified by a membership, a room's events reach only that conversation's participants |
| ChatGateway.HandleConnectionKeepsRooms | src/modules/chat/chat.gateway.ts:13-24 | connecting keeps every joined room justified by a membership |
| ChatGateway.OnSendMessageKeepsRooms | src/modules/chat/chat.gateway.ts:26-33 | sending keeps every joined room justified |
| ChatGateway.OnReadKeepsRooms | src/modules/chat/chat.gateway.ts:43-51 | marking as read keeps every joined room justified |
| ChatController.ActingUser | src/modules/chat/chat.controller.ts:44 | the acting user is `sub` when it is non-empty, and `id` otherwise |
| ChatController.EffectiveLimit | src/modules/chat/chat.controller.ts:96 | an absent or empty limit is 30; a parsed non-zero number is capped at 100; an unparsable or zero one is 30; the result never exceeds 100 |
| ChatController.EffectiveLimitOfNumber | src/modules/chat/chat.controller.ts:96 | for a number written in decimal: non-zero values are capped at 100, zero gives 30, and negative values pass through negative |
| ChatController.ListMessagesHandler | src/modules/chat/chat.controller.ts:90-98 | Forbidden exactly when the acting user is not a participant; otherwise only the conversation's messages before the cursor |
| ChatController.ControllerPageAtMostMax | src/modules/chat/chat.controller.ts:90-98 | whatever the client sends, a successful page holds at most 100 messages |
| ChatController.NegativeLimitFails | src/modules/chat/chat.controller.ts:96-97 | example: a limit of "-5" reaches the query unclamped and the database refuses it |
| ChatController.CreateConversationHandler | src/modules/chat/chat.controller.ts:63-65 | refused as a conversation with oneself exactly when the partner is the acting user |
| ChatController.MarkAsReadHandler | src/modules/chat/chat.controller.ts:112-114 | the receipt is for the acting user |
| ChatController.SendMessageHandler | src/modules/chat/chat.controller.ts:130-132 | the message is sent as the acting user |
| ChatController.HandlersActForSub | src/modules/chat/chat.controller.ts:43-114 | the handlers act for `sub` when it is non-empty and for `id` otherwise |
| Text.ParseIntOfIntToString | src/modules/chat/chat.controller.ts:96 | `parseInt(String(n), 10)` gives `n` back for every integer |
| Text.FilledIffSomeNonSpace | src/modules/users/services/users.service.ts:173 | `x && x.trim() !== ''` holds exactly when some character is not white space |
| Text.JoinSplit | src/modules/storage/storage.service.ts:63-67 | splitting on a separator and joining with it gives the string back |
| Text.ReplaceFirst | src/modules/storage/storage.service.ts:32 | `replace` with a string pattern changes only the first occurrence, and nothing when there is none |
| Properties.Create | src/modules/properties/services/properties.service.ts:25-31 | refused by the foreign key exactly when the landlord is not a user; otherwise one listing with the new id, the landlord, the body's title, description, type, address, city, services and status (draft by default) is appended |
| Properties.CreateThenFind | src/modules/properties/services/properties.service.ts:25-31 | a listing created under a fresh id is found again by its landlord's scoped lookup, exactly as it was created |
| Properties.CreateAttachesOwned | src/modules/properties/services/properties.service.ts:33-42 | when no file yet points at the new id, exactly the listed files the landlord owns are attached to the new listing; no other file, and no other column, changes |
| Properties.CreateImages | src/modules/properties/services/properties.service.ts:43-57 | the new image records are exactly those of the attached image files, ordered from 0, flagged as tours by name |
| Properties.CreateFeatures | src/modules/properties/services/properties.service.ts:62-77 | one "Incluido" feature per included service is appended, in order |
| Properties.CreateKeepsValid | src/modules/properties/services/properties.service.ts:25-90 | create keeps unique listing ids and every listing, image and feature foreign key |
| Properties.FindIndex | src/modules/properties/services/properties.service.ts:100-109 | finds a row with the id (and the landlord, when one is given), and nothing exactly when no row matches |
| Properties.FindOne | src/modules/properties/services/properties.service.ts:100-116 | NotFound exactly when no row has the id (owned by the landlord, when a non-empty one is given); otherwise that row |
| Properties.OwnerScope | src/modules/properties/services/properties.service.ts:100-209 | another landlord gets NotFound from find, update and remove; the owner, an empty landlord id or none at all finds the listing |
| Properties.ApplyPatch | src/modules/properties/services/properties.service.ts:120-122 | an update never changes a listing's id, landlord or creation time; a present title, description, type, address, city, status or service list overwrites, an absent one keeps the stored value |
| Properties.Update | src/modules/properties/services/properties.service.ts:118-204 | NotFound exactly as the owner-scoped lookup; success rewrites only that listing, to the stored listing with the patch applied; without a file list the files and images stay, without a service list the features stay |
| Properties.UpdateThenFind | src/modules/properties/services/properties.service.ts:118-123 | after a successful update the landlord's scoped lookup finds the listing again, as the stored listing with the patch applied |
| Properties.SyncMediaFiles | src/modules/properties/services/properties.service.ts:128-153 | after the media step a file belongs to the listing exactly when it did and is still listed, or it is listed and owned by the landlord; dropped files are detached and all others untouched |
| Properties.RemainingImagesOfProperty | src/modules/properties/services/properties.service.ts:136-144 | the delete removes exactly the listing's images whose url belonged to a detached file, and touches no other listing's images |
| Properties.AddedImagesSpec | src/modules/properties/services/properties.service.ts:147-170 | the new images continue the order after the kept ones, repeat no kept url, come only from attached image files, and cover every attached image file whose url was not shown yet |
| Properties.UpdateImages | src/modules/properties/services/properties.service.ts:125-174 | after an update the listing's images are the kept ones followed by the added ones, and other listings' images are unchanged |
| Properties.ReplaceFeaturesSpec | src/modules/properties/services/properties.service.ts:175-191 | the listing's features become exactly the new services', and other listings' features stay |
| Properties.UpdateReplacesFeatures | src/modules/properties/services/properties.service.ts:175-191 | with a service list, the listing's features and its `includedServices` become that list |
| Properties.UpdateKeepsValid | src/modules/properties/services/properties.service.ts:118-204 | an update keeps unique listing ids and every foreign key |
| Properties.Remove | src/modules/properties/services/properties.service.ts:206-209 | NotFound exactly as the owner-scoped lookup; otherwise exactly the found listing is removed, no image or feature of it remains, every image and feature of another listing stays in order and none appears, and media files and users are untouched |
| Properties.RemoveKeepsValid | src/modules/properties/services/properties.service.ts:206-209 | the cascade keeps every foreign key, and the listing id is no longer held |
| Properties.Is360IgnoresCase | src/modules/properties/services/properties.service.ts:46 | the tour flag ignores letter case |
| Properties.NotTourWithoutMarkers | src/modules/properties/services/properties.service.ts:46 | a name with no '3' or 't' in any case is never a tour |
| Dtos.VisibleLength | src/modules/auth/dto/register-landlord.dto.ts:10 | the length `@Length` compares counts every character except presentation selectors |
| Dtos.DigitsMatchIff | src/modules/auth/dto/register-landlord.dto.ts:24-34 | `^[0-9]{n}$` accepts exactly the strings of `n` ASCII digits |
| Dtos.PhoneAndDniRules | src/modules/users/dto/create-user.dto.ts:16-22 | the phone is exactly 9 ASCII digits and the DNI exactly 8 |
| Dtos.LengthRule | src/modules/tenants/dto/create-tenant.dto.ts:10-11 | without presentation selectors `@Length(min, max)` bounds the string's length; appending a selector never changes the verdict |
| Dtos.CountRule | src/modules/users/dto/create-user.dto.ts:29-34 | example: 0, 999 and 2.5 pass as a property count, as do absent and null, while -1, 1000 and the string "3" fail |
| Dtos.CreateUserRules | src/modules/users/dto/create-user.dto.ts:1-50 | for names and addresses without presentation selectors, a create-user body passes exactly when every field rule holds, spelled out field by field |
| Dtos.RegisterLandlordMatchesCreateUser | src/modules/auth/dto/register-landlord.dto.ts:4-62 | the landlord registration body accepts exactly what the create-user body accepts without Google id and verified flag |
| Dtos.CreateLandlordRules | src/modules/landlords/dto/create-landlord.dto.ts:4-28 | a landlord-profile body passes exactly when every field rule holds |
| Dtos.CreateTenantRules | src/modules/tenants/dto/create-tenant.dto.ts:4-37 | a tenant-profile body passes exactly when every field rule holds |
| Dtos.BlankAddressAcceptedButUnfilled | src/modules/users/dto/create-user.dto.ts:24-27 | an address of ten spaces passes validation, yet the registration report counts it as missing |
| Dtos.AcceptedDigitsFilled | src/modules/users/dto/create-user.dto.ts:14-22 | an accepted phone or DNI always counts as filled |

## Left out

- I/O and outside services are parameters or absent: token signing and verification, S3 request signing, `randomUUID`, the clock, `process.env`, and the configuration service.
- `AuthService.completeRegistration` is a direct call of the users update, which `Users.Update` models.
- `DomainValidationService.getLandlordRestrictions` / `getTenantRestrictions` only read configuration.
- Undefined user ids are not modelled. A token payload with no `sub`, `id` or `userId` reaches the services as `undefined`, and the ORM then drops that condition. Ids are always strings here; an empty string stands for a falsy one.
- The admin controller's `me` handler passes `req.user?.id` to `findByUserId`. Only a defined id is modelled (`Admins.FindByUserId`).
- `findAll` of users, landlords, tenants and admins, and `findById` / `getProfile` / `updateProfile` / `remove` of users, are plain reads or writes. They are not modelled beyond the lookups above.
- `PropertiesService.findAllByLandlord` and `getStats` are not modelled. They are counting and ordering queries whose sums are decimals.
- The activity log call in `PropertiesService.create` / `update` is not modelled. It is fire-and-forget and its failure is swallowed.
- Decimal columns (prices, coordinates, sizes, the tenant budget) are not modelled as numbers. `Tenants.ToNumber` keeps a non-blank budget text symbolically.
- Column lengths (e.g. `phone` varchar(20)) are not modelled. An over-long value would fail in the database.
- Relations loaded for display (`participants.user`, `property`, `tenant`, `role`) are not modelled. Results carry ids or rows, not joined objects.
- Image and feature rows' own uuids are not modelled; the service never reads them.
- Request rows also reference listings and cascade on delete, but they are kept in their own model (`Requests.Db`). `Properties.Remove` does not show them going.
- `ChatService.ListMessages` takes the `before` cursor as a time. Parsing the ISO string, including an invalid date, is not modelled.
- The first unread-count query in `listConversations` (chat.service.ts:76) is not modelled. Its result is discarded.
- Swagger decorators, the HTTP layer, class-transformer whitelisting and `IsEmail` / `IsNumberString` are not modelled. The latter two are parameters of the DTO predicates.
- Roles.FindAll: orders names by character code, not by the database collation.
- Properties.Is360: lower-cases ASCII letters only; the names it tests against are ASCII.
- Users.Update, Users.CheckRegistrationStatus, Users.RoleName: follow the users service's schema, where a user row has a `roleId` and a `role` relation. The user entity declares only a `role` enum column (src/modules/users/entities/user.entity.ts:24-26), so against the entity as written those selects and the relation load would not resolve. The model does not state what the ORM does then.
- Tenants.ToNumber: a non-blank budget text is kept as the number it writes. Which of those texts also denote zero ("0", "0.00") is not decided, because decimal parsing is not modelled.
- ChatGateway.HandleConnection: a verified token with none of `sub`, `id` or `userId` keeps its socket in the source, with an undefined user. The contract says nothing about that case, because undefined ids are not modelled.
- Auth.PayloadIdentifiesUser: its admin half assumes the JWT strategy hands the verified payload to the controller as `req.user` unchanged. The strategy is not part of this model.
- Users.CheckRegistrationStatus: its ensures bounds the next steps by the missing fields. The exact count is stated by `Users.NextStepsForProfileOnly`.
- Tables.Collate: folds ASCII letter case only. The server's collation also equates accented letters with plain ones and ignores trailing spaces; neither is modelled.
- Tables.Locate: ids compare exactly. Under the collation an id differing only in letter case would also match; the generated uuids are lower-case, so only a hand-written id could differ.
- Users.Valid: Google ids compare exactly. They are digit strings, on which the collation changes nothing.
- Admins.Update, Requests.Update: the reply is the row as stored. The object the source returns still carries the body's `userId` / `propertyId`, which the save did not write.
- Admins.AdminPatch: a `user` given as an object without an id, or as null, is not modelled; `user` names a user by id.
- Media.ListFoldersByProperty: an omitted `propertyId` reaches the service as undefined and the pattern becomes `properties/undefined/%`; the model takes the id as a text, so that case is the id "undefined".
- ChatService.Time: message times are kept by the database with microseconds, and the model uses milliseconds throughout. Only the read marker's coarser whole seconds matter to the unread counts, and those are modelled (`ChatService.StoredSecond`).
- Media.ListMyFiles: `limit` and `offset` are whole numbers here. The controller converts the query text with `Number` (src/modules/media/media.controller.ts:64-65) and the service passes on any number, so a fractional value renders as an invalid `LIMIT 2.5` and a non-numeric one (NaN) is refused by the query builder; neither is modelled.
- Auth.ValidateGoogleUser: the profile is taken as well formed. In the source an empty e-mail list throws (src/modules/auth/services/auth.service.ts:18), a missing family name makes the name end in "undefined" (line 19), and the photo is read as `photos[0]?.value` (line 20), which the model takes as a plain option.
- Roles.Update: a body carrying another role's id overwrites that role (`Roles.UpdateRewritesOther`). No checked variant is modelled for roles; the admin update's (`Admins.UpdateChecked`) shows the correction.

## Findings

| source | as written | input that shows it | evidently intended | confidence | as-written member | corrected member |
|---|---|---|---|---|---|---|
| src/modules/storage/storage.service.ts:33-69 | the property ownership gate tests the folder before normalisation; normalisation then drops empty segments | a tenant with no property asks for folder `/properties/<36-char id>/`; the pattern does not match the leading slash, and the key still comes out as `properties/<id>/<uuid>.<ext>` | only the listing's landlord may obtain a key under `properties/<id>/` | high (not executed) | Storage.LeadingSlashSkipsGate | Storage.PresignGuarded, Storage.GuardedRefusesLeadingSlash |
| src/app.module.ts:12-14 | the configuration module is loaded without the factory of `src/config/auth.config.ts`, so `domainRestrictions` is undefined and every address with a domain passes (domain-validation.service.ts:20-24); the factory's keys `landlords` / `tenants` would not match the lookup's `landlord` / `tenant` either, and sign-in (auth.service.ts:23) checks only the landlord type | `validateEmailDomain('alumno@gmail.com', TENANT)` returns true | tenants restricted to `tecsup.edu.pe`, once the rules are loaded under the looked-up keys and the tenant check is called | medium (not executed) | DomainValidation.DeployedAcceptsGmailTenant | DomainValidation.IntendedTenantRule |
| src/modules/media/media.service.ts:56-58 with src/database/database.module.ts:10 | the search uses `ILIKE`, which MySQL does not have | any non-empty `search`, e.g. "casa" | a case-insensitive substring match on file name or url | high (not executed) | Media.SearchAlwaysFails | Media.ListMyFilesMatching, Media.MatchingFindsAll |
| src/modules/media/media.service.ts:69-91 | the update bodies are typed `Partial<...>` and so escape validation; `Object.assign` copies every key, and the save writes the row of the resulting id | the owner calls `updateFolder(id, {ownerUserId: other}, owner)`, or patches their own folder with `{id: victim}` and overwrites the victim's folder | only the DTO's own fields change; id and owner stay | medium (not executed) | Media.UpdateFolderTakesOver | Media.UpdateFolderCheckedKeepsOwners |
| src/modules/admins/services/admins.service.ts:48-52 with src/modules/admins/controllers/admins.controller.ts:49-55 | the controller checks that the requester owns the profile in the path, then the service assigns the whole `Partial<AdminDto>` body, which escapes validation, and saves under the id the body may replace | the owner of profile A sends `PATCH admins/A` with `{id: B, user: {id: ownerOfB}, permissions: …}` and overwrites profile B | a profile's owner changes only their own permissions and login time; id and user stay | medium (not executed) | Admins.UpdateOverwritesOther | Admins.UpdateHandlerChecked, Admins.UpdateCheckedKeepsOwners |
| src/modules/chat/entities/conversation-participant.entity.ts:20-21 with src/modules/chat/chat.service.ts:120 | the read marker is a `datetime` column without fractional seconds, so the written time is rounded to the second, while message times keep sub-second precision and the unread count compares the two | a user reads at 12:00:00.600, stored as 12:00:01; a message sent at 12:00:00.800 never counts as unread for that user | the count covers exactly the messages sent after the read | medium (not executed) | ChatService.MarkAsReadHidesLaterMessage | ChatService.MarkAsReadExact, ChatService.MarkAsReadExactCounts |

=== FILE: admins.dfy ===
/** The administrator profiles (`src/modules/admins/services/admins.service.ts`)
    and the ownership check their controller adds in front of findOne, update
    and remove (`src/modules/admins/controllers/admins.controller.ts`).
 */
module Admins {
  import opened Wrappers
  import opened Tables

  type Time = nat

  datatype Permissions = Permissions(
    manageUsers: bool,
    manageProperties: bool,
    manageRequests: bool,
    viewReports: bool,
    systemSettings: bool)

  datatype Admin = Admin(id: Id, userId: Id, permissions: Option<Permissions>, lastLoginAt: Option<Time>)

  /** `AdminDto`, the validated creation body. */
  datatype AdminDto = AdminDto(userId: Id, permissions: Option<Permissions>, lastLoginAt: Option<Time>)

  /** `Partial<AdminDto>`: the body skips validation, so besides the DTO's
      fields it can carry the primary key and the `user` relation, given
      here by the id it names. A present key overwrites. */
  datatype AdminPatch = AdminPatch(
    id: Option<Id>,
    userId: Option<Id>,
    user: Option<Id>,
    permissions: Option<Permissions>,
    lastLoginAt: Option<Time>)

  function AdminId(a: Admin): string { a.id }
  function AdminUser(a: Admin): string { a.userId }

  predicate Valid(rows: seq<Admin>) {
    UniqueBy(rows, AdminId) && UniqueBy(rows, AdminUser)
  }

  /** `create(dto)`: Conflict when the user already has an admin profile.
      `users` holds the ids of the user table: `user_id` is a foreign key
      into it, so the insert of a profile for an unknown user is refused. */
  function Create(rows: seq<Admin>, users: set<Id>, dto: AdminDto, newId: Id): (r: Result<(seq<Admin>, Admin)>)
    ensures r.Err? <==> Holds(rows, AdminUser, dto.userId) || dto.userId !in users
    ensures r.Err? ==> r.error == if Holds(rows, AdminUser, dto.userId) then Conflict else QueryFailed
    ensures r.Ok? ==> r.value.0 == rows + [r.value.1]
    ensures r.Ok? ==> r.value.1 == Admin(newId, dto.userId, dto.permissions, dto.lastLoginAt)
  {
    if Locate(rows, AdminUser, dto.userId).Some? then Err(Conflict)
    else if dto.userId !in users then Err(QueryFailed)
    else
      var a := Admin(newId, dto.userId, dto.permissions, dto.lastLoginAt);
      Ok((rows + [a], a))
  }

  /** `findOne(id)`. */
  function FindOne(rows: seq<Admin>, id: Id): (r: Result<Admin>)
    ensures r.Err? <==> !Holds(rows, AdminId, id)
    ensures r.Err? ==> r.error == NotFound
    ensures r.Ok? ==> r.value in rows && r.value.id == id
  {
    match Locate(rows, AdminId, id)
    case None => Err(NotFound)
    case Some(i) => Ok(rows[i])
  }

  /** `findByUserId(userId)`: absent rather than an error. */
  function FindByUserId(rows: seq<Admin>, userId: Id): (r: Option<Admin>)
    ensures r.None? <==> !Holds(rows, AdminUser, userId)
    ensures r.Some? ==> r.value in rows && r.value.userId == userId
  {
    match Locate(rows, AdminUser, userId)
    case None => None
    case Some(i) => Some(rows[i])
  }

  /** The row `save` writes after `Object.assign(admin, dto)`. The profile
      was loaded with its `user` relation, which shares the `user_id` column
      with `userId`; the ORM takes that column from the relation, so a bare
      `userId` in the body is not written while a `user` in the body is. */
  function Apply(a: Admin, p: AdminPatch): Admin {
    Admin(p.id.GetOr(a.id), p.user.GetOr(a.userId),
      if p.permissions.Some? then p.permissions else a.permissions,
      if p.lastLoginAt.Some? then p.lastLoginAt else a.lastLoginAt)
  }

  /** `adminRepository.save(admin)`: the row holding the entity's id, when
      there is one, takes the entity's columns; otherwise the entity is
      inserted. The unique column refuses a user id another row holds, the
      foreign key one no user has. */
  function SaveAdmin(rows: seq<Admin>, users: set<Id>, x: Admin): (r: Result<seq<Admin>>)
    ensures r.Err? ==> r.error == QueryFailed
    ensures !Holds(rows, AdminId, x.id) ==> (r.Ok? <==> !Holds(rows, AdminUser, x.userId) && x.userId in users)
    ensures !Holds(rows, AdminId, x.id) && r.Ok? ==> r.value == rows + [x]
    ensures Holds(rows, AdminId, x.id) ==> exists j :: (0 <= j < |rows| && rows[j].id == x.id
      && (forall k :: 0 <= k < j ==> rows[k].id != x.id)
      && (r.Ok? <==> (forall k :: 0 <= k < |rows| && k != j ==> rows[k].userId != x.userId)
                     && (x.userId == rows[j].userId || x.userId in users))
      && (r.Ok? ==> r.value == rows[j := x]))
  {
    match Locate(rows, AdminId, x.id)
    case None =>
      if Locate(rows, AdminUser, x.userId).Some? || x.userId !in users then Err(QueryFailed)
      else Ok(rows + [x])
    case Some(j) =>
      if exists k :: 0 <= k < |rows| && k != j && rows[k].userId == x.userId then Err(QueryFailed)
      else if x.userId != rows[j].userId && x.userId !in users then Err(QueryFailed)
      else Ok(rows[j := x])
  }

  /** `update(id, dto)`: NotFound, else the patched entity is saved under
      whatever id it now has. Its user is the one the body's `user` names,
      else the profile's own: a bare `userId` changes nothing. */
  function Update(rows: seq<Admin>, users: set<Id>, id: Id, p: AdminPatch): (r: Result<(seq<Admin>, Admin)>)
    ensures !Holds(rows, AdminId, id) ==> r == Err(NotFound)
    ensures r.Err? ==> r.error in {NotFound, QueryFailed}
    ensures r.Ok? ==> exists i :: (0 <= i < |rows| && rows[i].id == id &&
      r.value.1 == Apply(rows[i], p) && SaveAdmin(rows, users, r.value.1) == Ok(r.value.0))
    ensures r.Ok? ==> r.value.1.userId == p.user.GetOr(FindOne(rows, id).value.userId)
    ensures Valid(rows) && Holds(rows, AdminId, id) && p.id.None? ==>
      (r.Ok? <==> p.user.None? || p.user.value == FindOne(rows, id).value.userId
                  || (p.user.value in users && !Holds(rows, AdminUser, p.user.value)))
  {
    match Locate(rows, AdminId, id)
    case None => Err(NotFound)
    case Some(i) =>
      var a := Apply(rows[i], p);
      assert Valid(rows) && p.id.None? ==> Locate(rows, AdminId, a.id) == Some(i) by {
        if Valid(rows) && p.id.None? {
          LocateUnique(rows, AdminId, i);
        }
      }
      var saved :- SaveAdmin(rows, users, a);
      Ok((saved, a))
  }

  /** A patch that names neither the id nor the user: the only kind the
      update evidently means to accept. */
  predicate KeepsIdentity(p: AdminPatch) {
    p.id.None? && p.userId.None? && p.user.None?
  }

  /** `update` with the body checked: a patch naming the id or the user is
      refused before anything is read. The profile then keeps its id and its
      user, and no other profile changes. */
  function UpdateChecked(rows: seq<Admin>, users: set<Id>, id: Id, p: AdminPatch): (r: Result<(seq<Admin>, Admin)>)
    ensures !KeepsIdentity(p) ==> r == Err(BadRequest)
    ensures KeepsIdentity(p) ==> (r == Err(NotFound) <==> !Holds(rows, AdminId, id))
    ensures Valid(rows) && KeepsIdentity(p) ==> (r.Ok? <==> Holds(rows, AdminId, id))
    ensures r.Ok? ==> exists i :: (0 <= i < |rows| && rows[i].id == id
      && r.value.1 == Apply(rows[i], p) && r.value.1.id == rows[i].id && r.value.1.userId == rows[i].userId
      && r.value.0 == rows[i := r.value.1])
  {
    if !KeepsIdentity(p) then Err(BadRequest)
    else
      match Locate(rows, AdminId, id)
      case None => Err(NotFound)
      case Some(i) =>
        var a := Apply(rows[i], p);
        assert Locate(rows, AdminId, a.id) == Some(i);
        var saved :- SaveAdmin(rows, users, a);
        Ok((saved, a))
  }

  /** `updateLastLogin(userId)`: a no-op for a user without an admin profile,
      otherwise only that profile's `lastLoginAt` becomes `now`. */
  function UpdateLastLogin(rows: seq<Admin>, userId: Id, now: Time): (r: seq<Admin>)
    ensures !Holds(rows, AdminUser, userId) ==> r == rows
    ensures |r| == |rows|
    ensures forall i :: 0 <= i < |rows| && rows[i].userId != userId ==> r[i] == rows[i]
    ensures Valid(rows) ==> forall i :: 0 <= i < |rows| && rows[i].userId == userId ==>
      r[i] == rows[i].(lastLoginAt := Some(now))
  {
    match Locate(rows, AdminUser, userId)
    case None => rows
    case Some(i) => rows[i := rows[i].(lastLoginAt := Some(now))]
  }

  /** `remove(id)`. */
  function Remove(rows: seq<Admin>, id: Id): (r: Result<seq<Admin>>)
    ensures r.Err? <==> !Holds(rows, AdminId, id)
    ensures r.Err? ==> r.error == NotFound
    ensures r.Ok? ==> |r.value| == |rows| - 1 && forall x :: x in r.value ==> x in rows
    ensures r.Ok? && Valid(rows) ==> Valid(r.value) && !Holds(r.value, AdminId, id)
  {
    match Locate(rows, AdminId, id)
    case None => Err(NotFound)
    case Some(i) =>
      assert Valid(rows) ==> Valid(RemoveAt(rows, i)) && !Holds(RemoveAt(rows, i), AdminId, id) by {
        if Valid(rows) {
          RemoveAtUnique(rows, AdminId, i);
          RemoveAtUnique(rows, AdminUser, i);
        }
      }
      Ok(RemoveAt(rows, i))
  }

  lemma CreateKeepsValid(rows: seq<Admin>, users: set<Id>, dto: AdminDto, newId: Id)
    requires Valid(rows)
    requires !Holds(rows, AdminId, newId)
    ensures Create(rows, users, dto, newId).Ok? ==> Valid(Create(rows, users, dto, newId).value.0)
  {
    var r := Create(rows, users, dto, newId);
    if r.Ok? {
      AppendUnique(rows, AdminId, r.value.1);
      AppendUnique(rows, AdminUser, r.value.1);
    }
  }

  lemma UpdateLastLoginKeepsValid(rows: seq<Admin>, userId: Id, now: Time)
    requires Valid(rows)
    ensures Valid(UpdateLastLogin(rows, userId, now))
  {
    match Locate(rows, AdminUser, userId)
    case None =>
    case Some(i) =>
      var a := rows[i].(lastLoginAt := Some(now));
      ReplaceUnique(rows, AdminId, i, a);
      ReplaceUnique(rows, AdminUser, i, a);
  }

  // ---------------------------------------------------------------------
  // The controller's ownership check

  /** The principal the JWT guard attaches; either claim may be missing. */
  datatype RequestUser = RequestUser(id: Option<Id>, sub: Option<Id>)

  /** `req.user?.id || req.user?.sub`: `sub` as it is when `id` is missing or empty. */
  function Requester(u: RequestUser): (r: Option<Id>)
    ensures u.id.Some? && u.id.value != [] ==> r == u.id
    ensures (u.id.None? || u.id.value == []) ==> r == u.sub
  {
    if u.id.Some? && u.id.value != [] then u.id else u.sub
  }

  /** The requester owns the profile; a missing requester owns nothing. */
  predicate Owns(u: RequestUser, a: Admin) {
    Requester(u) == Some(a.userId)
  }

  /** `GET admins/:id`: NotFound first, then Forbidden for anyone but the profile's user. */
  function FindOneHandler(rows: seq<Admin>, u: RequestUser, id: Id): (r: Result<Admin>)
    ensures !Holds(rows, AdminId, id) <==> r == Err(NotFound)
    ensures r == Err(Forbidden) <==> Holds(rows, AdminId, id) && !Owns(u, FindOne(rows, id).value)
    ensures r.Ok? ==> r == FindOne(rows, id) && Requester(u) == Some(r.value.userId)
  {
    var a :- FindOne(rows, id);
    if !Owns(u, a) then Err(Forbidden) else Ok(a)
  }

  /** `PATCH admins/:id`: the service update runs only after the ownership check. */
  function UpdateHandler(rows: seq<Admin>, users: set<Id>, u: RequestUser, id: Id, p: AdminPatch): (r: Result<(seq<Admin>, Admin)>)
    ensures !Holds(rows, AdminId, id) <==> r == Err(NotFound)
    ensures r == Err(Forbidden) <==> Holds(rows, AdminId, id) && !Owns(u, FindOne(rows, id).value)
    ensures Holds(rows, AdminId, id) && Owns(u, FindOne(rows, id).value) ==> r == Update(rows, users, id, p)
  {
    var a :- FindOne(rows, id);
    if !Owns(u, a) then Err(Forbidden) else Update(rows, users, id, p)
  }

  /** `DELETE admins/:id`: the service remove runs only after the ownership check. */
  function RemoveHandler(rows: seq<Admin>, u: RequestUser, id: Id): (r: Result<seq<Admin>>)
    ensures !Holds(rows, AdminId, id) <==> r == Err(NotFound)
    ensures r == Err(Forbidden) <==> Holds(rows, AdminId, id) && !Owns(u, FindOne(rows, id).value)
    ensures Holds(rows, AdminId, id) && Owns(u, FindOne(rows, id).value) ==> r == Remove(rows, id)
  {
    var a :- FindOne(rows, id);
    if !Owns(u, a) then Err(Forbidden) else Remove(rows, id)
  }

  /** `PATCH admins/:id` in front of the checked update. */
  function UpdateHandlerChecked(rows: seq<Admin>, users: set<Id>, u: RequestUser, id: Id, p: AdminPatch)
    : (r: Result<(seq<Admin>, Admin)>)
    ensures !Holds(rows, AdminId, id) <==> r == Err(NotFound)
    ensures r == Err(Forbidden) <==> Holds(rows, AdminId, id) && !Owns(u, FindOne(rows, id).value)
    ensures r.Ok? ==> exists i :: (0 <= i < |rows| && rows[i].id == id && Requester(u) == Some(rows[i].userId)
      && r.value.0 == rows[i := r.value.1] && r.value.1.id == rows[i].id && r.value.1.userId == rows[i].userId)
  {
    var a :- FindOne(rows, id);
    if !Owns(u, a) then Err(Forbidden)
    else if !KeepsIdentity(p) then Err(BadRequest)
    else UpdateChecked(rows, users, id, p)
  }

  /** Only the profile's own user gets past the controller: any successful
      update or remove was requested by that user. */
  lemma HandlersAdmitOnlyOwner(rows: seq<Admin>, users: set<Id>, u: RequestUser, id: Id, p: AdminPatch)
    requires Valid(rows)
    ensures UpdateHandler(rows, users, u, id, p).Ok? ==> Requester(u) == Some(FindOne(rows, id).value.userId)
    ensures RemoveHandler(rows, u, id).Ok? ==> Requester(u) == Some(FindOne(rows, id).value.userId)
    ensures u.id.Some? && u.id.value != [] && u.id != u.sub ==>
      (FindOneHandler(rows, u, id).Ok? ==> FindOneHandler(rows, u, id).value.userId == u.id.value)
  {
  }

  /** A user without an id claim is checked against `sub`: the fallback is real. */
  lemma SubFallback(rows: seq<Admin>, i: nat, sub: Id)
    requires i < |rows| && Valid(rows)
    ensures FindOneHandler(rows, RequestUser(None, Some(rows[i].userId)), rows[i].id) == Ok(rows[i])
    ensures FindOneHandler(rows, RequestUser(Some([]), Some(rows[i].userId)), rows[i].id) == Ok(rows[i])
    ensures FindOneHandler(rows, RequestUser(None, None), rows[i].id) == Err(Forbidden)
  {
    LocateUnique(rows, AdminId, i);
  }

  // ---------------------------------------------------------------------
  // The update as written: the body can name another profile

  /** The owner of one profile can rewrite another user's profile: the patch
      names the other profile's id and user, passes the ownership check on
      its own profile, and the save overwrites the other row. */
  lemma UpdateOverwritesOther(rows: seq<Admin>, users: set<Id>, u: RequestUser, i: nat, k: nat, perms: Permissions)
    requires Valid(rows)
    requires i < |rows| && k < |rows| && i != k
    requires Requester(u) == Some(rows[i].userId)
    ensures var r := UpdateHandler(rows, users, u, rows[i].id, AdminPatch(Some(rows[k].id), None, Some(rows[k].userId), Some(perms), None));
      && r.Ok?
      && !Owns(u, rows[k])
      && r.value.0[k] == rows[k].(permissions := Some(perms), lastLoginAt := rows[i].lastLoginAt)
      && r.value.0[i] == rows[i]
  {
    LocateUnique(rows, AdminId, i);
    LocateUnique(rows, AdminId, k);
  }

  /** A body that sets only `userId` writes nothing new: the loaded relation
      keeps the column. */
  lemma UpdateUserIdNotWritten(rows: seq<Admin>, users: set<Id>, i: nat, v: Id)
    requires Valid(rows)
    requires i < |rows|
    ensures Update(rows, users, rows[i].id, AdminPatch(None, Some(v), None, None, None)) == Ok((rows, rows[i]))
  {
    LocateUnique(rows, AdminId, i);
    assert rows[i := rows[i]] == rows;
  }

  /** Through the checked update every profile keeps its owner: who may read,
      update or remove any profile is unchanged. */
  lemma UpdateCheckedKeepsOwners(rows: seq<Admin>, users: set<Id>, u: RequestUser, id: Id, p: AdminPatch,
                                 v: RequestUser, other: Id)
    requires UpdateHandlerChecked(rows, users, u, id, p).Ok?
    ensures var rows' := UpdateHandlerChecked(rows, users, u, id, p).value.0;
      FindOneHandler(rows', v, other).Err? == FindOneHandler(rows, v, other).Err?
  {
    var r := UpdateHandlerChecked(rows, users, u, id, p).value;
    var i :| 0 <= i < |rows| && rows[i].id == id && r.0 == rows[i := r.1] && r.1.id == rows[i].id && r.1.userId == rows[i].userId;
    LocateReplace(rows, AdminId, i, r.1, other);
  }
}

=== FILE: auth.dfy ===
/** Google sign-in (`src/modules/auth/services/auth.service.ts`): the upsert
    that turns a Google profile into a user row, and the token payload.
    Token signing and verification are outside the model; the payload is the
    claim set the other components read back.
 */
module Auth {
  import opened Wrappers
  import opened Tables
  import DomainValidation
  import Users
  import ChatGateway
  import Admins

  /** The parts of Google's profile the service reads: the account id, the
      first e-mail, the name parts and the first photo, if any. */
  datatype GoogleProfile = GoogleProfile(
    googleId: string,
    email: string,
    givenName: string,
    familyName: string,
    photo: Option<string>)

  /** `${givenName} ${familyName}`. */
  function FullNameOf(p: GoogleProfile): (r: string)
    ensures |r| == |p.givenName| + 1 + |p.familyName|
    ensures r[..|p.givenName|] == p.givenName && r[|p.givenName|] == ' '
    ensures r[|p.givenName| + 1..] == p.familyName
  {
    p.givenName + " " + p.familyName
  }

  /** The account created for an unknown e-mail: verified, with the Google id,
      blank registration fields, zero properties and no role id. */
  function SignUpDto(p: GoogleProfile): (d: Users.CreateUserDto)
    ensures d.email == p.email && d.fullName == FullNameOf(p)
    ensures d.googleId == Some(p.googleId) && d.isVerified == Some(true)
    ensures d.phone == [] && d.dni == [] && d.address == [] && d.propertiesCount == Some(0)
    ensures d.profilePicture == p.photo && d.roleId.None?
  {
    Users.CreateUserDto(FullNameOf(p), p.email, "", "", "", Some(0), p.photo, Some(p.googleId), Some(true), None)
  }

  /** The patch that links an existing account to Google. An absent photo is
      `undefined`, which the save skips, so the stored picture stays. */
  function LinkPatch(p: GoogleProfile): (q: Users.UserPatch)
    ensures q.googleId == Some(p.googleId) && q.isVerified == Some(true) && q.profilePicture == p.photo
    ensures q.fullName.None? && q.email.None? && q.roleId.None?
  {
    Users.UserPatch(None, None, None, p.photo, Some(p.googleId), Some(true))
  }

  /** `!user.googleId`: no Google id, or an empty one. */
  predicate Unlinked(u: Users.User) {
    u.googleId.None? || u.googleId.value == []
  }

  /** `validateGoogleUser(profile)`: the domain check for landlords comes
      first; then an unknown e-mail creates an account, an unlinked account is
      linked, and a linked account is returned as it is. */
  function ValidateGoogleUser(db: Users.Db, p: GoogleProfile, restrictions: DomainValidation.Restrictions, newId: Id)
    : (r: Result<(Users.Db, Users.User)>)
    ensures DomainValidation.ValidateEmailDomain(p.email, DomainValidation.Landlord, restrictions).Err? ==>
      r == Err(Unauthorized)
    ensures r.Ok? ==> r.value.1 in r.value.0.users
  {
    var _ :- DomainValidation.ValidateEmailDomain(p.email, DomainValidation.Landlord, restrictions);
    match Users.FindByEmail(db.users, p.email)
    case None => Users.Create(db, SignUpDto(p), newId)
    case Some(u) =>
      if Unlinked(u) then
        var r := Users.Update(db, u.id, LinkPatch(p));
        assert r.Ok? ==> r.value.1 in r.value.0.users by {
          if r.Ok? {
            var i :| 0 <= i < |db.users| && db.users[i].id == u.id && r.value.1 == Users.Apply(db.users[i], LinkPatch(p))
              && r.value.0 == db.(users := db.users[i := r.value.1]);
            assert r.value.0.users[i] == r.value.1;
          }
        }
        r
      else Ok((db, u))
  }

  /** The three outcomes of a sign-in that passes the domain check: a new
      account, the found account linked to Google, or the found account as it was. */
  lemma UpsertCases(db: Users.Db, p: GoogleProfile, restrictions: DomainValidation.Restrictions, newId: Id)
    requires Users.Valid(db.users)
    requires ValidateGoogleUser(db, p, restrictions, newId).Ok?
    ensures Collate(ValidateGoogleUser(db, p, restrictions, newId).value.1.email) == Collate(p.email)
    ensures var (db1, u1) := ValidateGoogleUser(db, p, restrictions, newId).value;
      !Holds(db.users, Users.UserEmail, Collate(p.email)) ==> (
        && db1 == db.(users := db.users + [u1])
        && u1.id == newId && u1.email == p.email && u1.fullName == FullNameOf(p)
        && u1.googleId == Some(p.googleId) && u1.isVerified)
    ensures var (db1, u1) := ValidateGoogleUser(db, p, restrictions, newId).value;
      var found := Users.FindByEmail(db.users, p.email);
      found.Some? && !Unlinked(found.value) ==> db1 == db && u1 == found.value
    ensures var (db1, u1) := ValidateGoogleUser(db, p, restrictions, newId).value;
      var found := Users.FindByEmail(db.users, p.email);
      found.Some? && Unlinked(found.value) ==> (
        && db1.roles == db.roles && db1.landlords == db.landlords && db1.tenants == db.tenants
        && |db1.users| == |db.users|
        && u1 == found.value.(googleId := Some(p.googleId), isVerified := true,
             profilePicture := if p.photo.Some? then p.photo else found.value.profilePicture))
  {
    var found := Users.FindByEmail(db.users, p.email);
    if found.Some? {
      var k := Locate(db.users, Users.UserEmail, Collate(p.email)).value;
      LinkRewritesFoundRow(db, p, k);
      LocateUnique(db.users, Users.UserId, k);
    }
  }

  /** A first sign-in with an unknown e-mail that passes the domain check
      creates the account exactly when some role row exists (the undefined
      role id drops out of the lookup, which then needs any role at all) and
      no account already holds the Google id; with no roles it is NotFound. */
  lemma FirstSignInOutcome(db: Users.Db, p: GoogleProfile, restrictions: DomainValidation.Restrictions, newId: Id)
    requires DomainValidation.ValidateEmailDomain(p.email, DomainValidation.Landlord, restrictions).Ok?
    requires !Holds(db.users, Users.UserEmail, Collate(p.email))
    ensures var r := ValidateGoogleUser(db, p, restrictions, newId);
      && (r.Ok? <==> |db.roles| > 0 && !Users.GoogleIdTaken(db.users, Some(p.googleId), -1))
      && (|db.roles| == 0 ==> r == Err(NotFound))
      && (r.Ok? ==> r.value.0.users == db.users + [r.value.1] && r.value.1.id == newId)
  {
    assert Users.FindByEmail(db.users, p.email).None? by {
      forall i | 0 <= i < |db.users| ensures Collate(db.users[i].email) != Collate(p.email) {
        assert Users.UserEmail(db.users[i]) == Collate(db.users[i].email);
      }
    }
  }

  /** Within the tables' constraints, updating by the id of the row found by
      e-mail rewrites that very row. */
  lemma LinkRewritesFoundRow(db: Users.Db, p: GoogleProfile, k: nat)
    requires Users.Valid(db.users)
    requires k < |db.users| && Collate(db.users[k].email) == Collate(p.email)
    ensures Users.FindByEmail(db.users, p.email) == Some(db.users[k])
    ensures Users.Update(db, db.users[k].id, LinkPatch(p)).Ok? ==>
      Users.Update(db, db.users[k].id, LinkPatch(p)).value.0.users == db.users[k := Users.Update(db, db.users[k].id, LinkPatch(p)).value.1]
  {
    LocateUnique(db.users, Users.UserEmail, k);
    LocateUnique(db.users, Users.UserId, k);
  }

  /** Signing in again with the same Google profile changes nothing and
      returns the same user: the first sign-in leaves the account linked. */
  lemma {:induction false} SignInIdempotent(db: Users.Db, p: GoogleProfile, restrictions: DomainValidation.Restrictions,
                                            newId: Id, otherId: Id)
    requires Users.Valid(db.users)
    requires !Holds(db.users, Users.UserId, newId)
    requires p.googleId != []
    requires ValidateGoogleUser(db, p, restrictions, newId).Ok?
    ensures var (db1, u1) := ValidateGoogleUser(db, p, restrictions, newId).value;
      ValidateGoogleUser(db1, p, restrictions, otherId) == Ok((db1, u1))
  {
    if !Holds(db.users, Users.UserEmail, Collate(p.email)) {
      SignInIdempotentCreated(db, p, restrictions, newId, otherId);
    } else {
      SignInIdempotentFound(db, p, restrictions, newId, otherId);
    }
  }

  /** `SignInIdempotent` for a first sign-in, which created the user. */
  lemma SignInIdempotentCreated(db: Users.Db, p: GoogleProfile, restrictions: DomainValidation.Restrictions,
                                newId: Id, otherId: Id)
    requires Users.Valid(db.users)
    requires !Holds(db.users, Users.UserId, newId)
    requires !Holds(db.users, Users.UserEmail, Collate(p.email))
    requires p.googleId != []
    requires ValidateGoogleUser(db, p, restrictions, newId).Ok?
    ensures var (db1, u1) := ValidateGoogleUser(db, p, restrictions, newId).value;
      ValidateGoogleUser(db1, p, restrictions, otherId) == Ok((db1, u1))
  {
    var (db1, u1) := ValidateGoogleUser(db, p, restrictions, newId).value;
    Users.CreateKeepsValid(db, SignUpDto(p), newId);
    LocateUnique(db1.users, Users.UserEmail, |db.users|);
    assert db1.users[|db.users|] == u1;
    SignInLinkedUser(db1, p, restrictions, otherId, u1);
  }

  /** `SignInIdempotent` for a returning user, linked now or before. */
  lemma SignInIdempotentFound(db: Users.Db, p: GoogleProfile, restrictions: DomainValidation.Restrictions,
                              newId: Id, otherId: Id)
    requires Users.Valid(db.users)
    requires Holds(db.users, Users.UserEmail, Collate(p.email))
    requires p.googleId != []
    requires ValidateGoogleUser(db, p, restrictions, newId).Ok?
    ensures var (db1, u1) := ValidateGoogleUser(db, p, restrictions, newId).value;
      ValidateGoogleUser(db1, p, restrictions, otherId) == Ok((db1, u1))
  {
    var (db1, u1) := ValidateGoogleUser(db, p, restrictions, newId).value;
    var k := Locate(db.users, Users.UserEmail, Collate(p.email)).value;
    LinkRewritesFoundRow(db, p, k);
    if Unlinked(db.users[k]) {
      Users.UpdateKeepsValid(db, db.users[k].id, LinkPatch(p));
      assert db1.users[k] == u1;
      LocateUnique(db1.users, Users.UserEmail, k);
    }
    SignInLinkedUser(db1, p, restrictions, otherId, u1);
  }

  /** A sign-in that finds a linked account returns it and writes nothing. */
  lemma SignInLinkedUser(db: Users.Db, p: GoogleProfile, restrictions: DomainValidation.Restrictions, newId: Id, u: Users.User)
    requires DomainValidation.ValidateEmailDomain(p.email, DomainValidation.Landlord, restrictions).Ok?
    requires Users.FindByEmail(db.users, p.email) == Some(u) && !Unlinked(u)
    ensures ValidateGoogleUser(db, p, restrictions, newId) == Ok((db, u))
  {
  }

  /** A sign-in whose e-mail the landlord rule refuses writes nothing, whatever the tables hold. */
  lemma RefusedDomainWritesNothing(db: Users.Db, p: GoogleProfile, restrictions: DomainValidation.Restrictions, newId: Id)
    requires DomainValidation.Domain(p.email).None?
    ensures ValidateGoogleUser(db, p, restrictions, newId) == Err(Unauthorized)
  {
  }

  // ---------------------------------------------------------------------
  // generateJwtToken

  datatype TokenPayload = TokenPayload(sub: Id, email: string)

  /** `{ sub: user.id, email: user.email }`. */
  function PayloadOf(u: Users.User): (t: TokenPayload)
    ensures t.sub == u.id && t.email == u.email
  {
    TokenPayload(u.id, u.email)
  }

  /** The claims a verified token carries back: `sub` and nothing for `id`/`userId`. */
  function ClaimsOf(t: TokenPayload): ChatGateway.Claims {
    ChatGateway.Claims(Some(t.sub), None, None)
  }

  /** A token issued for a user identifies that user again: to the chat
      gateway, and to the admin controller's requester check, which falls
      back to `sub` because the payload has no `id`. */
  lemma PayloadIdentifiesUser(u: Users.User)
    requires u.id != []
    ensures ChatGateway.UserIdOf(ClaimsOf(PayloadOf(u))) == Some(u.id)
    ensures Admins.Requester(Admins.RequestUser(None, Some(PayloadOf(u).sub))) == Some(u.id)
  {
  }
}

=== FILE: chat_controller.dfy ===
/** The chat REST controller (`src/modules/chat/chat.controller.ts`): the page
    size it derives from the `limit` query parameter and the user it acts for.
    Each handler is a thin call into the chat service.
 */
module ChatController {
  import opened Wrappers
  import opened Text
  import opened ChatService

  const DefaultLimit: int := 30
  const MaxLimit: int := 100

  /** The authenticated principal the guard attaches to the request. */
  datatype RequestUser = RequestUser(sub: Option<Id>, id: Id)

  /** `req.user.sub || req.user.id`. */
  function ActingUser(u: RequestUser): (r: Id)
    ensures u.sub.Some? && u.sub.value != [] ==> r == u.sub.value
    ensures (u.sub.None? || u.sub.value == []) ==> r == u.id
  {
    if u.sub.Some? && u.sub.value != [] then u.sub.value else u.id
  }

  /** `limit ? Math.min(parseInt(limit, 10) || 30, 100) : 30`. */
  function EffectiveLimit(limit: Option<string>): (r: int)
    ensures r <= MaxLimit
    ensures limit.None? || limit.value == [] ==> r == DefaultLimit
    ensures limit.Some? && limit.value != [] ==>
      match ParseInt(limit.value) {
        case None => r == DefaultLimit
        case Some(n) => r == (if n == 0 then DefaultLimit else if n < MaxLimit then n else MaxLimit)
      }
  {
    if limit.None? || limit.value == [] then DefaultLimit
    else
      var parsed := ParseInt(limit.value);
      var n := if parsed.None? || parsed.value == 0 then DefaultLimit else parsed.value;
      if n < MaxLimit then n else MaxLimit
  }

  /** A decimal limit is used as written between 1 and 100, capped at 100 above,
      and passed on unchanged below 0: there is no lower clamp. */
  lemma EffectiveLimitOfNumber(n: int)
    ensures n != 0 ==> EffectiveLimit(Some(IntToString(n))) == (if n < MaxLimit then n else MaxLimit)
    ensures n == 0 ==> EffectiveLimit(Some(IntToString(n))) == DefaultLimit
    ensures n < 0 ==> EffectiveLimit(Some(IntToString(n))) < 0
  {
    ParseIntOfIntToString(n);
  }

  /** `GET chat/conversations/:id/messages`: the cursor is passed through unchanged. */
  function ListMessagesHandler(s: Store, user: RequestUser, cid: Id, limit: Option<string>, before: Option<Time>)
    : (r: Result<seq<Message>>)
    ensures r.Err? ==> r.error == Forbidden || r.error == QueryFailed
    ensures r == Err(Forbidden) <==> !IsParticipant(s, cid, ActingUser(user))
    ensures r.Ok? ==> forall i :: 0 <= i < |r.value| ==>
      r.value[i].conversationId == cid && (before.Some? ==> r.value[i].createdAt < before.value)
  {
    ListMessages(s, cid, ActingUser(user), EffectiveLimit(limit), before)
  }

  /** Whatever the client sends, a successful page through the controller holds at most 100 messages. */
  lemma ControllerPageAtMostMax(s: Store, user: RequestUser, cid: Id, limit: Option<string>, before: Option<Time>)
    requires LogOrdered(s)
    ensures var r := ListMessagesHandler(s, user, cid, limit, before);
      r.Ok? ==> |r.value| <= MaxLimit
  {
    var l := EffectiveLimit(limit);
    var uid := ActingUser(user);
    if IsParticipant(s, cid, uid) && l >= 0 {
      ListMessagesPage(s, cid, uid, l, before);
    }
  }

  /** Example: a limit of "-5" reaches the query unclamped and the database refuses it. */
  lemma NegativeLimitFails(s: Store, user: RequestUser, cid: Id, before: Option<Time>)
    requires IsParticipant(s, cid, ActingUser(user))
    ensures ListMessagesHandler(s, user, cid, Some("-5"), before) == Err(QueryFailed)
  {
    EffectiveLimitOfNumber(-5);
    assert IntToString(-5) == "-5";
  }

  function ListConversationsHandler(s: Store, user: RequestUser): seq<ConversationSummary> {
    ListConversations(s, ActingUser(user))
  }

  function CreateConversationHandler(s: Store, user: RequestUser, partner: Id, newId: Id, now: Time)
    : (r: Result<(Store, ConversationDetail)>)
    ensures r == Err(Forbidden) <==> partner == ActingUser(user)
  {
    CreateConversation(s, ActingUser(user), partner, newId, now)
  }

  function MarkAsReadHandler(s: Store, user: RequestUser, cid: Id, now: Time): (r: Result<(Store, ReadReceipt)>)
    ensures r.Ok? ==> r.value.1.userId == ActingUser(user)
  {
    MarkAsRead(s, cid, ActingUser(user), now)
  }

  function SendMessageHandler(s: Store, user: RequestUser, cid: Id, content: string, newId: Id, now: Time)
    : (r: Result<(Store, Message)>)
    ensures r.Ok? ==> r.value.1.senderId == ActingUser(user)
  {
    SendMessage(s, cid, ActingUser(user), content, newId, now)
  }

  /** Every handler acts for `sub` when it is set and non-empty, for `id` otherwise. */
  lemma HandlersActForSub(s: Store, sub: Id, id: Id, cid: Id, now: Time)
    requires sub != []
    ensures MarkAsReadHandler(s, RequestUser(Some(sub), id), cid, now) == MarkAsRead(s, cid, sub, now)
    ensures ListConversationsHandler(s, RequestUser(Some(sub), id)) == ListConversations(s, sub)
    ensures ListConversationsHandler(s, RequestUser(None, id)) == ListConversations(s, id)
  {
  }
}

=== FILE: chat_gateway.dfy ===
/** The deterministic part of the chat WebSocket gateway
    (`src/modules/chat/chat.gateway.ts`).

    The socket server is a map from socket id to the connection's user and
    the rooms it joined at connect time. Each handler returns the new gateway
    state, the events it emitted (each with the exact set of receiving
    sockets) and its acknowledgement. Token verification is an oracle
    function: `None` stands for a token it rejects.
 */
module ChatGateway {
  import opened Wrappers
  import opened Seqs
  import opened ChatService

  type SocketId = string

  /** A handshake credential as the client may send it. */
  datatype Credential =
    | Absent
    | Text(text: string)
    | NonText(truthy: bool)   // a number, array or object: never a token

  predicate Truthy(c: Credential) {
    match c
    case Absent => false
    case Text(t) => t != []
    case NonText(b) => b
  }

  /** The handshake fields the gateway reads. */
  datatype Handshake = Handshake(authToken: Credential, authorization: Credential)

  /** The claims of a verified token; an absent claim is `None`. */
  datatype Claims = Claims(sub: Option<string>, id: Option<string>, userId: Option<string>)

  datatype Connection = Connection(userId: Id, rooms: set<string>)

  datatype Gateway = Gateway(store: Store, sockets: map<SocketId, Connection>)

  datatype Event =
    | MessageNew(message: Message)
    | Typing(conversationId: Id, userId: Id, isTyping: bool)
    | ReadEvent(receipt: ReadReceipt)

  datatype Emission = Emission(recipients: set<SocketId>, event: Event)

  /** What a handler leaves behind: the new state, what it emitted, its reply. */
  datatype Step<T> = Step(gateway: Gateway, emitted: seq<Emission>, reply: Result<T>)

  const BearerPrefix: string := "Bearer "

  // ---------------------------------------------------------------------
  // extractToken and roomForConversation

  /** `auth.token` when truthy, else the `authorization` header; a `Bearer `
      prefix is cut off, any other string is the token itself. */
  function ExtractToken(h: Handshake): (r: Result<string>)
    ensures r.Err? ==> r.error == Unauthorized
  {
    var auth := if Truthy(h.authToken) then h.authToken else h.authorization;
    match auth
    case Text(t) => if BearerPrefix <= t then Ok(t[|BearerPrefix|..]) else Ok(t)
    case _ => Err(Unauthorized)
  }

  /** The credential `ExtractToken` reads. */
  function Chosen(h: Handshake): Credential {
    if Truthy(h.authToken) then h.authToken else h.authorization
  }

  lemma ExtractTokenSpec(h: Handshake)
    ensures ExtractToken(h).Err? <==> !Chosen(h).Text?
    ensures forall x :: Chosen(h) == Text(BearerPrefix + x) ==> ExtractToken(h) == Ok(x)
    ensures Chosen(h).Text? && !(BearerPrefix <= Chosen(h).text) ==> ExtractToken(h) == Ok(Chosen(h).text)
  {
    forall x | Chosen(h) == Text(BearerPrefix + x) ensures ExtractToken(h) == Ok(x) {
      assert (BearerPrefix + x)[|BearerPrefix|..] == x;
    }
  }

  /** A truthy `auth.token` wins over the header, whatever the header holds. */
  lemma AuthTokenTakesPrecedence(token: Credential, header1: Credential, header2: Credential)
    requires Truthy(token)
    ensures ExtractToken(Handshake(token, header1)) == ExtractToken(Handshake(token, header2))
  {
  }

  /** A falsy `auth.token` (absent or empty) defers to the header. */
  lemma FalsyAuthTokenDefers(token: Credential, header: Credential)
    requires !Truthy(token)
    ensures ExtractToken(Handshake(token, header)) == ExtractToken(Handshake(Absent, header))
  {
  }

  function Room(id: Id): (r: string)
    ensures |r| == |"conversation:"| + |id|
  {
    "conversation:" + id
  }

  lemma RoomInjective(a: Id, b: Id)
    ensures Room(a) == Room(b) <==> a == b
  {
    if Room(a) == Room(b) {
      assert a == Room(a)[|"conversation:"|..];
      assert b == Room(b)[|"conversation:"|..];
    }
  }

  // ---------------------------------------------------------------------
  // handleConnection

  /** `payload.sub || payload.id || payload.userId`; the last operand is returned
      as it is, even when empty. */
  function UserIdOf(c: Claims): (r: Option<Id>)
    ensures c.sub.Some? && c.sub.value != [] ==> r == c.sub
    ensures (c.sub.None? || c.sub.value == []) && c.id.Some? && c.id.value != [] ==> r == c.id
    ensures (c.sub.None? || c.sub.value == []) && (c.id.None? || c.id.value == []) ==> r == c.userId
  {
    if c.sub.Some? && c.sub.value != [] then c.sub
    else if c.id.Some? && c.id.value != [] then c.id
    else c.userId
  }

  /** The rooms of the conversations a user has in the store. */
  function RoomsOf(s: Store, uid: Id): set<string> {
    set x | x in ListConversations(s, uid) :: Room(x.conversation.id)
  }

  /** The handshake carries a token and `jwtService.verify` accepts it. */
  predicate Verified(h: Handshake, verify: string -> Option<Claims>) {
    ExtractToken(h).Ok? && verify(ExtractToken(h).value).Some?
  }

  /** The user a handshake authenticates, if any. */
  function Authenticate(h: Handshake, verify: string -> Option<Claims>): Option<Id> {
    match ExtractToken(h)
    case Err(_) => None
    case Ok(token) =>
      match verify(token)
      case None => None
      case Some(claims) => UserIdOf(claims)
  }

  /** A connection without a token that verifies is dropped without joining
      any room; one whose verified claims name a user joins that user's
      rooms. (A verified token naming no user is kept by the gateway with an
      undefined user, which the model does not represent; the contract is
      silent on that case.) */
  function HandleConnection(g: Gateway, sid: SocketId, h: Handshake, verify: string -> Option<Claims>)
    : (r: Gateway)
    ensures r.store == g.store
    ensures !Verified(h, verify) ==> sid !in r.sockets
    ensures Authenticate(h, verify).Some? ==> (sid in r.sockets &&
      r.sockets[sid] == Connection(Authenticate(h, verify).value, RoomsOf(g.store, Authenticate(h, verify).value)))
    ensures forall o :: o != sid ==> (o in r.sockets <==> o in g.sockets)
    ensures forall o :: o != sid && o in g.sockets ==> r.sockets[o] == g.sockets[o]
  {
    match Authenticate(h, verify)
    case None => g.(sockets := g.sockets - {sid})
    case Some(uid) => g.(sockets := g.sockets[sid := Connection(uid, RoomsOf(g.store, uid))])
  }

  /** On connect a socket joins exactly the rooms of the user's conversations. */
  lemma RoomsOfSpec(s: Store, uid: Id)
    ensures forall room :: room in RoomsOf(s, uid) <==>
      exists c :: c in s.conversations && IsParticipant(s, c.id, uid) && room == Room(c.id)
  {
    forall room ensures room in RoomsOf(s, uid) <==>
      exists c :: c in s.conversations && IsParticipant(s, c.id, uid) && room == Room(c.id)
    {
      if room in RoomsOf(s, uid) {
        var x :| x in ListConversations(s, uid) && room == Room(x.conversation.id);
        ListConversationsSound(s, uid, x);
      }
      if c :| c in s.conversations && IsParticipant(s, c.id, uid) && room == Room(c.id) {
        ListConversationsComplete(s, uid, c);
      }
    }
  }

  // ---------------------------------------------------------------------
  // Event handlers

  /** The sockets that joined `room`. */
  function RoomMembers(g: Gateway, room: string): (r: set<SocketId>)
    ensures forall o :: o in r <==> o in g.sockets && room in g.sockets[o].rooms
  {
    set o | o in g.sockets && room in g.sockets[o].rooms
  }

  /** `message:send`: persist, then emit to the whole room, the sender's socket included. */
  function OnSendMessage(g: Gateway, sid: SocketId, cid: Id, content: string, newId: Id, now: Time)
    : (r: Step<Message>)
    requires sid in g.sockets
    ensures r.reply.Err? <==> !IsParticipant(g.store, cid, g.sockets[sid].userId)
    ensures r.reply.Err? ==> r.gateway == g && r.emitted == [] && r.reply.error == Forbidden
    ensures r.reply.Ok? ==>
      && r.reply.value == Message(newId, cid, g.sockets[sid].userId, content, now)
      && r.reply.value in r.gateway.store.messages
      && r.gateway.sockets == g.sockets
      && r.emitted == [Emission(RoomMembers(g, Room(cid)), MessageNew(r.reply.value))]
  {
    match SendMessage(g.store, cid, g.sockets[sid].userId, content, newId, now)
    case Err(e) => Step(g, [], Err(e))
    case Ok((s', m)) =>
      assert s'.messages[|g.store.messages|] == m;
      Step(g.(store := s'), [Emission(RoomMembers(g, Room(cid)), MessageNew(m))], Ok(m))
  }

  /** `conversation:typing`: no service call, no state change, emit to the room but the sender. */
  function OnTyping(g: Gateway, sid: SocketId, cid: Id, isTyping: bool): (r: Step<()>)
    requires sid in g.sockets
    ensures r.gateway == g && r.reply == Ok(())
    ensures |r.emitted| == 1 && sid !in r.emitted[0].recipients
    ensures r.emitted[0].event == Typing(cid, g.sockets[sid].userId, isTyping)
    ensures forall o :: o in r.emitted[0].recipients <==> o != sid && o in RoomMembers(g, Room(cid))
  {
    Step(g, [Emission(RoomMembers(g, Room(cid)) - {sid}, Typing(cid, g.sockets[sid].userId, isTyping))], Ok(()))
  }

  /** `conversation:read`: mark as read, tell the rest of the room, reply with the receipt. */
  function OnRead(g: Gateway, sid: SocketId, cid: Id, now: Time): (r: Step<ReadReceipt>)
    requires sid in g.sockets
    ensures r.reply.Err? <==> !IsParticipant(g.store, cid, g.sockets[sid].userId)
    ensures r.reply.Err? ==> r.gateway == g && r.emitted == [] && r.reply.error == Forbidden
    ensures r.reply.Ok? ==>
      && r.reply.value == ReadReceipt(cid, g.sockets[sid].userId, now)
      && r.gateway.sockets == g.sockets
      && r.emitted == [Emission(RoomMembers(g, Room(cid)) - {sid}, ReadEvent(r.reply.value))]
  {
    match MarkAsRead(g.store, cid, g.sockets[sid].userId, now)
    case Err(e) => Step(g, [], Err(e))
    case Ok((s', receipt)) =>
      Step(g.(store := s'), [Emission(RoomMembers(g, Room(cid)) - {sid}, ReadEvent(receipt))], Ok(receipt))
  }

  /** A message that is broadcast has first been appended to the log, and
      while every joined room is justified by a membership, every socket it
      reaches belongs to a participant of its conversation. */
  lemma SendReachesOnlyParticipants(g: Gateway, sid: SocketId, cid: Id, content: string, newId: Id, now: Time)
    requires sid in g.sockets
    requires RoomsAreMemberships(g)
    ensures var r := OnSendMessage(g, sid, cid, content, newId, now);
      forall e, o :: e in r.emitted && o in e.recipients ==>
        && r.reply.Ok? && e.event == MessageNew(r.reply.value)
        && r.gateway.store.messages == g.store.messages + [r.reply.value]
        && o in r.gateway.sockets
        && IsParticipant(r.gateway.store, cid, r.gateway.sockets[o].userId)
  {
    var r := OnSendMessage(g, sid, cid, content, newId, now);
    if r.reply.Ok? {
      var s' := r.gateway.store;
      assert s'.messages == g.store.messages + [r.reply.value];
      forall o | o in RoomMembers(g, Room(cid))
        ensures IsParticipant(s', cid, r.gateway.sockets[o].userId)
      {
        RoomMembersAreParticipants(g, cid, o);
      }
    }
  }

  // ---------------------------------------------------------------------
  // Room membership follows conversation membership

  /** Every joined room is the room of a conversation its user takes part in. */
  predicate RoomsAreMemberships(g: Gateway) {
    forall o, room :: o in g.sockets && room in g.sockets[o].rooms ==>
      exists c :: c in g.store.conversations && IsParticipant(g.store, c.id, g.sockets[o].userId) && room == Room(c.id)
  }

  /** Hence an event sent to a conversation's room reaches only that
      conversation's participants. */
  lemma RoomMembersAreParticipants(g: Gateway, cid: Id, o: SocketId)
    requires RoomsAreMemberships(g)
    requires o in RoomMembers(g, Room(cid))
    ensures IsParticipant(g.store, cid, g.sockets[o].userId)
  {
    var c :| c in g.store.conversations && IsParticipant(g.store, c.id, g.sockets[o].userId) && Room(cid) == Room(c.id);
    RoomInjective(cid, c.id);
  }

  lemma HandleConnectionKeepsRooms(g: Gateway, sid: SocketId, h: Handshake, verify: string -> Option<Claims>)
    requires RoomsAreMemberships(g)
    ensures RoomsAreMemberships(HandleConnection(g, sid, h, verify))
  {
    var r := HandleConnection(g, sid, h, verify);
    if sid in r.sockets {
      RoomsOfSpec(g.store, r.sockets[sid].userId);
    }
  }

  lemma OnSendMessageKeepsRooms(g: Gateway, sid: SocketId, cid: Id, content: string, newId: Id, now: Time)
    requires sid in g.sockets
    requires RoomsAreMemberships(g)
    ensures RoomsAreMemberships(OnSendMessage(g, sid, cid, content, newId, now).gateway)
  {
  }

  /** Marking as read keeps every membership row, so every joined room stays justified. */
  lemma OnReadKeepsRooms(g: Gateway, sid: SocketId, cid: Id, now: Time)
    requires sid in g.sockets
    requires RoomsAreMemberships(g)
    ensures RoomsAreMemberships(OnRead(g, sid, cid, now).gateway)
  {
    var r := OnRead(g, sid, cid, now);
    if r.reply.Ok? {
      var s := g.store;
      var s' := r.gateway.store;
      var i := ParticipantIndex(s, cid, g.sockets[sid].userId).value;
      forall c, u | IsParticipant(s, c, u) ensures IsParticipant(s', c, u) {
        IsParticipantIff(s, c, u);
        IsParticipantIff(s', c, u);
        var p :| p in s.participants && IsMember(p, c, u);
        var k :| 0 <= k < |s.participants| && s.participants[k] == p;
        assert IsMember(s'.participants[k], c, u);
      }
    }
  }
}

=== FILE: chat_service.dfy ===
/** The two-party chat service (`src/modules/chat/chat.service.ts`) as a pure
    state machine over an abstract store.

    The store holds the known users and the three chat tables, each in
    insertion order. Every operation takes the store and returns either an
    error or the new store with the operation's reply; an error never carries
    a store, so a rejected call writes nothing. The caller supplies the clock
    (`now`) and the identifiers the database would generate.
 */
module ChatService {
  import opened Wrappers
  import opened Seqs

  type Id = string

  /** Milliseconds since the epoch. */
  type Time = nat

  /** A `datetime` column without fractional digits keeps whole seconds: the
      server rounds the written time to the nearest second, half a second
      rounding up. */
  function StoredSecond(t: Time): (r: Time)
    ensures r % 1000 == 0
    ensures t < r + 500 && r <= t + 500
  {
    (t + 500) / 1000 * 1000
  }

  /** `conversations` row. */
  datatype Conversation = Conversation(id: Id, createdAt: Time, updatedAt: Time)

  /** `conversation_participants` row: one per (conversation, user); `lastReadAt` is nullable. */
  datatype Participant = Participant(conversationId: Id, userId: Id, lastReadAt: Option<Time>, joinedAt: Time)

  /** `messages` row. */
  datatype Message = Message(id: Id, conversationId: Id, senderId: Id, content: string, createdAt: Time)

  datatype Store = Store(
    users: set<Id>,
    conversations: seq<Conversation>,
    participants: seq<Participant>,
    messages: seq<Message>)

  /** A conversation loaded with its participants. */
  datatype ConversationDetail = ConversationDetail(conversation: Conversation, participants: seq<Participant>)

  /** One entry of `listConversations`. */
  datatype ConversationSummary = ConversationSummary(
    conversation: Conversation,
    participants: seq<Participant>,
    lastMessage: Option<Message>,
    unreadCount: nat,
    lastMessageAt: Time)

  /** The reply of `markAsRead`. */
  datatype ReadReceipt = ReadReceipt(conversationId: Id, userId: Id, lastReadAt: Time)

  // ---------------------------------------------------------------------
  // Queries over the store

  function ConversationIds(s: Store): set<Id> {
    set c | c in s.conversations :: c.id
  }

  function MessageIds(s: Store): set<Id> {
    set m | m in s.messages :: m.id
  }

  predicate IsMember(p: Participant, cid: Id, uid: Id) {
    p.conversationId == cid && p.userId == uid
  }

  /** The participant row of `uid` in `cid`, if any. */
  function ParticipantIndex(s: Store, cid: Id, uid: Id): Option<nat> {
    FirstIndex(s.participants, (p: Participant) => IsMember(p, cid, uid))
  }

  predicate IsParticipant(s: Store, cid: Id, uid: Id) {
    ParticipantIndex(s, cid, uid).Some?
  }

  lemma IsParticipantIff(s: Store, cid: Id, uid: Id)
    ensures IsParticipant(s, cid, uid) <==> exists p :: p in s.participants && IsMember(p, cid, uid)
  {
    if p :| p in s.participants && IsMember(p, cid, uid) {
      var k :| 0 <= k < |s.participants| && s.participants[k] == p;
    }
  }

  function ParticipantsOf(s: Store, cid: Id): seq<Participant> {
    Filter(s.participants, (p: Participant) => p.conversationId == cid)
  }

  function MessagesOf(s: Store, cid: Id): seq<Message> {
    Filter(s.messages, (m: Message) => m.conversationId == cid)
  }

  /** Message order: by creation time (ties keep insertion order). */
  predicate NotAfter(a: Message, b: Message) {
    a.createdAt <= b.createdAt
  }

  // ---------------------------------------------------------------------
  // Store invariant

  predicate UniqueConversationIds(s: Store) {
    forall i, j :: 0 <= i < j < |s.conversations| ==> s.conversations[i].id != s.conversations[j].id
  }

  predicate ParticipantsReferToConversations(s: Store) {
    forall k :: 0 <= k < |s.participants| ==> s.participants[k].conversationId in ConversationIds(s)
  }

  /** `@Unique(['conversation', 'user'])`. */
  predicate UniqueMemberships(s: Store) {
    forall i, j :: 0 <= i < j < |s.participants| ==>
      !IsMember(s.participants[j], s.participants[i].conversationId, s.participants[i].userId)
  }

  /** Every conversation has exactly two participant rows. */
  predicate TwoParty(s: Store) {
    forall c :: c in s.conversations ==> |ParticipantsOf(s, c.id)| == 2
  }

  predicate MessagesReferToConversations(s: Store) {
    forall k :: 0 <= k < |s.messages| ==> s.messages[k].conversationId in ConversationIds(s)
  }

  predicate UniqueMessageIds(s: Store) {
    forall i, j :: 0 <= i < j < |s.messages| ==> s.messages[i].id != s.messages[j].id
  }

  /** Every participant row names a known user. */
  predicate ParticipantsAreUsers(s: Store) {
    forall k :: 0 <= k < |s.participants| ==> s.participants[k].userId in s.users
  }

  /** Every message was sent by a known user. */
  predicate SendersAreUsers(s: Store) {
    forall k :: 0 <= k < |s.messages| ==> s.messages[k].senderId in s.users
  }

  /** The clock never runs backwards: the log is ordered by creation time. */
  predicate LogOrdered(s: Store) {
    SortedBy(s.messages, NotAfter)
  }

  predicate Valid(s: Store) {
    && UniqueConversationIds(s)
    && ParticipantsReferToConversations(s)
    && UniqueMemberships(s)
    && TwoParty(s)
    && MessagesReferToConversations(s)
    && UniqueMessageIds(s)
    && LogOrdered(s)
    && ParticipantsAreUsers(s)
    && SendersAreUsers(s)
  }

  /** No message is newer than `now`: the clock has not run backwards. */
  predicate ClockAhead(s: Store, now: Time) {
    forall k :: 0 <= k < |s.messages| ==> s.messages[k].createdAt <= now
  }

  // ---------------------------------------------------------------------
  // findConversationById

  function FindConversationById(s: Store, id: Id, requester: Id): (r: Result<ConversationDetail>)
    ensures r == Err(NotFound) <==> id !in ConversationIds(s)
    ensures r == Err(Forbidden) <==> id in ConversationIds(s) && !IsParticipant(s, id, requester)
    ensures r.Err? ==> r.error == NotFound || r.error == Forbidden
    ensures r.Ok? ==> && r.value.conversation in s.conversations
                      && r.value.conversation.id == id
                      && r.value.participants == ParticipantsOf(s, id)
  {
    match FirstIndex(s.conversations, (c: Conversation) => c.id == id)
    case None =>
      assert id !in ConversationIds(s);
      Err(NotFound)
    case Some(i) =>
      if !IsParticipant(s, id, requester) then Err(Forbidden)
      else Ok(ConversationDetail(s.conversations[i], ParticipantsOf(s, id)))
  }

  // ---------------------------------------------------------------------
  // createConversation

  predicate Between(s: Store, c: Conversation, a: Id, b: Id) {
    IsParticipant(s, c.id, a) && IsParticipant(s, c.id, b)
  }

  /** The conversation the double participant join finds, if any. */
  function ExistingBetween(s: Store, a: Id, b: Id): Option<nat> {
    FirstIndex(s.conversations, (c: Conversation) => Between(s, c, a, b))
  }

  /** The store after inserting a conversation and then its two participant rows. */
  function WithNewConversation(s: Store, newId: Id, creator: Id, partner: Id, now: Time): Store {
    var withConversation := s.(conversations := s.conversations + [Conversation(newId, now, now)]);
    withConversation.(participants := s.participants + [
      Participant(newId, creator, None, now),
      Participant(newId, partner, None, now)])
  }

  function CreateConversation(s: Store, creator: Id, partner: Id, newId: Id, now: Time)
    : (r: Result<(Store, ConversationDetail)>)
    ensures r == Err(Forbidden) <==> partner == creator
    ensures r == Err(NotFound) <==> partner != creator && !(creator in s.users && partner in s.users)
    ensures r.Ok? <==> partner != creator && creator in s.users && partner in s.users
    ensures r.Ok? && ExistingBetween(s, creator, partner).Some? ==>
      && r.value.0 == s
      && r.value.1.conversation.id == s.conversations[ExistingBetween(s, creator, partner).value].id
    ensures r.Ok? && ExistingBetween(s, creator, partner).None? ==>
      && r.value.0.users == s.users
      && r.value.0.messages == s.messages
      && r.value.0.conversations == s.conversations + [Conversation(newId, now, now)]
      && r.value.0.participants == s.participants + [Participant(newId, creator, None, now), Participant(newId, partner, None, now)]
      && IsParticipant(r.value.0, newId, creator)
      && IsParticipant(r.value.0, newId, partner)
      && r.value.1.conversation.id == newId
  {
    if partner == creator then Err(Forbidden)
    else if !(creator in s.users && partner in s.users) then Err(NotFound)
    else
      var existing := ExistingBetween(s, creator, partner);
      if existing.Some? then
        var c := s.conversations[existing.value];
        assert c.id in ConversationIds(s) && IsParticipant(s, c.id, creator);
        match FindConversationById(s, c.id, creator) {
          case Ok(detail) => Ok((s, detail))
          case Err(e) => Err(e)
        }
      else
        var s' := WithNewConversation(s, newId, creator, partner, now);
        assert s'.participants[|s.participants|] == Participant(newId, creator, None, now);
        assert s'.participants[|s.participants| + 1] == Participant(newId, partner, None, now);
        assert IsParticipant(s', newId, creator) && IsParticipant(s', newId, partner) by {
          IsParticipantIff(s', newId, creator);
          IsParticipantIff(s', newId, partner);
        }
        assert newId in ConversationIds(s');
        match FindConversationById(s', newId, creator) {
          case Ok(detail) => Ok((s', detail))
          case Err(e) => Err(e)
        }
  }

  // ---------------------------------------------------------------------
  // Unread count and listConversations

  /** Counted as unread for `uid`: newer than its read marker and sent by someone else. */
  predicate IsUnread(m: Message, cid: Id, uid: Id, since: Time) {
    m.conversationId == cid && m.createdAt > since && m.senderId != uid
  }

  /** The unread query: an unset marker reads as the epoch, time 0. */
  function UnreadCount(s: Store, cid: Id, uid: Id, lastReadAt: Option<Time>): nat {
    |Filter(s.messages, (m: Message) => IsUnread(m, cid, uid, lastReadAt.GetOr(0)))|
  }

  /** The newest message of the conversation (the last one in the log). */
  function LastMessage(s: Store, cid: Id): (r: Option<Message>)
    ensures r.Some? <==> exists k :: 0 <= k < |s.messages| && s.messages[k].conversationId == cid
    ensures r.Some? ==> r.value in s.messages && r.value.conversationId == cid
  {
    var ms := MessagesOf(s, cid);
    forall k | 0 <= k < |s.messages|
      ensures s.messages[k].conversationId == cid ==> s.messages[k] in ms
    {
    }
    if |ms| == 0 then None else Some(ms[|ms| - 1])
  }

  /** The read marker of `uid` among its own participant rows `mine`. */
  function MarkerIn(mine: seq<Participant>, cid: Id): Option<Time> {
    match FirstIndex(mine, (p: Participant) => p.conversationId == cid)
    case Some(k) => mine[k].lastReadAt
    case None => None
  }

  function Summarize(s: Store, c: Conversation, uid: Id, mine: seq<Participant>): (r: ConversationSummary)
    ensures r.conversation == c
  {
    var lastMessage := LastMessage(s, c.id);
    ConversationSummary(
      c,
      ParticipantsOf(s, c.id),
      lastMessage,
      UnreadCount(s, c.id, uid, MarkerIn(mine, c.id)),
      if lastMessage.Some? then lastMessage.value.createdAt else c.createdAt)
  }

  /** Newest activity first. */
  predicate ByLastActivity(a: ConversationSummary, b: ConversationSummary) {
    a.lastMessageAt >= b.lastMessageAt
  }

  function UserParticipations(s: Store, uid: Id): seq<Participant> {
    Filter(s.participants, (p: Participant) => p.userId == uid)
  }

  /** Whether one of the user's participant rows `mine` belongs to `c`. */
  predicate Joined(mine: seq<Participant>, c: Conversation) {
    exists k :: 0 <= k < |mine| && mine[k].conversationId == c.id
  }

  function JoinedConversations(s: Store, mine: seq<Participant>): seq<Conversation> {
    Filter(s.conversations, (c: Conversation) => Joined(mine, c))
  }

  function Summaries(s: Store, convs: seq<Conversation>, uid: Id, mine: seq<Participant>)
    : (r: seq<ConversationSummary>)
    ensures |r| == |convs|
    ensures forall i :: 0 <= i < |r| ==> r[i] == Summarize(s, convs[i], uid, mine)
  {
    seq(|convs|, i requires 0 <= i < |convs| => Summarize(s, convs[i], uid, mine))
  }

  function ListConversations(s: Store, uid: Id): seq<ConversationSummary> {
    var mine := UserParticipations(s, uid);
    if |mine| == 0 then []
    else Sort(Summaries(s, JoinedConversations(s, mine), uid, mine), ByLastActivity)
  }

  lemma ByLastActivityIsTotalPreorder()
    ensures TotalPreorder(ByLastActivity)
  {
  }

  /** Newest activity first. */
  lemma ListConversationsSorted(s: Store, uid: Id)
    ensures SortedBy(ListConversations(s, uid), ByLastActivity)
  {
    var mine := UserParticipations(s, uid);
    if |mine| != 0 {
      ByLastActivityIsTotalPreorder();
      SortSorted(Summaries(s, JoinedConversations(s, mine), uid, mine), ByLastActivity);
    }
  }

  /** Each summary is one of the user's conversations, with its newest message,
      its activity time and the user's unread count. */
  lemma ListConversationsSound(s: Store, uid: Id, x: ConversationSummary)
    requires x in ListConversations(s, uid)
    ensures x.conversation in s.conversations
    ensures IsParticipant(s, x.conversation.id, uid)
    ensures x.lastMessage == LastMessage(s, x.conversation.id)
    ensures x.lastMessageAt ==
      (if x.lastMessage.Some? then x.lastMessage.value.createdAt else x.conversation.createdAt)
    ensures x.unreadCount ==
      UnreadCount(s, x.conversation.id, uid, MarkerIn(UserParticipations(s, uid), x.conversation.id))
  {
    var c := ListedConversation(s, uid, x);
    JoinedIsParticipant(s, uid, c);
    SummarizeFields(s, c, uid, UserParticipations(s, uid));
  }

  lemma JoinedIsParticipant(s: Store, uid: Id, c: Conversation)
    requires Joined(UserParticipations(s, uid), c)
    ensures IsParticipant(s, c.id, uid)
  {
    var mine := UserParticipations(s, uid);
    var k :| 0 <= k < |mine| && mine[k].conversationId == c.id;
    assert mine[k] in s.participants && IsMember(mine[k], c.id, uid);
    IsParticipantIff(s, c.id, uid);
  }

  lemma SummarizeFields(s: Store, c: Conversation, uid: Id, mine: seq<Participant>)
    ensures var x := Summarize(s, c, uid, mine);
      && x.lastMessage == LastMessage(s, c.id)
      && x.lastMessageAt == (if x.lastMessage.Some? then x.lastMessage.value.createdAt else c.createdAt)
      && x.unreadCount == UnreadCount(s, c.id, uid, MarkerIn(mine, c.id))
  {
  }

  /** A listed summary summarises one of the user's joined conversations. */
  lemma ListedConversation(s: Store, uid: Id, x: ConversationSummary) returns (c: Conversation)
    requires x in ListConversations(s, uid)
    ensures c in JoinedConversations(s, UserParticipations(s, uid))
    ensures x == Summarize(s, c, uid, UserParticipations(s, uid))
  {
    var mine := UserParticipations(s, uid);
    var convs := JoinedConversations(s, mine);
    var summaries := Summaries(s, convs, uid, mine);
    assert x in multiset(Sort(summaries, ByLastActivity));
    assert x in multiset(summaries);
    var i :| 0 <= i < |summaries| && summaries[i] == x;
    c := convs[i];
  }

  /** Every conversation the user takes part in is listed. */
  lemma ListConversationsComplete(s: Store, uid: Id, c: Conversation)
    requires c in s.conversations && IsParticipant(s, c.id, uid)
    ensures exists x :: x in ListConversations(s, uid) && x.conversation == c
  {
    var mine := UserParticipations(s, uid);
    var p := s.participants[ParticipantIndex(s, c.id, uid).value];
    assert p in mine;
    var k :| 0 <= k < |mine| && mine[k] == p;
    assert Joined(mine, c);
    var convs := JoinedConversations(s, mine);
    assert c in convs;
    var i :| 0 <= i < |convs| && convs[i] == c;
    var summaries := Summaries(s, convs, uid, mine);
    assert summaries[i] in multiset(ListConversations(s, uid));
  }

  /** Under the store invariant the last message is the newest of its conversation. */
  lemma LastMessageIsNewest(s: Store, cid: Id)
    requires LogOrdered(s)
    ensures LastMessage(s, cid).Some? ==>
      forall k :: 0 <= k < |s.messages| && s.messages[k].conversationId == cid ==>
        s.messages[k].createdAt <= LastMessage(s, cid).value.createdAt
  {
    var ms := MessagesOf(s, cid);
    FilterSorted(s.messages, (m: Message) => m.conversationId == cid, NotAfter);
    if |ms| > 0 {
      forall k | 0 <= k < |s.messages| && s.messages[k].conversationId == cid
        ensures s.messages[k].createdAt <= ms[|ms| - 1].createdAt
      {
        assert s.messages[k] in ms;
        var j :| 0 <= j < |ms| && ms[j] == s.messages[k];
        assert j == |ms| - 1 || NotAfter(ms[j], ms[|ms| - 1]);
      }
    }
  }

  // ---------------------------------------------------------------------
  // listMessages

  /** The conversation's messages older than the cursor, in log order. */
  function MessagesBefore(s: Store, cid: Id, before: Option<Time>): seq<Message> {
    Filter(s.messages, (m: Message) => m.conversationId == cid && (before.None? || m.createdAt < before.value))
  }

  /** Newest first, `LIMIT limit`, then reversed into ascending order. */
  function ListMessages(s: Store, cid: Id, uid: Id, limit: int, before: Option<Time>): (r: Result<seq<Message>>)
    ensures r == Err(Forbidden) <==> !IsParticipant(s, cid, uid)
    ensures r == Err(QueryFailed) <==> IsParticipant(s, cid, uid) && limit < 0
    ensures r.Ok? ==> forall i :: 0 <= i < |r.value| ==>
      && r.value[i] in s.messages
      && r.value[i].conversationId == cid
      && (before.Some? ==> r.value[i].createdAt < before.value)
  {
    if !IsParticipant(s, cid, uid) then Err(Forbidden)
    else
      var rows := MessagesBefore(s, cid, before);
      match Window(Reverse(rows), Some(limit), None) {
        case Ok(page) =>
          assert forall i :: 0 <= i < |page| ==> page[i] in rows;
          Ok(Reverse(page))
        case Err(e) => Err(e)
      }
  }

  /** A page holds the newest `limit` of the matching messages (all of them
      when `limit` is 0, which writes no LIMIT clause), oldest first. */
  lemma ListMessagesPage(s: Store, cid: Id, uid: Id, limit: int, before: Option<Time>)
    requires LogOrdered(s)
    requires IsParticipant(s, cid, uid) && limit >= 0
    ensures ListMessages(s, cid, uid, limit, before).Ok?
    ensures var page := ListMessages(s, cid, uid, limit, before).value;
      var rows := MessagesBefore(s, cid, before);
      && (limit > 0 ==> |page| == (if limit < |rows| then limit else |rows|))
      && (limit == 0 ==> page == rows)
      && page == rows[|rows| - |page|..]
      && SortedBy(page, NotAfter)
  {
    var rows := MessagesBefore(s, cid, before);
    var k := if limit > 0 && limit < |rows| then limit else |rows|;
    var page := ListMessages(s, cid, uid, limit, before).value;
    assert page == rows[|rows| - k..] by {
      NewestFirstPage(rows, limit);
    }
    assert SortedBy(rows, NotAfter) by {
      FilterSorted(s.messages,
        (m: Message) => m.conversationId == cid && (before.None? || m.createdAt < before.value), NotAfter);
    }
    SortedSuffix(rows, |rows| - k, NotAfter);
  }

  /** Taking `limit` rows newest first and reversing them gives the last
      `limit` rows in their original order. */
  lemma NewestFirstPage<T>(rows: seq<T>, limit: int)
    requires limit >= 0
    ensures Window(Reverse(rows), Some(limit), None).Ok?
    ensures var k := if limit > 0 && limit < |rows| then limit else |rows|;
      Reverse(Window(Reverse(rows), Some(limit), None).value) == rows[|rows| - k..]
  {
    var k := if limit > 0 && limit < |rows| then limit else |rows|;
    assert Window(Reverse(rows), Some(limit), None).value == Reverse(rows)[..k];
    ReversePrefix(rows, k);
  }

  // ---------------------------------------------------------------------
  // sendMessage

  function SendMessage(s: Store, cid: Id, sender: Id, content: string, newId: Id, now: Time)
    : (r: Result<(Store, Message)>)
    ensures r.Err? <==> !IsParticipant(s, cid, sender)
    ensures r.Err? ==> r.error == Forbidden
    ensures r.Ok? ==>
      var (s', m) := r.value;
      && m == Message(newId, cid, sender, content, now)
      && |s'.messages| == |s.messages| + 1
      && s'.messages[..|s.messages|] == s.messages
      && s'.messages[|s.messages|] == m
      && s'.users == s.users && s'.conversations == s.conversations && s'.participants == s.participants
  {
    if !IsParticipant(s, cid, sender) then Err(Forbidden)
    else
      var m := Message(newId, cid, sender, content, now);
      var s' := s.(messages := s.messages + [m]);
      assert s'.messages[..|s.messages|] == s.messages;
      Ok((s', m))
  }

  /** A user's own message never counts as unread for them. */
  lemma SendKeepsSenderUnread(s: Store, cid: Id, sender: Id, content: string, newId: Id, now: Time,
                              c: Id, marker: Option<Time>)
    requires SendMessage(s, cid, sender, content, newId, now).Ok?
    ensures UnreadCount(SendMessage(s, cid, sender, content, newId, now).value.0, c, sender, marker)
         == UnreadCount(s, c, sender, marker)
  {
    var (s', m) := SendMessage(s, cid, sender, content, newId, now).value;
    var p := (x: Message) => IsUnread(x, c, sender, marker.GetOr(0));
    assert s'.messages == s.messages + [m];
    FilterAppend(s.messages, [m], p);
  }

  /** Another participant's count grows by one when the message is newer than their marker. */
  lemma SendRaisesOthersUnread(s: Store, cid: Id, sender: Id, content: string, newId: Id, now: Time,
                               reader: Id, marker: Option<Time>)
    requires SendMessage(s, cid, sender, content, newId, now).Ok?
    requires reader != sender
    ensures UnreadCount(SendMessage(s, cid, sender, content, newId, now).value.0, cid, reader, marker)
         == UnreadCount(s, cid, reader, marker) + (if now > marker.GetOr(0) then 1 else 0)
  {
    var (s', m) := SendMessage(s, cid, sender, content, newId, now).value;
    var p := (x: Message) => IsUnread(x, cid, reader, marker.GetOr(0));
    assert s'.messages == s.messages + [m];
    FilterAppend(s.messages, [m], p);
  }

  // ---------------------------------------------------------------------
  // markAsRead

  /** `markAsRead(conversationId, userId)`: the marker column keeps `now`
      rounded to the second; the reply carries `now` as the object holds it. */
  function MarkAsRead(s: Store, cid: Id, uid: Id, now: Time): (r: Result<(Store, ReadReceipt)>)
    ensures r.Err? <==> !IsParticipant(s, cid, uid)
    ensures r.Err? ==> r.error == Forbidden
    ensures r.Ok? ==>
      var (s', receipt) := r.value;
      var i := ParticipantIndex(s, cid, uid).value;
      && receipt == ReadReceipt(cid, uid, now)
      && |s'.participants| == |s.participants|
      && IsMember(s'.participants[i], cid, uid)
      && s'.participants[i].lastReadAt == Some(StoredSecond(now))
      && s'.participants[i].joinedAt == s.participants[i].joinedAt
      && (forall k :: 0 <= k < |s.participants| && k != i ==> s'.participants[k] == s.participants[k])
      && s'.users == s.users && s'.conversations == s.conversations && s'.messages == s.messages
  {
    match ParticipantIndex(s, cid, uid)
    case None => Err(Forbidden)
    case Some(i) =>
      var p := s.participants[i];
      Ok((s.(participants := s.participants[i := p.(lastReadAt := Some(StoredSecond(now)))]), ReadReceipt(cid, uid, now)))
  }

  /** Reading clears the reader's count when no message is newer than the
      second the marker keeps. */
  lemma MarkAsReadClearsUnread(s: Store, cid: Id, uid: Id, now: Time)
    requires ClockAhead(s, StoredSecond(now))
    requires MarkAsRead(s, cid, uid, now).Ok?
    ensures var s' := MarkAsRead(s, cid, uid, now).value.0;
      var i := ParticipantIndex(s, cid, uid).value;
      UnreadCount(s', cid, uid, s'.participants[i].lastReadAt) == 0
  {
    FilterNone(s.messages, (m: Message) => IsUnread(m, cid, uid, StoredSecond(now)));
  }

  /** A message from another participant stamped after the kept second but
      not after the read itself is still counted once the reader has read. */
  lemma MarkAsReadLeavesSameSecond(s: Store, cid: Id, uid: Id, now: Time, k: nat)
    requires MarkAsRead(s, cid, uid, now).Ok?
    requires k < |s.messages| && s.messages[k].conversationId == cid && s.messages[k].senderId != uid
    requires StoredSecond(now) < s.messages[k].createdAt <= now
    ensures var s' := MarkAsRead(s, cid, uid, now).value.0;
      var i := ParticipantIndex(s, cid, uid).value;
      UnreadCount(s', cid, uid, s'.participants[i].lastReadAt) > 0
  {
    var p := (m: Message) => IsUnread(m, cid, uid, StoredSecond(now));
    assert s.messages[k] in Filter(s.messages, p);
  }

  /** A message another participant sends after the read, within the half
      second the marker was rounded up by, never counts as unread. */
  lemma MarkAsReadHidesLaterMessage(s: Store, cid: Id, uid: Id, now: Time,
                                    sender: Id, content: string, newId: Id, later: Time)
    requires MarkAsRead(s, cid, uid, now).Ok?
    requires sender != uid
    requires now < later <= StoredSecond(now)
    requires SendMessage(MarkAsRead(s, cid, uid, now).value.0, cid, sender, content, newId, later).Ok?
    ensures var s1 := MarkAsRead(s, cid, uid, now).value.0;
      var s2 := SendMessage(s1, cid, sender, content, newId, later).value.0;
      var i := ParticipantIndex(s, cid, uid).value;
      UnreadCount(s2, cid, uid, s2.participants[i].lastReadAt) == UnreadCount(s1, cid, uid, s1.participants[i].lastReadAt)
  {
    var s1 := MarkAsRead(s, cid, uid, now).value.0;
    var i := ParticipantIndex(s, cid, uid).value;
    SendRaisesOthersUnread(s1, cid, sender, content, newId, later, uid, s1.participants[i].lastReadAt);
  }

  /** `markAsRead` with a marker column that keeps milliseconds, as the
      message times do: the marker is `now` itself. */
  function MarkAsReadExact(s: Store, cid: Id, uid: Id, now: Time): (r: Result<(Store, ReadReceipt)>)
    ensures r.Err? <==> !IsParticipant(s, cid, uid)
    ensures r.Err? ==> r.error == Forbidden
    ensures r.Ok? ==>
      var (s', receipt) := r.value;
      var i := ParticipantIndex(s, cid, uid).value;
      && receipt == ReadReceipt(cid, uid, now)
      && |s'.participants| == |s.participants|
      && IsMember(s'.participants[i], cid, uid)
      && s'.participants[i].lastReadAt == Some(now)
      && (forall k :: 0 <= k < |s.participants| && k != i ==> s'.participants[k] == s.participants[k])
      && s'.users == s.users && s'.conversations == s.conversations && s'.messages == s.messages
  {
    match ParticipantIndex(s, cid, uid)
    case None => Err(Forbidden)
    case Some(i) =>
      var p := s.participants[i];
      Ok((s.(participants := s.participants[i := p.(lastReadAt := Some(now))]), ReadReceipt(cid, uid, now)))
  }

  /** With the exact marker, reading at a time no message is newer than
      clears the count, and every later message from another participant
      raises it by one. */
  lemma MarkAsReadExactCounts(s: Store, cid: Id, uid: Id, now: Time,
                              sender: Id, content: string, newId: Id, later: Time)
    requires ClockAhead(s, now)
    requires MarkAsReadExact(s, cid, uid, now).Ok?
    requires sender != uid && later > now
    requires SendMessage(MarkAsReadExact(s, cid, uid, now).value.0, cid, sender, content, newId, later).Ok?
    ensures var s1 := MarkAsReadExact(s, cid, uid, now).value.0;
      var s2 := SendMessage(s1, cid, sender, content, newId, later).value.0;
      var i := ParticipantIndex(s, cid, uid).value;
      && UnreadCount(s1, cid, uid, s1.participants[i].lastReadAt) == 0
      && UnreadCount(s2, cid, uid, s2.participants[i].lastReadAt) == 1
  {
    var s1 := MarkAsReadExact(s, cid, uid, now).value.0;
    var i := ParticipantIndex(s, cid, uid).value;
    FilterNone(s.messages, (m: Message) => IsUnread(m, cid, uid, now));
    SendRaisesOthersUnread(s1, cid, sender, content, newId, later, uid, s1.participants[i].lastReadAt);
  }

  /** The marker is overwritten, not maximised: a second read at an earlier
      clock value leaves that earlier value's second. */
  lemma MarkAsReadOverwrites(s: Store, cid: Id, uid: Id, now: Time, earlier: Time)
    requires IsParticipant(s, cid, uid)
    requires earlier < now
    ensures var s1 := MarkAsRead(s, cid, uid, now).value.0;
      var s2 := MarkAsRead(s1, cid, uid, earlier).value.0;
      var i := ParticipantIndex(s, cid, uid).value;
      s2.participants[i].lastReadAt == Some(StoredSecond(earlier)) && s1.participants[i].lastReadAt == Some(StoredSecond(now))
  {
    var s1 := MarkAsRead(s, cid, uid, now).value.0;
    var i := ParticipantIndex(s, cid, uid).value;
    assert s1.participants[i] == s.participants[i].(lastReadAt := Some(StoredSecond(now)));
    assert forall k :: 0 <= k < i ==> s1.participants[k] == s.participants[k];
    assert ParticipantIndex(s1, cid, uid) == Some(i);
  }

  // ---------------------------------------------------------------------
  // Store invariant across the writes

  /** Membership in a conversation other than the one whose rows were appended is unchanged. */
  lemma ParticipantAppend(s: Store, extra: seq<Participant>, cid: Id, uid: Id)
    requires forall k :: 0 <= k < |extra| ==> extra[k].conversationId != cid
    ensures IsParticipant(s.(participants := s.participants + extra), cid, uid) <==> IsParticipant(s, cid, uid)
  {
    var s' := s.(participants := s.participants + extra);
    IsParticipantIff(s, cid, uid);
    IsParticipantIff(s', cid, uid);
    if IsParticipant(s', cid, uid) {
      var p :| p in s'.participants && IsMember(p, cid, uid);
      assert p in s.participants;
    }
  }

  lemma ExistingBetweenSymmetric(s: Store, a: Id, b: Id)
    ensures ExistingBetween(s, a, b) == ExistingBetween(s, b, a)
  {
  }

  /** After inserting a conversation with a fresh id between two users who had
      none, the lookup in either order finds the new one. */
  lemma NewConversationFound(s: Store, creator: Id, partner: Id, newId: Id, now: Time)
    requires newId !in ConversationIds(s)
    requires ExistingBetween(s, creator, partner).None?
    ensures ExistingBetween(WithNewConversation(s, newId, creator, partner, now), partner, creator)
         == Some(|s.conversations|)
  {
    var s1 := WithNewConversation(s, newId, creator, partner, now);
    var extra := [Participant(newId, creator, None, now), Participant(newId, partner, None, now)];
    var s2 := s.(participants := s.participants + extra);
    assert s1.participants == s2.participants;
    forall i | 0 <= i < |s.conversations|
      ensures !Between(s1, s1.conversations[i], partner, creator)
    {
      var c := s.conversations[i];
      assert c.id != newId;
      assert !Between(s, c, creator, partner);
      ParticipantAppend(s, extra, c.id, creator);
      ParticipantAppend(s, extra, c.id, partner);
      assert IsParticipant(s1, c.id, creator) == IsParticipant(s2, c.id, creator);
      assert IsParticipant(s1, c.id, partner) == IsParticipant(s2, c.id, partner);
    }
    var n := |s.conversations|;
    assert s1.conversations[n] == Conversation(newId, now, now);
    assert IsParticipant(s1, newId, partner) by {
      assert s1.participants[|s.participants| + 1] == Participant(newId, partner, None, now);
      IsParticipantIff(s1, newId, partner);
    }
    assert IsParticipant(s1, newId, creator) by {
      assert s1.participants[|s.participants|] == Participant(newId, creator, None, now);
      IsParticipantIff(s1, newId, creator);
    }
    assert Between(s1, s1.conversations[n], partner, creator);
  }

  /** A second request between the same two users, in either order, returns
      the same conversation and writes nothing. */
  lemma CreateConversationIdempotent(s: Store, creator: Id, partner: Id, newId: Id, now: Time,
                                     newId2: Id, now2: Time)
    requires newId !in ConversationIds(s)
    requires CreateConversation(s, creator, partner, newId, now).Ok?
    ensures var (s1, d1) := CreateConversation(s, creator, partner, newId, now).value;
      var r2 := CreateConversation(s1, partner, creator, newId2, now2);
      && r2.Ok?
      && r2.value.0 == s1
      && r2.value.1.conversation.id == d1.conversation.id
  {
    if ExistingBetween(s, creator, partner).None? {
      NewConversationFound(s, creator, partner, newId, now);
    } else {
      ExistingBetweenSymmetric(s, creator, partner);
    }
  }

  lemma WithNewConversationIds(s: Store, creator: Id, partner: Id, newId: Id, now: Time)
    ensures var s' := WithNewConversation(s, newId, creator, partner, now);
      ConversationIds(s') == ConversationIds(s) + {newId}
  {
    var s' := WithNewConversation(s, newId, creator, partner, now);
    assert s'.conversations == s.conversations + [Conversation(newId, now, now)];
  }

  lemma WithNewConversationTwoParty(s: Store, creator: Id, partner: Id, newId: Id, now: Time)
    requires TwoParty(s) && ParticipantsReferToConversations(s)
    requires newId !in ConversationIds(s)
    ensures TwoParty(WithNewConversation(s, newId, creator, partner, now))
  {
    var s' := WithNewConversation(s, newId, creator, partner, now);
    var extra := [Participant(newId, creator, None, now), Participant(newId, partner, None, now)];
    assert s'.participants == s.participants + extra;
    assert s'.conversations == s.conversations + [Conversation(newId, now, now)];
    forall c | c in s'.conversations ensures |ParticipantsOf(s', c.id)| == 2 {
      var p := (x: Participant) => x.conversationId == c.id;
      FilterAppend(s.participants, extra, p);
      if c.id == newId {
        FilterNone(s.participants, p);
      } else {
        assert c in s.conversations;
        assert Filter(extra, p) == [];
      }
    }
  }

  lemma WithNewConversationMemberships(s: Store, creator: Id, partner: Id, newId: Id, now: Time)
    requires UniqueMemberships(s) && ParticipantsReferToConversations(s)
    requires newId !in ConversationIds(s)
    requires creator != partner
    ensures UniqueMemberships(WithNewConversation(s, newId, creator, partner, now))
  {
    var s' := WithNewConversation(s, newId, creator, partner, now);
    var n := |s.participants|;
    assert s'.participants[..n] == s.participants;
    forall k | 0 <= k < n ensures s'.participants[k].conversationId != newId {
      assert s.participants[k].conversationId in ConversationIds(s);
    }
  }

  /** Inserting a fresh conversation between two distinct known users keeps the invariant. */
  lemma WithNewConversationValid(s: Store, creator: Id, partner: Id, newId: Id, now: Time)
    requires Valid(s)
    requires newId !in ConversationIds(s)
    requires creator != partner
    requires creator in s.users && partner in s.users
    ensures Valid(WithNewConversation(s, newId, creator, partner, now))
  {
    var s' := WithNewConversation(s, newId, creator, partner, now);
    WithNewConversationIds(s, creator, partner, newId, now);
    WithNewConversationTwoParty(s, creator, partner, newId, now);
    WithNewConversationMemberships(s, creator, partner, newId, now);
    assert s'.messages == s.messages;
  }

  /** Creating a conversation with a fresh id keeps the store invariant. */
  lemma CreateConversationValid(s: Store, creator: Id, partner: Id, newId: Id, now: Time)
    requires Valid(s)
    requires newId !in ConversationIds(s)
    requires CreateConversation(s, creator, partner, newId, now).Ok?
    ensures Valid(CreateConversation(s, creator, partner, newId, now).value.0)
  {
    if ExistingBetween(s, creator, partner).None? {
      WithNewConversationValid(s, creator, partner, newId, now);
    }
  }

  /** Sending with a fresh message id and a clock that has not run backwards
      keeps the store invariant. */
  lemma SendMessageValid(s: Store, cid: Id, sender: Id, content: string, newId: Id, now: Time)
    requires Valid(s)
    requires newId !in MessageIds(s)
    requires ClockAhead(s, now)
    requires SendMessage(s, cid, sender, content, newId, now).Ok?
    ensures Valid(SendMessage(s, cid, sender, content, newId, now).value.0)
  {
    var (s', m) := SendMessage(s, cid, sender, content, newId, now).value;
    assert s'.messages == s.messages + [m];
    var i := ParticipantIndex(s, cid, sender).value;
    assert s.participants[i].conversationId == cid;
    assert s.participants[i].userId == sender;
    forall k | 0 <= k < |s.messages| ensures s.messages[k].id != newId {
      assert s.messages[k] in s.messages;
    }
  }

  /** Marking as read keeps the store invariant. */
  lemma MarkAsReadValid(s: Store, cid: Id, uid: Id, now: Time)
    requires Valid(s)
    requires MarkAsRead(s, cid, uid, now).Ok?
    ensures Valid(MarkAsRead(s, cid, uid, now).value.0)
  {
    var s' := MarkAsRead(s, cid, uid, now).value.0;
    var i := ParticipantIndex(s, cid, uid).value;
    var v := s.participants[i].(lastReadAt := Some(StoredSecond(now)));
    assert s'.participants == s.participants[i := v];
    forall c | c in s'.conversations ensures |ParticipantsOf(s', c.id)| == 2 {
      FilterUpdateLength(s.participants, i, v, (p: Participant) => p.conversationId == c.id);
    }
  }
}

=== FILE: domain_validation.dfy ===
/** The e-mail domain validator (`src/modules/auth/services/domain-validation.service.ts`).

    The restrictions object comes from configuration; the model takes it as a
    parameter: `None` when nothing is configured, otherwise a map from the
    user-type key to the rule for that type.
 */
module DomainValidation {
  import opened Wrappers
  import opened Text

  datatype UserType = Landlord | Tenant

  /** The string value of each `UserType` member, used as the lookup key. */
  function Key(t: UserType): string {
    match t
    case Landlord => "landlord"
    case Tenant => "tenant"
  }

  datatype DomainRule = DomainRule(allowedDomains: seq<string>, restrictedDomains: seq<string>)

  type Restrictions = Option<map<string, DomainRule>>

  /** `email.split('@')[1]`: the text between the first '@' and the next one,
      or `None` (undefined) when the address has no '@'. */
  function Domain(email: string): (r: Option<string>)
    ensures r.None? <==> '@' !in email
    ensures r.Some? ==> '@' !in r.value
  {
    var parts := Split(email, '@');
    if |parts| >= 2 then Some(parts[1]) else None
  }

  /** The domain of `local@domain`, whatever follows a further '@'. */
  lemma DomainOf(local: string, domain: string, rest: Option<string>)
    requires '@' !in local && '@' !in domain
    ensures rest.None? ==> Domain(local + "@" + domain) == Some(domain)
    ensures rest.Some? ==> Domain(local + "@" + domain + "@" + rest.value) == Some(domain)
  {
    if rest.None? {
      SplitConcat(local, domain, '@');
      SplitNoSep(domain, '@');
    } else {
      SplitConcat(local, domain + "@" + rest.value, '@');
      SplitConcat(domain, rest.value, '@');
      assert local + "@" + domain + "@" + rest.value == local + ['@'] + (domain + "@" + rest.value);
    }
  }

  /** `allowedDomains.some(d => d === '*' || domain === d)`. */
  function SomeAllows(allowed: seq<string>, domain: string): (r: bool)
    ensures r <==> exists i :: 0 <= i < |allowed| && (allowed[i] == "*" || allowed[i] == domain)
    decreases |allowed|
  {
    if |allowed| == 0 then false
    else if allowed[0] == "*" || allowed[0] == domain then true
    else
      var rest := SomeAllows(allowed[1..], domain);
      assert forall i :: 1 <= i < |allowed| ==> allowed[i] == allowed[1..][i - 1];
      rest
  }

  /** What a configured rule accepts, stated without the order of the checks. */
  predicate Admits(rule: DomainRule, domain: string) {
    (|rule.allowedDomains| == 0 || "*" in rule.allowedDomains || domain in rule.allowedDomains)
    && domain !in rule.restrictedDomains
  }

  /** `validateEmailDomain(email, userType)`: `true`, or an Unauthorized error. */
  function ValidateEmailDomain(email: string, userType: UserType, restrictions: Restrictions): (r: Result<bool>)
    ensures r.Ok? ==> r.value
    ensures r.Err? ==> r.error == Unauthorized
    ensures r.Ok? <==>
      Domain(email).Some? && Domain(email).value != [] &&
      (restrictions.None? || Key(userType) !in restrictions.value ||
       Admits(restrictions.value[Key(userType)], Domain(email).value))
  {
    var domain := Domain(email);
    if domain.None? || domain.value == [] then Err(Unauthorized)
    else if restrictions.None? then Ok(true)
    else if Key(userType) !in restrictions.value then Ok(true)
    else
      var rule := restrictions.value[Key(userType)];
      if |rule.allowedDomains| > 0 && !SomeAllows(rule.allowedDomains, domain.value) then Err(Unauthorized)
      else if |rule.restrictedDomains| > 0 && domain.value in rule.restrictedDomains then Err(Unauthorized)
      else Ok(true)
  }

  /** A restricted domain is refused even when the allow list holds "*". */
  lemma RestrictedBeatsWildcard(local: string, domain: string, userType: UserType, restricted: seq<string>)
    requires '@' !in local && '@' !in domain && domain != []
    requires domain in restricted
    ensures ValidateEmailDomain(local + "@" + domain, userType,
      Some(map[Key(userType) := DomainRule(["*"], restricted)])) == Err(Unauthorized)
  {
    DomainOf(local, domain, None);
  }

  /** An address without a domain part is refused before the configuration is read. */
  lemma MissingDomainRefused(local: string, userType: UserType, restrictions: Restrictions)
    requires '@' !in local
    ensures ValidateEmailDomain(local, userType, restrictions) == Err(Unauthorized)
    ensures ValidateEmailDomain(local + "@", userType, restrictions) == Err(Unauthorized)
  {
    DomainOf(local, "", None);
    assert local + "@" + "" == local + "@";
  }

  // ---------------------------------------------------------------------
  // The configured restrictions

  /** What the running application reads: the root module loads the
      configuration module without any `load` factory and nothing calls the
      factory in `src/config/auth.config.ts`, so `domainRestrictions` is
      undefined. */
  const DeployedRestrictions: Restrictions := None

  /** As deployed, any address with a non-empty domain passes, for either user type. */
  lemma DeployedAcceptsAnyDomain(local: string, domain: string, userType: UserType)
    requires '@' !in local && '@' !in domain && domain != []
    ensures ValidateEmailDomain(local + "@" + domain, userType, DeployedRestrictions) == Ok(true)
  {
    DomainOf(local, domain, None);
  }

  /** Example of the all-inputs statement above: a gmail tenant passes. */
  lemma DeployedAcceptsGmailTenant()
    ensures ValidateEmailDomain("alumno@gmail.com", Tenant, DeployedRestrictions) == Ok(true)
  {
    DeployedAcceptsAnyDomain("alumno", "gmail.com", Tenant);
    assert "alumno" + "@" + "gmail.com" == "alumno@gmail.com";
  }

  /** The rules as `src/config/auth.config.ts` writes them: keyed by the plural
      words, which the lookup never uses. */
  const ShippedRestrictions: Restrictions :=
    Some(map["landlords" := DomainRule(["*"], []), "tenants" := DomainRule(["tecsup.edu.pe"], [])])

  /** Were that factory loaded, its plural keys would still leave a tenant
      address on any domain accepted. */
  lemma ShippedAcceptsAnyTenantDomain(local: string, domain: string)
    requires '@' !in local && '@' !in domain && domain != []
    ensures ValidateEmailDomain(local + "@" + domain, Tenant, ShippedRestrictions) == Ok(true)
  {
    DomainOf(local, domain, None);
  }

  /** The same rules, loaded, under the keys the lookup uses. */
  const IntendedRestrictions: Restrictions :=
    Some(map[Key(Landlord) := DomainRule(["*"], []), Key(Tenant) := DomainRule(["tecsup.edu.pe"], [])])

  /** Under the intended keys a tenant is accepted exactly on the institutional domain. */
  lemma IntendedTenantRule(email: string)
    ensures ValidateEmailDomain(email, Tenant, IntendedRestrictions).Ok? <==> Domain(email) == Some("tecsup.edu.pe")
  {
  }

  /** Under the intended keys a landlord is accepted on any non-empty domain. */
  lemma IntendedLandlordRule(email: string)
    ensures ValidateEmailDomain(email, Landlord, IntendedRestrictions).Ok? <==>
      Domain(email).Some? && Domain(email).value != []
  {
  }
}

=== FILE: dtos.dfy ===
/** The field rules of the request bodies the validation pipe checks before a
    handler runs: `CreateUserDto` (`src/modules/users/dto/create-user.dto.ts`),
    `RegisterLandlordDto` (`src/modules/auth/dto/register-landlord.dto.ts`),
    `CreateLandlordDto` (`src/modules/landlords/dto/create-landlord.dto.ts`) and
    `CreateTenantDto` (`src/modules/tenants/dto/create-tenant.dto.ts`).

    A field arrives as a JSON value. The decorators used here mean:
    `@IsString` the value is a string; `@Length(a, b)` it is a string whose
    length, counted in code points without the emoji presentation selectors
    U+FE0E and U+FE0F, lies in `[a, b]`; `@Matches(/^[0-9]{n}$/)` it is a
    string of exactly `n` ASCII digits (JavaScript's `$` without the `m`
    flag matches only at the very end); `@IsNumber` with `@Min`/`@Max` it is
    a finite number in range; `@IsOptional` an absent or null value skips
    the field's other rules. `@IsEmail` and `@IsNumberString` are library
    checks whose definitions are not part of this model: they are parameters.
 */
module Dtos {
  import opened Text

  /** A JSON value as the body parser delivers it. Numbers are finite, so a
      real number stands for one. */
  datatype Json = Absent | Null | JBool(b: bool) | JNum(n: real) | JStr(s: string) | JOther

  // ---------------------------------------------------------------------
  // The rules

  predicate IsPresentationSelector(c: char) {
    c == '\U{FE0E}' || c == '\U{FE0F}'
  }

  /** The length `@Length` compares: code points that are not presentation selectors. */
  function VisibleLength(s: string): (n: nat)
    ensures n <= |s|
    ensures (forall i :: 0 <= i < |s| ==> !IsPresentationSelector(s[i])) ==> n == |s|
    ensures (exists i :: 0 <= i < |s| && IsPresentationSelector(s[i])) ==> n < |s|
    decreases |s|
  {
    if |s| == 0 then 0
    else (if IsPresentationSelector(s[0]) then 0 else 1) + VisibleLength(s[1..])
  }

  /** `@IsString() @Length(min, max)`. */
  predicate LengthOk(v: Json, min: nat, max: nat) {
    v.JStr? && min <= VisibleLength(v.s) <= max
  }

  /** `^[0-9]{n}$` run as a matcher: `n` repetitions of the digit class, then the end of the input. */
  predicate DigitsMatch(s: string, n: nat)
    decreases n
  {
    if n == 0 then s == [] else |s| > 0 && IsAsciiDigit(s[0]) && DigitsMatch(s[1..], n - 1)
  }

  /** `@IsString() @Matches(/^[0-9]{n}$/)`. */
  predicate DigitsOk(v: Json, n: nat) {
    v.JStr? && DigitsMatch(v.s, n)
  }

  /** `@IsOptional()`: nothing else is checked for an absent or null value. */
  predicate Missing(v: Json) {
    v.Absent? || v.Null?
  }

  predicate OptionalString(v: Json) {
    Missing(v) || v.JStr?
  }

  predicate OptionalBool(v: Json) {
    Missing(v) || v.JBool?
  }

  /** `@IsOptional() @IsNumber() @Min(0) @Max(999)`. */
  predicate CountOk(v: Json) {
    Missing(v) || (v.JNum? && 0.0 <= v.n <= 999.0)
  }

  /** Examples of `CountOk`: nothing, null, or a number from 0 to 999,
      fractions included, passes; a numeric string is refused. */
  lemma CountRule()
    ensures CountOk(Absent) && CountOk(Null)
    ensures CountOk(JNum(0.0)) && CountOk(JNum(999.0)) && CountOk(JNum(2.5))
    ensures !CountOk(JNum(-1.0)) && !CountOk(JNum(1000.0)) && !CountOk(JStr("3"))
  {
  }

  // ---------------------------------------------------------------------
  // The bodies

  datatype CreateUserBody = CreateUserBody(
    fullName: Json,
    email: Json,
    phone: Json,
    dni: Json,
    address: Json,
    propertiesCount: Json,
    profilePicture: Json,
    googleId: Json,
    isVerified: Json)

  /** Every rule of `CreateUserDto` holds; `isEmail` is the library's e-mail check. */
  predicate CreateUserAccepted(b: CreateUserBody, isEmail: string -> bool) {
    && LengthOk(b.fullName, 2, 255)
    && b.email.JStr? && isEmail(b.email.s)
    && DigitsOk(b.phone, 9)
    && DigitsOk(b.dni, 8)
    && LengthOk(b.address, 10, 500)
    && CountOk(b.propertiesCount)
    && OptionalString(b.profilePicture)
    && OptionalString(b.googleId)
    && OptionalBool(b.isVerified)
  }

  datatype RegisterLandlordBody = RegisterLandlordBody(
    fullName: Json,
    email: Json,
    phone: Json,
    dni: Json,
    address: Json,
    propertiesCount: Json,
    profilePicture: Json)

  /** Every rule of `RegisterLandlordDto`: the same field rules as `CreateUserDto`. */
  predicate RegisterLandlordAccepted(b: RegisterLandlordBody, isEmail: string -> bool) {
    && LengthOk(b.fullName, 2, 255)
    && b.email.JStr? && isEmail(b.email.s)
    && DigitsOk(b.phone, 9)
    && DigitsOk(b.dni, 8)
    && LengthOk(b.address, 10, 500)
    && CountOk(b.propertiesCount)
    && OptionalString(b.profilePicture)
  }

  datatype CreateLandlordBody = CreateLandlordBody(
    userId: Json,
    phone: Json,
    dni: Json,
    address: Json,
    propertyCount: Json)

  /** Every rule of `CreateLandlordDto`. */
  predicate CreateLandlordAccepted(b: CreateLandlordBody) {
    && b.userId.JStr?
    && LengthOk(b.phone, 6, 20)
    && DigitsOk(b.dni, 8)
    && LengthOk(b.address, 5, 500)
    && OptionalString(b.propertyCount)
  }

  datatype CreateTenantBody = CreateTenantBody(
    userId: Json,
    phone: Json,
    code: Json,
    carrer: Json,
    cicle: Json,
    monthlyBudget: Json,
    originDepartment: Json)

  /** Every rule of `CreateTenantDto`; `isNumberString` is the library's numeric-string check. */
  predicate CreateTenantAccepted(b: CreateTenantBody, isNumberString: string -> bool) {
    && b.userId.JStr?
    && LengthOk(b.phone, 6, 20)
    && LengthOk(b.code, 1, 50)
    && LengthOk(b.carrer, 2, 100)
    && LengthOk(b.cicle, 1, 50)
    && b.monthlyBudget.JStr? && isNumberString(b.monthlyBudget.s)
    && LengthOk(b.originDepartment, 2, 100)
  }

  // ---------------------------------------------------------------------
  // What the rules accept

  /** The digit pattern accepts exactly the strings of `n` ASCII digits. */
  lemma {:induction false} DigitsMatchIff(s: string, n: nat)
    ensures DigitsMatch(s, n) <==> |s| == n && forall i :: 0 <= i < |s| ==> IsAsciiDigit(s[i])
    decreases n
  {
    if n > 0 && |s| > 0 {
      DigitsMatchIff(s[1..], n - 1);
      if forall i :: 0 <= i < |s| ==> IsAsciiDigit(s[i]) {
        assert forall i :: 0 <= i < |s[1..]| ==> IsAsciiDigit(s[1..][i]) by {
          forall i | 0 <= i < |s[1..]| ensures IsAsciiDigit(s[1..][i]) {
            assert s[1..][i] == s[i + 1];
          }
        }
      }
      if DigitsMatch(s, n) {
        forall i | 0 <= i < |s| ensures IsAsciiDigit(s[i]) {
          if i > 0 {
            assert s[i] == s[1..][i - 1];
          }
        }
      }
    }
  }

  /** The phone of `CreateUserDto` and `RegisterLandlordDto` is accepted iff it
      is a string of exactly 9 ASCII digits; the DNI iff exactly 8. */
  lemma PhoneAndDniRules(v: Json)
    ensures DigitsOk(v, 9) <==> v.JStr? && |v.s| == 9 && forall i :: 0 <= i < |v.s| ==> IsAsciiDigit(v.s[i])
    ensures DigitsOk(v, 8) <==> v.JStr? && |v.s| == 8 && forall i :: 0 <= i < |v.s| ==> IsAsciiDigit(v.s[i])
  {
    if v.JStr? {
      DigitsMatchIff(v.s, 9);
      DigitsMatchIff(v.s, 8);
    }
  }

  /** For text without presentation selectors a length rule is the plain
      bound on the string's length; a selector is never counted. */
  lemma LengthRule(v: Json, min: nat, max: nat, c: char)
    requires v.JStr? ==> forall i :: 0 <= i < |v.s| ==> !IsPresentationSelector(v.s[i])
    ensures LengthOk(v, min, max) <==> v.JStr? && min <= |v.s| <= max
    ensures v.JStr? && IsPresentationSelector(c) ==> (LengthOk(JStr(v.s + [c]), min, max) <==> LengthOk(v, min, max))
  {
    if v.JStr? && IsPresentationSelector(c) {
      VisibleLengthAppend(v.s, [c]);
    }
  }

  lemma {:induction false} VisibleLengthAppend(a: string, b: string)
    ensures VisibleLength(a + b) == VisibleLength(a) + VisibleLength(b)
    decreases |a|
  {
    if |a| > 0 {
      assert (a + b)[1..] == a[1..] + b;
      VisibleLengthAppend(a[1..], b);
    } else {
      assert a + b == b;
    }
  }

  /** `CreateUserDto` spelled out field by field. */
  lemma CreateUserRules(b: CreateUserBody, isEmail: string -> bool)
    requires b.fullName.JStr? ==> forall i :: 0 <= i < |b.fullName.s| ==> !IsPresentationSelector(b.fullName.s[i])
    requires b.address.JStr? ==> forall i :: 0 <= i < |b.address.s| ==> !IsPresentationSelector(b.address.s[i])
    ensures CreateUserAccepted(b, isEmail) <==>
      && b.fullName.JStr? && 2 <= |b.fullName.s| <= 255
      && b.email.JStr? && isEmail(b.email.s)
      && b.phone.JStr? && |b.phone.s| == 9 && (forall i :: 0 <= i < 9 ==> IsAsciiDigit(b.phone.s[i]))
      && b.dni.JStr? && |b.dni.s| == 8 && (forall i :: 0 <= i < 8 ==> IsAsciiDigit(b.dni.s[i]))
      && b.address.JStr? && 10 <= |b.address.s| <= 500
      && (Missing(b.propertiesCount) || (b.propertiesCount.JNum? && 0.0 <= b.propertiesCount.n <= 999.0))
      && OptionalString(b.profilePicture) && OptionalString(b.googleId) && OptionalBool(b.isVerified)
  {
    PhoneAndDniRules(b.phone);
    PhoneAndDniRules(b.dni);
    LengthRule(b.fullName, 2, 255, ' ');
    LengthRule(b.address, 10, 500, ' ');
  }

  /** `RegisterLandlordDto` accepts a body iff `CreateUserDto` accepts the same
      fields with no Google id and no verification flag. */
  lemma RegisterLandlordMatchesCreateUser(b: RegisterLandlordBody, isEmail: string -> bool)
    ensures RegisterLandlordAccepted(b, isEmail) <==>
      CreateUserAccepted(CreateUserBody(b.fullName, b.email, b.phone, b.dni, b.address, b.propertiesCount,
        b.profilePicture, Absent, Absent), isEmail)
  {
  }

  /** `CreateLandlordDto` is looser than the registration body: a phone of 6 to
      20 characters of any kind, an address from 5 characters, and the count
      as an optional string. The DNI rule is the same. */
  lemma CreateLandlordRules(b: CreateLandlordBody)
    requires b.phone.JStr? ==> forall i :: 0 <= i < |b.phone.s| ==> !IsPresentationSelector(b.phone.s[i])
    requires b.address.JStr? ==> forall i :: 0 <= i < |b.address.s| ==> !IsPresentationSelector(b.address.s[i])
    ensures CreateLandlordAccepted(b) <==>
      && b.userId.JStr?
      && b.phone.JStr? && 6 <= |b.phone.s| <= 20
      && b.dni.JStr? && |b.dni.s| == 8 && (forall i :: 0 <= i < 8 ==> IsAsciiDigit(b.dni.s[i]))
      && b.address.JStr? && 5 <= |b.address.s| <= 500
      && (Missing(b.propertyCount) || b.propertyCount.JStr?)
  {
    PhoneAndDniRules(b.dni);
    LengthRule(b.phone, 6, 20, ' ');
    LengthRule(b.address, 5, 500, ' ');
  }

  /** `CreateTenantDto` spelled out field by field. */
  lemma CreateTenantRules(b: CreateTenantBody, isNumberString: string -> bool)
    requires forall v :: v in [b.phone, b.code, b.carrer, b.cicle, b.originDepartment] && v.JStr? ==>
      forall i :: 0 <= i < |v.s| ==> !IsPresentationSelector(v.s[i])
    ensures CreateTenantAccepted(b, isNumberString) <==>
      && b.userId.JStr?
      && b.phone.JStr? && 6 <= |b.phone.s| <= 20
      && b.code.JStr? && 1 <= |b.code.s| <= 50
      && b.carrer.JStr? && 2 <= |b.carrer.s| <= 100
      && b.cicle.JStr? && 1 <= |b.cicle.s| <= 50
      && b.monthlyBudget.JStr? && isNumberString(b.monthlyBudget.s)
      && b.originDepartment.JStr? && 2 <= |b.originDepartment.s| <= 100
  {
    LengthRule(b.phone, 6, 20, ' ');
    LengthRule(b.code, 1, 50, ' ');
    LengthRule(b.carrer, 2, 100, ' ');
    LengthRule(b.cicle, 1, 50, ' ');
    LengthRule(b.originDepartment, 2, 100, ' ');
  }

  /** The registration rules and the completion report disagree on blank
      text: an address of ten spaces passes `@Length(10, 500)`, yet the
      report counts it as missing because it trims to nothing. */
  lemma BlankAddressAcceptedButUnfilled(s: string)
    requires 10 <= |s| <= 500 && forall i :: 0 <= i < |s| ==> s[i] == ' '
    ensures LengthOk(JStr(s), 10, 500) && !Filled(s)
  {
    FilledIffSomeNonSpace(s);
  }

  /** Digits are never blank: an accepted phone or DNI always counts as filled. */
  lemma AcceptedDigitsFilled(v: Json, n: nat)
    requires n > 0 && DigitsOk(v, n)
    ensures Filled(v.s)
  {
    DigitsMatchIff(v.s, n);
    assert !IsSpace(v.s[0]);
    FilledIffSomeNonSpace(v.s);
  }
}

=== FILE: landlords.dfy ===
/** The landlord-profile service (`src/modules/landlords/services/landlords.service.ts`):
    at most one profile per user, every column a string defaulting to ''.
 */
module Landlords {
  import opened Wrappers
  import opened Tables

  datatype LandlordProfile = LandlordProfile(
    id: Id,
    userId: Id,
    phone: string,
    dni: string,
    address: string,
    propertyCount: string)

  datatype CreateLandlordDto = CreateLandlordDto(
    userId: Id,
    phone: string,
    dni: string,
    address: string,
    propertyCount: Option<string>)

  /** The update body: a present key overwrites its column. */
  datatype LandlordPatch = LandlordPatch(
    userId: Option<Id>,
    phone: Option<string>,
    dni: Option<string>,
    address: Option<string>,
    propertyCount: Option<string>)

  function LandlordId(l: LandlordProfile): string { l.id }
  function LandlordUser(l: LandlordProfile): string { l.userId }

  predicate Valid(rows: seq<LandlordProfile>) {
    UniqueBy(rows, LandlordId) && UniqueBy(rows, LandlordUser)
  }

  /** `create(dto)`: Conflict when the user already has a profile;
      `propertyCount` is stored as `String(propertyCount)`, '' when absent.
      `users` holds the ids of the user table: `user_id` is a foreign key
      into it, so the insert of a profile for an unknown user is refused. */
  function Create(rows: seq<LandlordProfile>, users: set<Id>, dto: CreateLandlordDto, newId: Id)
    : (r: Result<(seq<LandlordProfile>, LandlordProfile)>)
    ensures r.Err? <==> Holds(rows, LandlordUser, dto.userId) || dto.userId !in users
    ensures r.Err? ==> r.error == if Holds(rows, LandlordUser, dto.userId) then Conflict else QueryFailed
    ensures r.Ok? ==> r.value.0 == rows + [r.value.1]
    ensures r.Ok? ==> r.value.1 == LandlordProfile(newId, dto.userId, dto.phone, dto.dni, dto.address, r.value.1.propertyCount)
    ensures r.Ok? && dto.propertyCount.None? ==> r.value.1.propertyCount == ""
    ensures r.Ok? && dto.propertyCount.Some? ==> r.value.1.propertyCount == dto.propertyCount.value
  {
    if Locate(rows, LandlordUser, dto.userId).Some? then Err(Conflict)
    else if dto.userId !in users then Err(QueryFailed)
    else
      var count := if dto.propertyCount.Some? then dto.propertyCount.value else "";
      var l := LandlordProfile(newId, dto.userId, dto.phone, dto.dni, dto.address, count);
      Ok((rows + [l], l))
  }

  /** The profile `ensureExistsForUser` creates. */
  function BlankLandlord(id: Id, userId: Id): LandlordProfile {
    LandlordProfile(id, userId, "", "", "", "")
  }

  /** `ensureExistsForUser(userId)`: the existing profile, untouched, or a new
      blank one, whose insert the foreign key refuses for an unknown user. */
  function EnsureExistsForUser(rows: seq<LandlordProfile>, users: set<Id>, userId: Id, newId: Id)
    : (r: Result<(seq<LandlordProfile>, LandlordProfile)>)
    ensures r.Err? <==> !Holds(rows, LandlordUser, userId) && userId !in users
    ensures r.Err? ==> r.error == QueryFailed
    ensures r.Ok? && Holds(rows, LandlordUser, userId) ==> r.value.0 == rows && r.value.1 in rows && r.value.1.userId == userId
    ensures r.Ok? && !Holds(rows, LandlordUser, userId) ==> r.value.0 == rows + [r.value.1] && r.value.1 == BlankLandlord(newId, userId)
  {
    match Locate(rows, LandlordUser, userId)
    case Some(i) => Ok((rows, rows[i]))
    case None =>
      if userId !in users then Err(QueryFailed)
      else
        var l := BlankLandlord(newId, userId);
        Ok((rows + [l], l))
  }

  /** `findOne(id)`. */
  function FindOne(rows: seq<LandlordProfile>, id: Id): (r: Result<LandlordProfile>)
    ensures r.Err? <==> !Holds(rows, LandlordId, id)
    ensures r.Err? ==> r.error == NotFound
    ensures r.Ok? ==> r.value in rows && r.value.id == id
  {
    match Locate(rows, LandlordId, id)
    case None => Err(NotFound)
    case Some(i) => Ok(rows[i])
  }

  /** `findByUserId(userId)`: absent rather than an error. */
  function FindByUserId(rows: seq<LandlordProfile>, userId: Id): (r: Option<LandlordProfile>)
    ensures r.None? <==> !Holds(rows, LandlordUser, userId)
    ensures r.Some? ==> r.value in rows && r.value.userId == userId
  {
    match Locate(rows, LandlordUser, userId)
    case None => None
    case Some(i) => Some(rows[i])
  }

  function Apply(l: LandlordProfile, p: LandlordPatch): LandlordProfile {
    LandlordProfile(l.id, p.userId.GetOr(l.userId), p.phone.GetOr(l.phone), p.dni.GetOr(l.dni),
      p.address.GetOr(l.address), p.propertyCount.GetOr(l.propertyCount))
  }

  /** `update(id, dto)`: NotFound, else `Object.assign` of the present keys.
      A new user id is refused by the unique column when another profile
      holds it, and by the foreign key when no user has it. */
  function Update(rows: seq<LandlordProfile>, users: set<Id>, id: Id, p: LandlordPatch)
    : (r: Result<(seq<LandlordProfile>, LandlordProfile)>)
    ensures !Holds(rows, LandlordId, id) ==> r == Err(NotFound)
    ensures r.Err? ==> r.error in {NotFound, QueryFailed}
    ensures r.Ok? ==> exists i :: (0 <= i < |rows| && rows[i].id == id &&
      r.value.0 == rows[i := r.value.1] && r.value.1 == Apply(rows[i], p))
    ensures r.Ok? && p.userId.Some? ==> p.userId.value in users || Holds(rows, LandlordUser, p.userId.value)
    ensures Valid(rows) && Holds(rows, LandlordId, id) ==>
      (r.Ok? <==> p.userId.None? || p.userId.value == FindOne(rows, id).value.userId
                  || (p.userId.value in users && !Holds(rows, LandlordUser, p.userId.value)))
  {
    match Locate(rows, LandlordId, id)
    case None => Err(NotFound)
    case Some(i) =>
      var l := Apply(rows[i], p);
      if exists j :: 0 <= j < |rows| && j != i && rows[j].userId == l.userId then Err(QueryFailed)
      else if l.userId != rows[i].userId && l.userId !in users then Err(QueryFailed)
      else Ok((rows[i := l], l))
  }

  /** `remove(id)`. */
  function Remove(rows: seq<LandlordProfile>, id: Id): (r: Result<seq<LandlordProfile>>)
    ensures r.Err? <==> !Holds(rows, LandlordId, id)
    ensures r.Err? ==> r.error == NotFound
    ensures r.Ok? ==> |r.value| == |rows| - 1 && forall x :: x in r.value ==> x in rows
    ensures r.Ok? && Valid(rows) ==> Valid(r.value) && !Holds(r.value, LandlordId, id)
  {
    match Locate(rows, LandlordId, id)
    case None => Err(NotFound)
    case Some(i) =>
      assert Valid(rows) ==> Valid(RemoveAt(rows, i)) && !Holds(RemoveAt(rows, i), LandlordId, id) by {
        if Valid(rows) {
          RemoveAtUnique(rows, LandlordId, i);
          RemoveAtUnique(rows, LandlordUser, i);
        }
      }
      Ok(RemoveAt(rows, i))
  }

  // ---------------------------------------------------------------------
  // One profile per user

  /** An absent key leaves its column as it was; a present one sets it. */
  lemma UpdateOverwritesOnlyPresent(rows: seq<LandlordProfile>, users: set<Id>, id: Id, p: LandlordPatch)
    requires Valid(rows)
    requires Update(rows, users, id, p).Ok?
    ensures var old_ := FindOne(rows, id).value;
      var new_ := Update(rows, users, id, p).value.1;
      && new_.id == old_.id
      && new_.phone == (if p.phone.Some? then p.phone.value else old_.phone)
      && new_.dni == (if p.dni.Some? then p.dni.value else old_.dni)
      && new_.address == (if p.address.Some? then p.address.value else old_.address)
      && new_.propertyCount == (if p.propertyCount.Some? then p.propertyCount.value else old_.propertyCount)
  {
    var i := Locate(rows, LandlordId, id).value;
    LocateUnique(rows, LandlordId, i);
  }

  /** A second `ensureExistsForUser` returns the profile of the first and writes nothing. */
  lemma EnsureExistsIdempotent(rows: seq<LandlordProfile>, users: set<Id>, userId: Id, newId: Id, otherId: Id)
    ensures var r := EnsureExistsForUser(rows, users, userId, newId);
      r.Ok? ==> EnsureExistsForUser(r.value.0, users, userId, otherId) == r
  {
    var r := EnsureExistsForUser(rows, users, userId, newId);
    if r.Ok? && !Holds(rows, LandlordUser, userId) {
      assert r.value.0[|rows|] == r.value.1;
    }
  }

  lemma CreateKeepsValid(rows: seq<LandlordProfile>, users: set<Id>, dto: CreateLandlordDto, newId: Id)
    requires Valid(rows)
    requires !Holds(rows, LandlordId, newId)
    ensures Create(rows, users, dto, newId).Ok? ==> Valid(Create(rows, users, dto, newId).value.0)
  {
    var r := Create(rows, users, dto, newId);
    if r.Ok? {
      AppendUnique(rows, LandlordId, r.value.1);
      AppendUnique(rows, LandlordUser, r.value.1);
    }
  }

  lemma EnsureExistsKeepsValid(rows: seq<LandlordProfile>, users: set<Id>, userId: Id, newId: Id)
    requires Valid(rows)
    requires !Holds(rows, LandlordId, newId)
    ensures EnsureExistsForUser(rows, users, userId, newId).Ok? ==> Valid(EnsureExistsForUser(rows, users, userId, newId).value.0)
  {
    if !Holds(rows, LandlordUser, userId) {
      var l := BlankLandlord(newId, userId);
      AppendUnique(rows, LandlordId, l);
      AppendUnique(rows, LandlordUser, l);
    }
  }

  lemma UpdateKeepsValid(rows: seq<LandlordProfile>, users: set<Id>, id: Id, p: LandlordPatch)
    requires Valid(rows)
    ensures Update(rows, users, id, p).Ok? ==> Valid(Update(rows, users, id, p).value.0)
  {
    var r := Update(rows, users, id, p);
    if r.Ok? {
      var i := Locate(rows, LandlordId, id).value;
      var l := Apply(rows[i], p);
      assert r.value.0 == rows[i := l];
      ReplaceUnique(rows, LandlordId, i, l);
      ReplaceUnique(rows, LandlordUser, i, l);
    }
  }
}

=== FILE: media.dfy ===
/** The media library (`src/modules/media/media.service.ts`): folders and file
    records, each stamped with its owner, and the owner checks in front of
    every change.
 */
module Media {
  import opened Wrappers
  import opened Text
  import opened Seqs
  import opened Tables

  type Time = nat

  datatype MediaType = Image | Video | Avatar

  datatype MediaFolder = MediaFolder(
    id: Id,
    name: string,
    description: Option<string>,
    path: string,
    ownerUserId: Id,
    createdAt: Time)

  /** `ownerUserId`, `propertyId` and `folderId` are nullable columns. */
  datatype MediaFile = MediaFile(
    id: Id,
    filename: string,
    url: string,
    s3Key: string,
    mediaType: MediaType,
    contentType: string,
    propertyId: Option<Id>,
    ownerUserId: Option<Id>,
    order: int,
    createdAt: Time,
    folderId: Option<Id>)

  /** The folder body. Its `propertyId` is not a folder column and is not stored. */
  datatype CreateFolderDto = CreateFolderDto(name: string, path: string, propertyId: Option<Id>)

  /** The body of `PATCH media/folders/:id`. It is declared as a partial
      folder body, but that type is erased at run time, so the validation
      pipe does not check it and `Object.assign` copies whatever keys it
      carries: any folder column may arrive, the id and the owner included.
      (`propertyId` is not a folder column and is not saved.) */
  datatype FolderPatch = FolderPatch(
    id: Option<Id>,
    name: Option<string>,
    description: Option<string>,
    path: Option<string>,
    ownerUserId: Option<Id>)

  datatype CreateFileDto = CreateFileDto(
    filename: string,
    url: string,
    s3Key: string,
    contentType: string,
    mediaType: MediaType,
    propertyId: Option<Id>,
    folderId: Option<Id>)

  /** The body of `PATCH media/files/:id`, unchecked in the same way: any
      file column may arrive. */
  datatype FilePatch = FilePatch(
    id: Option<Id>,
    filename: Option<string>,
    url: Option<string>,
    s3Key: Option<string>,
    contentType: Option<string>,
    mediaType: Option<MediaType>,
    propertyId: Option<Id>,
    ownerUserId: Option<Id>,
    order: Option<int>,
    folderId: Option<Id>)

  datatype Db = Db(folders: seq<MediaFolder>, files: seq<MediaFile>)

  function FolderId(f: MediaFolder): string { f.id }
  function FileId(f: MediaFile): string { f.id }

  /** A file's folder, when it has one, exists (`folder_id` is a foreign key). */
  predicate FolderRefOk(db: Db, folderId: Option<Id>) {
    folderId.None? || Holds(db.folders, FolderId, folderId.value)
  }

  predicate Valid(db: Db) {
    && UniqueBy(db.folders, FolderId)
    && UniqueBy(db.files, FileId)
    && forall i :: 0 <= i < |db.files| ==> FolderRefOk(db, db.files[i].folderId)
  }

  /** `createFolder(dto, ownerUserId)`: the owner is the caller's. */
  function CreateFolder(db: Db, dto: CreateFolderDto, ownerUserId: Id, newId: Id, now: Time): (r: (Db, MediaFolder))
    ensures r.0 == db.(folders := db.folders + [r.1])
    ensures r.1 == MediaFolder(newId, dto.name, None, dto.path, ownerUserId, now)
  {
    var f := MediaFolder(newId, dto.name, None, dto.path, ownerUserId, now);
    (db.(folders := db.folders + [f]), f)
  }

  /** `registerFile(dto, ownerUserId)`: the owner is the caller's, the order
      starts at 0; a folder id must name a folder. */
  function RegisterFile(db: Db, dto: CreateFileDto, ownerUserId: Id, newId: Id, now: Time): (r: Result<(Db, MediaFile)>)
    ensures r.Err? <==> !FolderRefOk(db, dto.folderId)
    ensures r.Err? ==> r.error == QueryFailed
    ensures r.Ok? ==> r.value.0 == db.(files := db.files + [r.value.1])
    ensures r.Ok? ==> r.value.1 == MediaFile(newId, dto.filename, dto.url, dto.s3Key, dto.mediaType, dto.contentType,
      dto.propertyId, Some(ownerUserId), 0, now, dto.folderId)
  {
    if !FolderRefOk(db, dto.folderId) then Err(QueryFailed)
    else
      var f := MediaFile(newId, dto.filename, dto.url, dto.s3Key, dto.mediaType, dto.contentType,
        dto.propertyId, Some(ownerUserId), 0, now, dto.folderId);
      Ok((db.(files := db.files + [f]), f))
  }

  /** The folder `id`, checked to belong to `ownerUserId`: NotFound, then Forbidden. */
  function OwnedFolder(db: Db, id: Id, ownerUserId: Id): (r: Result<nat>)
    ensures r.Err? ==> r.error in {NotFound, Forbidden}
    ensures r == Err(NotFound) <==> !Holds(db.folders, FolderId, id)
    ensures r.Ok? ==> r.value < |db.folders| && db.folders[r.value].id == id && db.folders[r.value].ownerUserId == ownerUserId
    ensures r.Ok? ==> forall j :: 0 <= j < r.value ==> db.folders[j].id != id
    ensures r == Err(Forbidden) ==> exists j :: 0 <= j < |db.folders| && db.folders[j].id == id && db.folders[j].ownerUserId != ownerUserId
  {
    match Locate(db.folders, FolderId, id)
    case None => Err(NotFound)
    case Some(i) => if db.folders[i].ownerUserId != ownerUserId then Err(Forbidden) else Ok(i)
  }

  /** The file `id`, checked to belong to `ownerUserId`; a file without an
      owner belongs to no one. */
  function OwnedFile(db: Db, id: Id, ownerUserId: Id): (r: Result<nat>)
    ensures r.Err? ==> r.error in {NotFound, Forbidden}
    ensures r == Err(NotFound) <==> !Holds(db.files, FileId, id)
    ensures r.Ok? ==> r.value < |db.files| && db.files[r.value].id == id && db.files[r.value].ownerUserId == Some(ownerUserId)
    ensures r == Err(Forbidden) ==> exists j :: 0 <= j < |db.files| && db.files[j].id == id && db.files[j].ownerUserId != Some(ownerUserId)
  {
    match Locate(db.files, FileId, id)
    case None => Err(NotFound)
    case Some(i) => if db.files[i].ownerUserId != Some(ownerUserId) then Err(Forbidden) else Ok(i)
  }

  /** `listFilesByFolder(folderId, ownerUserId)`: the guard, then that folder's files. */
  function ListFilesByFolder(db: Db, folderId: Id, ownerUserId: Id): (r: Result<seq<MediaFile>>)
    ensures r.Err? <==> OwnedFolder(db, folderId, ownerUserId).Err?
    ensures r.Err? ==> r.error == OwnedFolder(db, folderId, ownerUserId).error
    ensures r.Ok? ==> forall x :: x in r.value <==> x in db.files && x.folderId == Some(folderId)
  {
    var _ :- OwnedFolder(db, folderId, ownerUserId);
    Ok(Filter(db.files, (f: MediaFile) => f.folderId == Some(folderId)))
  }

  /** `listFilesByProperty(propertyId, ownerUserId)`. The controller passes
      an omitted query parameter through as undefined, which drops out of the
      where clause: every file of the caller is listed. */
  function ListFilesByProperty(db: Db, propertyId: Option<Id>, ownerUserId: Id): (r: seq<MediaFile>)
    ensures forall x :: x in r <==>
      x in db.files && x.ownerUserId == Some(ownerUserId) && (propertyId.None? || x.propertyId == propertyId)
  {
    Filter(db.files, (f: MediaFile) => f.ownerUserId == Some(ownerUserId) && (propertyId.None? || f.propertyId == propertyId))
  }

  /** `Object.assign(folder, data)`: every key present in the patch overwrites its column. */
  function ApplyFolder(f: MediaFolder, p: FolderPatch): MediaFolder {
    MediaFolder(p.id.GetOr(f.id), p.name.GetOr(f.name),
      if p.description.Some? then p.description else f.description,
      p.path.GetOr(f.path), p.ownerUserId.GetOr(f.ownerUserId), f.createdAt)
  }

  /** `folderRepo.save(folder)`: the row holding the entity's id, when there
      is one, takes the entity's columns but keeps its creation time;
      otherwise the entity is inserted. */
  function SaveFolder(rows: seq<MediaFolder>, f: MediaFolder): (r: seq<MediaFolder>)
    ensures !Holds(rows, FolderId, f.id) ==> r == rows + [f]
    ensures Holds(rows, FolderId, f.id) ==> exists j :: (0 <= j < |rows| && rows[j].id == f.id
      && (forall k :: 0 <= k < j ==> rows[k].id != f.id) && r == rows[j := f.(createdAt := rows[j].createdAt)])
  {
    match Locate(rows, FolderId, f.id)
    case None => rows + [f]
    case Some(j) => rows[j := f.(createdAt := rows[j].createdAt)]
  }

  /** `updateFolder(id, data, ownerUserId)`: the owner check on the folder
      `id`, then the patched entity is saved under whatever id it now has. */
  function UpdateFolder(db: Db, id: Id, p: FolderPatch, ownerUserId: Id): (r: Result<(Db, MediaFolder)>)
    ensures r.Err? <==> OwnedFolder(db, id, ownerUserId).Err?
    ensures r.Err? ==> r.error == OwnedFolder(db, id, ownerUserId).error
    ensures r.Ok? ==> exists i :: (0 <= i < |db.folders| && db.folders[i].id == id && db.folders[i].ownerUserId == ownerUserId
      && r.value.1 == ApplyFolder(db.folders[i], p) && r.value.0 == db.(folders := SaveFolder(db.folders, r.value.1)))
  {
    var i :- OwnedFolder(db, id, ownerUserId);
    var f := ApplyFolder(db.folders[i], p);
    Ok((db.(folders := SaveFolder(db.folders, f)), f))
  }

  /** A patch that names neither the id nor the owner: the only kind the
      update evidently means to accept. */
  predicate KeepsIdentity(id: Option<Id>, ownerUserId: Option<Id>) {
    id.None? && ownerUserId.None?
  }

  /** `updateFolder` with the body checked: a patch that names the id or the
      owner is refused before anything is read. The folder then keeps its
      id and its owner, and no other folder changes. */
  function UpdateFolderChecked(db: Db, id: Id, p: FolderPatch, ownerUserId: Id): (r: Result<(Db, MediaFolder)>)
    ensures !KeepsIdentity(p.id, p.ownerUserId) ==> r == Err(BadRequest)
    ensures KeepsIdentity(p.id, p.ownerUserId) ==> (r.Err? <==> OwnedFolder(db, id, ownerUserId).Err?)
    ensures r.Ok? ==> exists i :: (0 <= i < |db.folders| && db.folders[i].id == id
      && r.value.1 == ApplyFolder(db.folders[i], p)
      && r.value.1.id == id && r.value.1.ownerUserId == ownerUserId
      && r.value.1.name == p.name.GetOr(db.folders[i].name) && r.value.1.path == p.path.GetOr(db.folders[i].path)
      && r.value.0 == db.(folders := db.folders[i := r.value.1]))
  {
    if !KeepsIdentity(p.id, p.ownerUserId) then Err(BadRequest)
    else
      var i :- OwnedFolder(db, id, ownerUserId);
      var f := ApplyFolder(db.folders[i], p);
      assert SaveFolder(db.folders, f) == db.folders[i := f];
      Ok((db.(folders := db.folders[i := f]), f))
  }

  /** The files after folder `id` is deleted: `ON DELETE SET NULL` detaches them. */
  function Detach(files: seq<MediaFile>, id: Id): (r: seq<MediaFile>)
    ensures |r| == |files|
    ensures forall i :: 0 <= i < |files| ==> r[i] == if files[i].folderId == Some(id) then files[i].(folderId := None) else files[i]
  {
    Map(files, (f: MediaFile) => if f.folderId == Some(id) then f.(folderId := None) else f)
  }

  /** `deleteFolder(id, ownerUserId)`: the folder goes, its files stay without a folder. */
  function DeleteFolder(db: Db, id: Id, ownerUserId: Id): (r: Result<Db>)
    ensures r.Err? <==> OwnedFolder(db, id, ownerUserId).Err?
    ensures r.Err? ==> r.error == OwnedFolder(db, id, ownerUserId).error
    ensures r.Ok? ==> r.value.files == Detach(db.files, id)
    ensures r.Ok? ==> |r.value.folders| == |db.folders| - 1 && forall x :: x in r.value.folders ==> x in db.folders
  {
    var i :- OwnedFolder(db, id, ownerUserId);
    Ok(Db(RemoveAt(db.folders, i), Detach(db.files, id)))
  }

  /** `Object.assign(file, data)`: every key present in the patch overwrites its column. */
  function ApplyFile(f: MediaFile, p: FilePatch): MediaFile {
    f.(id := p.id.GetOr(f.id),
       filename := p.filename.GetOr(f.filename), url := p.url.GetOr(f.url), s3Key := p.s3Key.GetOr(f.s3Key),
       contentType := p.contentType.GetOr(f.contentType), mediaType := p.mediaType.GetOr(f.mediaType),
       propertyId := if p.propertyId.Some? then p.propertyId else f.propertyId,
       ownerUserId := if p.ownerUserId.Some? then p.ownerUserId else f.ownerUserId,
       order := p.order.GetOr(f.order),
       folderId := if p.folderId.Some? then p.folderId else f.folderId)
  }

  /** `fileRepo.save(file)`, as `SaveFolder`. */
  function SaveFile(rows: seq<MediaFile>, f: MediaFile): (r: seq<MediaFile>)
    ensures !Holds(rows, FileId, f.id) ==> r == rows + [f]
    ensures Holds(rows, FileId, f.id) ==> exists j :: (0 <= j < |rows| && rows[j].id == f.id
      && (forall k :: 0 <= k < j ==> rows[k].id != f.id) && r == rows[j := f.(createdAt := rows[j].createdAt)])
  {
    match Locate(rows, FileId, f.id)
    case None => rows + [f]
    case Some(j) => rows[j := f.(createdAt := rows[j].createdAt)]
  }

  /** `updateFile(id, data, ownerUserId)`: the guard, then the present keys
      overwrite and the entity is saved under whatever id it now has; a
      folder id that names no folder is refused by the foreign key. */
  function UpdateFile(db: Db, id: Id, p: FilePatch, ownerUserId: Id): (r: Result<(Db, MediaFile)>)
    ensures OwnedFile(db, id, ownerUserId).Err? ==> r == Err(OwnedFile(db, id, ownerUserId).error)
    ensures r.Err? ==> r.error in {NotFound, Forbidden, QueryFailed}
    ensures r.Ok? ==> FolderRefOk(db, r.value.1.folderId)
    ensures OwnedFile(db, id, ownerUserId).Ok? ==>
      (r.Ok? <==> FolderRefOk(db, ApplyFile(db.files[OwnedFile(db, id, ownerUserId).value], p).folderId))
    ensures r.Ok? ==> exists i :: (0 <= i < |db.files| && db.files[i].id == id && db.files[i].ownerUserId == Some(ownerUserId)
      && r.value.1 == ApplyFile(db.files[i], p) && r.value.0 == db.(files := SaveFile(db.files, r.value.1)))
  {
    var i :- OwnedFile(db, id, ownerUserId);
    var f := ApplyFile(db.files[i], p);
    if !FolderRefOk(db, f.folderId) then Err(QueryFailed)
    else Ok((db.(files := SaveFile(db.files, f)), f))
  }

  /** `updateFile` with the body checked, as `UpdateFolderChecked`: the file
      keeps its id and its owner, and no other file changes. */
  function UpdateFileChecked(db: Db, id: Id, p: FilePatch, ownerUserId: Id): (r: Result<(Db, MediaFile)>)
    ensures !KeepsIdentity(p.id, p.ownerUserId) ==> r == Err(BadRequest)
    ensures KeepsIdentity(p.id, p.ownerUserId) && OwnedFile(db, id, ownerUserId).Err? ==> r == Err(OwnedFile(db, id, ownerUserId).error)
    ensures KeepsIdentity(p.id, p.ownerUserId) && OwnedFile(db, id, ownerUserId).Ok? ==>
      (r.Ok? <==> FolderRefOk(db, ApplyFile(db.files[OwnedFile(db, id, ownerUserId).value], p).folderId))
    ensures r.Ok? ==> exists i :: (0 <= i < |db.files| && db.files[i].id == id
      && r.value.1 == ApplyFile(db.files[i], p)
      && r.value.1.id == id && r.value.1.ownerUserId == Some(ownerUserId)
      && r.value.1.order == p.order.GetOr(db.files[i].order)
      && r.value.0 == db.(files := db.files[i := r.value.1]))
  {
    if !KeepsIdentity(p.id, p.ownerUserId) then Err(BadRequest)
    else
      var i :- OwnedFile(db, id, ownerUserId);
      var f := ApplyFile(db.files[i], p);
      assert SaveFile(db.files, f) == db.files[i := f];
      if !FolderRefOk(db, f.folderId) then Err(QueryFailed)
      else Ok((db.(files := db.files[i := f]), f))
  }

  /** `deleteFile(id, ownerUserId)`. */
  function DeleteFile(db: Db, id: Id, ownerUserId: Id): (r: Result<Db>)
    ensures r.Err? <==> OwnedFile(db, id, ownerUserId).Err?
    ensures r.Err? ==> r.error == OwnedFile(db, id, ownerUserId).error
    ensures r.Ok? ==> r.value.folders == db.folders
    ensures r.Ok? ==> |r.value.files| == |db.files| - 1 && forall x :: x in r.value.files ==> x in db.files
  {
    var i :- OwnedFile(db, id, ownerUserId);
    Ok(db.(files := RemoveAt(db.files, i)))
  }

  // ---------------------------------------------------------------------
  // Listings

  predicate NewerFolder(a: MediaFolder, b: MediaFolder) { a.createdAt >= b.createdAt }
  predicate NewerFile(a: MediaFile, b: MediaFile) { a.createdAt >= b.createdAt }

  /** `properties/<propertyId>/`, the path prefix of a property's folders. */
  function PropertyPrefix(propertyId: Id): (r: string)
    ensures |r| == |"properties/"| + |propertyId| + 1 && r[|r| - 1] == '/'
    ensures r[..|"properties/"|] == "properties/" && r[|"properties/"|..|r| - 1] == propertyId
  {
    "properties/" + propertyId + "/"
  }

  /** The caller's folder whose path matches `LIKE 'properties/<propertyId>/%'`. */
  predicate UnderProperty(propertyId: Id, ownerUserId: Id, f: MediaFolder) {
    f.ownerUserId == ownerUserId && Like(f.path, PropertyPrefix(propertyId) + "%")
  }

  /** `listFoldersByProperty(propertyId, ownerUserId)`: the caller's folders
      whose path matches the property's pattern, newest first. */
  function ListFoldersByProperty(db: Db, propertyId: Id, ownerUserId: Id): (r: seq<MediaFolder>)
    ensures multiset(r) == multiset(Filter(db.folders, (f: MediaFolder) => UnderProperty(propertyId, ownerUserId, f)))
  {
    Sort(Filter(db.folders, (f: MediaFolder) => UnderProperty(propertyId, ownerUserId, f)), NewerFolder)
  }

  lemma ListFoldersByPropertySpec(db: Db, propertyId: Id, ownerUserId: Id)
    ensures SortedBy(ListFoldersByProperty(db, propertyId, ownerUserId), NewerFolder)
    ensures forall x :: x in ListFoldersByProperty(db, propertyId, ownerUserId) <==>
      x in db.folders && x.ownerUserId == ownerUserId && Like(x.path, PropertyPrefix(propertyId) + "%")
  {
    var p := (f: MediaFolder) => UnderProperty(propertyId, ownerUserId, f);
    SortSorted(Filter(db.folders, p), NewerFolder);
    SortFilterMembers(db.folders, p, NewerFolder);
  }

  /** For a property id without `%` or backslash the listing tests the
      path's first characters against the prefix one by one: letter case is
      ignored, and an `_` in the id matches any character. */
  lemma ListFoldersByPlainId(db: Db, propertyId: Id, ownerUserId: Id)
    requires forall k :: 0 <= k < |propertyId| ==> propertyId[k] != '%' && propertyId[k] != '\\'
    ensures var prefix := PropertyPrefix(propertyId);
      forall x :: x in ListFoldersByProperty(db, propertyId, ownerUserId) <==>
        && x in db.folders && x.ownerUserId == ownerUserId
        && |prefix| <= |x.path| && forall k :: 0 <= k < |prefix| ==> MatchesChar(prefix[k], x.path[k])
  {
    var prefix := PropertyPrefix(propertyId);
    PlainPrefix(propertyId);
    ListFoldersByPropertySpec(db, propertyId, ownerUserId);
    forall x: MediaFolder {
      LikePrefix(x.path, prefix);
    }
  }

  /** Example: the id `a_b` lists a folder under `Properties/AXB/`, as the
      underscore matches any character and letter case is ignored. */
  lemma WildcardIdExample(f: MediaFolder)
    requires f.ownerUserId == "u" && f.path == "Properties/AXB/"
    ensures UnderProperty("a_b", "u", f)
  {
    var prefix := PropertyPrefix("a_b");
    assert prefix == "properties/a_b/";
    LikePrefix(f.path, prefix);
  }

  /** The prefix adds no `%` or backslash to the id. */
  lemma PlainPrefix(propertyId: Id)
    requires forall k :: 0 <= k < |propertyId| ==> propertyId[k] != '%' && propertyId[k] != '\\'
    ensures var prefix := PropertyPrefix(propertyId);
      forall k :: 0 <= k < |prefix| ==> prefix[k] != '%' && prefix[k] != '\\'
  {
    var prefix := PropertyPrefix(propertyId);
    var n := |"properties/"|;
    forall k | 0 <= k < |prefix| ensures prefix[k] != '%' && prefix[k] != '\\' {
      if k < n {
        assert prefix[k] == prefix[..n][k];
      } else if k < |prefix| - 1 {
        assert prefix[k] == prefix[n..|prefix| - 1][k - n];
      }
    }
  }

  /** The optional query of `listMyFiles`. */
  datatype ListOptions = ListOptions(mediaType: Option<MediaType>, search: Option<string>, limit: Option<int>, offset: Option<int>)

  /** The caller's files of the type asked for (`if (options?.type)`). */
  predicate MineOfType(ownerUserId: Id, mediaType: Option<MediaType>, f: MediaFile) {
    f.ownerUserId == Some(ownerUserId) && (mediaType.None? || f.mediaType == mediaType.value)
  }

  /** The caller's files of the type asked for, newest first, before paging. */
  function MyFiles(db: Db, ownerUserId: Id, mediaType: Option<MediaType>): (r: seq<MediaFile>)
    ensures multiset(r) == multiset(Filter(db.files, (f: MediaFile) => MineOfType(ownerUserId, mediaType, f)))
  {
    Sort(Filter(db.files, (f: MediaFile) => MineOfType(ownerUserId, mediaType, f)), NewerFile)
  }

  lemma MyFilesSpec(db: Db, ownerUserId: Id, mediaType: Option<MediaType>)
    ensures SortedBy(MyFiles(db, ownerUserId, mediaType), NewerFile)
    ensures forall x :: x in MyFiles(db, ownerUserId, mediaType) <==>
      x in db.files && x.ownerUserId == Some(ownerUserId) && (mediaType.None? || x.mediaType == mediaType.value)
  {
    var p := (f: MediaFile) => MineOfType(ownerUserId, mediaType, f);
    SortSorted(Filter(db.files, p), NewerFile);
    SortFilterMembers(db.files, p, NewerFile);
  }

  /** `listMyFiles(ownerUserId, options)` as written. The search condition
      uses `ILIKE`, which MySQL (the configured database) does not have, so
      any non-empty search makes the statement fail. Limit and offset are
      applied only when given, through the ORM's rendering. */
  function ListMyFiles(db: Db, ownerUserId: Id, o: ListOptions): (r: Result<seq<MediaFile>>)
    ensures o.search.Some? && o.search.value != [] ==> r == Err(QueryFailed)
    ensures o.search.None? || o.search.value == [] ==> r == Window(MyFiles(db, ownerUserId, o.mediaType), o.limit, o.offset)
  {
    if o.search.Some? && o.search.value != [] then Err(QueryFailed)
    else Window(MyFiles(db, ownerUserId, o.mediaType), o.limit, o.offset)
  }

  /** Example of the failing search `ListMyFiles` states for every non-empty
      search: "casa" fails, however the caller's files look. */
  lemma SearchAlwaysFails(db: Db, ownerUserId: Id, mediaType: Option<MediaType>)
    ensures ListMyFiles(db, ownerUserId, ListOptions(mediaType, Some("casa"), None, None)) == Err(QueryFailed)
  {
  }

  /** `filename LIKE '%s%' OR url LIKE '%s%'` under a case-insensitive collation. */
  predicate Matches(search: string, f: MediaFile) {
    Contains(ToLowerAscii(f.filename), ToLowerAscii(search)) || Contains(ToLowerAscii(f.url), ToLowerAscii(search))
  }

  /** `listMyFiles` with the search the condition evidently means: a
      case-insensitive substring of the file name or the url. */
  function ListMyFilesMatching(db: Db, ownerUserId: Id, o: ListOptions): (r: Result<seq<MediaFile>>)
    ensures r.Ok? ==> forall x :: x in r.value ==> x in db.files && MineOfType(ownerUserId, o.mediaType, x)
    ensures r.Ok? && o.search.Some? && o.search.value != [] ==> forall x :: x in r.value ==> Matches(o.search.value, x)
    ensures o.search.None? || o.search.value == [] ==> r == ListMyFiles(db, ownerUserId, o)
  {
    var mine := MyFiles(db, ownerUserId, o.mediaType);
    var found := if o.search.Some? && o.search.value != [] then Filter(mine, (f: MediaFile) => Matches(o.search.value, f)) else mine;
    WindowWithin(found, o.limit, o.offset);
    MyFilesSpec(db, ownerUserId, o.mediaType);
    Window(found, o.limit, o.offset)
  }

  /** Without paging, a search keeps every one of the caller's files it matches. */
  lemma MatchingFindsAll(db: Db, ownerUserId: Id, search: string, x: MediaFile)
    requires search != []
    requires x in db.files && x.ownerUserId == Some(ownerUserId) && Matches(search, x)
    ensures var r := ListMyFilesMatching(db, ownerUserId, ListOptions(None, Some(search), None, None));
      r.Ok? && x in r.value
  {
    MyFilesSpec(db, ownerUserId, None);
  }

  // ---------------------------------------------------------------------
  // Ownership is stable

  /** A registered file is listed among its owner's files. */
  lemma RegisteredFileListed(db: Db, dto: CreateFileDto, ownerUserId: Id, newId: Id, now: Time)
    requires RegisterFile(db, dto, ownerUserId, newId, now).Ok?
    ensures var (db1, f) := RegisterFile(db, dto, ownerUserId, newId, now).value;
      ListMyFiles(db1, ownerUserId, ListOptions(None, None, None, None)).Ok?
      && f in ListMyFiles(db1, ownerUserId, ListOptions(None, None, None, None)).value
  {
    var (db1, f) := RegisterFile(db, dto, ownerUserId, newId, now).value;
    assert db1.files[|db.files|] == f;
    MyFilesSpec(db1, ownerUserId, None);
  }

  // ---------------------------------------------------------------------
  // Updates as written: the patch can name the owner and the id

  /** The owner of a folder can hand it to any other user: afterwards the
      old owner is refused and the new one admitted. */
  lemma UpdateFolderHandsOver(db: Db, id: Id, ownerUserId: Id, other: Id)
    requires OwnedFolder(db, id, ownerUserId).Ok?
    requires other != ownerUserId
    ensures var r := UpdateFolder(db, id, FolderPatch(None, None, None, None, Some(other)), ownerUserId);
      && r.Ok?
      && OwnedFolder(r.value.0, id, ownerUserId) == Err(Forbidden)
      && OwnedFolder(r.value.0, id, other).Ok?
  {
    var i := OwnedFolder(db, id, ownerUserId).value;
    var f := ApplyFolder(db.folders[i], FolderPatch(None, None, None, None, Some(other)));
    LocateReplace(db.folders, FolderId, i, f, id);
  }

  /** The owner of one folder can take over another user's folder by
      patching its own folder with the other folder's id: the save then
      overwrites that row, owner column included. */
  lemma UpdateFolderTakesOver(db: Db, id: Id, ownerUserId: Id, victim: Id)
    requires OwnedFolder(db, id, ownerUserId).Ok?
    requires OwnedFolder(db, victim, ownerUserId) == Err(Forbidden)
    ensures var r := UpdateFolder(db, id, FolderPatch(Some(victim), None, None, None, None), ownerUserId);
      && r.Ok?
      && OwnedFolder(r.value.0, victim, ownerUserId).Ok?
  {
    var i := OwnedFolder(db, id, ownerUserId).value;
    var f := ApplyFolder(db.folders[i], FolderPatch(Some(victim), None, None, None, None));
    var j := Locate(db.folders, FolderId, victim).value;
    LocateReplace(db.folders, FolderId, j, f.(createdAt := db.folders[j].createdAt), victim);
  }

  /** The owner of a file can hand it to any other user in the same way. */
  lemma UpdateFileHandsOver(db: Db, id: Id, ownerUserId: Id, other: Id)
    requires Valid(db)
    requires OwnedFile(db, id, ownerUserId).Ok?
    requires other != ownerUserId
    ensures var r := UpdateFile(db, id, FilePatch(None, None, None, None, None, None, None, Some(other), None, None), ownerUserId);
      && r.Ok?
      && OwnedFile(r.value.0, id, ownerUserId) == Err(Forbidden)
      && OwnedFile(r.value.0, id, other).Ok?
  {
    var i := OwnedFile(db, id, ownerUserId).value;
    var f := ApplyFile(db.files[i], FilePatch(None, None, None, None, None, None, None, Some(other), None, None));
    assert FolderRefOk(db, db.files[i].folderId);
    LocateReplace(db.files, FileId, i, f, id);
  }

  /** Whatever the patch, an update keeps the ids unique and every file's folder existing. */
  lemma UpdateFolderKeepsValid(db: Db, id: Id, p: FolderPatch, ownerUserId: Id)
    requires Valid(db)
    ensures UpdateFolder(db, id, p, ownerUserId).Ok? ==> Valid(UpdateFolder(db, id, p, ownerUserId).value.0)
  {
    var r := UpdateFolder(db, id, p, ownerUserId);
    if r.Ok? {
      var i := OwnedFolder(db, id, ownerUserId).value;
      var f := ApplyFolder(db.folders[i], p);
      var db1 := r.value.0;
      match Locate(db.folders, FolderId, f.id)
      case None =>
        AppendUnique(db.folders, FolderId, f);
        forall k | 0 <= k < |db1.files| ensures FolderRefOk(db1, db1.files[k].folderId) {
          if db1.files[k].folderId.Some? {
            var g :| 0 <= g < |db.folders| && db.folders[g].id == db1.files[k].folderId.value;
            assert db1.folders[g] == db.folders[g];
          }
        }
      case Some(j) =>
        var x := f.(createdAt := db.folders[j].createdAt);
        ReplaceUnique(db.folders, FolderId, j, x);
        forall k | 0 <= k < |db1.files| ensures FolderRefOk(db1, db1.files[k].folderId) {
          if db1.files[k].folderId.Some? {
            ReplaceHolds(db.folders, FolderId, j, x, db1.files[k].folderId.value);
          }
        }
    }
  }

  lemma UpdateFileKeepsValid(db: Db, id: Id, p: FilePatch, ownerUserId: Id)
    requires Valid(db)
    ensures UpdateFile(db, id, p, ownerUserId).Ok? ==> Valid(UpdateFile(db, id, p, ownerUserId).value.0)
  {
    var r := UpdateFile(db, id, p, ownerUserId);
    if r.Ok? {
      var i := OwnedFile(db, id, ownerUserId).value;
      var f := ApplyFile(db.files[i], p);
      var db1 := r.value.0;
      assert db1.folders == db.folders;
      match Locate(db.files, FileId, f.id)
      case None =>
        AppendUnique(db.files, FileId, f);
        assert forall k :: 0 <= k < |db.files| ==> db1.files[k] == db.files[k];
      case Some(j) =>
        var x := f.(createdAt := db.files[j].createdAt);
        ReplaceUnique(db.files, FileId, j, x);
        assert forall k :: 0 <= k < |db.files| && k != j ==> db1.files[k] == db.files[k];
    }
  }

  // ---------------------------------------------------------------------
  // Updates with the body checked: ownership is stable

  /** Through a checked update nobody's access to any folder changes. */
  lemma UpdateFolderCheckedKeepsOwners(db: Db, id: Id, p: FolderPatch, ownerUserId: Id, fid: Id, u: Id)
    requires UpdateFolderChecked(db, id, p, ownerUserId).Ok?
    ensures OwnedFolder(UpdateFolderChecked(db, id, p, ownerUserId).value.0, fid, u) == OwnedFolder(db, fid, u)
  {
    var i := OwnedFolder(db, id, ownerUserId).value;
    var f := UpdateFolderChecked(db, id, p, ownerUserId).value.1;
    LocateReplace(db.folders, FolderId, i, f, fid);
  }

  /** Through a checked update nobody's access to any file changes. */
  lemma UpdateFileCheckedKeepsOwners(db: Db, id: Id, p: FilePatch, ownerUserId: Id, fid: Id, u: Id)
    requires UpdateFileChecked(db, id, p, ownerUserId).Ok?
    ensures OwnedFile(UpdateFileChecked(db, id, p, ownerUserId).value.0, fid, u) == OwnedFile(db, fid, u)
  {
    var i := OwnedFile(db, id, ownerUserId).value;
    var f := UpdateFileChecked(db, id, p, ownerUserId).value.1;
    LocateReplace(db.files, FileId, i, f, fid);
  }

  /** Deleting a folder keeps the file table's foreign key intact. */
  lemma DeleteFolderKeepsValid(db: Db, id: Id, ownerUserId: Id)
    requires Valid(db)
    ensures DeleteFolder(db, id, ownerUserId).Ok? ==> Valid(DeleteFolder(db, id, ownerUserId).value)
  {
    var r := DeleteFolder(db, id, ownerUserId);
    if r.Ok? {
      var i := OwnedFolder(db, id, ownerUserId).value;
      RemoveAtUnique(db.folders, FolderId, i);
      var files := Detach(db.files, id);
      forall k | 0 <= k < |files| ensures FolderRefOk(r.value, files[k].folderId) {
        if files[k].folderId.Some? {
          var g := files[k].folderId.value;
          assert g != id;
          var j :| 0 <= j < |db.folders| && db.folders[j].id == g;
          assert j != i;
          var j' := if j < i then j else j - 1;
          assert r.value.folders[j'] == db.folders[j];
        }
      }
    }
  }
}

=== FILE: properties.dfy ===
/** Property listings (`src/modules/properties/services/properties.service.ts`):
    creating a listing with its gallery and services, the owner-scoped
    lookup that guards update and remove, and how an update re-synchronises
    the media files, the image records and the features.

    Media files are the media library's rows; their `property_id` column is
    a plain column, not a foreign key. Images and features belong to a
    listing through a foreign key that cascades on delete. The two branches
    the service runs with `Promise.all` touch disjoint tables, so they are
    composed one after the other.
 */
module Properties {
  import opened Wrappers
  import opened Text
  import opened Seqs
  import opened Tables
  import Media

  type Time = nat
  type MediaFile = Media.MediaFile

  datatype PropertyType = Room | Apartment | House
  datatype PropertyStatus = Available | Rented | Reserved | Draft

  /** The listing columns the service reads or writes. Prices, coordinates and
      sizes are decimals and are not modelled. `includedServices` is a
      nullable JSON column that the service also turns into features. */
  datatype Property = Property(
    id: Id,
    landlordId: Id,
    title: string,
    description: string,
    propertyType: PropertyType,
    address: string,
    city: string,
    status: PropertyStatus,
    includedServices: Option<seq<string>>,
    createdAt: Time)

  /** An image record; its own uuid is never read by the service and is left out. */
  datatype PropertyImage = PropertyImage(url: string, filename: string, is360Tour: bool, order: int, propertyId: Id)

  /** A feature record; its own uuid is left out likewise. */
  datatype PropertyFeature = PropertyFeature(name: string, value: string, propertyId: Id)

  /** The creation body. `mediaFileIds` and `includedServices` are `None`
      when they are not arrays. */
  datatype CreatePropertyDto = CreatePropertyDto(
    title: string,
    description: string,
    propertyType: PropertyType,
    address: string,
    city: string,
    status: Option<PropertyStatus>,
    includedServices: Option<seq<string>>,
    mediaFileIds: Option<seq<Id>>)

  /** The update body: every present key overwrites. */
  datatype PropertyPatch = PropertyPatch(
    title: Option<string>,
    description: Option<string>,
    propertyType: Option<PropertyType>,
    address: Option<string>,
    city: Option<string>,
    status: Option<PropertyStatus>,
    includedServices: Option<seq<string>>,
    mediaFileIds: Option<seq<Id>>)

  /** `users` are the user ids a listing's `landlord_id` may reference. */
  datatype Db = Db(
    users: set<Id>,
    properties: seq<Property>,
    images: seq<PropertyImage>,
    features: seq<PropertyFeature>,
    files: seq<MediaFile>)

  function PropertyId(p: Property): string { p.id }

  /** The tables' constraints: unique listing ids, and every foreign key
      (`landlord_id`, the images' and features' `property_id`) resolves. */
  predicate Valid(db: Db) {
    && UniqueBy(db.properties, PropertyId)
    && (forall i :: 0 <= i < |db.properties| ==> db.properties[i].landlordId in db.users)
    && (forall i :: 0 <= i < |db.images| ==> Holds(db.properties, PropertyId, db.images[i].propertyId))
    && (forall i :: 0 <= i < |db.features| ==> Holds(db.properties, PropertyId, db.features[i].propertyId))
  }

  // ---------------------------------------------------------------------
  // Derived records

  /** A file is a 360° tour when its lower-cased name contains "360" or "tour". */
  predicate Is360(filename: string) {
    var lower := ToLowerAscii(filename);
    Contains(lower, "360") || Contains(lower, "tour")
  }

  /** The image record for a gallery file at position `order`. */
  function ImageOf(pid: Id, f: MediaFile, order: int): PropertyImage {
    PropertyImage(f.url, f.filename, Is360(f.filename), order, pid)
  }

  /** `files.map((file, index) => ...)` with orders counted from `start`. */
  function ImagesOf(files: seq<MediaFile>, pid: Id, start: int): (r: seq<PropertyImage>)
    ensures |r| == |files|
    ensures forall k :: 0 <= k < |r| ==> r[k].order == start + k && r[k].propertyId == pid
    ensures forall k :: 0 <= k < |r| ==>
      r[k].url == files[k].url && r[k].filename == files[k].filename && r[k].is360Tour == Is360(files[k].filename)
  {
    seq(|files|, k requires 0 <= k < |files| => ImageOf(pid, files[k], start + k))
  }

  const Included: string := "Incluido"

  function FeatureOf(pid: Id): string -> PropertyFeature {
    s => PropertyFeature(s, Included, pid)
  }

  /** One "Incluido" feature per service, in order. */
  function FeaturesOf(services: seq<string>, pid: Id): (r: seq<PropertyFeature>)
    ensures |r| == |services|
    ensures forall k :: 0 <= k < |r| ==> r[k].name == services[k] && r[k].value == Included && r[k].propertyId == pid
  {
    Map(services, FeatureOf(pid))
  }

  predicate IsImage(f: MediaFile) {
    f.mediaType == Media.Image
  }

  /** A listed file the landlord owns; files of anyone else are never attached. */
  predicate Attachable(f: MediaFile, ids: seq<Id>, landlordId: Id) {
    f.id in ids && f.ownerUserId == Some(landlordId)
  }

  function AttachableBy(ids: seq<Id>, landlordId: Id): MediaFile -> bool {
    f => Attachable(f, ids, landlordId)
  }

  function AttachTo(ids: seq<Id>, landlordId: Id, pid: Id): MediaFile -> MediaFile {
    f => if Attachable(f, ids, landlordId) then f.(propertyId := Some(pid)) else f
  }

  // ---------------------------------------------------------------------
  // create

  /** `create(dto, landlordId)`: the listing, then its gallery and features.
      An absent or empty `mediaFileIds` attaches nothing, and an absent or
      empty `includedServices` adds no feature. A landlord id that names no
      user breaks the foreign key. */
  function Create(db: Db, dto: CreatePropertyDto, landlordId: Id, newId: Id, now: Time): (r: Result<(Db, Property)>)
    ensures r.Err? <==> landlordId !in db.users
    ensures r.Err? ==> r.error == QueryFailed
    ensures r.Ok? ==> r.value.0.users == db.users && r.value.0.properties == db.properties + [r.value.1]
    ensures r.Ok? ==> r.value.1.id == newId && r.value.1.landlordId == landlordId && r.value.1.createdAt == now
    ensures r.Ok? ==> r.value.1.status == dto.status.GetOr(Draft) && r.value.1.includedServices == dto.includedServices
    ensures r.Ok? ==> (r.value.1.title == dto.title && r.value.1.description == dto.description
      && r.value.1.propertyType == dto.propertyType && r.value.1.address == dto.address && r.value.1.city == dto.city)
  {
    if landlordId !in db.users then Err(QueryFailed)
    else
      var p := Property(newId, landlordId, dto.title, dto.description, dto.propertyType, dto.address, dto.city,
        dto.status.GetOr(Draft), dto.includedServices, now);
      var ids := dto.mediaFileIds.GetOr([]);
      var owned := Filter(db.files, AttachableBy(ids, landlordId));
      var images := ImagesOf(Filter(owned, IsImage), newId, 0);
      var features := FeaturesOf(dto.includedServices.GetOr([]), newId);
      Ok((Db(db.users, db.properties + [p], db.images + images, db.features + features,
        Map(db.files, AttachTo(ids, landlordId, newId))), p))
  }

  /** `create` points exactly the listed files the landlord owns at the new
      listing and changes nothing else in the media table. */
  lemma CreateAttachesOwned(db: Db, dto: CreatePropertyDto, landlordId: Id, newId: Id, now: Time)
    requires Create(db, dto, landlordId, newId, now).Ok?
    requires forall j :: 0 <= j < |db.files| ==> db.files[j].propertyId != Some(newId)
    ensures var files := Create(db, dto, landlordId, newId, now).value.0.files;
      && |files| == |db.files|
      && (forall j :: 0 <= j < |files| ==>
           (files[j].propertyId == Some(newId) <==> Attachable(db.files[j], dto.mediaFileIds.GetOr([]), landlordId)))
      && (forall j :: 0 <= j < |files| ==> files[j] == db.files[j].(propertyId := files[j].propertyId))
      && (forall j :: 0 <= j < |files| && db.files[j].ownerUserId != Some(landlordId) ==> files[j] == db.files[j])
  {
  }

  /** `create` adds one image per listed, owned image file, in the media
      table's order, numbered from 0, flagged as a tour by its name; and none
      for any other file. */
  lemma CreateImages(db: Db, dto: CreatePropertyDto, landlordId: Id, newId: Id, now: Time)
    requires Create(db, dto, landlordId, newId, now).Ok?
    ensures var images := Create(db, dto, landlordId, newId, now).value.0.images;
      var ids := dto.mediaFileIds.GetOr([]);
      var added := images[|db.images|..];
      && |db.images| <= |images| && images[..|db.images|] == db.images
      && (forall k :: 0 <= k < |added| ==>
           added[k].order == k && added[k].propertyId == newId && added[k].is360Tour == Is360(added[k].filename))
      && (forall im :: im in added ==> exists j :: (0 <= j < |db.files| &&
           Attachable(db.files[j], ids, landlordId) && IsImage(db.files[j]) &&
           db.files[j].url == im.url && db.files[j].filename == im.filename))
      && (forall j :: 0 <= j < |db.files| && Attachable(db.files[j], ids, landlordId) && IsImage(db.files[j]) ==>
           exists k :: 0 <= k < |added| && added[k].url == db.files[j].url)
  {
    var ids := dto.mediaFileIds.GetOr([]);
    var gallery := Filter(Filter(db.files, AttachableBy(ids, landlordId)), IsImage);
    var images := Create(db, dto, landlordId, newId, now).value.0.images;
    assert images[|db.images|..] == ImagesOf(gallery, newId, 0);
    ImagesOfSelected(db.files, AttachableBy(ids, landlordId), IsImage, newId, 0);
  }

  /** Images built from the files two conditions select: each comes from such
      a file, and each such file gives one. */
  lemma {:induction false} ImagesOfSelected(files: seq<MediaFile>, p: MediaFile -> bool, q: MediaFile -> bool,
                                            pid: Id, start: int)
    ensures forall im :: im in ImagesOf(Filter(Filter(files, p), q), pid, start) ==>
      exists j :: 0 <= j < |files| && p(files[j]) && q(files[j]) && files[j].url == im.url && files[j].filename == im.filename
    ensures forall j :: 0 <= j < |files| && p(files[j]) && q(files[j]) ==>
      exists k :: 0 <= k < |Filter(Filter(files, p), q)| && ImagesOf(Filter(Filter(files, p), q), pid, start)[k].url == files[j].url
  {
    var sel := Filter(Filter(files, p), q);
    var added := ImagesOf(sel, pid, start);
    forall im | im in added
      ensures exists j :: 0 <= j < |files| && p(files[j]) && q(files[j]) && files[j].url == im.url && files[j].filename == im.filename
    {
      var k :| 0 <= k < |added| && added[k] == im;
      SelectedFrom(files, p, q, k);
    }
    forall j | 0 <= j < |files| && p(files[j]) && q(files[j])
      ensures exists k :: 0 <= k < |added| && added[k].url == files[j].url
    {
      assert files[j] in Filter(files, p);
      assert files[j] in sel;
      var k :| 0 <= k < |sel| && sel[k] == files[j];
      assert added[k].url == files[j].url;
    }
  }

  /** An element of a twice-filtered sequence sits in the original at some position and passes both filters. */
  lemma SelectedFrom(files: seq<MediaFile>, p: MediaFile -> bool, q: MediaFile -> bool, k: nat)
    requires k < |Filter(Filter(files, p), q)|
    ensures exists j :: 0 <= j < |files| && files[j] == Filter(Filter(files, p), q)[k] && p(files[j]) && q(files[j])
  {
    var pre := Filter(files, p);
    var x := Filter(pre, q)[k];
    assert q(x) && x in pre;
    var i :| 0 <= i < |pre| && pre[i] == x;
    assert p(pre[i]) && pre[i] in files;
    var j :| 0 <= j < |files| && files[j] == x;
  }

  /** `create` adds one "Incluido" feature per included service, in order. */
  lemma CreateFeatures(db: Db, dto: CreatePropertyDto, landlordId: Id, newId: Id, now: Time)
    requires Create(db, dto, landlordId, newId, now).Ok?
    ensures var features := Create(db, dto, landlordId, newId, now).value.0.features;
      var services := dto.includedServices.GetOr([]);
      && |features| == |db.features| + |services| && features[..|db.features|] == db.features
      && forall k :: 0 <= k < |services| ==>
           features[|db.features| + k] == PropertyFeature(services[k], "Incluido", newId)
  {
    var features := Create(db, dto, landlordId, newId, now).value.0.features;
    var services := dto.includedServices.GetOr([]);
    forall k | 0 <= k < |services|
      ensures features[|db.features| + k] == PropertyFeature(services[k], "Incluido", newId)
    {
      assert features[|db.features| + k] == FeaturesOf(services, newId)[k];
    }
  }

  // ---------------------------------------------------------------------
  // findOne

  /** `if (landlordId)`: the owner condition is added only for a non-empty id. */
  predicate Truthy(s: Option<Id>) {
    s.Some? && s.value != []
  }

  /** The row matches `{ id }`, and `{ landlordId }` when that is truthy. */
  predicate Matches(p: Property, id: Id, landlordId: Option<Id>) {
    p.id == id && (Truthy(landlordId) ==> p.landlordId == landlordId.value)
  }

  function MatchesBy(id: Id, landlordId: Option<Id>): Property -> bool {
    p => Matches(p, id, landlordId)
  }

  /** The position of the row `findOne` returns. */
  function FindIndex(props: seq<Property>, id: Id, landlordId: Option<Id>): (r: Option<nat>)
    ensures r.Some? ==> r.value < |props| && props[r.value].id == id
    ensures r.Some? && Truthy(landlordId) ==> props[r.value].landlordId == landlordId.value
    ensures r.None? <==> forall i :: 0 <= i < |props| ==> !Matches(props[i], id, landlordId)
  {
    FirstIndex(props, MatchesBy(id, landlordId))
  }

  /** `findOne(id, landlordId?)`: NotFound unless a row has the id and, when a
      landlord is given, belongs to that landlord. */
  function FindOne(props: seq<Property>, id: Id, landlordId: Option<Id>): (r: Result<Property>)
    ensures r.Err? ==> r.error == NotFound
    ensures r.Ok? ==> r.value in props && r.value.id == id
    ensures r.Ok? && Truthy(landlordId) ==> r.value.landlordId == landlordId.value
    ensures r.Err? <==> forall i :: 0 <= i < |props| ==> !Matches(props[i], id, landlordId)
  {
    match FindIndex(props, id, landlordId)
    case None => Err(NotFound)
    case Some(i) => Ok(props[i])
  }

  // ---------------------------------------------------------------------
  // update

  /** `Object.assign(property, rest)`: present keys overwrite, and a present
      `includedServices` is stored in the column as well. */
  function ApplyPatch(p: Property, q: PropertyPatch): (r: Property)
    ensures r.id == p.id && r.landlordId == p.landlordId && r.createdAt == p.createdAt
    ensures q.includedServices.Some? ==> r.includedServices == q.includedServices
    ensures q.includedServices.None? ==> r.includedServices == p.includedServices
    ensures r.title == q.title.GetOr(p.title) && r.status == q.status.GetOr(p.status)
    ensures r.description == q.description.GetOr(p.description) && r.propertyType == q.propertyType.GetOr(p.propertyType)
    ensures r.address == q.address.GetOr(p.address) && r.city == q.city.GetOr(p.city)
  {
    p.(title := q.title.GetOr(p.title),
       description := q.description.GetOr(p.description),
       propertyType := q.propertyType.GetOr(p.propertyType),
       address := q.address.GetOr(p.address),
       city := q.city.GetOr(p.city),
       status := q.status.GetOr(p.status),
       includedServices := if q.includedServices.Some? then q.includedServices else p.includedServices)
  }

  /** A file on the listing that the new list leaves out. */
  predicate Detachable(f: MediaFile, pid: Id, ids: seq<Id>) {
    f.propertyId == Some(pid) && f.id !in ids
  }

  function DetachableBy(pid: Id, ids: seq<Id>): MediaFile -> bool {
    f => Detachable(f, pid, ids)
  }

  function DetachFrom(pid: Id, ids: seq<Id>): MediaFile -> MediaFile {
    f => if Detachable(f, pid, ids) then f.(propertyId := None) else f
  }

  function FileUrl(f: MediaFile): string { f.url }
  function ImageUrl(im: PropertyImage): string { im.url }

  /** The urls of the files the update detaches. */
  function DetachedUrls(files: seq<MediaFile>, pid: Id, ids: seq<Id>): seq<string> {
    Map(Filter(files, DetachableBy(pid, ids)), FileUrl)
  }

  /** The delete's condition: `propertyId = :propertyId AND url IN (:...urls)`. */
  predicate Dropped(im: PropertyImage, pid: Id, urls: seq<string>) {
    im.propertyId == pid && im.url in urls
  }

  function KeptBy(pid: Id, urls: seq<string>): PropertyImage -> bool {
    (im: PropertyImage) => !Dropped(im, pid, urls)
  }

  function OfProperty(pid: Id): PropertyImage -> bool {
    (im: PropertyImage) => im.propertyId == pid
  }

  function OfOtherProperty(pid: Id): PropertyImage -> bool {
    (im: PropertyImage) => im.propertyId != pid
  }

  /** An image of `pid` that survives the delete. */
  function SurvivorOf(pid: Id, urls: seq<string>): PropertyImage -> bool {
    (im: PropertyImage) => im.propertyId == pid && im.url !in urls
  }

  /** An image file whose url the listing does not show yet. */
  function NewImageFile(urls: seq<string>): MediaFile -> bool {
    f => IsImage(f) && f.url !in urls
  }

  /** The media table after the detach step. */
  function DetachedFiles(files: seq<MediaFile>, pid: Id, ids: seq<Id>): seq<MediaFile> {
    Map(files, DetachFrom(pid, ids))
  }

  /** The image table after the delete step. */
  function RemainingImages(files: seq<MediaFile>, images: seq<PropertyImage>, pid: Id, ids: seq<Id>): seq<PropertyImage> {
    Filter(images, KeptBy(pid, DetachedUrls(files, pid, ids)))
  }

  /** The images the update adds: the listed, owned image files whose url the
      listing does not already show, numbered after the images it keeps. */
  function AddedImages(files: seq<MediaFile>, images: seq<PropertyImage>, pid: Id, ids: seq<Id>, landlordId: Id)
    : seq<PropertyImage>
  {
    var owned := Filter(DetachedFiles(files, pid, ids), AttachableBy(ids, landlordId));
    var existing := Filter(RemainingImages(files, images, pid, ids), OfProperty(pid));
    ImagesOf(Filter(owned, NewImageFile(Map(existing, ImageUrl))), pid, |existing|)
  }

  /** The media branch of `update` for the list `ids`. */
  function SyncMedia(files: seq<MediaFile>, images: seq<PropertyImage>, pid: Id, ids: seq<Id>, landlordId: Id)
    : (r: (seq<MediaFile>, seq<PropertyImage>))
    ensures |r.0| == |files|
    ensures forall j :: 0 <= j < |files| ==> r.0[j] == files[j].(propertyId := r.0[j].propertyId)
  {
    var files1 := DetachedFiles(files, pid, ids);
    (Map(files1, AttachTo(ids, landlordId, pid)),
     RemainingImages(files, images, pid, ids) + AddedImages(files, images, pid, ids, landlordId))
  }

  /** Files after the media branch: a file is on the listing afterwards iff it
      was on it and listed, or it is listed and the landlord's; files neither
      detached nor attached are untouched. */
  lemma SyncMediaFiles(files: seq<MediaFile>, images: seq<PropertyImage>, pid: Id, ids: seq<Id>, landlordId: Id)
    ensures var r := SyncMedia(files, images, pid, ids, landlordId).0;
      && (forall j :: 0 <= j < |files| ==>
           (r[j].propertyId == Some(pid) <==>
              (files[j].propertyId == Some(pid) && files[j].id in ids) || Attachable(files[j], ids, landlordId)))
      && (forall j :: 0 <= j < |files| && Detachable(files[j], pid, ids) ==> r[j].propertyId.None?)
      && (forall j :: 0 <= j < |files| && !Detachable(files[j], pid, ids) && !Attachable(files[j], ids, landlordId) ==>
           r[j] == files[j])
  {
  }

  /** The images of `pid` the media branch keeps are exactly the old ones
      whose url no detached file has. */
  lemma RemainingImagesOfProperty(files: seq<MediaFile>, images: seq<PropertyImage>, pid: Id, ids: seq<Id>)
    ensures Filter(RemainingImages(files, images, pid, ids), OfProperty(pid)) ==
      Filter(images, SurvivorOf(pid, DetachedUrls(files, pid, ids)))
    ensures Filter(RemainingImages(files, images, pid, ids), OfOtherProperty(pid)) == Filter(images, OfOtherProperty(pid))
  {
    var urls := DetachedUrls(files, pid, ids);
    FilterFilter(images, KeptBy(pid, urls), OfProperty(pid));
    FilterCongruent(images, Both(KeptBy(pid, urls), OfProperty(pid)), SurvivorOf(pid, urls));
    FilterFilter(images, KeptBy(pid, urls), OfOtherProperty(pid));
    FilterCongruent(images, Both(KeptBy(pid, urls), OfOtherProperty(pid)), OfOtherProperty(pid));
  }

  /** The added images: numbered after the kept ones, none repeating a kept
      url, each from a listed image file the landlord owns, and one for every
      such file whose url is not kept. */
  lemma AddedImagesSpec(files: seq<MediaFile>, images: seq<PropertyImage>, pid: Id, ids: seq<Id>, landlordId: Id)
    ensures var kept := KeptImages(files, images, pid, ids);
      var added := AddedImages(files, images, pid, ids, landlordId);
      && (forall k :: 0 <= k < |added| ==> added[k].order == |kept| + k && added[k].propertyId == pid)
      && (forall k, i :: 0 <= k < |added| && 0 <= i < |kept| ==> added[k].url != kept[i].url)
      && (forall im :: im in added ==> exists j :: (0 <= j < |files| &&
           Attachable(files[j], ids, landlordId) && IsImage(files[j]) && files[j].url == im.url))
      && (forall j :: (0 <= j < |files| && Attachable(files[j], ids, landlordId) && IsImage(files[j]) &&
           (forall i :: 0 <= i < |kept| ==> kept[i].url != files[j].url)) ==>
           exists k :: 0 <= k < |added| && added[k].url == files[j].url)
  {
    var added := AddedImages(files, images, pid, ids, landlordId);
    AddedImagesUnfold(files, images, pid, ids, landlordId);
    AddedImagesNew(files, images, pid, ids, landlordId, added);
    AddedImagesSound(files, images, pid, ids, landlordId, added);
    AddedImagesComplete(files, images, pid, ids, landlordId, added);
  }

  /** The images of `pid` the delete keeps. */
  function KeptImages(files: seq<MediaFile>, images: seq<PropertyImage>, pid: Id, ids: seq<Id>): seq<PropertyImage> {
    Filter(images, SurvivorOf(pid, DetachedUrls(files, pid, ids)))
  }

  /** The files the update turns into new images. */
  function IncomingFiles(files: seq<MediaFile>, images: seq<PropertyImage>, pid: Id, ids: seq<Id>, landlordId: Id)
    : seq<MediaFile>
  {
    Filter(Filter(DetachedFiles(files, pid, ids), AttachableBy(ids, landlordId)),
      NewImageFile(Map(KeptImages(files, images, pid, ids), ImageUrl)))
  }

  lemma AddedImagesUnfold(files: seq<MediaFile>, images: seq<PropertyImage>, pid: Id, ids: seq<Id>, landlordId: Id)
    ensures AddedImages(files, images, pid, ids, landlordId) ==
      ImagesOf(IncomingFiles(files, images, pid, ids, landlordId), pid, |KeptImages(files, images, pid, ids)|)
  {
    RemainingImagesOfProperty(files, images, pid, ids);
  }

  lemma AddedImagesNew(files: seq<MediaFile>, images: seq<PropertyImage>, pid: Id, ids: seq<Id>, landlordId: Id,
                       added: seq<PropertyImage>)
    requires added == ImagesOf(IncomingFiles(files, images, pid, ids, landlordId), pid, |KeptImages(files, images, pid, ids)|)
    ensures var kept := KeptImages(files, images, pid, ids);
      forall k, i :: 0 <= k < |added| && 0 <= i < |kept| ==> added[k].url != kept[i].url
  {
    var kept := KeptImages(files, images, pid, ids);
    var keptUrls := Map(kept, ImageUrl);
    var incoming := IncomingFiles(files, images, pid, ids, landlordId);
    forall k, i | 0 <= k < |added| && 0 <= i < |kept|
      ensures added[k].url != kept[i].url
    {
      assert NewImageFile(keptUrls)(incoming[k]);
      assert keptUrls[i] == kept[i].url;
    }
  }

  lemma AddedImagesSound(files: seq<MediaFile>, images: seq<PropertyImage>, pid: Id, ids: seq<Id>, landlordId: Id,
                         added: seq<PropertyImage>)
    requires added == ImagesOf(IncomingFiles(files, images, pid, ids, landlordId), pid, |KeptImages(files, images, pid, ids)|)
    ensures forall im :: im in added ==> exists j :: (0 <= j < |files| &&
      Attachable(files[j], ids, landlordId) && IsImage(files[j]) && files[j].url == im.url)
  {
    var files1 := DetachedFiles(files, pid, ids);
    var keptUrls := Map(KeptImages(files, images, pid, ids), ImageUrl);
    var start := |KeptImages(files, images, pid, ids)|;
    ImagesOfSelected(files1, AttachableBy(ids, landlordId), NewImageFile(keptUrls), pid, start);
    forall im | im in added
      ensures exists j :: (0 <= j < |files| && Attachable(files[j], ids, landlordId) && IsImage(files[j]) &&
        files[j].url == im.url)
    {
      var j :| 0 <= j < |files1| && AttachableBy(ids, landlordId)(files1[j]) && NewImageFile(keptUrls)(files1[j]) &&
        files1[j].url == im.url && files1[j].filename == im.filename;
      DetachKeepsFields(files, pid, ids, j);
    }
  }

  /** Detaching changes only a file's property link. */
  lemma DetachKeepsFields(files: seq<MediaFile>, pid: Id, ids: seq<Id>, j: nat)
    requires j < |files|
    ensures var f := DetachedFiles(files, pid, ids)[j];
      f.id == files[j].id && f.ownerUserId == files[j].ownerUserId && f.url == files[j].url
      && f.mediaType == files[j].mediaType && f.filename == files[j].filename
  {
    assert DetachedFiles(files, pid, ids)[j] == DetachFrom(pid, ids)(files[j]);
  }

  lemma AddedImagesComplete(files: seq<MediaFile>, images: seq<PropertyImage>, pid: Id, ids: seq<Id>, landlordId: Id,
                            added: seq<PropertyImage>)
    requires added == ImagesOf(IncomingFiles(files, images, pid, ids, landlordId), pid, |KeptImages(files, images, pid, ids)|)
    ensures var kept := KeptImages(files, images, pid, ids);
      forall j :: (0 <= j < |files| && Attachable(files[j], ids, landlordId) && IsImage(files[j]) &&
        (forall i :: 0 <= i < |kept| ==> kept[i].url != files[j].url)) ==>
        exists k :: 0 <= k < |added| && added[k].url == files[j].url
  {
    var kept := KeptImages(files, images, pid, ids);
    var files1 := DetachedFiles(files, pid, ids);
    var keptUrls := Map(kept, ImageUrl);
    ImagesOfSelected(files1, AttachableBy(ids, landlordId), NewImageFile(keptUrls), pid, |kept|);
    forall j | (0 <= j < |files| && Attachable(files[j], ids, landlordId) && IsImage(files[j]) &&
      (forall i :: 0 <= i < |kept| ==> kept[i].url != files[j].url))
      ensures NewImageFile(keptUrls)(files1[j]) && AttachableBy(ids, landlordId)(files1[j]) && files1[j].url == files[j].url
    {
      assert files1[j] == files[j];
      assert files[j].url !in keptUrls;
    }
  }

  function FeatureOfProperty(pid: Id): PropertyFeature -> bool {
    (ft: PropertyFeature) => ft.propertyId == pid
  }

  function FeatureOfOther(pid: Id): PropertyFeature -> bool {
    (ft: PropertyFeature) => ft.propertyId != pid
  }

  /** The feature branch of `update`: delete the listing's features, then
      add one per service. */
  function ReplaceFeatures(features: seq<PropertyFeature>, pid: Id, services: seq<string>): seq<PropertyFeature> {
    Filter(features, FeatureOfOther(pid)) + FeaturesOf(services, pid)
  }

  /** The listing's features become exactly the new services' and the other
      listings' features stay as they were. */
  lemma ReplaceFeaturesSpec(features: seq<PropertyFeature>, pid: Id, services: seq<string>)
    ensures Filter(ReplaceFeatures(features, pid, services), FeatureOfProperty(pid)) == FeaturesOf(services, pid)
    ensures Filter(ReplaceFeatures(features, pid, services), FeatureOfOther(pid)) == Filter(features, FeatureOfOther(pid))
  {
    var others := Filter(features, FeatureOfOther(pid));
    var incoming := FeaturesOf(services, pid);
    FilterAppend(others, incoming, FeatureOfProperty(pid));
    FilterAppend(others, incoming, FeatureOfOther(pid));
    FilterNone(others, FeatureOfProperty(pid));
    FilterAll(incoming, FeatureOfProperty(pid));
    FilterAll(others, FeatureOfOther(pid));
    FilterNone(incoming, FeatureOfOther(pid));
  }

  /** `update(id, dto, landlordId)`: the owner-scoped lookup, the patch, then
      the media branch when `mediaFileIds` is an array and the feature branch
      when `includedServices` is one. */
  function Update(db: Db, id: Id, q: PropertyPatch, landlordId: Id): (r: Result<(Db, Property)>)
    ensures r.Err? <==> FindOne(db.properties, id, Some(landlordId)).Err?
    ensures r.Err? ==> r.error == NotFound
    ensures r.Ok? ==> r.value.1.id == id && r.value.0.users == db.users && |r.value.0.properties| == |db.properties|
    ensures r.Ok? ==> var i := FindIndex(db.properties, id, Some(landlordId)).value;
      && r.value.0.properties == db.properties[i := r.value.1]
      && r.value.1 == ApplyPatch(db.properties[i], q)
    ensures r.Ok? && landlordId != [] ==> r.value.1.landlordId == landlordId
    ensures r.Ok? && q.mediaFileIds.None? ==> r.value.0.files == db.files && r.value.0.images == db.images
    ensures r.Ok? && q.includedServices.None? ==> r.value.0.features == db.features
  {
    match FindIndex(db.properties, id, Some(landlordId))
    case None => Err(NotFound)
    case Some(i) =>
      var saved := ApplyPatch(db.properties[i], q);
      var media := if q.mediaFileIds.Some? then SyncMedia(db.files, db.images, id, q.mediaFileIds.value, landlordId)
        else (db.files, db.images);
      var features := if q.includedServices.Some? then ReplaceFeatures(db.features, id, q.includedServices.value)
        else db.features;
      Ok((Db(db.users, db.properties[i := saved], media.1, features, media.0), saved))
  }

  /** After an update with services, the listing's features are exactly the
      new ones and every other listing's are unchanged. */
  lemma UpdateReplacesFeatures(db: Db, id: Id, q: PropertyPatch, landlordId: Id)
    requires Update(db, id, q, landlordId).Ok?
    requires q.includedServices.Some?
    ensures var features := Update(db, id, q, landlordId).value.0.features;
      && Filter(features, FeatureOfProperty(id)) == FeaturesOf(q.includedServices.value, id)
      && Filter(features, FeatureOfOther(id)) == Filter(db.features, FeatureOfOther(id))
      && Update(db, id, q, landlordId).value.1.includedServices == q.includedServices
  {
    ReplaceFeaturesSpec(db.features, id, q.includedServices.value);
  }

  /** After an update with a media list, every other listing's images are
      unchanged, and this listing's are the survivors of the delete followed
      by the added ones. */
  lemma UpdateImages(db: Db, id: Id, q: PropertyPatch, landlordId: Id)
    requires Update(db, id, q, landlordId).Ok?
    requires q.mediaFileIds.Some?
    ensures var images := Update(db, id, q, landlordId).value.0.images;
      var ids := q.mediaFileIds.value;
      && Filter(images, OfOtherProperty(id)) == Filter(db.images, OfOtherProperty(id))
      && Filter(images, OfProperty(id)) ==
           Filter(db.images, SurvivorOf(id, DetachedUrls(db.files, id, ids))) + AddedImages(db.files, db.images, id, ids, landlordId)
  {
    var ids := q.mediaFileIds.value;
    var remaining := RemainingImages(db.files, db.images, id, ids);
    var added := AddedImages(db.files, db.images, id, ids, landlordId);
    RemainingImagesOfProperty(db.files, db.images, id, ids);
    AddedImagesSpec(db.files, db.images, id, ids, landlordId);
    FilterAppend(remaining, added, OfProperty(id));
    FilterAppend(remaining, added, OfOtherProperty(id));
    FilterAll(added, OfProperty(id));
    FilterNone(added, OfOtherProperty(id));
  }

  // ---------------------------------------------------------------------
  // remove

  /** `remove(id, landlordId)`: the owner-scoped lookup, then the delete,
      which cascades to the listing's images and features. Media files keep
      their `property_id`. */
  function Remove(db: Db, id: Id, landlordId: Id): (r: Result<Db>)
    ensures r.Err? <==> FindOne(db.properties, id, Some(landlordId)).Err?
    ensures r.Err? ==> r.error == NotFound
    ensures r.Ok? ==> r.value.files == db.files && r.value.users == db.users
    ensures r.Ok? ==> |r.value.properties| == |db.properties| - 1
    ensures r.Ok? ==> forall im :: im in r.value.images ==> im in db.images && im.propertyId != id
    ensures r.Ok? ==> forall ft :: ft in r.value.features ==> ft in db.features && ft.propertyId != id
    ensures r.Ok? ==> r.value.properties == RemoveAt(db.properties, FindIndex(db.properties, id, Some(landlordId)).value)
    ensures r.Ok? ==> Filter(r.value.images, OfOtherProperty(id)) == Filter(db.images, OfOtherProperty(id))
    ensures r.Ok? ==> Filter(r.value.features, FeatureOfOther(id)) == Filter(db.features, FeatureOfOther(id))
  {
    match FindIndex(db.properties, id, Some(landlordId))
    case None => Err(NotFound)
    case Some(i) =>
      FilterAll(Filter(db.images, OfOtherProperty(id)), OfOtherProperty(id));
      FilterAll(Filter(db.features, FeatureOfOther(id)), FeatureOfOther(id));
      Ok(db.(properties := RemoveAt(db.properties, i),
             images := Filter(db.images, OfOtherProperty(id)),
             features := Filter(db.features, FeatureOfOther(id))))
  }

  /** A created listing with a fresh id is found again by its landlord, as
      it was created. */
  lemma CreateThenFind(db: Db, dto: CreatePropertyDto, landlordId: Id, newId: Id, now: Time)
    requires !Holds(db.properties, PropertyId, newId)
    requires Create(db, dto, landlordId, newId, now).Ok?
    ensures var (db1, p) := Create(db, dto, landlordId, newId, now).value;
      FindOne(db1.properties, newId, Some(landlordId)) == Ok(p)
  {
    var (db1, p) := Create(db, dto, landlordId, newId, now).value;
    var k := |db.properties|;
    assert db1.properties[k] == p;
    assert forall j :: 0 <= j < k ==> db1.properties[j] == db.properties[j] && db.properties[j].id != newId;
  }

  /** After an update the owner finds the listing again, patched. */
  lemma UpdateThenFind(db: Db, id: Id, q: PropertyPatch, landlordId: Id)
    requires Update(db, id, q, landlordId).Ok?
    ensures var i := FindIndex(db.properties, id, Some(landlordId)).value;
      FindOne(Update(db, id, q, landlordId).value.0.properties, id, Some(landlordId)) == Ok(ApplyPatch(db.properties[i], q))
  {
    var i := FindIndex(db.properties, id, Some(landlordId)).value;
    var props1 := Update(db, id, q, landlordId).value.0.properties;
    assert props1 == db.properties[i := ApplyPatch(db.properties[i], q)];
    assert forall j :: 0 <= j < i ==> props1[j] == db.properties[j] && !Matches(db.properties[j], id, Some(landlordId));
    assert Matches(props1[i], id, Some(landlordId));
    assert FindIndex(props1, id, Some(landlordId)) == Some(i);
  }

  // ---------------------------------------------------------------------
  // The owner scope

  /** Another landlord's listing is NotFound to the lookup, to update and to
      remove; the owner reaches it; an empty landlord id skips the check. */
  lemma OwnerScope(db: Db, i: nat, landlordId: Id, q: PropertyPatch)
    requires UniqueBy(db.properties, PropertyId)
    requires i < |db.properties|
    ensures var p := db.properties[i];
      landlordId != [] && p.landlordId != landlordId ==>
        && FindOne(db.properties, p.id, Some(landlordId)) == Err(NotFound)
        && Update(db, p.id, q, landlordId) == Err(NotFound)
        && Remove(db, p.id, landlordId) == Err(NotFound)
    ensures FindOne(db.properties, db.properties[i].id, Some(db.properties[i].landlordId)) == Ok(db.properties[i])
    ensures FindOne(db.properties, db.properties[i].id, Some([])) == Ok(db.properties[i])
    ensures FindOne(db.properties, db.properties[i].id, None) == Ok(db.properties[i])
  {
    var p := db.properties[i];
    if landlordId != [] && p.landlordId != landlordId {
      forall j | 0 <= j < |db.properties|
        ensures !Matches(db.properties[j], p.id, Some(landlordId))
      {
        if j != i {
          assert db.properties[j].id != p.id;
        }
      }
    }
    forall o: Option<Id> | o == Some(p.landlordId) || o == Some([]) || o.None?
      ensures FindIndex(db.properties, p.id, o) == Some(i)
    {
      assert Matches(p, p.id, o);
      assert forall j :: 0 <= j < |db.properties| && j != i ==> db.properties[j].id != p.id;
    }
  }

  // ---------------------------------------------------------------------
  // The constraints are kept

  lemma CreateKeepsValid(db: Db, dto: CreatePropertyDto, landlordId: Id, newId: Id, now: Time)
    requires Valid(db)
    requires !Holds(db.properties, PropertyId, newId)
    requires Create(db, dto, landlordId, newId, now).Ok?
    ensures Valid(Create(db, dto, landlordId, newId, now).value.0)
  {
    var (db1, p) := Create(db, dto, landlordId, newId, now).value;
    AppendUnique(db.properties, PropertyId, p);
    assert db1.properties[|db.properties|] == p;
    forall k | 0 <= k < |db1.images|
      ensures Holds(db1.properties, PropertyId, db1.images[k].propertyId)
    {
      if k < |db.images| {
        var j :| 0 <= j < |db.properties| && db.properties[j].id == db.images[k].propertyId;
        assert db1.properties[j] == db.properties[j];
      }
    }
    forall k | 0 <= k < |db1.features|
      ensures Holds(db1.properties, PropertyId, db1.features[k].propertyId)
    {
      if k < |db.features| {
        var j :| 0 <= j < |db.properties| && db.properties[j].id == db.features[k].propertyId;
        assert db1.properties[j] == db.properties[j];
      }
    }
  }

  lemma UpdateKeepsValid(db: Db, id: Id, q: PropertyPatch, landlordId: Id)
    requires Valid(db)
    requires Update(db, id, q, landlordId).Ok?
    ensures Valid(Update(db, id, q, landlordId).value.0)
  {
    var i := FindIndex(db.properties, id, Some(landlordId)).value;
    var (db1, saved) := Update(db, id, q, landlordId).value;
    UpdateRowsFrom(db, id, q, landlordId);
    ReplaceKeepsValid(db, db1, i, saved);
  }

  /** Replacing one listing by a row with the same id and landlord keeps the
      tables valid, when every image or feature afterwards was there before or
      belongs to that listing. */
  lemma ReplaceKeepsValid(db: Db, db1: Db, i: nat, saved: Property)
    requires Valid(db)
    requires i < |db.properties| && saved.id == db.properties[i].id && saved.landlordId == db.properties[i].landlordId
    requires db1.users == db.users && db1.properties == db.properties[i := saved]
    requires forall im :: im in db1.images ==> im in db.images || im.propertyId == saved.id
    requires forall ft :: ft in db1.features ==> ft in db.features || ft.propertyId == saved.id
    ensures Valid(db1)
  {
    ReplaceUnique(db.properties, PropertyId, i, saved);
    forall k | Holds(db.properties, PropertyId, k) ensures Holds(db1.properties, PropertyId, k) {
      ReplaceHolds(db.properties, PropertyId, i, saved, k);
    }
    assert db1.properties[i].id == saved.id;
    RefsKept(db.properties, db1.properties, db.images, db1.images, ImageRef, saved.id);
    RefsKept(db.properties, db1.properties, db.features, db1.features, FeatureRef, saved.id);
  }

  function ImageRef(im: PropertyImage): string { im.propertyId }
  function FeatureRef(ft: PropertyFeature): string { ft.propertyId }

  /** Rows that were there before or reference `id` still resolve, when every
      old listing id and `id` are still held. */
  lemma RefsKept<R>(props: seq<Property>, props1: seq<Property>, rows: seq<R>, rows1: seq<R>, ref: R -> string, id: Id)
    requires forall i :: 0 <= i < |rows| ==> Holds(props, PropertyId, ref(rows[i]))
    requires forall x :: x in rows1 ==> x in rows || ref(x) == id
    requires forall k :: Holds(props, PropertyId, k) ==> Holds(props1, PropertyId, k)
    requires Holds(props1, PropertyId, id)
    ensures forall i :: 0 <= i < |rows1| ==> Holds(props1, PropertyId, ref(rows1[i]))
  {
    forall i | 0 <= i < |rows1| ensures Holds(props1, PropertyId, ref(rows1[i])) {
      if ref(rows1[i]) != id {
        var j :| 0 <= j < |rows| && rows[j] == rows1[i];
      }
    }
  }

  /** Every image or feature row after an update was there before or belongs to the updated listing. */
  lemma UpdateRowsFrom(db: Db, id: Id, q: PropertyPatch, landlordId: Id)
    requires Update(db, id, q, landlordId).Ok?
    ensures var db1 := Update(db, id, q, landlordId).value.0;
      && (forall im :: im in db1.images ==> im in db.images || im.propertyId == id)
      && (forall ft :: ft in db1.features ==> ft in db.features || ft.propertyId == id)
  {
    if q.mediaFileIds.Some? {
      var ids := q.mediaFileIds.value;
      var remaining := RemainingImages(db.files, db.images, id, ids);
      var added := AddedImages(db.files, db.images, id, ids, landlordId);
      assert forall im :: im in added ==> im.propertyId == id;
      assert forall im :: im in remaining ==> im in db.images;
    }
    if q.includedServices.Some? {
      var fresh' := FeaturesOf(q.includedServices.value, id);
      assert forall ft :: ft in fresh' ==> ft.propertyId == id;
    }
  }

  /** The cascade keeps the foreign keys intact, and the listing is gone. */
  lemma RemoveKeepsValid(db: Db, id: Id, landlordId: Id)
    requires Valid(db)
    requires Remove(db, id, landlordId).Ok?
    ensures Valid(Remove(db, id, landlordId).value)
    ensures !Holds(Remove(db, id, landlordId).value.properties, PropertyId, id)
  {
    var i := FindIndex(db.properties, id, Some(landlordId)).value;
    RemoveRowKeepsValid(db, i);
  }

  /** Dropping row `i` with its images and features keeps the references whole. */
  lemma RemoveRowKeepsValid(db: Db, i: nat)
    requires Valid(db) && i < |db.properties|
    ensures var id := db.properties[i].id;
      var db1 := db.(properties := RemoveAt(db.properties, i),
                     images := Filter(db.images, OfOtherProperty(id)),
                     features := Filter(db.features, FeatureOfOther(id)));
      Valid(db1) && !Holds(db1.properties, PropertyId, id)
  {
    var id := db.properties[i].id;
    var db1 := db.(properties := RemoveAt(db.properties, i),
                   images := Filter(db.images, OfOtherProperty(id)),
                   features := Filter(db.features, FeatureOfOther(id)));
    RemoveAtUnique(db.properties, PropertyId, i);
    forall k | 0 <= k < |db1.images|
      ensures Holds(db1.properties, PropertyId, db1.images[k].propertyId)
    {
      var im := db1.images[k];
      var j :| 0 <= j < |db.images| && db.images[j] == im;
      RemoveAtHolds(db.properties, PropertyId, i, im.propertyId);
    }
    forall k | 0 <= k < |db1.features|
      ensures Holds(db1.properties, PropertyId, db1.features[k].propertyId)
    {
      var ft := db1.features[k];
      var j :| 0 <= j < |db.features| && db.features[j] == ft;
      RemoveAtHolds(db.properties, PropertyId, i, ft.propertyId);
    }
    forall j | 0 <= j < |db1.properties|
      ensures db1.properties[j].landlordId in db1.users
    {
      assert db1.properties[j] == db.properties[if j < i then j else j + 1];
    }
  }

  // ---------------------------------------------------------------------
  // The tour flag

  /** The flag ignores letter case: renaming a file to lower case keeps it. */
  lemma Is360IgnoresCase(filename: string)
    ensures Is360(ToLowerAscii(filename)) == Is360(filename)
  {
    var lower := ToLowerAscii(filename);
    assert ToLowerAscii(lower) == lower;
  }

  /** A name without a '3' or a 't' in any case is not a tour. */
  lemma NotTourWithoutMarkers(filename: string)
    requires forall k :: 0 <= k < |filename| ==> filename[k] !in {'3', 't', 'T'}
    ensures !Is360(filename)
  {
    var lower := ToLowerAscii(filename);
    forall j | 0 <= j
      ensures !OccursAt(lower, "360", j) && !OccursAt(lower, "tour", j)
    {
      if j < |lower| {
        assert lower[j] != '3' && lower[j] != 't';
      }
    }
  }

  /** Examples of `Is360`, next to the statements above about all names. */
  lemma Is360Examples()
    ensures Is360("Sala-360.jpg")
    ensures Is360("Recorrido_TOUR.png")
    ensures !Is360("cocina.jpg")
  {
    var a := ToLowerAscii("Sala-360.jpg");
    assert OccursAt(a, "360", 5);
    var b := ToLowerAscii("Recorrido_TOUR.png");
    assert OccursAt(b, "tour", 10);
    NotTourWithoutMarkers("cocina.jpg");
  }
}

=== FILE: requests.dfy ===
/** Rental requests (`src/modules/requests/services/requests.service.ts`): a
    tenant asks for a property, the property's landlord accepts or rejects.
    The request table's foreign keys point at the property and tenant tables;
    of those the model keeps only what the service reads: each property's
    landlord and the set of tenant ids.
 */
module Requests {
  import opened Wrappers
  import opened Seqs
  import opened Tables

  type Time = nat

  datatype Status = Pending | Accepted | Rejected

  datatype Request = Request(
    id: Id,
    message: Option<string>,
    status: Status,
    propertyId: Id,
    tenantId: Id,
    createdAt: Time)

  datatype CreateRequestDto = CreateRequestDto(propertyId: Id, message: Option<string>)

  /** An update body: the creation fields, each optional; a present one overwrites. */
  datatype RequestPatch = RequestPatch(propertyId: Option<Id>, message: Option<string>)

  /** The request table with what its foreign keys reach: `landlordOf` maps a
      property id to the property's `landlordId`. */
  datatype Db = Db(requests: seq<Request>, landlordOf: map<Id, Id>, tenants: set<Id>)

  function RequestId(r: Request): string { r.id }

  /** Some row could reference these property and tenant ids. */
  predicate References(db: Db, propertyId: Id, tenantId: Id) {
    propertyId in db.landlordOf && tenantId in db.tenants
  }

  /** The primary key and both foreign keys hold. */
  predicate Valid(db: Db) {
    && UniqueBy(db.requests, RequestId)
    && forall i :: 0 <= i < |db.requests| ==> References(db, db.requests[i].propertyId, db.requests[i].tenantId)
  }

  /** `create(dto, tenantId)`: the tenant comes from the caller, the status
      starts as pending; a dangling reference is refused by the foreign key. */
  function Create(db: Db, dto: CreateRequestDto, tenantId: Id, newId: Id, now: Time): (r: Result<(Db, Request)>)
    ensures r.Err? <==> !References(db, dto.propertyId, tenantId)
    ensures r.Err? ==> r.error == QueryFailed
    ensures r.Ok? ==> r.value.0 == db.(requests := db.requests + [r.value.1])
    ensures r.Ok? ==> (
      && r.value.1.id == newId && r.value.1.tenantId == tenantId && r.value.1.status == Pending
      && r.value.1.propertyId == dto.propertyId && r.value.1.message == dto.message && r.value.1.createdAt == now)
  {
    if !References(db, dto.propertyId, tenantId) then Err(QueryFailed)
    else
      var req := Request(newId, dto.message, Pending, dto.propertyId, tenantId, now);
      Ok((db.(requests := db.requests + [req]), req))
  }

  /** `findOne(id)`. */
  function FindOne(db: Db, id: Id): (r: Result<Request>)
    ensures r.Err? <==> !Holds(db.requests, RequestId, id)
    ensures r.Err? ==> r.error == NotFound
    ensures r.Ok? ==> r.value in db.requests && r.value.id == id
  {
    match Locate(db.requests, RequestId, id)
    case None => Err(NotFound)
    case Some(i) => Ok(db.requests[i])
  }

  /** The request is owned by `landlordId` through its property. */
  predicate OwnedBy(db: Db, req: Request, landlordId: Id) {
    req.propertyId in db.landlordOf && db.landlordOf[req.propertyId] == landlordId
  }

  /** `updateStatus(id, status, landlordId)`: NotFound, then Forbidden unless
      the request's property belongs to the landlord; then only the status
      changes, to any value from any value. A request whose property row is
      gone (which the foreign key rules out) fails reading the landlord. */
  function UpdateStatus(db: Db, id: Id, status: Status, landlordId: Id): (r: Result<(Db, Request)>)
    ensures !Holds(db.requests, RequestId, id) <==> r == Err(NotFound)
    ensures r.Err? ==> r.error in {NotFound, Forbidden, QueryFailed}
    ensures Holds(db.requests, RequestId, id) && FindOne(db, id).value.propertyId in db.landlordOf ==>
      (r == Err(Forbidden) <==> !OwnedBy(db, FindOne(db, id).value, landlordId))
    ensures r.Ok? ==> OwnedBy(db, FindOne(db, id).value, landlordId)
    ensures r.Ok? ==> exists i :: (0 <= i < |db.requests| && db.requests[i].id == id &&
      r.value.1 == db.requests[i].(status := status) && r.value.0 == db.(requests := db.requests[i := r.value.1]))
  {
    match Locate(db.requests, RequestId, id)
    case None => Err(NotFound)
    case Some(i) =>
      var req := db.requests[i];
      if req.propertyId !in db.landlordOf then Err(QueryFailed)
      else if db.landlordOf[req.propertyId] != landlordId then Err(Forbidden)
      else
        var updated := req.(status := status);
        Ok((db.(requests := db.requests[i := updated]), updated))
  }

  /** `userTenantId && req.tenantId !== userTenantId`: a missing or empty
      tenant id skips the ownership check. */
  predicate ForeignTenant(userTenantId: Option<Id>, req: Request) {
    userTenantId.Some? && userTenantId.value != [] && req.tenantId != userTenantId.value
  }

  /** The row `save` writes after `Object.assign(req, dto)`. The request was
      loaded with its `property` relation, which shares the `property_id`
      column with `propertyId`; the ORM takes that column from the relation,
      so a property id in the body is not written. */
  function Apply(req: Request, p: RequestPatch): Request {
    req.(message := if p.message.Some? then p.message else req.message)
  }

  /** `update(id, dto, userTenantId)`: NotFound, then Forbidden for another
      tenant's request; otherwise the message is saved and the request stays
      with its property. */
  function Update(db: Db, id: Id, p: RequestPatch, userTenantId: Option<Id>): (r: Result<(Db, Request)>)
    ensures !Holds(db.requests, RequestId, id) <==> r == Err(NotFound)
    ensures r.Err? ==> r.error in {NotFound, Forbidden}
    ensures Holds(db.requests, RequestId, id) ==>
      (r == Err(Forbidden) <==> ForeignTenant(userTenantId, FindOne(db, id).value))
    ensures r.Ok? <==> Holds(db.requests, RequestId, id) && !ForeignTenant(userTenantId, FindOne(db, id).value)
    ensures r.Ok? ==> exists i :: (0 <= i < |db.requests| && db.requests[i].id == id &&
      r.value.1 == Apply(db.requests[i], p) && r.value.0 == db.(requests := db.requests[i := r.value.1]))
    ensures r.Ok? ==> r.value.1.propertyId == FindOne(db, id).value.propertyId
  {
    match Locate(db.requests, RequestId, id)
    case None => Err(NotFound)
    case Some(i) =>
      var req := db.requests[i];
      if ForeignTenant(userTenantId, req) then Err(Forbidden)
      else
        var updated := Apply(req, p);
        Ok((db.(requests := db.requests[i := updated]), updated))
  }

  /** A body naming another property leaves the request where it was: the
      update succeeds and stores the row unchanged. */
  lemma UpdatePropertyIdNotWritten(db: Db, i: nat, propertyId: Id)
    requires Valid(db)
    requires i < |db.requests|
    ensures Update(db, db.requests[i].id, RequestPatch(Some(propertyId), None), None) == Ok((db, db.requests[i]))
  {
    LocateUnique(db.requests, RequestId, i);
    assert db.requests[i := db.requests[i]] == db.requests;
  }

  /** `remove(id, userTenantId)`: NotFound, then Forbidden for another tenant's request. */
  function Remove(db: Db, id: Id, userTenantId: Option<Id>): (r: Result<Db>)
    ensures !Holds(db.requests, RequestId, id) <==> r == Err(NotFound)
    ensures r.Err? ==> r.error in {NotFound, Forbidden}
    ensures Holds(db.requests, RequestId, id) ==>
      (r == Err(Forbidden) <==> ForeignTenant(userTenantId, FindOne(db, id).value))
    ensures r.Ok? ==> r.value.landlordOf == db.landlordOf && r.value.tenants == db.tenants
    ensures r.Ok? ==> |r.value.requests| == |db.requests| - 1 && forall x :: x in r.value.requests ==> x in db.requests
    ensures r.Ok? && Valid(db) ==> Valid(r.value) && !Holds(r.value.requests, RequestId, id)
  {
    match Locate(db.requests, RequestId, id)
    case None => Err(NotFound)
    case Some(i) =>
      if ForeignTenant(userTenantId, db.requests[i]) then Err(Forbidden)
      else
        var rest := RemoveAt(db.requests, i);
        assert Valid(db) ==> Valid(db.(requests := rest)) && !Holds(rest, RequestId, id) by {
          if Valid(db) {
            RemoveAtUnique(db.requests, RequestId, i);
          }
        }
        Ok(db.(requests := rest))
  }

  // ---------------------------------------------------------------------
  // Listings, newest first

  /** `ORDER BY createdAt DESC`. */
  predicate NewestFirst(a: Request, b: Request) {
    a.createdAt >= b.createdAt
  }

  lemma NewestFirstIsTotalPreorder()
    ensures TotalPreorder(NewestFirst)
  {
  }

  /** `if (status)`: an absent status filter keeps every status. */
  predicate StatusMatches(status: Option<Status>, req: Request) {
    status.None? || req.status == status.value
  }

  predicate OfTenant(tenantId: Id, status: Option<Status>, req: Request) {
    req.tenantId == tenantId && StatusMatches(status, req)
  }

  /** `property.landlordId = :landlordId` through the left join: a request
      without a property row matches no landlord. */
  predicate OfLandlord(db: Db, landlordId: Id, status: Option<Status>, req: Request) {
    OwnedBy(db, req, landlordId) && StatusMatches(status, req)
  }

  /** `listForTenant(tenantId, status)`. */
  function ListForTenant(db: Db, tenantId: Id, status: Option<Status>): (r: seq<Request>)
    ensures multiset(r) == multiset(Filter(db.requests, req => OfTenant(tenantId, status, req)))
  {
    Sort(Filter(db.requests, req => OfTenant(tenantId, status, req)), NewestFirst)
  }

  /** `listForLandlord(landlordId, status)`. */
  function ListForLandlord(db: Db, landlordId: Id, status: Option<Status>): (r: seq<Request>)
    ensures multiset(r) == multiset(Filter(db.requests, req => OfLandlord(db, landlordId, status, req)))
  {
    Sort(Filter(db.requests, req => OfLandlord(db, landlordId, status, req)), NewestFirst)
  }

  /** A sorted permutation of a filter holds exactly the matching rows. */
  lemma SortedFilterMembers(rows: seq<Request>, p: Request -> bool, x: Request)
    ensures x in Sort(Filter(rows, p), NewestFirst) <==> x in rows && p(x)
  {
    var f := Filter(rows, p);
    assert multiset(Sort(f, NewestFirst)) == multiset(f);
    assert x in Sort(f, NewestFirst) <==> x in multiset(f);
  }

  /** A tenant's listing is exactly that tenant's requests with the status
      asked for, newest first. */
  lemma ListForTenantSpec(db: Db, tenantId: Id, status: Option<Status>)
    ensures SortedBy(ListForTenant(db, tenantId, status), NewestFirst)
    ensures forall x :: x in ListForTenant(db, tenantId, status) <==>
      x in db.requests && x.tenantId == tenantId && (status.None? || x.status == status.value)
  {
    NewestFirstIsTotalPreorder();
    SortSorted(Filter(db.requests, req => OfTenant(tenantId, status, req)), NewestFirst);
    forall x ensures x in ListForTenant(db, tenantId, status) <==>
      x in db.requests && x.tenantId == tenantId && (status.None? || x.status == status.value) {
      SortedFilterMembers(db.requests, req => OfTenant(tenantId, status, req), x);
    }
  }

  /** A landlord's listing is exactly the requests on that landlord's
      properties with the status asked for, newest first. */
  lemma ListForLandlordSpec(db: Db, landlordId: Id, status: Option<Status>)
    ensures SortedBy(ListForLandlord(db, landlordId, status), NewestFirst)
    ensures forall x :: x in ListForLandlord(db, landlordId, status) <==>
      x in db.requests && OwnedBy(db, x, landlordId) && StatusMatches(status, x)
  {
    NewestFirstIsTotalPreorder();
    SortSorted(Filter(db.requests, req => OfLandlord(db, landlordId, status, req)), NewestFirst);
    forall x ensures x in ListForLandlord(db, landlordId, status) <==>
      x in db.requests && OwnedBy(db, x, landlordId) && StatusMatches(status, x) {
      SortedFilterMembers(db.requests, req => OfLandlord(db, landlordId, status, req), x);
    }
  }

  // ---------------------------------------------------------------------
  // How the operations fit together

  lemma CreateKeepsValid(db: Db, dto: CreateRequestDto, tenantId: Id, newId: Id, now: Time)
    requires Valid(db)
    requires !Holds(db.requests, RequestId, newId)
    ensures Create(db, dto, tenantId, newId, now).Ok? ==> Valid(Create(db, dto, tenantId, newId, now).value.0)
  {
    var r := Create(db, dto, tenantId, newId, now);
    if r.Ok? {
      AppendUnique(db.requests, RequestId, r.value.1);
    }
  }

  /** An update keeps the primary key and both foreign keys: the row keeps
      its id, its property and its tenant. */
  lemma UpdateKeepsValid(db: Db, id: Id, p: RequestPatch, userTenantId: Option<Id>)
    requires Valid(db)
    ensures Update(db, id, p, userTenantId).Ok? ==> Valid(Update(db, id, p, userTenantId).value.0)
  {
    var r := Update(db, id, p, userTenantId);
    if r.Ok? {
      var i := Locate(db.requests, RequestId, id).value;
      ReplaceUnique(db.requests, RequestId, i, r.value.1);
    }
  }

  /** A created request is found again by its id, pending and stamped with the caller's tenant. */
  lemma CreateThenFind(db: Db, dto: CreateRequestDto, tenantId: Id, newId: Id, now: Time)
    requires Valid(db)
    requires !Holds(db.requests, RequestId, newId)
    requires References(db, dto.propertyId, tenantId)
    ensures var (db1, req) := Create(db, dto, tenantId, newId, now).value;
      FindOne(db1, newId) == Ok(req) && req.status == Pending && req.tenantId == tenantId
  {
    var (db1, req) := Create(db, dto, tenantId, newId, now).value;
    CreateKeepsValid(db, dto, tenantId, newId, now);
    LocateUnique(db1.requests, RequestId, |db.requests|);
  }

  /** The property's landlord may set any status from any status, and the
      request then shows up in that landlord's listing filtered by it. */
  lemma OwnerSetsAnyStatus(db: Db, i: nat, status: Status)
    requires Valid(db) && i < |db.requests|
    ensures var req := db.requests[i];
      var r := UpdateStatus(db, req.id, status, db.landlordOf[req.propertyId]);
      && r == Ok((db.(requests := db.requests[i := req.(status := status)]), req.(status := status)))
      && req.(status := status) in ListForLandlord(r.value.0, db.landlordOf[req.propertyId], Some(status))
  {
    var req := db.requests[i];
    LocateUnique(db.requests, RequestId, i);
    var db1 := db.(requests := db.requests[i := req.(status := status)]);
    assert db1.requests[i] == req.(status := status);
    ListForLandlordSpec(db1, db.landlordOf[req.propertyId], Some(status));
  }

  /** Any other landlord is refused. */
  lemma OtherLandlordForbidden(db: Db, i: nat, status: Status, landlordId: Id)
    requires Valid(db) && i < |db.requests|
    requires db.landlordOf[db.requests[i].propertyId] != landlordId
    ensures UpdateStatus(db, db.requests[i].id, status, landlordId) == Err(Forbidden)
  {
    LocateUnique(db.requests, RequestId, i);
  }

  /** Without a tenant id, update and remove reach the request whoever asks;
      with the request's own tenant id they behave the same. */
  lemma TenantCheckOnlyWhenGiven(db: Db, i: nat, p: RequestPatch)
    requires Valid(db) && i < |db.requests|
    ensures Update(db, db.requests[i].id, p, None) == Update(db, db.requests[i].id, p, Some(db.requests[i].tenantId))
    ensures Update(db, db.requests[i].id, p, Some([])) == Update(db, db.requests[i].id, p, None)
    ensures Remove(db, db.requests[i].id, None).Ok? && Remove(db, db.requests[i].id, Some(db.requests[i].tenantId)).Ok?
  {
    LocateUnique(db.requests, RequestId, i);
  }
}

=== FILE: roles.dfy ===
/** The roles service (`src/modules/roles/services/roles.service.ts`): a table
    of named roles whose `name` column is unique.
 */
module Roles {
  import opened Wrappers
  import opened Text
  import opened Seqs
  import opened Tables

  datatype Role = Role(id: Id, name: string, description: Option<string>)

  /** `Partial<RoleDto>`: the body skips validation, so besides the role's
      own fields it can carry the primary key; a present key overwrites. */
  datatype RolePatch = RolePatch(id: Option<Id>, name: Option<string>, description: Option<string>)

  function RoleId(r: Role): string { r.id }

  /** The name as the unique index and the lookups compare it. */
  function RoleName(r: Role): string { Collate(r.name) }

  /** The table's constraints: the primary key and the unique name column. */
  predicate Valid(rows: seq<Role>) {
    UniqueBy(rows, RoleId) && UniqueBy(rows, RoleName)
  }

  /** `create(dto)`: Conflict when a role already has the name, up to letter case. */
  function Create(rows: seq<Role>, name: string, description: Option<string>, newId: Id)
    : (r: Result<(seq<Role>, Role)>)
    ensures r.Err? <==> exists i :: 0 <= i < |rows| && Collate(rows[i].name) == Collate(name)
    ensures r.Err? ==> r.error == Conflict
    ensures r.Ok? ==> r.value.1 == Role(newId, name, description) && r.value.0 == rows + [r.value.1]
  {
    if Locate(rows, RoleName, Collate(name)).Some? then Err(Conflict)
    else
      var role := Role(newId, name, description);
      Ok((rows + [role], role))
  }

  /** `findOne(id)`. */
  function FindOne(rows: seq<Role>, id: Id): (r: Result<Role>)
    ensures r.Err? <==> !Holds(rows, RoleId, id)
    ensures r.Err? ==> r.error == NotFound
    ensures r.Ok? ==> r.value in rows && r.value.id == id
  {
    match Locate(rows, RoleId, id)
    case None => Err(NotFound)
    case Some(i) => Ok(rows[i])
  }

  /** `findByName(name)`: absent rather than an error; letter case is ignored. */
  function FindByName(rows: seq<Role>, name: string): (r: Option<Role>)
    ensures r.None? <==> forall i :: 0 <= i < |rows| ==> Collate(rows[i].name) != Collate(name)
    ensures r.Some? ==> r.value in rows && Collate(r.value.name) == Collate(name)
  {
    match Locate(rows, RoleName, Collate(name))
    case None => None
    case Some(i) => Some(rows[i])
  }

  /** `Object.assign(role, dto)`. */
  function Apply(role: Role, patch: RolePatch): Role {
    Role(patch.id.GetOr(role.id), patch.name.GetOr(role.name),
      if patch.description.Some? then patch.description else role.description)
  }

  /** `roleRepository.save(role)`: the row holding the entity's id, when there
      is one, takes the entity's columns; otherwise the entity is inserted.
      Either way the unique index refuses a name another row holds. */
  function SaveRole(rows: seq<Role>, x: Role): (r: Result<seq<Role>>)
    ensures r.Err? ==> r.error == QueryFailed
    ensures !Holds(rows, RoleId, x.id) ==> (r.Ok? <==> !Holds(rows, RoleName, RoleName(x)))
    ensures !Holds(rows, RoleId, x.id) && r.Ok? ==> r.value == rows + [x]
    ensures Holds(rows, RoleId, x.id) ==> exists j :: (0 <= j < |rows| && rows[j].id == x.id
      && (forall k :: 0 <= k < j ==> rows[k].id != x.id)
      && (r.Ok? <==> forall k :: 0 <= k < |rows| && k != j ==> RoleName(rows[k]) != RoleName(x))
      && (r.Ok? ==> r.value == rows[j := x]))
  {
    match Locate(rows, RoleId, x.id)
    case None =>
      if Locate(rows, RoleName, RoleName(x)).Some? then Err(QueryFailed) else Ok(rows + [x])
    case Some(j) =>
      if exists k :: 0 <= k < |rows| && k != j && RoleName(rows[k]) == RoleName(x) then Err(QueryFailed)
      else Ok(rows[j := x])
  }

  /** The service's own name check: a non-empty new name that differs from
      the current one, character for character, and that some role holds
      up to letter case. */
  predicate NameTaken(rows: seq<Role>, current: Role, patch: RolePatch) {
    patch.name.Some? && patch.name.value != [] && patch.name.value != current.name
    && Holds(rows, RoleName, Collate(patch.name.value))
  }

  /** `update(id, dto)`: NotFound; then Conflict when the name check fails;
      then the patched entity is saved under whatever id it now has. An
      empty name skips the check; the unique index then refuses it if
      another role already has the empty name. */
  function Update(rows: seq<Role>, id: Id, patch: RolePatch): (r: Result<(seq<Role>, Role)>)
    ensures !Holds(rows, RoleId, id) ==> r == Err(NotFound)
    ensures r.Err? ==> r.error in {NotFound, Conflict, QueryFailed}
    ensures Holds(rows, RoleId, id) ==> (r == Err(Conflict) <==> NameTaken(rows, FindOne(rows, id).value, patch))
    ensures r.Ok? ==> exists i :: (0 <= i < |rows| && rows[i].id == id &&
      r.value.1 == Apply(rows[i], patch) && SaveRole(rows, r.value.1) == Ok(r.value.0))
    ensures Valid(rows) && Holds(rows, RoleId, id) && patch.id.None? ==>
      (r.Ok? <==> patch.name.None? || patch.name.value == FindOne(rows, id).value.name
                  || !Holds(rows, RoleName, Collate(patch.name.value)))
  {
    match Locate(rows, RoleId, id)
    case None => Err(NotFound)
    case Some(i) =>
      var role := rows[i];
      if patch.name.Some? && patch.name.value != [] && patch.name.value != role.name
         && Locate(rows, RoleName, Collate(patch.name.value)).Some?
      then Err(Conflict)
      else
        var updated := Apply(role, patch);
        assert Valid(rows) && patch.id.None? ==> Locate(rows, RoleId, updated.id) == Some(i) by {
          if Valid(rows) && patch.id.None? {
            LocateUnique(rows, RoleId, i);
          }
        }
        var saved :- SaveRole(rows, updated);
        Ok((saved, updated))
  }

  /** `remove(id)`. */
  function Remove(rows: seq<Role>, id: Id): (r: Result<seq<Role>>)
    ensures r.Err? <==> !Holds(rows, RoleId, id)
    ensures r.Err? ==> r.error == NotFound
    ensures r.Ok? ==> |r.value| == |rows| - 1 && forall x :: x in r.value ==> x in rows
    ensures r.Ok? && Valid(rows) ==> Valid(r.value) && !Holds(r.value, RoleId, id)
  {
    match Locate(rows, RoleId, id)
    case None => Err(NotFound)
    case Some(i) =>
      assert Valid(rows) ==> Valid(RemoveAt(rows, i)) && !Holds(RemoveAt(rows, i), RoleId, id) by {
        if Valid(rows) {
          RemoveAtUnique(rows, RoleId, i);
          RemoveAtUnique(rows, RoleName, i);
        }
      }
      Ok(RemoveAt(rows, i))
  }

  predicate ByName(a: Role, b: Role) {
    LexLe(a.name, b.name)
  }

  lemma ByNameIsTotalPreorder()
    ensures TotalPreorder(ByName)
  {
    forall a: Role, b: Role ensures ByName(a, b) || ByName(b, a) {
      LexLeTotal(a.name, b.name);
    }
    forall a: Role, b: Role, c: Role | ByName(a, b) && ByName(b, c) ensures ByName(a, c) {
      LexLeTransitive(a.name, b.name, c.name);
    }
  }

  /** `findAll()`, ordered by name ascending. */
  function FindAll(rows: seq<Role>): (r: seq<Role>)
    ensures multiset(r) == multiset(rows)
  {
    Sort(rows, ByName)
  }

  /** findAll returns every role exactly once, ascending by name. */
  lemma FindAllSorted(rows: seq<Role>)
    ensures SortedBy(FindAll(rows), ByName)
    ensures multiset(FindAll(rows)) == multiset(rows)
  {
    ByNameIsTotalPreorder();
    SortSorted(rows, ByName);
  }

  // ---------------------------------------------------------------------
  // The table constraints are kept

  lemma CreateKeepsValid(rows: seq<Role>, name: string, description: Option<string>, newId: Id)
    requires Valid(rows)
    requires !Holds(rows, RoleId, newId)
    ensures Create(rows, name, description, newId).Ok? ==> Valid(Create(rows, name, description, newId).value.0)
  {
    var r := Create(rows, name, description, newId);
    if r.Ok? {
      AppendUnique(rows, RoleId, r.value.1);
      AppendUnique(rows, RoleName, r.value.1);
    }
  }

  lemma UpdateKeepsValid(rows: seq<Role>, id: Id, patch: RolePatch)
    requires Valid(rows)
    ensures Update(rows, id, patch).Ok? ==> Valid(Update(rows, id, patch).value.0)
  {
    var r := Update(rows, id, patch);
    if r.Ok? {
      var x := r.value.1;
      match Locate(rows, RoleId, x.id)
      case None =>
        AppendUnique(rows, RoleId, x);
        AppendUnique(rows, RoleName, x);
      case Some(j) =>
        ReplaceUnique(rows, RoleId, j, x);
        ReplaceUnique(rows, RoleName, j, x);
    }
  }

  /** Keeping the current name is never a conflict. */
  lemma UpdateSameNameAllowed(rows: seq<Role>, i: nat, description: Option<string>)
    requires Valid(rows)
    requires i < |rows|
    ensures Update(rows, rows[i].id, RolePatch(None, Some(rows[i].name), description)).Ok?
  {
    LocateUnique(rows, RoleId, i);
  }

  /** Renaming to a name another role holds is a conflict. */
  lemma UpdateRenameConflict(rows: seq<Role>, i: nat, j: nat)
    requires Valid(rows)
    requires i < |rows| && j < |rows| && i != j
    requires rows[j].name != []
    ensures Update(rows, rows[i].id, RolePatch(None, Some(rows[j].name), None)) == Err(Conflict)
  {
    LocateUnique(rows, RoleId, i);
    assert RoleName(rows[j]) == Collate(rows[j].name);
  }

  /** Changing only the letter case of a role's own name is a conflict: the
      service compares the names exactly, the lookup then finds the role
      itself. */
  lemma UpdateRecaseConflict(rows: seq<Role>, i: nat, name: string)
    requires Valid(rows)
    requires i < |rows|
    requires name != [] && name != rows[i].name && Collate(name) == Collate(rows[i].name)
    ensures Update(rows, rows[i].id, RolePatch(None, Some(name), None)) == Err(Conflict)
  {
    LocateUnique(rows, RoleId, i);
    assert RoleName(rows[i]) == Collate(name);
  }

  /** A patch naming another role's id rewrites that role: the save finds
      the row by the id the body put in, so the role named in the path is
      left as it was and the other one takes the patched columns. */
  lemma UpdateRewritesOther(rows: seq<Role>, i: nat, k: nat, name: string)
    requires Valid(rows)
    requires i < |rows| && k < |rows| && i != k
    requires name != [] && !Holds(rows, RoleName, Collate(name))
    ensures var r := Update(rows, rows[i].id, RolePatch(Some(rows[k].id), Some(name), None));
      && r.Ok?
      && r.value.0[k] == Role(rows[k].id, name, rows[i].description)
      && r.value.0[i] == rows[i]
      && |r.value.0| == |rows|
  {
    LocateUnique(rows, RoleId, i);
    LocateUnique(rows, RoleId, k);
    var p := RolePatch(Some(rows[k].id), Some(name), None);
    var x := Apply(rows[i], p);
    assert x == Role(rows[k].id, name, rows[i].description);
    assert !NameTaken(rows, rows[i], p);
    assert SaveRole(rows, x) == Ok(rows[k := x]);
  }
}

=== FILE: seqs.dfy ===
/** Sequence operations standing in for the queries the services run.

    `Filter` is a `WHERE` clause or `Array.prototype.filter`, `FirstIndex` a
    `findOne`/`find`, `Reverse` is `Array.prototype.reverse`. `Sort` is a stable insertion sort by a total preorder: it stands for
    JavaScript's (stable) `Array.prototype.sort` and for an SQL `ORDER BY`,
    whose order among equal keys the model fixes to the store's order.
    `Window` is how the ORM turns `limit`/`offset` into a MySQL query.
 */
module Seqs {
  import opened Wrappers

  /** The elements satisfying `p`, in their original order. */
  function Filter<T>(xs: seq<T>, p: T -> bool): (r: seq<T>)
    ensures |r| <= |xs|
    ensures forall i :: 0 <= i < |r| ==> p(r[i]) && r[i] in xs
    ensures forall x :: x in xs && p(x) ==> x in r
    decreases |xs|
  {
    if |xs| == 0 then [] else (if p(xs[0]) then [xs[0]] else []) + Filter(xs[1..], p)
  }

  lemma {:induction false} FilterAppend<T>(xs: seq<T>, ys: seq<T>, p: T -> bool)
    ensures Filter(xs + ys, p) == Filter(xs, p) + Filter(ys, p)
    decreases |xs|
  {
    if |xs| > 0 {
      assert (xs + ys)[1..] == xs[1..] + ys;
      FilterAppend(xs[1..], ys, p);
    } else {
      assert xs + ys == ys;
    }
  }

  /** Filtering with a condition that fails everywhere gives nothing. */
  lemma {:induction false} FilterNone<T>(xs: seq<T>, p: T -> bool)
    requires forall i :: 0 <= i < |xs| ==> !p(xs[i])
    ensures Filter(xs, p) == []
    decreases |xs|
  {
    if |xs| > 0 {
      FilterNone(xs[1..], p);
    }
  }

  /** An element and its complement split a sequence between them. */
  lemma {:induction false} FilterComplement<T>(xs: seq<T>, p: T -> bool, q: T -> bool)
    requires forall i :: 0 <= i < |xs| ==> q(xs[i]) == !p(xs[i])
    ensures |Filter(xs, p)| + |Filter(xs, q)| == |xs|
    decreases |xs|
  {
    if |xs| > 0 {
      FilterComplement(xs[1..], p, q);
    }
  }

  /** `Array.prototype.map`. */
  function Map<T, U>(xs: seq<T>, f: T -> U): (r: seq<U>)
    ensures |r| == |xs|
    ensures forall i :: 0 <= i < |xs| ==> r[i] == f(xs[i])
  {
    seq(|xs|, i requires 0 <= i < |xs| => f(xs[i]))
  }

  /** Filtering with conditions that agree on every element gives the same result. */
  lemma {:induction false} FilterCongruent<T>(xs: seq<T>, p: T -> bool, q: T -> bool)
    requires forall i :: 0 <= i < |xs| ==> p(xs[i]) == q(xs[i])
    ensures Filter(xs, p) == Filter(xs, q)
    decreases |xs|
  {
    if |xs| > 0 {
      FilterCongruent(xs[1..], p, q);
    }
  }

  /** Replacing an element by one the condition treats alike keeps the count. */
  lemma {:induction false} FilterUpdateLength<T>(xs: seq<T>, i: nat, v: T, p: T -> bool)
    requires i < |xs|
    requires p(v) == p(xs[i])
    ensures |Filter(xs[i := v], p)| == |Filter(xs, p)|
    decreases |xs|
  {
    if i > 0 {
      assert xs[i := v][1..] == xs[1..][i - 1 := v];
      FilterUpdateLength(xs[1..], i - 1, v, p);
    } else {
      assert xs[i := v][1..] == xs[1..];
    }
  }

  /** The position of the first element satisfying `p`. */
  function FirstIndex<T>(xs: seq<T>, p: T -> bool): (r: Option<nat>)
    ensures r.Some? ==> r.value < |xs| && p(xs[r.value])
    ensures r.Some? ==> forall j :: 0 <= j < r.value ==> !p(xs[j])
    ensures r.None? ==> forall j :: 0 <= j < |xs| ==> !p(xs[j])
    decreases |xs|
  {
    if |xs| == 0 then None
    else if p(xs[0]) then Some(0)
    else match FirstIndex(xs[1..], p)
      case None => None
      case Some(i) => Some(i + 1)
  }

  function Reverse<T>(xs: seq<T>): (r: seq<T>)
    ensures |r| == |xs|
    ensures forall i :: 0 <= i < |xs| ==> r[i] == xs[|xs| - 1 - i]
  {
    seq(|xs|, i requires 0 <= i < |xs| => xs[|xs| - 1 - i])
  }

  /** The first `k` of the reversed sequence, reversed back, are the last `k`. */
  lemma ReversePrefix<T>(xs: seq<T>, k: nat)
    requires k <= |xs|
    ensures Reverse(Reverse(xs)[..k]) == xs[|xs| - k..]
  {
  }

  /** Every suffix of a sorted sequence is sorted. */
  lemma SortedSuffix<T>(xs: seq<T>, k: nat, le: (T, T) -> bool)
    requires k <= |xs| && SortedBy(xs, le)
    ensures SortedBy(xs[k..], le)
  {
    forall i, j | 0 <= i < j < |xs| - k ensures le(xs[k..][i], xs[k..][j]) {
      assert xs[k..][i] == xs[k + i] && xs[k..][j] == xs[k + j];
    }
  }

  /** A sorted sequence stays sorted under filtering. */
  lemma {:induction false} FilterSorted<T>(xs: seq<T>, p: T -> bool, le: (T, T) -> bool)
    requires SortedBy(xs, le)
    ensures SortedBy(Filter(xs, p), le)
    decreases |xs|
  {
    if |xs| > 0 {
      var tail := Filter(xs[1..], p);
      FilterSorted(xs[1..], p, le);
      if p(xs[0]) {
        forall k | 0 <= k < |tail| ensures le(xs[0], tail[k]) {
          var m :| 0 <= m < |xs[1..]| && xs[1..][m] == tail[k];
          assert xs[m + 1] == tail[k];
        }
      }
    }
  }

  ghost predicate TotalPreorder<T(!new)>(le: (T, T) -> bool) {
    && (forall a, b :: le(a, b) || le(b, a))
    && (forall a, b, c :: le(a, b) && le(b, c) ==> le(a, c))
  }

  predicate SortedBy<T>(xs: seq<T>, le: (T, T) -> bool) {
    forall i, j :: 0 <= i < j < |xs| ==> le(xs[i], xs[j])
  }

  /** `x` placed before the first element it does not come after. */
  function Insert<T>(x: T, ys: seq<T>, le: (T, T) -> bool): (r: seq<T>)
    ensures multiset(r) == multiset(ys) + multiset{x}
    ensures |r| == |ys| + 1
    decreases |ys|
  {
    if |ys| == 0 then [x]
    else if le(x, ys[0]) then [x] + ys
    else
      assert ys == [ys[0]] + ys[1..];
      [ys[0]] + Insert(x, ys[1..], le)
  }

  function Sort<T>(xs: seq<T>, le: (T, T) -> bool): (r: seq<T>)
    ensures multiset(r) == multiset(xs)
    ensures |r| == |xs|
    decreases |xs|
  {
    if |xs| == 0 then []
    else
      assert xs == [xs[0]] + xs[1..];
      Insert(xs[0], Sort(xs[1..], le), le)
  }

  lemma {:induction false} InsertSorted<T(!new)>(x: T, ys: seq<T>, le: (T, T) -> bool)
    requires TotalPreorder(le)
    requires SortedBy(ys, le)
    ensures SortedBy(Insert(x, ys, le), le)
    decreases |ys|
  {
    if |ys| > 0 && !le(x, ys[0]) {
      var tail := Insert(x, ys[1..], le);
      InsertSorted(x, ys[1..], le);
      assert le(ys[0], x);
      forall k | 0 <= k < |tail| ensures le(ys[0], tail[k]) {
        assert tail[k] in multiset(tail);
        assert tail[k] in multiset(ys[1..]) + multiset{x};
        if tail[k] != x {
          assert tail[k] in multiset(ys[1..]);
          var m :| 0 <= m < |ys[1..]| && ys[1..][m] == tail[k];
          assert ys[1..][m] == ys[m + 1];
        }
      }
    }
  }

  /** The sort orders its output and keeps exactly the input's elements. */
  lemma {:induction false} SortSorted<T(!new)>(xs: seq<T>, le: (T, T) -> bool)
    requires TotalPreorder(le)
    ensures SortedBy(Sort(xs, le), le)
    decreases |xs|
  {
    if |xs| > 0 {
      SortSorted(xs[1..], le);
      InsertSorted(xs[0], Sort(xs[1..], le), le);
    }
  }

  /** Sorting a filtered sequence keeps exactly the elements that pass. */
  lemma SortFilterMembers<T>(xs: seq<T>, p: T -> bool, le: (T, T) -> bool)
    ensures forall x :: x in Sort(Filter(xs, p), le) <==> x in xs && p(x)
  {
    forall x ensures x in Sort(Filter(xs, p), le) <==> x in xs && p(x) {
      assert x in Sort(Filter(xs, p), le) <==> x in multiset(Filter(xs, p));
    }
  }

  /** Two conditions as one. */
  function Both<T>(p: T -> bool, q: T -> bool): T -> bool {
    x => p(x) && q(x)
  }

  /** Filtering twice is filtering once by both conditions. */
  lemma {:induction false} FilterFilter<T>(xs: seq<T>, p: T -> bool, q: T -> bool)
    ensures Filter(Filter(xs, p), q) == Filter(xs, Both(p, q))
    decreases |xs|
  {
    if |xs| > 0 {
      var head := if p(xs[0]) then [xs[0]] else [];
      FilterFilter(xs[1..], p, q);
      FilterAppend(head, Filter(xs[1..], p), q);
      if p(xs[0]) {
        assert Filter(head, q) == (if q(xs[0]) then [xs[0]] else []) + Filter(head[1..], q);
      } else {
        assert Filter(head, q) == [];
      }
    }
  }

  /** Filtering with a condition that holds everywhere changes nothing. */
  lemma {:induction false} FilterAll<T>(xs: seq<T>, p: T -> bool)
    requires forall i :: 0 <= i < |xs| ==> p(xs[i])
    ensures Filter(xs, p) == xs
    decreases |xs|
  {
    if |xs| > 0 {
      FilterAll(xs[1..], p);
      assert [xs[0]] + xs[1..] == xs;
    }
  }

  /** `.limit(l)` / `.offset(o)` as the ORM renders them for MySQL: a falsy
      (absent or zero) limit or offset writes no clause, a negative one makes
      the statement invalid, and an offset without a limit is refused. */
  function Window<T>(rows: seq<T>, limit: Option<int>, offset: Option<int>): (r: Result<seq<T>>)
    ensures r.Ok? <==>
      && (limit.Some? ==> limit.value >= 0)
      && (offset.Some? ==> offset.value >= 0)
      && (offset.Some? && offset.value != 0 ==> limit.Some? && limit.value != 0)
    ensures r.Ok? && limit.Some? && limit.value > 0 ==> |r.value| <= limit.value
    ensures r.Ok? ==> exists o: nat :: o <= |rows| && r.value <= rows[o..]
    ensures r.Ok? && (offset.None? || offset.value == 0) ==> r.value <= rows
    ensures r.Ok? && (limit.None? || limit.value == 0) ==> r.value == rows
    ensures r.Ok? && (offset.None? || offset.value == 0) && limit.Some? && limit.value > 0 ==>
      r.value == rows[..if limit.value < |rows| then limit.value else |rows|]
    ensures r.Ok? && limit.Some? && offset.Some? && 0 < offset.value <= |rows| ==>
      r.value == rows[offset.value..][..if limit.value < |rows| - offset.value then limit.value else |rows| - offset.value]
    ensures r.Ok? && offset.Some? && offset.value > |rows| ==> r.value == []
  {
    var l := limit.GetOr(0);
    var o := offset.GetOr(0);
    if l < 0 || o < 0 then Err(QueryFailed)
    else if o != 0 && l == 0 then Err(QueryFailed)
    else
      var skipped := if o <= |rows| then rows[o..] else [];
      assert skipped == rows[(if o <= |rows| then o else |rows|)..];
      Ok(if l != 0 && l < |skipped| then skipped[..l] else skipped)
  }

  /** A page holds only rows of the query it pages. */
  lemma WindowWithin<T>(rows: seq<T>, limit: Option<int>, offset: Option<int>)
    ensures Window(rows, limit, offset).Ok? ==> forall x :: x in Window(rows, limit, offset).value ==> x in rows
  {
    var r := Window(rows, limit, offset);
    if r.Ok? {
      var k: nat :| k <= |rows| && r.value <= rows[k..];
      forall x | x in r.value ensures x in rows {
        var j :| 0 <= j < |r.value| && r.value[j] == x;
        assert rows[k + j] == x;
      }
    }
  }

  /** Two consecutive pages of `l` rows, read back to back, are the page of
      `2 * l` rows that starts where the first one does: paging neither skips
      nor repeats a row. */
  lemma WindowPagesTile<T>(rows: seq<T>, l: nat, o: nat)
    requires l > 0
    ensures Window(rows, Some(l), Some(o)).Ok? && Window(rows, Some(l), Some(o + l)).Ok?
    ensures Window(rows, Some(l), Some(o)).value + Window(rows, Some(l), Some(o + l)).value
      == Window(rows, Some(2 * l), Some(o)).value
  {
    var first := Window(rows, Some(l), Some(o)).value;
    var second := Window(rows, Some(l), Some(o + l)).value;
    var both := Window(rows, Some(2 * l), Some(o)).value;
    if o + l <= |rows| {
      assert first == rows[o..o + l];
      if o + 2 * l <= |rows| {
        assert second == rows[o + l..o + 2 * l];
        assert both == rows[o..o + 2 * l];
      } else {
        assert second == rows[o + l..];
        assert both == rows[o..];
      }
      assert rows[o..] == rows[o..o + l] + rows[o + l..];
    } else if o <= |rows| {
      assert first == rows[o..];
      assert second == [];
      assert both == rows[o..];
    }
  }
}

=== FILE: storage.dfy ===
/** Building the object key of a presigned upload
    (`src/modules/storage/storage.service.ts`, `presignPut`).

    The pipeline is: content-type gate, file name and extension, the first
    `{userId}` substitution, the property-ownership gate on that
    (unsanitised) folder, a second substitution, backslash runs to `/`,
    splitting into segments, dropping empty ones, sanitising each, joining,
    and finally the key and the resource URL. The signer, the random file
    name and the environment are parameters; the property table the
    ownership gate consults is a map from property id to landlord id.
 */
module Storage {
  import opened Wrappers
  import opened Seqs
  import opened Text

  const ExpiresIn: nat := 300
  const UserIdPlaceholder: string := "{userId}"
  const PropertiesPrefix: string := "properties/"
  const DefaultRegion: string := "us-east-1"
  const LandlordRole: string := "landlord"

  datatype PresignRequest = PresignRequest(folder: string, contentType: string, filename: Option<string>)

  /** The environment: `AWS_REGION`, `AWS_S3_BUCKET`, `AWS_S3_BASE_URL`. */
  datatype StorageEnv = StorageEnv(region: Option<string>, bucket: Option<string>, baseUrl: Option<string>)

  datatype Presigned = Presigned(uploadUrl: string, resourceUrl: string, key: string, bucket: string, expiresIn: nat)

  /** `x || d` on an optional string. */
  function OrElse(x: Option<string>, d: string): (r: string)
    ensures x.Some? && x.value != [] ==> r == x.value
    ensures x.None? || x.value == [] ==> r == d
  {
    if x.Some? && x.value != [] then x.value else d
  }

  function Bucket(env: StorageEnv): string {
    OrElse(env.bucket, "")
  }

  function BaseUrl(env: StorageEnv): string {
    OrElse(env.baseUrl, "https://" + Bucket(env) + ".s3." + OrElse(env.region, DefaultRegion) + ".amazonaws.com")
  }

  // ---------------------------------------------------------------------
  // Gates

  predicate AllowedContentType(ct: string) {
    "image/" <= ct || "video/" <= ct
  }

  predicate IsHexOrDash(c: char) {
    IsHexDigit(c) || c == '-'
  }

  /** The capture of `^properties\/([0-9a-fA-F-]{36})\/`, if the folder matches. */
  function PropertyFolderId(folder: string): (r: Option<string>)
    ensures r.Some? <==>
      |folder| >= 48 && PropertiesPrefix <= folder && AllChars(folder[11..47], IsHexOrDash) && folder[47] == '/'
    ensures r.Some? ==> folder == PropertiesPrefix + r.value + folder[47..] && |r.value| == 36
  {
    if |folder| >= 48 && PropertiesPrefix <= folder && AllChars(folder[11..47], IsHexOrDash) && folder[47] == '/'
    then Some(folder[11..47])
    else None
  }

  /** `propertiesService.findOne(id, userId)` succeeds: the property exists and,
      when a user id is given, belongs to that landlord. */
  predicate FindsProperty(owners: map<string, string>, pid: string, userId: Option<string>) {
    pid in owners && (userId.None? || userId.value == [] || owners[pid] == userId.value)
  }

  /** A role that may not upload to a property folder: set, and not the landlord role. */
  predicate BarredRole(role: Option<string>) {
    role.Some? && role.value != [] && role.value != LandlordRole
  }

  // ---------------------------------------------------------------------
  // Folder normalisation

  predicate IsKeyChar(c: char) {
    IsAsciiLetter(c) || IsAsciiDigit(c) || c == '-' || c == '_' || c == '/'
  }

  predicate IsDash(c: char) {
    c == '-'
  }

  predicate IsBackslash(c: char) {
    c == '\\'
  }

  predicate IsSlash(c: char) {
    c == '/'
  }

  /** No two consecutive `-`. */
  predicate SingleDashes(s: string) {
    forall i :: 0 <= i < |s| - 1 ==> s[i] != '-' || s[i + 1] != '-'
  }

  lemma TrimChars(s: string)
    ensures forall i :: 0 <= i < |Trim(s)| ==> Trim(s)[i] in s
  {
    var t := TrimStart(s);
    var r := Trim(s);
    forall i | 0 <= i < |r| ensures r[i] in s {
      assert r[i] == t[i] == s[|s| - |t| + i];
    }
  }

  /** Trim, white-space runs to `-`, drop every character outside
      `[a-zA-Z0-9-_/]`, dash runs to `-`. */
  function SanitizeSegment(seg: string): (r: string)
    ensures AllChars(r, IsKeyChar)
    ensures SingleDashes(r)
    ensures '/' !in seg ==> '/' !in r
  {
    var trimmed := Trim(seg);
    var dashed := CollapseRuns(trimmed, IsSpace, '-');
    var kept := KeepOnly(dashed, IsKeyChar);
    var r := CollapseRuns(kept, IsDash, '-');
    assert '/' !in seg ==> '/' !in r by {
      if '/' !in seg {
        TrimChars(seg);
        assert '/' !in trimmed;
        assert '/' !in dashed;
        assert '/' !in kept;
      }
    }
    r
  }

  /** No white space survives sanitising. */
  lemma SanitizedHasNoSpace(seg: string)
    ensures forall i :: 0 <= i < |SanitizeSegment(seg)| ==> !IsSpace(SanitizeSegment(seg)[i])
  {
  }

  /** A segment already in sanitised form is left alone. */
  lemma SanitizeFixed(s: string)
    requires AllChars(s, IsKeyChar) && SingleDashes(s)
    ensures SanitizeSegment(s) == s
  {
    forall i | 0 <= i < |s| ensures !IsSpace(s[i]) {
    }
    TrimNoSpace(s);
    CollapseRunsIdentity(s, IsSpace, '-');
    KeepOnlyIdentity(s, IsKeyChar);
    CollapseRunsIdentity(s, IsDash, '-');
  }

  lemma SanitizeIdempotent(seg: string)
    ensures SanitizeSegment(SanitizeSegment(seg)) == SanitizeSegment(seg)
  {
    SanitizeFixed(SanitizeSegment(seg));
  }

  function SanitizeAll(parts: seq<string>): (r: seq<string>)
    ensures |r| == |parts|
    ensures forall k :: 0 <= k < |r| ==> r[k] == SanitizeSegment(parts[k])
  {
    seq(|parts|, k requires 0 <= k < |parts| => SanitizeSegment(parts[k]))
  }

  predicate NonEmpty(s: string) {
    s != []
  }

  /** The non-empty `/`-separated segments of the folder, backslash runs
      counting as one `/`. */
  function RawSegments(rawFolder: string): (r: seq<string>)
    ensures forall k :: 0 <= k < |r| ==> r[k] != [] && '/' !in r[k] && '\\' !in r[k]
  {
    var unslashed := CollapseRuns(rawFolder, IsBackslash, '/');
    var pieces := Filter(Split(unslashed, '/'), NonEmpty);
    assert forall k :: 0 <= k < |pieces| ==> '\\' !in pieces[k] by {
      forall k | 0 <= k < |pieces| ensures '\\' !in pieces[k] {
        if '\\' in pieces[k] {
          var j :| 0 <= j < |pieces[k]| && pieces[k][j] == '\\';
          JoinSplit(unslashed, '/');
          JoinContains(Split(unslashed, '/'), '/', pieces[k], j);
        }
      }
    }
    pieces
  }

  /** A character of a part is a character of the joined string. */
  lemma {:induction false} JoinContains(parts: seq<string>, sep: char, part: string, j: nat)
    requires part in parts && j < |part|
    ensures part[j] in Join(parts, sep)
    decreases |parts|
  {
    if |parts| > 1 {
      if part == parts[0] {
        assert part[j] == (parts[0] + [sep] + Join(parts[1..], sep))[j];
      } else {
        JoinContains(parts[1..], sep, part, j);
        var rest := Join(parts[1..], sep);
        var k :| 0 <= k < |rest| && rest[k] == part[j];
        assert (parts[0] + [sep] + rest)[|parts[0]| + 1 + k] == part[j];
      }
    }
  }

  /** The folder after both substitutions, normalised segment by segment. */
  function NormalFolder(originalFolder: string, uid: string): string {
    var rawFolder := ReplaceFirst(originalFolder, UserIdPlaceholder, uid);
    Join(SanitizeAll(RawSegments(rawFolder)), '/')
  }

  /** `replace(/\/+/, '/')`: only the first run of slashes is collapsed. */
  function CollapseFirstSlashRun(s: string): (r: string)
    ensures '/' !in s ==> r == s
    ensures '/' in s ==> '/' in r
  {
    match FirstIndex(s, IsSlash)
    case None => s
    case Some(i) =>
      var r := s[..i] + "/" + DropWhile(s[i..], IsSlash);
      assert r[i] == '/';
      r
  }

  /** A string in which no slash follows a slash. */
  predicate SingleSlashes(s: string) {
    forall i :: 0 <= i < |s| - 1 ==> s[i] != '/' || s[i + 1] != '/'
  }

  lemma CollapseFirstSlashRunIdentity(s: string)
    requires SingleSlashes(s)
    ensures CollapseFirstSlashRun(s) == s
  {
    match FirstIndex(s, IsSlash)
    case None =>
    case Some(i) =>
      var t := s[i..];
      assert |t| == 1 || !IsSlash(t[1]);
      assert DropWhile(t, IsSlash) == DropWhile(t[1..], IsSlash) == t[1..];
      assert s == s[..i] + "/" + t[1..];
  }

  // ---------------------------------------------------------------------
  // presignPut

  function Extension(contentType: string): string {
    if '/' in contentType then Split(contentType, '/')[1] else "bin"
  }

  /** The key the request gets: `${folder}/${filename}.${ext}` with its first
      run of slashes collapsed. */
  function KeyFor(req: PresignRequest, userId: Option<string>, uuid: string): string {
    var uid := OrElse(userId, "");
    var folder := NormalFolder(ReplaceFirst(req.folder, UserIdPlaceholder, uid), uid);
    CollapseFirstSlashRun(folder + "/" + FileTail(req, uuid))
  }

  /** `${filename}.${ext}`. */
  function FileTail(req: PresignRequest, uuid: string): string {
    OrElse(req.filename, uuid) + "." + Extension(req.contentType)
  }

  function Presign(req: PresignRequest, userId: Option<string>, role: Option<string>,
                   owners: map<string, string>, uuid: string, uploadUrl: string, env: StorageEnv)
    : (r: Result<Presigned>)
    ensures r == Err(BadRequest) <==> !AllowedContentType(req.contentType)
    ensures r == Err(Forbidden) <==>
      && AllowedContentType(req.contentType)
      && var pid := PropertyFolderId(ReplaceFirst(req.folder, UserIdPlaceholder, OrElse(userId, "")));
         pid.Some? && (BarredRole(role) || !FindsProperty(owners, pid.value, userId))
    ensures r.Err? ==> r.error == BadRequest || r.error == Forbidden
    ensures r.Ok? ==>
      && r.value.key == KeyFor(req, userId, uuid)
      && r.value.resourceUrl == BaseUrl(env) + "/" + r.value.key
      && r.value.bucket == Bucket(env)
      && r.value.uploadUrl == uploadUrl
      && r.value.expiresIn == ExpiresIn
  {
    if !AllowedContentType(req.contentType) then Err(BadRequest)
    else
      var uid := OrElse(userId, "");
      var originalFolder := ReplaceFirst(req.folder, UserIdPlaceholder, uid);
      var gate := PropertyFolderId(originalFolder);
      if gate.Some? && BarredRole(role) then Err(Forbidden)
      else if gate.Some? && !FindsProperty(owners, gate.value, userId) then Err(Forbidden)
      else
        var key := KeyFor(req, userId, uuid);
        Ok(Presigned(uploadUrl, BaseUrl(env) + "/" + key, key, Bucket(env), ExpiresIn))
  }

  /** The extension is the text between the first `/` and the next one. */
  lemma ExtensionSpec(kind: string, ext: string, rest: string)
    requires '/' !in kind && '/' !in ext
    ensures Extension(kind + "/" + ext) == ext
    ensures Extension(kind + "/" + ext + "/" + rest) == ext
  {
    SplitNoSep(ext, '/');
    SplitConcat(kind, ext, '/');
    assert kind + "/" + ext == kind + ['/'] + ext;
    SplitConcat(ext, rest, '/');
    assert kind + "/" + ext + "/" + rest == kind + ['/'] + (ext + ['/'] + rest);
    SplitConcat(kind, ext + ['/'] + rest, '/');
  }

  // ---------------------------------------------------------------------
  // Shape of the key

  /** Joining non-empty slash-free parts gives a string with no leading,
      trailing or doubled slash. */
  lemma {:induction false} JoinCleanParts(parts: seq<string>)
    requires |parts| >= 1
    requires forall k :: 0 <= k < |parts| ==> parts[k] != [] && '/' !in parts[k]
    ensures var j := Join(parts, '/');
      j != [] && j[0] != '/' && j[|j| - 1] != '/' && SingleSlashes(j)
    decreases |parts|
  {
    if |parts| > 1 {
      JoinCleanParts(parts[1..]);
      var a := parts[0];
      var b := Join(parts[1..], '/');
      var j := a + "/" + b;
      assert Join(parts, '/') == j;
      forall i | 0 <= i < |j| - 1 ensures j[i] != '/' || j[i + 1] != '/' {
        if i < |a| {
          assert j[i] == a[i];
        } else if i == |a| {
          assert j[i + 1] == b[0];
        } else {
          assert j[i] == b[i - |a| - 1] && j[i + 1] == b[i - |a|];
        }
      }
    }
  }

  /** The segments of the joined folder are exactly the parts joined. */
  lemma {:induction false} SplitJoin(parts: seq<string>)
    requires |parts| >= 1
    requires forall k :: 0 <= k < |parts| ==> '/' !in parts[k]
    ensures Split(Join(parts, '/'), '/') == parts
    decreases |parts|
  {
    if |parts| == 1 {
      SplitNoSep(parts[0], '/');
    } else {
      SplitJoin(parts[1..]);
      SplitConcat(parts[0], Join(parts[1..], '/'), '/');
    }
  }

  /** Appending `/` and a tail that does not start with `/` to a clean folder
      leaves nothing for the first-run collapse to do. */
  lemma CollapseAfterCleanFolder(folder: string, tail: string)
    requires folder != [] && folder[0] != '/' && folder[|folder| - 1] != '/' && SingleSlashes(folder)
    requires tail == [] || tail[0] != '/'
    ensures CollapseFirstSlashRun(folder + "/" + tail) == folder + "/" + tail
  {
    var s := folder + "/" + tail;
    assert IsSlash(s[|folder|]);
    var i := FirstIndex(s, IsSlash).value;
    assert i <= |folder|;
    assert i + 1 == |s| || s[i + 1] != '/' by {
      if i < |folder| {
        assert s[i] == folder[i];
        assert i < |folder| - 1;
        assert s[i + 1] == folder[i + 1];
      } else if i + 1 < |s| {
        assert s[i + 1] == tail[0];
      }
    }
    CollapseLoneSlash(s, i);
  }

  /** A first slash with no slash after it is left as it is. */
  lemma CollapseLoneSlash(s: string, i: nat)
    requires FirstIndex(s, IsSlash) == Some(i)
    requires i + 1 == |s| || s[i + 1] != '/'
    ensures CollapseFirstSlashRun(s) == s
  {
    DropWhileOne(s[i..], IsSlash);
    SplitAtSlash(s, i);
  }

  lemma SplitAtSlash(s: string, i: nat)
    requires i < |s| && s[i] == '/'
    ensures s == s[..i] + "/" + s[i..][1..]
  {
    assert s[i..][1..] == s[i + 1..];
    assert s == s[..i] + [s[i]] + s[i + 1..];
  }

  /** When every raw segment survives sanitising, the folder's segments are the
      sanitised raw segments in order, and the key is folder, `/`, file name,
      `.`, extension with nothing collapsed. */
  lemma KeyOfCleanFolder(originalFolder: string, uid: string, tail: string)
    requires var segs := SanitizeAll(RawSegments(ReplaceFirst(originalFolder, UserIdPlaceholder, uid)));
      |segs| >= 1 && forall k :: 0 <= k < |segs| ==> segs[k] != []
    requires tail == [] || tail[0] != '/'
    ensures var raw := RawSegments(ReplaceFirst(originalFolder, UserIdPlaceholder, uid));
      Split(NormalFolder(originalFolder, uid), '/') == SanitizeAll(raw)
    ensures var folder := NormalFolder(originalFolder, uid);
      CollapseFirstSlashRun(folder + "/" + tail) == folder + "/" + tail
  {
    var segs := SanitizeAll(RawSegments(ReplaceFirst(originalFolder, UserIdPlaceholder, uid)));
    SplitJoin(segs);
    JoinCleanParts(segs);
    CollapseAfterCleanFolder(Join(segs, '/'), tail);
  }

  // ---------------------------------------------------------------------
  // The ownership gate reads the folder before normalisation

  /** A well-formed property id: 36 hex digits and single dashes. */
  predicate CleanId(id: string) {
    |id| == 36 && AllChars(id, IsHexOrDash) && SingleDashes(id)
  }

  lemma CleanSegmentFixed(s: string)
    requires AllChars(s, IsHexOrDash) && SingleDashes(s)
    ensures SanitizeSegment(s) == s
  {
    SanitizeFixed(s);
  }

  lemma NoPlaceholderIn(s: string)
    requires '{' !in s
    ensures ReplaceFirst(s, UserIdPlaceholder, "") == s
  {
    forall j | 0 <= j ensures !OccursAt(s, UserIdPlaceholder, j) {
      if j + 8 <= |s| {
        assert s[j..j + 8][0] == s[j];
      }
    }
  }

  /** A segment sanitising leaves alone and splitting cannot cut. */
  predicate CleanSegment(x: string) {
    x != [] && AllChars(x, IsKeyChar) && '/' !in x && SingleDashes(x)
  }

  /** Two segments written with a leading and a trailing slash. */
  function SlashedFolder(a: string, b: string): string {
    "/" + a + "/" + b + "/"
  }

  lemma SlashedFolderSplit(a: string, b: string)
    requires '/' !in a && '/' !in b
    ensures Split(SlashedFolder(a, b), '/') == [[], a, b, []]
  {
    assert SlashedFolder(a, b) == [] + ['/'] + (a + ['/'] + (b + ['/'] + []));
    SplitConcat([], a + ['/'] + (b + ['/'] + []), '/');
    SplitConcat(a, b + ['/'] + [], '/');
    SplitConcat(b, [], '/');
  }

  /** The characters of the slashed folder are the two segments' and slashes. */
  lemma SlashedFolderChars(a: string, b: string, c: char)
    requires c != '/' && c !in a && c !in b
    ensures c !in SlashedFolder(a, b)
  {
    var folder := SlashedFolder(a, b);
    forall i | 0 <= i < |folder| ensures folder[i] != c {
      if 1 <= i <= |a| {
        assert folder[i] == a[i - 1];
      } else if |a| + 2 <= i < |a| + 2 + |b| {
        assert folder[i] == b[i - |a| - 2];
      }
    }
  }

  lemma SlashedFolderSegments(a: string, b: string)
    requires CleanSegment(a) && CleanSegment(b)
    ensures RawSegments(SlashedFolder(a, b)) == [a, b]
  {
    var folder := SlashedFolder(a, b);
    assert '\\' !in a && '\\' !in b;
    SlashedFolderChars(a, b, '\\');
    assert forall i :: 0 <= i < |folder| ==> !IsBackslash(folder[i]);
    CollapseRunsIdentity(folder, IsBackslash, '/');
    SlashedFolderSplit(a, b);
    DropEmptyEnds(a, b);
  }

  lemma DropEmptyEnds(a: string, b: string)
    requires a != [] && b != []
    ensures Filter([[], a, b, []], NonEmpty) == [a, b]
  {
    var split: seq<string> := [[], a, b, []];
    assert split == [[]] + ([a] + ([b] + [[]]));
    FilterAppend([[]], [a] + ([b] + [[]]), NonEmpty);
    FilterAppend([a], [b] + [[]], NonEmpty);
    FilterAppend([b], [[]], NonEmpty);
  }

  lemma SlashedFolderNormal(a: string, b: string)
    requires CleanSegment(a) && CleanSegment(b)
    ensures ReplaceFirst(SlashedFolder(a, b), UserIdPlaceholder, "") == SlashedFolder(a, b)
    ensures NormalFolder(SlashedFolder(a, b), "") == a + "/" + b
  {
    var folder := SlashedFolder(a, b);
    assert '{' !in a && '{' !in b;
    SlashedFolderChars(a, b, '{');
    NoPlaceholderIn(folder);
    SlashedFolderSegments(a, b);
    SanitizePair(a, b);
    assert Join([a, b], '/') == a + "/" + b;
  }

  lemma SanitizePair(a: string, b: string)
    requires CleanSegment(a) && CleanSegment(b)
    ensures SanitizeAll([a, b]) == [a, b]
  {
    var parts := [a, b];
    assert forall k :: 0 <= k < |parts| ==> CleanSegment(parts[k]);
    SanitizeCleanParts(parts);
  }

  /** Clean segments pass through sanitising unchanged. */
  lemma SanitizeCleanParts(parts: seq<string>)
    requires forall k :: 0 <= k < |parts| ==> CleanSegment(parts[k])
    ensures SanitizeAll(parts) == parts
  {
    forall k | 0 <= k < |parts| ensures SanitizeSegment(parts[k]) == parts[k] {
      SanitizeFixed(parts[k]);
    }
  }

  lemma SlashedFolderKey(a: string, b: string, contentType: string, uuid: string)
    requires CleanSegment(a) && CleanSegment(b)
    requires uuid != [] && uuid[0] != '/'
    ensures KeyFor(PresignRequest(SlashedFolder(a, b), contentType, None), None, uuid)
         == a + "/" + b + "/" + (uuid + "." + Extension(contentType))
  {
    var req := PresignRequest(SlashedFolder(a, b), contentType, None);
    var tail := FileTail(req, uuid);
    assert tail == uuid + "." + Extension(contentType);
    SlashedFolderNormal(a, b);
    TwoSegmentsClean(a, b);
    assert tail[0] == uuid[0];
    CollapseAfterCleanFolder(a + "/" + b, tail);
  }

  /** Two clean segments joined by `/` form a clean folder. */
  lemma TwoSegmentsClean(a: string, b: string)
    requires CleanSegment(a) && CleanSegment(b)
    ensures var f := a + "/" + b;
      f != [] && f[0] != '/' && f[|f| - 1] != '/' && SingleSlashes(f)
  {
    JoinCleanParts([a, b]);
    assert Join([a, b], '/') == a + "/" + b;
  }

  lemma CleanIdIsCleanSegment(id: string)
    requires CleanId(id)
    ensures CleanSegment(id)
  {
    assert forall i :: 0 <= i < |id| ==> IsHexOrDash(id[i]);
  }

  /** A leading slash keeps the folder clear of the gate, yet the key still
      lands in the property's folder: a tenant with no property at all gets an
      upload slot under `properties/<id>/`. */
  lemma LeadingSlashSkipsGate(id: string, contentType: string, uuid: string, uploadUrl: string, env: StorageEnv)
    requires CleanId(id)
    requires AllowedContentType(contentType)
    requires uuid != [] && uuid[0] != '/'
    ensures var req := PresignRequest(SlashedFolder("properties", id), contentType, None);
      var r := Presign(req, None, Some("tenant"), map[], uuid, uploadUrl, env);
      && r.Ok?
      && PropertiesPrefix + id + "/" <= r.value.key
  {
    var word := "properties";
    assert CleanSegment(word);
    CleanIdIsCleanSegment(id);
    var folder := SlashedFolder(word, id);
    SlashedFolderNormal(word, id);
    assert ReplaceFirst(folder, UserIdPlaceholder, OrElse(None, "")) == folder;
    assert folder[0] == '/';
    assert PropertyFolderId(folder).None?;
    var req := PresignRequest(folder, contentType, None);
    var r := Presign(req, None, Some("tenant"), map[], uuid, uploadUrl, env);
    assert r.Ok?;
    SlashedFolderKey(word, id, contentType, uuid);
    var tail := uuid + "." + Extension(contentType);
    assert r.value.key == word + "/" + id + "/" + tail;
    assert word + "/" == PropertiesPrefix;
    var p := PropertiesPrefix + id + "/";
    assert r.value.key == p + tail;
    assert p <= p + tail;
  }

  /** With the gate applied to the key it produces, every upload that lands in
      a property folder was authorised for that property. */
  function PresignGuarded(req: PresignRequest, userId: Option<string>, role: Option<string>,
                          owners: map<string, string>, uuid: string, uploadUrl: string, env: StorageEnv)
    : (r: Result<Presigned>)
    ensures r == Err(BadRequest) <==> !AllowedContentType(req.contentType)
    ensures r.Err? ==> r.error == BadRequest || r.error == Forbidden
    ensures r.Ok? ==> r.value.key == KeyFor(req, userId, uuid)
    ensures r.Ok? ==> var pid := PropertyFolderId(r.value.key);
      pid.Some? ==> !BarredRole(role) && FindsProperty(owners, pid.value, userId)
    ensures r.Ok? ==> r.value.resourceUrl == BaseUrl(env) + "/" + r.value.key && r.value.expiresIn == ExpiresIn
  {
    if !AllowedContentType(req.contentType) then Err(BadRequest)
    else
      var key := KeyFor(req, userId, uuid);
      var gate := PropertyFolderId(key);
      if gate.Some? && (BarredRole(role) || !FindsProperty(owners, gate.value, userId)) then Err(Forbidden)
      else Ok(Presigned(uploadUrl, BaseUrl(env) + "/" + key, key, Bucket(env), ExpiresIn))
  }

  /** The same request is refused once the gate reads the key. */
  lemma GuardedRefusesLeadingSlash(id: string, contentType: string, uuid: string, uploadUrl: string, env: StorageEnv)
    requires CleanId(id)
    requires AllowedContentType(contentType)
    requires uuid != [] && uuid[0] != '/'
    ensures var req := PresignRequest(SlashedFolder("properties", id), contentType, None);
      PresignGuarded(req, None, Some("tenant"), map[], uuid, uploadUrl, env) == Err(Forbidden)
  {
    var word := "properties";
    assert CleanSegment(word);
    CleanIdIsCleanSegment(id);
    SlashedFolderKey(word, id, contentType, uuid);
    var req := PresignRequest(SlashedFolder(word, id), contentType, None);
    var tail := uuid + "." + Extension(contentType);
    assert word + "/" == PropertiesPrefix;
    assert KeyFor(req, None, uuid) == PropertiesPrefix + id + "/" + tail;
    PropertyKeyGated(id, tail);
  }

  /** A key under `properties/<id>/` names that property to the gate. */
  lemma PropertyKeyGated(id: string, tail: string)
    requires CleanId(id)
    ensures PropertyFolderId(PropertiesPrefix + id + "/" + tail) == Some(id)
  {
    var key := PropertiesPrefix + id + "/" + tail;
    assert key[11..47] == id && key[47] == '/';
    assert PropertiesPrefix <= key;
  }
}

=== FILE: tables.dfy ===
/** A database table as the services see it through their repositories: the
    rows in storage order. A lookup by a column is `findOne({ where })`; a
    unique column is a key no two rows share.
 */
module Tables {
  import opened Wrappers
  import opened Text

  type Id = string

  /** The position of the first row whose `key` column equals `k`. */
  function Locate<T>(rows: seq<T>, key: T -> string, k: string): (r: Option<nat>)
    ensures r.Some? ==> r.value < |rows| && key(rows[r.value]) == k
    ensures r.Some? ==> forall j :: 0 <= j < r.value ==> key(rows[j]) != k
    ensures r.None? <==> forall i :: 0 <= i < |rows| ==> key(rows[i]) != k
    decreases |rows|
  {
    if |rows| == 0 then None
    else if key(rows[0]) == k then Some(0)
    else
      match Locate(rows[1..], key, k)
      case None => None
      case Some(j) => Some(j + 1)
  }

  /** No two rows share a value in the `key` column. */
  predicate UniqueBy<T>(rows: seq<T>, key: T -> string) {
    forall i, j :: 0 <= i < j < |rows| ==> key(rows[i]) != key(rows[j])
  }

  /** Some row has `k` in the `key` column. */
  predicate Holds<T>(rows: seq<T>, key: T -> string, k: string) {
    exists i :: 0 <= i < |rows| && key(rows[i]) == k
  }

  /** In a unique column, a row is found at its own position. */
  lemma LocateUnique<T>(rows: seq<T>, key: T -> string, i: nat)
    requires UniqueBy(rows, key)
    requires i < |rows|
    ensures Locate(rows, key, key(rows[i])) == Some(i)
  {
  }

  /** `repository.remove(row)`. */
  function RemoveAt<T>(rows: seq<T>, i: nat): (r: seq<T>)
    requires i < |rows|
    ensures |r| == |rows| - 1
    ensures forall j :: 0 <= j < i ==> r[j] == rows[j]
    ensures forall j :: i <= j < |r| ==> r[j] == rows[j + 1]
  {
    rows[..i] + rows[i + 1..]
  }

  /** Removing a row keeps a column unique, and drops exactly that row's key. */
  lemma RemoveAtUnique<T>(rows: seq<T>, key: T -> string, i: nat)
    requires UniqueBy(rows, key)
    requires i < |rows|
    ensures UniqueBy(RemoveAt(rows, i), key)
    ensures !Holds(RemoveAt(rows, i), key, key(rows[i]))
  {
    var r := RemoveAt(rows, i);
    forall a, b | 0 <= a < b < |r| ensures key(r[a]) != key(r[b]) {
      var a' := if a < i then a else a + 1;
      var b' := if b < i then b else b + 1;
      assert r[a] == rows[a'] && r[b] == rows[b'];
    }
    forall j | 0 <= j < |r| ensures key(r[j]) != key(rows[i]) {
      var j' := if j < i then j else j + 1;
      assert r[j] == rows[j'];
    }
  }

  /** Appending a row with a key no row holds keeps the column unique. */
  lemma AppendUnique<T>(rows: seq<T>, key: T -> string, x: T)
    requires UniqueBy(rows, key)
    requires !Holds(rows, key, key(x))
    ensures UniqueBy(rows + [x], key)
  {
    var r := rows + [x];
    forall a, b | 0 <= a < b < |r| ensures key(r[a]) != key(r[b]) {
      if b == |rows| {
        assert r[a] == rows[a];
      } else {
        assert r[a] == rows[a] && r[b] == rows[b];
      }
    }
  }

  /** Overwriting a row keeps a column unique when the new key is not held by any other row. */
  lemma ReplaceUnique<T>(rows: seq<T>, key: T -> string, i: nat, x: T)
    requires UniqueBy(rows, key)
    requires i < |rows|
    requires forall j :: 0 <= j < |rows| && j != i ==> key(rows[j]) != key(x)
    ensures UniqueBy(rows[i := x], key)
  {
  }

  /** A key held by a row other than the removed one is still held. */
  lemma RemoveAtHolds<T>(rows: seq<T>, key: T -> string, i: nat, k: string)
    requires i < |rows|
    requires Holds(rows, key, k) && k != key(rows[i])
    ensures Holds(RemoveAt(rows, i), key, k)
  {
    var j :| 0 <= j < |rows| && key(rows[j]) == k;
    assert RemoveAt(rows, i)[if j < i then j else j - 1] == rows[j];
  }

  /** Overwriting a row with one of the same key keeps every key held. */
  lemma ReplaceHolds<T>(rows: seq<T>, key: T -> string, i: nat, x: T, k: string)
    requires i < |rows| && key(x) == key(rows[i])
    requires Holds(rows, key, k)
    ensures Holds(rows[i := x], key, k)
  {
    var j :| 0 <= j < |rows| && key(rows[j]) == k;
    assert key(rows[i := x][j]) == k;
  }

  /** Overwriting a row with one of the same key moves no lookup. */
  lemma LocateReplace<T>(rows: seq<T>, key: T -> string, i: nat, x: T, k: string)
    requires i < |rows| && key(x) == key(rows[i])
    ensures Locate(rows[i := x], key, k) == Locate(rows, key, k)
  {
    var rows' := rows[i := x];
    assert forall j :: 0 <= j < |rows| ==> key(rows'[j]) == key(rows[j]);
    var a := Locate(rows, key, k);
    var b := Locate(rows', key, k);
    if a.Some? && b.Some? {
      assert !(a.value < b.value) && !(b.value < a.value);
    }
  }

  // ---------------------------------------------------------------------
  // Text comparison under the server's default collation

  /** A character as the collation compares it: letter case is ignored. */
  function LowerChar(c: char): char {
    if 'A' <= c <= 'Z' then (c as int + 32) as char else c
  }

  /** The collation key of a text column: two values are equal in a `WHERE`
      clause or a unique index exactly when their keys are equal. */
  function Collate(s: string): (r: string)
    ensures |r| == |s|
    ensures forall i :: 0 <= i < |s| ==> r[i] == LowerChar(s[i])
  {
    ToLowerAscii(s)
  }

  /** `s LIKE pattern`: `%` matches any run of characters, `_` any one
      character, a backslash makes the next character literal, and every
      other character matches itself up to letter case. */
  predicate Like(s: string, pattern: string)
    decreases |s| + |pattern|
  {
    if pattern == [] then s == []
    else if pattern[0] == '%' then Like(s, pattern[1..]) || (s != [] && Like(s[1..], pattern))
    else if s == [] then false
    else if pattern[0] == '_' then Like(s[1..], pattern[1..])
    else if pattern[0] == '\\' && |pattern| > 1 then LowerChar(s[0]) == LowerChar(pattern[1]) && Like(s[1..], pattern[2..])
    else LowerChar(s[0]) == LowerChar(pattern[0]) && Like(s[1..], pattern[1..])
  }

  /** How a pattern character other than `%` and the backslash matches one
      character: `_` matches any, every other character itself up to letter case. */
  predicate MatchesChar(p: char, c: char) {
    p == '_' || LowerChar(p) == LowerChar(c)
  }

  /** A trailing `%` matches whatever is left. */
  lemma {:induction false} LikeAnyRest(s: string)
    ensures Like(s, "%")
    decreases |s|
  {
    if s != [] {
      LikeAnyRest(s[1..]);
    }
  }

  /** `LIKE 'lit%'`, for a `lit` without `%` or backslash, tests the first
      `|lit|` characters one by one. */
  lemma {:induction false} LikePrefix(s: string, lit: string)
    requires forall k :: 0 <= k < |lit| ==> lit[k] != '%' && lit[k] != '\\'
    ensures Like(s, lit + "%") <==> |lit| <= |s| && forall k :: 0 <= k < |lit| ==> MatchesChar(lit[k], s[k])
    decreases |lit|
  {
    var p := lit + "%";
    if lit == [] {
      assert p == "%";
      LikeAnyRest(s);
    } else if s != [] {
      assert p[0] == lit[0] && p[1..] == lit[1..] + "%";
      LikePrefix(s[1..], lit[1..]);
      if |lit| <= |s| && MatchesChar(lit[0], s[0])
         && forall k :: 0 <= k < |lit[1..]| ==> MatchesChar(lit[1..][k], s[1..][k]) {
        forall k | 0 <= k < |lit| ensures MatchesChar(lit[k], s[k]) {
          if k > 0 {
            assert MatchesChar(lit[1..][k - 1], s[1..][k - 1]);
          }
        }
      }
    }
  }
}

=== FILE: tenants.dfy ===
/** The tenant-profile service (`src/modules/tenants/services/tenants.service.ts`):
    at most one profile per user, enforced by the `user_id` unique column.
 */
module Tenants {
  import opened Wrappers
  import opened Text
  import opened Tables

  /** A decimal column value as JavaScript's `Number` reads it from the
      submitted text. A blank text reads as zero; any other text stands for
      the number it writes and is kept as written, since decimal parsing is
      not part of the model. Texts such as "0" or "0.00" therefore denote
      zero as well, but as `NumberOf` values: two budgets are the same
      number when they are equal, not only then. */
  datatype Budget = Zero | NumberOf(text: string)

  /** `Number(text)`. */
  function ToNumber(text: string): (b: Budget)
    ensures !Filled(text) ==> b == Zero
    ensures Filled(text) ==> b == NumberOf(text)
  {
    if Trim(text) == [] then Zero else NumberOf(text)
  }

  datatype Tenant = Tenant(
    id: Id,
    userId: Id,
    phone: string,
    code: string,
    carrer: string,
    cicle: string,
    monthlyBudget: Budget,
    originDepartment: string)

  datatype CreateTenantDto = CreateTenantDto(
    userId: Id,
    phone: string,
    code: string,
    carrer: string,
    cicle: string,
    monthlyBudget: Option<string>,
    originDepartment: string)

  /** The update body: every field optional, a present one overwrites. */
  datatype TenantPatch = TenantPatch(
    userId: Option<Id>,
    phone: Option<string>,
    code: Option<string>,
    carrer: Option<string>,
    cicle: Option<string>,
    monthlyBudget: Option<string>,
    originDepartment: Option<string>)

  function TenantId(t: Tenant): string { t.id }
  function TenantUser(t: Tenant): string { t.userId }

  predicate Valid(rows: seq<Tenant>) {
    UniqueBy(rows, TenantId) && UniqueBy(rows, TenantUser)
  }

  /** `create(dto)`: Conflict when the user already has a profile; a missing
      or empty budget is stored as 0. `users` holds the ids of the user
      table: `user_id` is a foreign key into it, so the insert of a profile
      for an unknown user is refused. */
  function Create(rows: seq<Tenant>, users: set<Id>, dto: CreateTenantDto, newId: Id): (r: Result<(seq<Tenant>, Tenant)>)
    ensures r.Err? <==> Holds(rows, TenantUser, dto.userId) || dto.userId !in users
    ensures r.Err? ==> r.error == if Holds(rows, TenantUser, dto.userId) then Conflict else QueryFailed
    ensures r.Ok? ==> r.value.0 == rows + [r.value.1] && r.value.1.id == newId && r.value.1.userId == dto.userId
    ensures r.Ok? && (dto.monthlyBudget.None? || !Filled(dto.monthlyBudget.value)) ==> r.value.1.monthlyBudget == Zero
    ensures r.Ok? && dto.monthlyBudget.Some? && Filled(dto.monthlyBudget.value) ==>
      r.value.1.monthlyBudget == NumberOf(dto.monthlyBudget.value)
    ensures r.Ok? ==> (r.value.1.phone == dto.phone && r.value.1.code == dto.code && r.value.1.carrer == dto.carrer
                       && r.value.1.cicle == dto.cicle && r.value.1.originDepartment == dto.originDepartment)
  {
    if Locate(rows, TenantUser, dto.userId).Some? then Err(Conflict)
    else if dto.userId !in users then Err(QueryFailed)
    else
      var budget := if dto.monthlyBudget.Some? && dto.monthlyBudget.value != [] then ToNumber(dto.monthlyBudget.value) else Zero;
      var t := Tenant(newId, dto.userId, dto.phone, dto.code, dto.carrer, dto.cicle, budget, dto.originDepartment);
      Ok((rows + [t], t))
  }

  /** `findOne(id)`. */
  function FindOne(rows: seq<Tenant>, id: Id): (r: Result<Tenant>)
    ensures r.Err? <==> !Holds(rows, TenantId, id)
    ensures r.Err? ==> r.error == NotFound
    ensures r.Ok? ==> r.value in rows && r.value.id == id
  {
    match Locate(rows, TenantId, id)
    case None => Err(NotFound)
    case Some(i) => Ok(rows[i])
  }

  /** `findByUserId(userId)`: absent rather than an error. */
  function FindByUserId(rows: seq<Tenant>, userId: Id): (r: Option<Tenant>)
    ensures r.None? <==> !Holds(rows, TenantUser, userId)
    ensures r.Some? ==> r.value in rows && r.value.userId == userId
  {
    match Locate(rows, TenantUser, userId)
    case None => None
    case Some(i) => Some(rows[i])
  }

  /** The profile `ensureExistsForUser` creates: empty strings and a zero budget. */
  function BlankTenant(id: Id, userId: Id): Tenant {
    Tenant(id, userId, "", "", "", "", Zero, "")
  }

  /** `ensureExistsForUser(userId)`: the existing profile, untouched, or a new
      blank one, whose insert the foreign key refuses for an unknown user. */
  function EnsureExistsForUser(rows: seq<Tenant>, users: set<Id>, userId: Id, newId: Id)
    : (r: Result<(seq<Tenant>, Tenant)>)
    ensures r.Err? <==> !Holds(rows, TenantUser, userId) && userId !in users
    ensures r.Err? ==> r.error == QueryFailed
    ensures r.Ok? && Holds(rows, TenantUser, userId) ==> r.value.0 == rows && r.value.1 in rows && r.value.1.userId == userId
    ensures r.Ok? && !Holds(rows, TenantUser, userId) ==> r.value.0 == rows + [r.value.1] && r.value.1 == BlankTenant(newId, userId)
  {
    match Locate(rows, TenantUser, userId)
    case Some(i) => Ok((rows, rows[i]))
    case None =>
      if userId !in users then Err(QueryFailed)
      else
        var t := BlankTenant(newId, userId);
        Ok((rows + [t], t))
  }

  function Apply(t: Tenant, p: TenantPatch): Tenant {
    Tenant(t.id, p.userId.GetOr(t.userId), p.phone.GetOr(t.phone), p.code.GetOr(t.code),
      p.carrer.GetOr(t.carrer), p.cicle.GetOr(t.cicle),
      if p.monthlyBudget.Some? then ToNumber(p.monthlyBudget.value) else t.monthlyBudget,
      p.originDepartment.GetOr(t.originDepartment))
  }

  /** `update(id, dto)`: NotFound, else every present field overwrites, the
      budget through `Number`. A user id another profile holds is refused by
      the unique column, and one no user has by the foreign key. */
  function Update(rows: seq<Tenant>, users: set<Id>, id: Id, p: TenantPatch): (r: Result<(seq<Tenant>, Tenant)>)
    ensures !Holds(rows, TenantId, id) ==> r == Err(NotFound)
    ensures r.Err? ==> r.error in {NotFound, QueryFailed}
    ensures r.Ok? ==> exists i :: (0 <= i < |rows| && rows[i].id == id &&
      r.value.0 == rows[i := r.value.1] && r.value.1 == Apply(rows[i], p))
    ensures r.Ok? && p.userId.Some? ==> p.userId.value in users || Holds(rows, TenantUser, p.userId.value)
    ensures Valid(rows) && Holds(rows, TenantId, id) ==>
      (r.Ok? <==> p.userId.None? || p.userId.value == FindOne(rows, id).value.userId
                  || (p.userId.value in users && !Holds(rows, TenantUser, p.userId.value)))
    ensures r.Ok? && p.phone.None? ==> r.value.1.phone == FindOne(rows, id).value.phone
    ensures r.Ok? && p.monthlyBudget.None? ==> r.value.1.monthlyBudget == FindOne(rows, id).value.monthlyBudget
  {
    match Locate(rows, TenantId, id)
    case None => Err(NotFound)
    case Some(i) =>
      var t := Apply(rows[i], p);
      if exists j :: 0 <= j < |rows| && j != i && rows[j].userId == t.userId then Err(QueryFailed)
      else if t.userId != rows[i].userId && t.userId !in users then Err(QueryFailed)
      else Ok((rows[i := t], t))
  }

  /** `remove(id)`. */
  function Remove(rows: seq<Tenant>, id: Id): (r: Result<seq<Tenant>>)
    ensures r.Err? <==> !Holds(rows, TenantId, id)
    ensures r.Err? ==> r.error == NotFound
    ensures r.Ok? ==> |r.value| == |rows| - 1 && forall x :: x in r.value ==> x in rows
    ensures r.Ok? && Valid(rows) ==> Valid(r.value) && !Holds(r.value, TenantId, id)
  {
    match Locate(rows, TenantId, id)
    case None => Err(NotFound)
    case Some(i) =>
      assert Valid(rows) ==> Valid(RemoveAt(rows, i)) && !Holds(RemoveAt(rows, i), TenantId, id) by {
        if Valid(rows) {
          RemoveAtUnique(rows, TenantId, i);
          RemoveAtUnique(rows, TenantUser, i);
        }
      }
      Ok(RemoveAt(rows, i))
  }

  // ---------------------------------------------------------------------
  // One profile per user

  /** A second `ensureExistsForUser` returns the profile of the first and writes nothing. */
  lemma EnsureExistsIdempotent(rows: seq<Tenant>, users: set<Id>, userId: Id, newId: Id, otherId: Id)
    ensures var r := EnsureExistsForUser(rows, users, userId, newId);
      r.Ok? ==> EnsureExistsForUser(r.value.0, users, userId, otherId) == r
  {
    var r := EnsureExistsForUser(rows, users, userId, newId);
    if r.Ok? && !Holds(rows, TenantUser, userId) {
      assert r.value.0[|rows|] == r.value.1;
    }
  }

  lemma CreateKeepsValid(rows: seq<Tenant>, users: set<Id>, dto: CreateTenantDto, newId: Id)
    requires Valid(rows)
    requires !Holds(rows, TenantId, newId)
    ensures Create(rows, users, dto, newId).Ok? ==> Valid(Create(rows, users, dto, newId).value.0)
  {
    var r := Create(rows, users, dto, newId);
    if r.Ok? {
      AppendUnique(rows, TenantId, r.value.1);
      AppendUnique(rows, TenantUser, r.value.1);
    }
  }

  lemma EnsureExistsKeepsValid(rows: seq<Tenant>, users: set<Id>, userId: Id, newId: Id)
    requires Valid(rows)
    requires !Holds(rows, TenantId, newId)
    ensures EnsureExistsForUser(rows, users, userId, newId).Ok? ==> Valid(EnsureExistsForUser(rows, users, userId, newId).value.0)
  {
    if !Holds(rows, TenantUser, userId) {
      var t := BlankTenant(newId, userId);
      AppendUnique(rows, TenantId, t);
      AppendUnique(rows, TenantUser, t);
    }
  }

  lemma UpdateKeepsValid(rows: seq<Tenant>, users: set<Id>, id: Id, p: TenantPatch)
    requires Valid(rows)
    ensures Update(rows, users, id, p).Ok? ==> Valid(Update(rows, users, id, p).value.0)
  {
    var r := Update(rows, users, id, p);
    if r.Ok? {
      var i := Locate(rows, TenantId, id).value;
      var t := Apply(rows[i], p);
      assert r.value.0 == rows[i := t];
      ReplaceUnique(rows, TenantId, i, t);
      ReplaceUnique(rows, TenantUser, i, t);
    }
  }
}

=== FILE: text.dfy ===
/** The JavaScript string operations the services rely on, over `seq<char>`.

    Each function mirrors one built-in the source calls (`trim`, `split`,
    `replace` with a string pattern, `replace` with a run-matching regular
    expression, `parseInt(_, 10)`, `toLowerCase`), restricted to what the
    services need.
 */
module Text {
  import opened Wrappers

  /** The code points JavaScript counts as WhiteSpace or LineTerminator:
      the set skipped by `trim`, matched by `\s` and skipped by `parseInt`. */
  predicate IsSpace(c: char) {
    || c == ' ' || c == '\t' || c == '\n' || c == '\r' || c == '\U{000B}' || c == '\U{000C}'
    || c == '\U{00A0}' || c == '\U{1680}' || ('\U{2000}' <= c <= '\U{200A}')
    || c == '\U{2028}' || c == '\U{2029}' || c == '\U{202F}' || c == '\U{205F}'
    || c == '\U{3000}' || c == '\U{FEFF}'
  }

  predicate IsAsciiDigit(c: char) {
    '0' <= c <= '9'
  }

  predicate IsAsciiLetter(c: char) {
    ('a' <= c <= 'z') || ('A' <= c <= 'Z')
  }

  predicate IsHexDigit(c: char) {
    IsAsciiDigit(c) || ('a' <= c <= 'f') || ('A' <= c <= 'F')
  }

  predicate AllChars(s: string, p: char -> bool) {
    forall i :: 0 <= i < |s| ==> p(s[i])
  }

  /** `s` with its leading run of `p`-characters removed. */
  function DropWhile(s: string, p: char -> bool): (r: string)
    ensures |r| <= |s| && r == s[|s| - |r|..]
    ensures forall i :: 0 <= i < |s| - |r| ==> p(s[i])
    ensures |r| > 0 ==> !p(r[0])
    decreases |s|
  {
    if |s| > 0 && p(s[0]) then DropWhile(s[1..], p) else s
  }

  /** The leading run of `p`-characters of `s`. */
  function TakeWhile(s: string, p: char -> bool): (r: string)
    ensures r <= s
    ensures AllChars(r, p)
    ensures |r| < |s| ==> !p(s[|r|])
    decreases |s|
  {
    if |s| > 0 && p(s[0]) then [s[0]] + TakeWhile(s[1..], p) else []
  }

  /** `String.prototype.trimStart`. */
  function TrimStart(s: string): string {
    DropWhile(s, IsSpace)
  }

  /** `String.prototype.trimEnd`. */
  function TrimEnd(s: string): (r: string)
    ensures |r| <= |s| && r == s[..|r|]
    ensures forall i :: |r| <= i < |s| ==> IsSpace(s[i])
    ensures |r| > 0 ==> !IsSpace(r[|r| - 1])
    decreases |s|
  {
    if |s| > 0 && IsSpace(s[|s| - 1]) then TrimEnd(s[..|s| - 1]) else s
  }

  /** `String.prototype.trim`. */
  function Trim(s: string): string {
    TrimEnd(TrimStart(s))
  }

  /** A field the services treat as filled: `x && x.trim() !== ''`. */
  predicate Filled(s: string) {
    Trim(s) != []
  }

  lemma {:induction false} FilledIffSomeNonSpace(s: string)
    ensures Filled(s) <==> exists i :: 0 <= i < |s| && !IsSpace(s[i])
  {
    var t := TrimStart(s);
    if Filled(s) {
      var r := TrimEnd(t);
      assert r[0] == t[0] == s[|s| - |t|];
    } else {
      assert t == [];
    }
  }

  /** Trimming a string with no white space changes nothing. */
  lemma TrimNoSpace(s: string)
    requires forall i :: 0 <= i < |s| ==> !IsSpace(s[i])
    ensures Trim(s) == s
  {
  }

  /** `s` with every character failing `keep` deleted (`replace(/[^...]/g, '')`). */
  function KeepOnly(s: string, keep: char -> bool): (r: string)
    ensures AllChars(r, keep)
    ensures forall i :: 0 <= i < |r| ==> r[i] in s
    ensures |r| <= |s|
    decreases |s|
  {
    if |s| == 0 then []
    else if keep(s[0]) then [s[0]] + KeepOnly(s[1..], keep)
    else KeepOnly(s[1..], keep)
  }

  lemma {:induction false} KeepOnlyIdentity(s: string, keep: char -> bool)
    requires AllChars(s, keep)
    ensures KeepOnly(s, keep) == s
    decreases |s|
  {
    if |s| > 0 {
      KeepOnlyIdentity(s[1..], keep);
    }
  }

  /** Every maximal run of `p`-characters replaced by the single character `c`:
      `replace(/x+/g, c)` where `x` matches exactly the `p`-characters. */
  function CollapseRuns(s: string, p: char -> bool, c: char): (r: string)
    ensures |s| == 0 <==> |r| == 0
    ensures |s| > 0 ==> r[0] == (if p(s[0]) then c else s[0])
    ensures forall i :: 0 <= i < |r| ==> !p(r[i]) || r[i] == c
    ensures forall i :: 0 <= i < |r| ==> r[i] == c || r[i] in s
    ensures p(c) ==> forall i :: 0 <= i < |r| - 1 ==> r[i] != c || r[i + 1] != c
    decreases |s|
  {
    if |s| == 0 then []
    else if p(s[0]) then [c] + CollapseRuns(DropWhile(s, p), p, c)
    else [s[0]] + CollapseRuns(s[1..], p, c)
  }

  /** Nothing to collapse: every `p`-character is a lone `c`. */
  predicate NoRuns(s: string, p: char -> bool, c: char) {
    forall i :: 0 <= i < |s| && p(s[i]) ==> s[i] == c && (i + 1 < |s| ==> !p(s[i + 1]))
  }

  lemma {:induction false} CollapseRunsIdentity(s: string, p: char -> bool, c: char)
    requires NoRuns(s, p, c)
    ensures CollapseRuns(s, p, c) == s
    decreases |s|
  {
    if |s| > 0 {
      var t := s[1..];
      assert CollapseRuns(t, p, c) == t by {
        NoRunsTail(s, p, c);
        CollapseRunsIdentity(t, p, c);
      }
      assert CollapseRuns(s, p, c) == [s[0]] + CollapseRuns(t, p, c) by {
        if p(s[0]) {
          DropWhileOne(s, p);
        }
      }
      assert s == [s[0]] + t;
    }
  }

  lemma NoRunsTail(s: string, p: char -> bool, c: char)
    requires |s| > 0 && NoRuns(s, p, c)
    ensures NoRuns(s[1..], p, c)
  {
    var t := s[1..];
    forall i | 0 <= i < |t| && p(t[i])
      ensures t[i] == c && (i + 1 < |t| ==> !p(t[i + 1]))
    {
      assert t[i] == s[i + 1];
    }
  }

  /** A lone leading `p`-character is all `DropWhile` removes. */
  lemma DropWhileOne(s: string, p: char -> bool)
    requires |s| >= 1 && p(s[0]) && (|s| == 1 || !p(s[1]))
    ensures DropWhile(s, p) == s[1..]
  {
    var r := DropWhile(s, p);
    assert |r| == |s| - 1;
  }

  predicate OccursAt(s: string, pat: string, j: int) {
    0 <= j && j + |pat| <= |s| && s[j..j + |pat|] == pat
  }

  /** The first position at or after `from` where `pat` occurs in `s`. */
  function IndexOfFrom(s: string, pat: string, from: nat): (r: Option<nat>)
    ensures r.Some? ==> from <= r.value && OccursAt(s, pat, r.value)
    ensures r.Some? ==> forall j :: from <= j < r.value ==> !OccursAt(s, pat, j)
    ensures r.None? ==> forall j :: from <= j ==> !OccursAt(s, pat, j)
    decreases |s| - from
  {
    if from + |pat| > |s| then None
    else if s[from..from + |pat|] == pat then Some(from)
    else IndexOfFrom(s, pat, from + 1)
  }

  /** `String.prototype.indexOf`, as an option. */
  function IndexOf(s: string, pat: string): Option<nat> {
    IndexOfFrom(s, pat, 0)
  }

  /** `String.prototype.includes`. */
  predicate Contains(s: string, pat: string) {
    IndexOf(s, pat).Some?
  }

  lemma ContainsIff(s: string, pat: string)
    ensures Contains(s, pat) <==> exists j :: OccursAt(s, pat, j)
  {
  }

  /** `s.replace(pat, rep)` with a string pattern: only the first occurrence
      is replaced. Replacement patterns such as `$&` are not interpreted. */
  function ReplaceFirst(s: string, pat: string, rep: string): (r: string)
    ensures IndexOf(s, pat).None? ==> r == s
    ensures IndexOf(s, pat).Some? ==>
      var i := IndexOf(s, pat).value;
      r == s[..i] + rep + s[i + |pat|..]
  {
    match IndexOf(s, pat)
    case None => s
    case Some(i) => s[..i] + rep + s[i + |pat|..]
  }

  /** `s.split(sep)` with a one-character separator: never empty, and the
      empty string splits into one empty piece. */
  function Split(s: string, sep: char): (r: seq<string>)
    ensures |r| >= 1
    ensures sep in s ==> |r| >= 2
    ensures sep !in s ==> |r| == 1
    ensures forall k :: 0 <= k < |r| ==> sep !in r[k]
    decreases |s|
  {
    if |s| == 0 then [[]]
    else
      var rest := Split(s[1..], sep);
      if s[0] == sep then [[]] + rest
      else [[s[0]] + rest[0]] + rest[1..]
  }

  /** A piece without the separator splits into itself. */
  lemma {:induction false} SplitNoSep(a: string, sep: char)
    requires sep !in a
    ensures Split(a, sep) == [a]
    decreases |a|
  {
    if |a| > 0 {
      SplitNoSep(a[1..], sep);
      assert a[0] != sep;
      assert [a[0]] + a[1..] == a;
    }
  }

  /** Splitting peels off a separator-free prefix as the first piece. */
  lemma {:induction false} SplitConcat(a: string, b: string, sep: char)
    requires sep !in a
    ensures Split(a + [sep] + b, sep) == [a] + Split(b, sep)
    decreases |a|
  {
    var s := a + [sep] + b;
    if |a| == 0 {
      assert s[1..] == b;
    } else {
      assert s[1..] == a[1..] + [sep] + b;
      SplitConcat(a[1..], b, sep);
      assert [a[0]] + a[1..] == a;
    }
  }

  /** `parts.join(sep)`. */
  function Join(parts: seq<string>, sep: char): string
    decreases |parts|
  {
    if |parts| == 0 then []
    else if |parts| == 1 then parts[0]
    else parts[0] + [sep] + Join(parts[1..], sep)
  }

  /** Splitting and re-joining on the same separator gives the input back. */
  lemma {:induction false} JoinSplit(s: string, sep: char)
    ensures Join(Split(s, sep), sep) == s
    decreases |s|
  {
    if |s| > 0 {
      var rest := Split(s[1..], sep);
      JoinSplit(s[1..], sep);
      if s[0] == sep {
        assert Split(s, sep) == [[]] + rest;
      } else {
        var parts := [[s[0]] + rest[0]] + rest[1..];
        assert Split(s, sep) == parts;
        if |rest| == 1 {
          assert Join(parts, sep) == [s[0]] + rest[0];
        } else {
          assert parts[1..] == rest[1..];
          assert Join(rest, sep) == rest[0] + [sep] + Join(rest[1..], sep);
        }
      }
    }
  }

  /** `toLowerCase` on ASCII letters; every other character is kept. */
  function ToLowerAscii(s: string): (r: string)
    ensures |r| == |s|
    ensures forall i :: 0 <= i < |s| ==> r[i] == (if 'A' <= s[i] <= 'Z' then (s[i] as int + 32) as char else s[i])
  {
    seq(|s|, i requires 0 <= i < |s| => if 'A' <= s[i] <= 'Z' then (s[i] as int + 32) as char else s[i])
  }

  // ---------------------------------------------------------------------
  // parseInt(_, 10) and the decimal rendering it inverts

  function DigitValue(c: char): nat
    requires IsAsciiDigit(c)
  {
    c as int - '0' as int
  }

  /** The value of a run of decimal digits, most significant first. */
  function DigitsValue(d: string): nat
    requires AllChars(d, IsAsciiDigit)
    decreases |d|
  {
    if |d| == 0 then 0 else 10 * DigitsValue(d[..|d| - 1]) + DigitValue(d[|d| - 1])
  }

  /** `parseInt(s, 10)`: leading white space skipped, an optional sign, then the
      longest run of decimal digits; `None` is JavaScript's `NaN`. */
  function ParseInt(s: string): (r: Option<int>)
    ensures r.Some? <==>
      var t := TrimStart(s);
      var u := if |t| > 0 && (t[0] == '-' || t[0] == '+') then t[1..] else t;
      |u| > 0 && IsAsciiDigit(u[0])
  {
    var t := TrimStart(s);
    var negative := |t| > 0 && t[0] == '-';
    var u := if |t| > 0 && (t[0] == '-' || t[0] == '+') then t[1..] else t;
    var d := TakeWhile(u, IsAsciiDigit);
    if |d| == 0 then None
    else
      var v: int := DigitsValue(d);
      Some(if negative then -v else v)
  }

  function DigitChar(n: nat): (c: char)
    requires n < 10
    ensures IsAsciiDigit(c) && DigitValue(c) == n
  {
    ('0' as int + n) as char
  }

  /** The decimal rendering of a natural number (`String(n)`). */
  function NatToString(n: nat): (r: string)
    ensures |r| > 0 && AllChars(r, IsAsciiDigit)
    decreases n
  {
    if n < 10 then [DigitChar(n)] else NatToString(n / 10) + [DigitChar(n % 10)]
  }

  /** The decimal rendering of an integer (`String(n)`). */
  function IntToString(n: int): string {
    if n < 0 then "-" + NatToString(-n) else NatToString(n)
  }

  lemma {:induction false} DigitsValueOfNatToString(n: nat)
    ensures DigitsValue(NatToString(n)) == n
    decreases n
  {
    if n >= 10 {
      var d := NatToString(n);
      assert d[..|d| - 1] == NatToString(n / 10);
      DigitsValueOfNatToString(n / 10);
    }
  }

  lemma TakeWhileAll(s: string, p: char -> bool)
    requires AllChars(s, p)
    ensures TakeWhile(s, p) == s
  {
  }

  /** `parseInt` inverts `String` on integers. */
  lemma ParseIntOfIntToString(n: int)
    ensures ParseInt(IntToString(n)) == Some(n)
  {
    if n < 0 {
      ParseIntOfNegative(n);
    } else {
      ParseIntOfDigits(n);
    }
  }

  lemma ParseIntOfDigits(m: nat)
    ensures ParseInt(IntToString(m)) == Some(m)
  {
    assert IntToString(m) == NatToString(m);
    DigitsValueOfNatToString(m);
    ParseUnsigned(NatToString(m), m);
  }

  lemma ParseIntOfNegative(n: int)
    requires n < 0
    ensures ParseInt(IntToString(n)) == Some(n)
  {
    var m: nat := -n;
    var s := IntToString(n);
    assert s == "-" + NatToString(m);
    assert s[1..] == NatToString(m);
    DigitsValueOfNatToString(m);
    ParseNegated(s, m);
  }

  /** A run of digits parses to its value. */
  lemma ParseUnsigned(d: string, m: nat)
    requires |d| > 0 && AllChars(d, IsAsciiDigit) && DigitsValue(d) == m
    ensures ParseInt(d) == Some(m as int)
  {
    TrimStartFixed(d);
    TakeWhileAll(d, IsAsciiDigit);
  }

  /** A minus sign followed by a run of digits parses to the value negated. */
  lemma ParseNegated(s: string, m: nat)
    requires |s| > 1 && s[0] == '-' && AllChars(s[1..], IsAsciiDigit) && DigitsValue(s[1..]) == m
    ensures ParseInt(s) == Some(-(m as int))
  {
    TrimStartFixed(s);
    TakeWhileAll(s[1..], IsAsciiDigit);
  }

  /** `trimStart` leaves a string that does not start with white space. */
  lemma TrimStartFixed(s: string)
    requires |s| > 0 && !IsSpace(s[0])
    ensures TrimStart(s) == s
  {
  }

  // ---------------------------------------------------------------------
  // Ordering of strings

  /** Lexicographic order on code points: `a` is a prefix of `b`, or the first
      differing character of `a` is the smaller. */
  predicate LexLe(a: string, b: string)
    decreases |a|
  {
    |a| == 0 || (|b| > 0 && (a[0] < b[0] || (a[0] == b[0] && LexLe(a[1..], b[1..]))))
  }

  lemma {:induction false} LexLeTotal(a: string, b: string)
    ensures LexLe(a, b) || LexLe(b, a)
    decreases |a|
  {
    if |a| > 0 && |b| > 0 && a[0] == b[0] {
      LexLeTotal(a[1..], b[1..]);
    }
  }

  lemma {:induction false} LexLeTransitive(a: string, b: string, c: string)
    requires LexLe(a, b) && LexLe(b, c)
    ensures LexLe(a, c)
    decreases |a|
  {
    if |a| > 0 && a[0] == b[0] && b[0] == c[0] {
      LexLeTransitive(a[1..], b[1..], c[1..]);
    }
  }

  /** Strings related both ways are equal, so the order is antisymmetric. */
  lemma {:induction false} LexLeAntisymmetric(a: string, b: string)
    requires LexLe(a, b) && LexLe(b, a)
    ensures a == b
    decreases |a|
  {
    if |a| > 0 {
      LexLeAntisymmetric(a[1..], b[1..]);
      assert a == [a[0]] + a[1..] && b == [b[0]] + b[1..];
    }
  }
}

=== FILE: users.dfy ===
/** The users service (`src/modules/users/services/users.service.ts`): account
    creation with a unique e-mail, the combined user-and-landlord update that
    runs in one transaction, and the registration-completeness report.
 */
module Users {
  import opened Wrappers
  import opened Text
  import opened Seqs
  import opened Tables
  import Roles
  import Landlords
  import Tenants

  datatype User = User(
    id: Id,
    fullName: string,
    email: string,
    roleId: Option<Id>,
    profilePicture: Option<string>,
    googleId: Option<string>,
    isVerified: bool)

  /** The tables the service reads and writes. */
  datatype Db = Db(
    users: seq<User>,
    roles: seq<Roles.Role>,
    landlords: seq<Landlords.LandlordProfile>,
    tenants: seq<Tenants.Tenant>)

  /** The creation body. `phone`, `dni`, `address` and `propertiesCount` are
      accepted but are not columns of the user table, so they are not stored. */
  datatype CreateUserDto = CreateUserDto(
    fullName: string,
    email: string,
    phone: string,
    dni: string,
    address: string,
    propertiesCount: Option<int>,
    profilePicture: Option<string>,
    googleId: Option<string>,
    isVerified: Option<bool>,
    roleId: Option<Id>)

  /** An update body: a present key overwrites its column. */
  datatype UserPatch = UserPatch(
    fullName: Option<string>,
    email: Option<string>,
    roleId: Option<Id>,
    profilePicture: Option<string>,
    googleId: Option<string>,
    isVerified: Option<bool>)

  function UserId(u: User): string { u.id }
  /** The e-mail as the unique index and the lookups compare it. */
  function UserEmail(u: User): string { Collate(u.email) }

  /** Some user other than the one at `except` already has the Google id. */
  predicate GoogleIdTaken(users: seq<User>, g: Option<string>, except: int) {
    g.Some? && exists j :: 0 <= j < |users| && j != except && users[j].googleId == g
  }

  /** The user table's constraints: primary key, unique e-mail, unique Google id. */
  predicate Valid(users: seq<User>) {
    && UniqueBy(users, UserId)
    && UniqueBy(users, UserEmail)
    && forall i, j :: 0 <= i < j < |users| && users[i].googleId.Some? ==> users[i].googleId != users[j].googleId
  }

  /** `rolesService.findOne(roleId)`. An undefined id drops out of the ORM's
      where clause, so the lookup then succeeds on any role at all. */
  function RoleExists(roles: seq<Roles.Role>, roleId: Option<Id>): (r: bool)
    ensures roleId.Some? ==> (r <==> Roles.FindOne(roles, roleId.value).Ok?)
    ensures roleId.None? ==> (r <==> |roles| > 0)
  {
    match roleId
    case Some(rid) => Roles.FindOne(roles, rid).Ok?
    case None => |roles| > 0
  }

  /** `create(dto)`: Conflict for an e-mail in use up to letter case, then
      NotFound for an unresolvable role, and only then the insert. */
  function Create(db: Db, dto: CreateUserDto, newId: Id): (r: Result<(Db, User)>)
    ensures (exists i :: 0 <= i < |db.users| && Collate(db.users[i].email) == Collate(dto.email)) ==> r == Err(Conflict)
    ensures !Holds(db.users, UserEmail, Collate(dto.email)) && !RoleExists(db.roles, dto.roleId) ==> r == Err(NotFound)
    ensures r.Err? ==> r.error in {Conflict, NotFound, QueryFailed}
    ensures r == Err(QueryFailed) <==>
      !Holds(db.users, UserEmail, Collate(dto.email)) && RoleExists(db.roles, dto.roleId) && GoogleIdTaken(db.users, dto.googleId, -1)
    ensures r.Ok? <==>
      !Holds(db.users, UserEmail, Collate(dto.email)) && RoleExists(db.roles, dto.roleId) && !GoogleIdTaken(db.users, dto.googleId, -1)
    ensures r.Ok? ==> r.value.0 == db.(users := db.users + [r.value.1])
    ensures r.Ok? ==> r.value.1.id == newId && r.value.1.email == dto.email && r.value.1.fullName == dto.fullName
    ensures r.Ok? ==> r.value.1.googleId == dto.googleId && r.value.1.isVerified == dto.isVerified.GetOr(false)
  {
    if Locate(db.users, UserEmail, Collate(dto.email)).Some? then Err(Conflict)
    else if !RoleExists(db.roles, dto.roleId) then Err(NotFound)
    else if GoogleIdTaken(db.users, dto.googleId, -1) then Err(QueryFailed)
    else
      var u := User(newId, dto.fullName, dto.email, dto.roleId, dto.profilePicture, dto.googleId,
        dto.isVerified.GetOr(false));
      Ok((db.(users := db.users + [u]), u))
  }

  /** `findByEmail(email)`: letter case is ignored. */
  function FindByEmail(users: seq<User>, email: string): (r: Option<User>)
    ensures r.None? <==> forall i :: 0 <= i < |users| ==> Collate(users[i].email) != Collate(email)
    ensures r.Some? ==> r.value in users && Collate(r.value.email) == Collate(email)
  {
    match Locate(users, UserEmail, Collate(email))
    case None => None
    case Some(i) => Some(users[i])
  }

  function Apply(u: User, p: UserPatch): User {
    User(u.id, p.fullName.GetOr(u.fullName), p.email.GetOr(u.email),
      if p.roleId.Some? then p.roleId else u.roleId,
      if p.profilePicture.Some? then p.profilePicture else u.profilePicture,
      if p.googleId.Some? then p.googleId else u.googleId,
      p.isVerified.GetOr(u.isVerified))
  }

  /** `if (dto.roleId) rolesService.findOne(dto.roleId)`: an absent or empty
      role id is not looked up. */
  predicate RoleResolves(roles: seq<Roles.Role>, roleId: Option<Id>) {
    roleId.None? || roleId.value == [] || Roles.FindOne(roles, roleId.value).Ok?
  }

  /** Some user other than the one at `except` has `u`'s e-mail, as the
      unique index compares it. */
  predicate EmailTaken(users: seq<User>, u: User, except: int) {
    exists j :: 0 <= j < |users| && j != except && UserEmail(users[j]) == UserEmail(u)
  }

  /** `update(id, dto)`: NotFound for an unknown user, then for a non-empty
      role id that does not resolve; the unique columns refuse a clash. */
  function Update(db: Db, id: Id, p: UserPatch): (r: Result<(Db, User)>)
    ensures !Holds(db.users, UserId, id) ==> r == Err(NotFound)
    ensures r.Err? ==> r.error in {NotFound, QueryFailed}
    ensures r.Ok? ==> exists i :: (0 <= i < |db.users| && db.users[i].id == id &&
      r.value.1 == Apply(db.users[i], p) && r.value.0 == db.(users := db.users[i := r.value.1]))
    ensures Valid(db.users) ==> (r.Ok? <==> exists i :: (0 <= i < |db.users| && db.users[i].id == id
      && RoleResolves(db.roles, p.roleId)
      && !EmailTaken(db.users, Apply(db.users[i], p), i)
      && !GoogleIdTaken(db.users, Apply(db.users[i], p).googleId, i)))
  {
    match Locate(db.users, UserId, id)
    case None => Err(NotFound)
    case Some(i) =>
      assert Valid(db.users) ==> forall k :: 0 <= k < |db.users| && db.users[k].id == id ==> k == i by {
        if Valid(db.users) {
          forall k | 0 <= k < |db.users| && db.users[k].id == id ensures k == i {
            LocateUnique(db.users, UserId, k);
          }
        }
      }
      if !RoleResolves(db.roles, p.roleId) then Err(NotFound)
      else
        var u := Apply(db.users[i], p);
        if EmailTaken(db.users, u, i) || GoogleIdTaken(db.users, u.googleId, i)
        then Err(QueryFailed)
        else Ok((db.(users := db.users[i := u]), u))
  }

  lemma CreateKeepsValid(db: Db, dto: CreateUserDto, newId: Id)
    requires Valid(db.users)
    requires !Holds(db.users, UserId, newId)
    ensures Create(db, dto, newId).Ok? ==> Valid(Create(db, dto, newId).value.0.users)
  {
    var r := Create(db, dto, newId);
    if r.Ok? {
      AppendUnique(db.users, UserId, r.value.1);
      AppendUnique(db.users, UserEmail, r.value.1);
    }
  }

  lemma UpdateKeepsValid(db: Db, id: Id, p: UserPatch)
    requires Valid(db.users)
    ensures Update(db, id, p).Ok? ==> Valid(Update(db, id, p).value.0.users)
  {
    var r := Update(db, id, p);
    if r.Ok? {
      var i := Locate(db.users, UserId, id).value;
      var u := Apply(db.users[i], p);
      ReplaceUnique(db.users, UserId, i, u);
      ReplaceUnique(db.users, UserEmail, i, u);
    }
  }

  // ---------------------------------------------------------------------
  // updateUserAndLandlord

  /** `UpdateUserDto` of the combined body: only the full name. */
  datatype UserFields = UserFields(fullName: Option<string>)

  /** `UpdateLandlordDto`, plus the `propertyCount` spelling the service also reads. */
  datatype LandlordFields = LandlordFields(
    phone: Option<string>,
    dni: Option<string>,
    address: Option<string>,
    propertiesCount: Option<string>,
    propertyCount: Option<string>)

  datatype UpdateUserLandlordDto = UpdateUserLandlordDto(user: Option<UserFields>, landlord: Option<LandlordFields>)

  /** `propertiesCount ?? propertyCount`. */
  function PropsCount(f: LandlordFields): Option<string> {
    if f.propertiesCount.Some? then f.propertiesCount else f.propertyCount
  }

  /** The profile written for a user without one: a missing field becomes ''. */
  function NewLandlordFrom(id: Id, userId: Id, f: LandlordFields): Landlords.LandlordProfile {
    Landlords.LandlordProfile(id, userId, f.phone.GetOr(""), f.dni.GetOr(""), f.address.GetOr(""),
      PropsCount(f).GetOr(""))
  }

  /** An existing profile with only the defined fields overwritten. */
  function MergeLandlord(l: Landlords.LandlordProfile, f: LandlordFields): Landlords.LandlordProfile {
    l.(phone := f.phone.GetOr(l.phone), dni := f.dni.GetOr(l.dni), address := f.address.GetOr(l.address),
       propertyCount := PropsCount(f).GetOr(l.propertyCount))
  }

  /** The landlord table after the landlord half of the body. */
  function SaveLandlord(rows: seq<Landlords.LandlordProfile>, userId: Id, f: LandlordFields, newId: Id)
    : (r: seq<Landlords.LandlordProfile>)
    ensures Holds(rows, Landlords.LandlordUser, userId) ==>
      exists i :: (0 <= i < |rows| && rows[i].userId == userId && r == rows[i := MergeLandlord(rows[i], f)])
    ensures !Holds(rows, Landlords.LandlordUser, userId) ==> r == rows + [NewLandlordFrom(newId, userId, f)]
  {
    match Locate(rows, Landlords.LandlordUser, userId)
    case Some(i) => rows[i := MergeLandlord(rows[i], f)]
    case None => rows + [NewLandlordFrom(newId, userId, f)]
  }

  /** `updateUserAndLandlord(id, body)`, one transaction: an unknown user is
      NotFound and nothing is written; otherwise the full name and the
      landlord profile are written together. */
  function UpdateUserAndLandlord(db: Db, id: Id, body: UpdateUserLandlordDto, newLandlordId: Id)
    : (r: Result<(Db, User)>)
    ensures r.Err? <==> !Holds(db.users, UserId, id)
    ensures r.Err? ==> r.error == NotFound
    ensures r.Ok? ==> r.value.0.roles == db.roles && r.value.0.tenants == db.tenants
    ensures r.Ok? ==> exists i :: (0 <= i < |db.users| && db.users[i].id == id &&
      r.value.0.users == db.users[i := r.value.1] &&
      r.value.1 == db.users[i].(fullName := if body.user.Some? then body.user.value.fullName.GetOr(db.users[i].fullName)
                                          else db.users[i].fullName))
    ensures r.Ok? && body.landlord.None? ==> r.value.0.landlords == db.landlords
    ensures r.Ok? && body.landlord.Some? ==>
      r.value.0.landlords == SaveLandlord(db.landlords, id, body.landlord.value, newLandlordId)
  {
    match Locate(db.users, UserId, id)
    case None => Err(NotFound)
    case Some(i) =>
      var u := db.users[i];
      var u' := if body.user.Some? then u.(fullName := body.user.value.fullName.GetOr(u.fullName)) else u;
      var landlords := if body.landlord.Some? then SaveLandlord(db.landlords, id, body.landlord.value, newLandlordId)
                       else db.landlords;
      Ok((db.(users := db.users[i := u'], landlords := landlords), u'))
  }

  /** A user without a profile gets one with '' for every field the body leaves out,
      and `propertiesCount` wins over `propertyCount`. */
  lemma UpdateCreatesLandlordDefaults(db: Db, id: Id, f: LandlordFields, newId: Id)
    requires Holds(db.users, UserId, id)
    requires !Holds(db.landlords, Landlords.LandlordUser, id)
    ensures var r := UpdateUserAndLandlord(db, id, UpdateUserLandlordDto(None, Some(f)), newId);
      && r.Ok?
      && Landlords.FindByUserId(r.value.0.landlords, id) == Some(NewLandlordFrom(newId, id, f))
      && (f.phone.None? ==> NewLandlordFrom(newId, id, f).phone == "")
      && (f.propertiesCount.Some? ==> NewLandlordFrom(newId, id, f).propertyCount == f.propertiesCount.value)
      && (f.propertiesCount.None? && f.propertyCount.None? ==> NewLandlordFrom(newId, id, f).propertyCount == "")
  {
    var rows := db.landlords + [NewLandlordFrom(newId, id, f)];
    assert rows[|db.landlords|].userId == id;
  }

  /** With a profile present, a field the body leaves undefined keeps its value. */
  lemma UpdateKeepsUndefinedFields(db: Db, id: Id, f: LandlordFields, newId: Id)
    requires Holds(db.users, UserId, id)
    requires Landlords.Valid(db.landlords)
    requires Holds(db.landlords, Landlords.LandlordUser, id)
    ensures UpdateUserAndLandlord(db, id, UpdateUserLandlordDto(None, Some(f)), newId).Ok?
    ensures Landlords.FindByUserId(UpdateUserAndLandlord(db, id, UpdateUserLandlordDto(None, Some(f)), newId).value.0.landlords, id).Some?
    ensures var before := Landlords.FindByUserId(db.landlords, id).value;
      var r := UpdateUserAndLandlord(db, id, UpdateUserLandlordDto(None, Some(f)), newId);
      var after := Landlords.FindByUserId(r.value.0.landlords, id).value;
      && after.id == before.id
      && after.phone == (if f.phone.Some? then f.phone.value else before.phone)
      && after.dni == (if f.dni.Some? then f.dni.value else before.dni)
      && after.address == (if f.address.Some? then f.address.value else before.address)
      && after.propertyCount == (if PropsCount(f).Some? then PropsCount(f).value else before.propertyCount)
  {
    var i := Locate(db.landlords, Landlords.LandlordUser, id).value;
    var rows := db.landlords[i := MergeLandlord(db.landlords[i], f)];
    forall j | 0 <= j < |rows| && j != i ensures rows[j].userId != id {
      assert rows[j] == db.landlords[j];
    }
    LocateUnique(rows, Landlords.LandlordUser, i);
  }

  /** The combined update keeps one landlord profile per user. */
  lemma UpdateUserAndLandlordKeepsOneProfile(db: Db, id: Id, body: UpdateUserLandlordDto, newId: Id)
    requires Landlords.Valid(db.landlords)
    requires !Holds(db.landlords, Landlords.LandlordId, newId)
    ensures var r := UpdateUserAndLandlord(db, id, body, newId);
      r.Ok? ==> Landlords.Valid(r.value.0.landlords)
  {
    var r := UpdateUserAndLandlord(db, id, body, newId);
    if r.Ok? && body.landlord.Some? {
      var f := body.landlord.value;
      match Locate(db.landlords, Landlords.LandlordUser, id)
      case Some(i) =>
        var l := MergeLandlord(db.landlords[i], f);
        ReplaceUnique(db.landlords, Landlords.LandlordId, i, l);
        ReplaceUnique(db.landlords, Landlords.LandlordUser, i, l);
      case None =>
        var l := NewLandlordFrom(newId, id, f);
        AppendUnique(db.landlords, Landlords.LandlordId, l);
        AppendUnique(db.landlords, Landlords.LandlordUser, l);
    }
  }

  // ---------------------------------------------------------------------
  // checkRegistrationStatus

  /** The fields the report checks. */
  datatype Field =
    | FullName | Email
    | LandlordPhone | LandlordDni | LandlordAddress | LandlordPropertyCount
    | TenantPhone | TenantCode | TenantCarrer | TenantCicle | TenantMonthlyBudget | TenantOriginDepartment

  /** The name a field has in `completedFields` and `missingFields`. */
  function FieldName(f: Field): string {
    match f
    case FullName => "fullName"
    case Email => "email"
    case LandlordPhone => "landlord.phone"
    case LandlordDni => "landlord.dni"
    case LandlordAddress => "landlord.address"
    case LandlordPropertyCount => "landlord.propertyCount"
    case TenantPhone => "tenant.phone"
    case TenantCode => "tenant.code"
    case TenantCarrer => "tenant.carrer"
    case TenantCicle => "tenant.cicle"
    case TenantMonthlyBudget => "tenant.monthly_budget"
    case TenantOriginDepartment => "tenant.origin_department"
  }

  /** The next step shown for a missing field; the account fields have none. */
  function NextStep(f: Field): Option<string> {
    match f
    case FullName => None
    case Email => None
    case LandlordPhone => Some("Completar teléfono de arrendador")
    case LandlordDni => Some("Agregar DNI de arrendador")
    case LandlordAddress => Some("Proporcionar dirección de arrendador")
    case LandlordPropertyCount => Some("Indicar cantidad de propiedades")
    case TenantPhone => Some("Completar teléfono de inquilino")
    case TenantCode => Some("Agregar código de estudiante")
    case TenantCarrer => Some("Agregar carrera")
    case TenantCicle => Some("Agregar ciclo")
    case TenantMonthlyBudget => Some("Indicar presupuesto mensual")
    case TenantOriginDepartment => Some("Indicar departamento de origen")
  }

  /** One checked field and whether it is filled. */
  datatype FieldCheck = FieldCheck(field: Field, done: bool)

  /** The report. Field lists hold `Field` values; `FieldName` gives the
      strings the endpoint returns. */
  datatype RegistrationStatus = RegistrationStatus(
    isComplete: bool,
    completedFields: seq<Field>,
    missingFields: seq<Field>,
    completionPercentage: int,
    nextSteps: seq<string>)

  predicate Done(c: FieldCheck) { c.done }
  predicate AllDone(cs: seq<FieldCheck>) { forall i :: 0 <= i < |cs| ==> cs[i].done }
  predicate Open(c: FieldCheck) { !c.done }
  predicate OpenWithStep(c: FieldCheck) { !c.done && NextStep(c.field).Some? }
  function FieldOf(c: FieldCheck): Field { c.field }
  function StepOf(c: FieldCheck): string { NextStep(c.field).GetOr("") }

  /** The account checks, given whether the name and the e-mail are filled. */
  function AccountChecksOf(name: bool, email: bool): seq<FieldCheck> {
    [FieldCheck(FullName, name), FieldCheck(Email, email)]
  }

  /** The landlord checks, given which of its four columns are filled. */
  function LandlordChecksOf(phone: bool, dni: bool, address: bool, count: bool): seq<FieldCheck> {
    [ FieldCheck(LandlordPhone, phone), FieldCheck(LandlordDni, dni),
      FieldCheck(LandlordAddress, address), FieldCheck(LandlordPropertyCount, count) ]
  }

  /** The tenant checks, given which of its columns are filled. The budget
      check asks only whether the loaded row carries the column, which a
      loaded row always does, so it always passes. */
  function TenantChecksOf(phone: bool, code: bool, carrer: bool, cicle: bool, origin: bool): seq<FieldCheck> {
    [ FieldCheck(TenantPhone, phone), FieldCheck(TenantCode, code), FieldCheck(TenantCarrer, carrer),
      FieldCheck(TenantCicle, cicle), FieldCheck(TenantMonthlyBudget, true),
      FieldCheck(TenantOriginDepartment, origin) ]
  }

  function AccountChecks(user: Option<User>): seq<FieldCheck> {
    AccountChecksOf(user.Some? && Filled(user.value.fullName), user.Some? && Filled(user.value.email))
  }

  function LandlordChecks(l: Landlords.LandlordProfile): seq<FieldCheck> {
    LandlordChecksOf(Filled(l.phone), Filled(l.dni), Filled(l.address), Filled(l.propertyCount))
  }

  function TenantChecks(t: Tenants.Tenant): seq<FieldCheck> {
    TenantChecksOf(Filled(t.phone), Filled(t.code), Filled(t.carrer), Filled(t.cicle), Filled(t.originDepartment))
  }

  /** `user?.role?.name`. */
  function RoleName(db: Db, user: Option<User>): Option<string> {
    if user.None? || user.value.roleId.None? then None
    else
      match Roles.FindOne(db.roles, user.value.roleId.value)
      case Err(_) => None
      case Ok(role) => Some(role.name)
  }

  /** The role-profile fields the report checks for the user `id`: none
      without a landlord or tenant role, or without the matching profile. */
  function ProfileChecks(db: Db, id: Id, user: Option<User>): seq<FieldCheck> {
    var role := RoleName(db, user);
    if role == Some("landlord") then
      match Landlords.FindByUserId(db.landlords, id)
      case None => []
      case Some(l) => LandlordChecks(l)
    else if role == Some("tenant") then
      match Tenants.FindByUserId(db.tenants, id)
      case None => []
      case Some(t) => TenantChecks(t)
    else []
  }

  /** Every field the report checks, in report order. */
  function Checks(db: Db, id: Id, user: Option<User>): seq<FieldCheck> {
    AccountChecks(user) + ProfileChecks(db, id, user)
  }

  /** `Math.round(part / (whole || 1) * 100)` for non-negative operands, halves rounded up. */
  function RoundedPercent(part: nat, whole: nat): (r: int)
    requires part <= whole
    ensures 0 <= r <= 100
    ensures whole > 0 ==> 2 * whole * r <= 200 * part + whole < 2 * whole * (r + 1)
    ensures whole == 0 ==> r == 0
  {
    var d := if whole == 0 then 1 else whole;
    var r := (200 * part + d) / (2 * d);
    assert r <= 100 && 2 * d * r <= 200 * part + d < 2 * d * (r + 1) by {
      DivSandwich(200 * part + d, 2 * d);
      assert 2 * d * r < 2 * d * 101;
      MulLtCancel(2 * d, r, 101);
    }
    r
  }

  lemma DivSandwich(n: nat, m: nat)
    requires m > 0
    ensures m * (n / m) <= n < m * (n / m + 1)
  {
    assert n == m * (n / m) + n % m;
    assert m * (n / m + 1) == m * (n / m) + m;
  }

  lemma MulLtCancel(m: int, a: int, b: int)
    requires m > 0 && m * a < m * b
    ensures a < b
  {
    assert m * b - m * a == m * (b - a);
  }

  /** `checkRegistrationStatus(id)`. */
  function CheckRegistrationStatus(db: Db, id: Id): (r: RegistrationStatus)
    ensures 0 <= r.completionPercentage <= 100
    ensures r.isComplete ==> r.completionPercentage == 100
    ensures !r.isComplete ==>
      r.completionPercentage == RoundedPercent(|r.completedFields|, |r.completedFields| + |r.missingFields|)
    ensures |r.completedFields| + |r.missingFields| == |Checks(db, id, FindById(db, id))|
    ensures |r.nextSteps| <= |r.missingFields|
  {
    var user := FindById(db, id);
    Report(ProfileChecks(db, id, user), Checks(db, id, user))
  }

  /** The report over the checks in report order, of which `profile` are
      the role profile's. */
  function Report(profile: seq<FieldCheck>, checks: seq<FieldCheck>): (r: RegistrationStatus)
    ensures 0 <= r.completionPercentage <= 100
    ensures r.isComplete ==> r.completionPercentage == 100
    ensures !r.isComplete ==>
      r.completionPercentage == RoundedPercent(|r.completedFields|, |r.completedFields| + |r.missingFields|)
    ensures |r.completedFields| + |r.missingFields| == |checks|
    ensures |r.nextSteps| <= |r.missingFields|
  {
    var completed := Filter(checks, Done);
    var missing := Filter(checks, Open);
    FilterComplement(checks, Done, Open);
    var isComplete := |profile| > 0 && AllDone(profile);
    var percentage := if isComplete then 100 else RoundedPercent(|completed|, |completed| + |missing|);
    var steps := Filter(checks, OpenWithStep);
    assert |steps| <= |missing| by { OpenWithStepBound(checks); }
    RegistrationStatus(isComplete, Map(completed, FieldOf), Map(missing, FieldOf), percentage, Map(steps, StepOf))
  }

  /** The user row the report reads, if any. */
  function FindById(db: Db, id: Id): (r: Option<User>)
    ensures r.None? <==> !Holds(db.users, UserId, id)
    ensures r.Some? ==> r.value in db.users && r.value.id == id
  {
    match Locate(db.users, UserId, id)
    case None => None
    case Some(i) => Some(db.users[i])
  }

  lemma {:induction false} OpenWithStepBound(checks: seq<FieldCheck>)
    ensures |Filter(checks, OpenWithStep)| <= |Filter(checks, Open)|
    decreases |checks|
  {
    if |checks| > 0 {
      OpenWithStepBound(checks[1..]);
    }
  }

  // ---------------------------------------------------------------------
  // What the report says, in terms of the stored rows

  predicate LandlordComplete(l: Landlords.LandlordProfile) {
    Filled(l.phone) && Filled(l.dni) && Filled(l.address) && Filled(l.propertyCount)
  }

  predicate TenantComplete(t: Tenants.Tenant) {
    Filled(t.phone) && Filled(t.code) && Filled(t.carrer) && Filled(t.cicle) && Filled(t.originDepartment)
  }

  /** The user has the landlord role and a complete landlord profile, or the
      tenant role and a complete tenant profile. */
  predicate ProfileComplete(db: Db, id: Id) {
    var role := RoleName(db, FindById(db, id));
    || (role == Some("landlord") && Landlords.FindByUserId(db.landlords, id).Some?
        && LandlordComplete(Landlords.FindByUserId(db.landlords, id).value))
    || (role == Some("tenant") && Tenants.FindByUserId(db.tenants, id).Some?
        && TenantComplete(Tenants.FindByUserId(db.tenants, id).value))
  }

  lemma LandlordChecksOfDone(phone: bool, dni: bool, address: bool, count: bool)
    ensures AllDone(LandlordChecksOf(phone, dni, address, count)) <==> phone && dni && address && count
  {
    var cs := LandlordChecksOf(phone, dni, address, count);
    if phone && dni && address && count {
      forall i | 0 <= i < 4 ensures cs[i].done {}
    }
    assert cs[0].done == phone && cs[1].done == dni && cs[2].done == address && cs[3].done == count;
  }

  lemma TenantChecksOfDone(phone: bool, code: bool, carrer: bool, cicle: bool, origin: bool)
    ensures AllDone(TenantChecksOf(phone, code, carrer, cicle, origin)) <==> phone && code && carrer && cicle && origin
  {
    var cs := TenantChecksOf(phone, code, carrer, cicle, origin);
    if phone && code && carrer && cicle && origin {
      forall i | 0 <= i < 6 ensures cs[i].done {}
    }
    assert cs[0].done == phone && cs[1].done == code && cs[2].done == carrer;
    assert cs[3].done == cicle && cs[5].done == origin;
  }

  lemma LandlordChecksDone(l: Landlords.LandlordProfile)
    ensures AllDone(LandlordChecks(l)) <==> LandlordComplete(l)
  {
    LandlordChecksOfDone(Filled(l.phone), Filled(l.dni), Filled(l.address), Filled(l.propertyCount));
  }

  lemma TenantChecksDone(t: Tenants.Tenant)
    ensures AllDone(TenantChecks(t)) <==> TenantComplete(t)
  {
    TenantChecksOfDone(Filled(t.phone), Filled(t.code), Filled(t.carrer), Filled(t.cicle), Filled(t.originDepartment));
  }

  /** isComplete holds exactly for a landlord or tenant whose profile has every
      field filled; the account's own name and e-mail play no part. */
  lemma IsCompleteIff(db: Db, id: Id)
    ensures CheckRegistrationStatus(db, id).isComplete <==> ProfileComplete(db, id)
  {
    var user := FindById(db, id);
    var role := RoleName(db, user);
    if role == Some("landlord") && Landlords.FindByUserId(db.landlords, id).Some? {
      LandlordChecksDone(Landlords.FindByUserId(db.landlords, id).value);
    } else if role == Some("tenant") && Tenants.FindByUserId(db.tenants, id).Some? {
      TenantChecksDone(Tenants.FindByUserId(db.tenants, id).value);
    }
  }

  /** A field is reported in a filtered list exactly when its check passes the filter. */
  lemma FieldReported(cs: seq<FieldCheck>, p: FieldCheck -> bool, f: Field)
    ensures f in Map(Filter(cs, p), FieldOf) <==> exists i :: 0 <= i < |cs| && cs[i].field == f && p(cs[i])
  {
    var fs := Filter(cs, p);
    if f in Map(fs, FieldOf) {
      var k :| 0 <= k < |fs| && Map(fs, FieldOf)[k] == f;
      assert fs[k] in cs;
      var i :| 0 <= i < |cs| && cs[i] == fs[k];
    }
    if exists i :: 0 <= i < |cs| && cs[i].field == f && p(cs[i]) {
      var i :| 0 <= i < |cs| && cs[i].field == f && p(cs[i]);
      assert cs[i] in fs;
      var k :| 0 <= k < |fs| && fs[k] == cs[i];
      assert Map(fs, FieldOf)[k] == f;
    }
  }

  /** A field of a role profile: one with a next step. */
  predicate IsProfileField(f: Field) { NextStep(f).Some? }

  predicate ProfileFieldsOnly(cs: seq<FieldCheck>) {
    forall i :: 0 <= i < |cs| ==> IsProfileField(cs[i].field)
  }

  lemma LandlordChecksOfShape(phone: bool, dni: bool, address: bool, count: bool)
    ensures ProfileFieldsOnly(LandlordChecksOf(phone, dni, address, count))
  {
    var cs := LandlordChecksOf(phone, dni, address, count);
    forall i | 0 <= i < 4 ensures IsProfileField(cs[i].field) {}
  }

  lemma TenantChecksOfShape(phone: bool, code: bool, carrer: bool, cicle: bool, origin: bool)
    ensures ProfileFieldsOnly(TenantChecksOf(phone, code, carrer, cicle, origin))
  {
    var cs := TenantChecksOf(phone, code, carrer, cicle, origin);
    forall i | 0 <= i < 6 ensures IsProfileField(cs[i].field) {}
  }

  /** Profile checks are about profile fields, never the account's name or e-mail. */
  lemma ProfileChecksShape(db: Db, id: Id, user: Option<User>)
    ensures ProfileFieldsOnly(ProfileChecks(db, id, user))
    ensures !IsProfileField(FullName) && !IsProfileField(Email)
  {
    var role := RoleName(db, user);
    if role == Some("landlord") && Landlords.FindByUserId(db.landlords, id).Some? {
      var l := Landlords.FindByUserId(db.landlords, id).value;
      LandlordChecksOfShape(Filled(l.phone), Filled(l.dni), Filled(l.address), Filled(l.propertyCount));
    } else if role == Some("tenant") && Tenants.FindByUserId(db.tenants, id).Some? {
      var t := Tenants.FindByUserId(db.tenants, id).value;
      TenantChecksOfShape(Filled(t.phone), Filled(t.code), Filled(t.carrer), Filled(t.cicle), Filled(t.originDepartment));
    }
  }

  /** In the report's check list, the account fields are reported from their
      own two checks alone. */
  lemma AccountChecksReported(name: bool, email: bool, pc: seq<FieldCheck>)
    requires ProfileFieldsOnly(pc)
    ensures var cs := AccountChecksOf(name, email) + pc;
      && (FullName in Map(Filter(cs, Done), FieldOf) <==> name)
      && (FullName in Map(Filter(cs, Open), FieldOf) <==> !name)
      && (Email in Map(Filter(cs, Done), FieldOf) <==> email)
      && (Email in Map(Filter(cs, Open), FieldOf) <==> !email)
  {
    var cs := AccountChecksOf(name, email) + pc;
    assert cs[0] == FieldCheck(FullName, name) && cs[1] == FieldCheck(Email, email);
    assert forall i :: 0 <= i < |cs| && i != 0 ==> cs[i].field != FullName by {
      assert forall i :: 2 <= i < |cs| ==> cs[i] == pc[i - 2];
    }
    assert forall i :: 0 <= i < |cs| && i != 1 ==> cs[i].field != Email by {
      assert forall i :: 2 <= i < |cs| ==> cs[i] == pc[i - 2];
    }
    FieldReportedAt(cs, Done, FullName, 0);
    FieldReportedAt(cs, Open, FullName, 0);
    FieldReportedAt(cs, Done, Email, 1);
    FieldReportedAt(cs, Open, Email, 1);
  }

  /** A field checked at one position only is reported as that check says. */
  lemma FieldReportedAt(cs: seq<FieldCheck>, p: FieldCheck -> bool, f: Field, j: nat)
    requires j < |cs| && cs[j].field == f
    requires forall i :: 0 <= i < |cs| && i != j ==> cs[i].field != f
    ensures f in Map(Filter(cs, p), FieldOf) <==> p(cs[j])
  {
    FieldReported(cs, p, f);
  }

  /** fullName and email are each reported completed exactly when the stored
      value is non-blank, and missing otherwise (also when the user is unknown). */
  lemma AccountFieldsReported(db: Db, id: Id)
    ensures var r := CheckRegistrationStatus(db, id);
      var u := FindById(db, id);
      && (FullName in r.completedFields <==> u.Some? && Filled(u.value.fullName))
      && (FullName in r.missingFields <==> !(u.Some? && Filled(u.value.fullName)))
      && (Email in r.completedFields <==> u.Some? && Filled(u.value.email))
      && (Email in r.missingFields <==> !(u.Some? && Filled(u.value.email)))
  {
    var u := FindById(db, id);
    ProfileChecksShape(db, id, u);
    AccountChecksReported(u.Some? && Filled(u.value.fullName), u.Some? && Filled(u.value.email), ProfileChecks(db, id, u));
  }

  /** The report's two field lists, over the account checks and the profile checks. */
  lemma ReportLists(db: Db, id: Id)
    ensures var u := FindById(db, id);
      var cs := AccountChecksOf(u.Some? && Filled(u.value.fullName), u.Some? && Filled(u.value.email)) + ProfileChecks(db, id, u);
      && CheckRegistrationStatus(db, id).completedFields == Map(Filter(cs, Done), FieldOf)
      && CheckRegistrationStatus(db, id).missingFields == Map(Filter(cs, Open), FieldOf)
  {
  }

  /** The profile checks of a landlord with a profile row are that row's checks. */
  lemma LandlordProfileChecks(db: Db, id: Id)
    requires RoleName(db, FindById(db, id)) == Some("landlord")
    requires Landlords.FindByUserId(db.landlords, id).Some?
    ensures ProfileChecks(db, id, FindById(db, id)) == LandlordChecks(Landlords.FindByUserId(db.landlords, id).value)
  {
  }

  /** The profile checks of a tenant with a profile row are that row's checks. */
  lemma TenantProfileChecks(db: Db, id: Id)
    requires RoleName(db, FindById(db, id)) == Some("tenant")
    requires Tenants.FindByUserId(db.tenants, id).Some?
    ensures ProfileChecks(db, id, FindById(db, id)) == TenantChecks(Tenants.FindByUserId(db.tenants, id).value)
  {
  }

  /** A check whose field no other check in the list has is reported as it says. */
  lemma ReportedUnique(cs: seq<FieldCheck>, c: FieldCheck, p: FieldCheck -> bool)
    requires c in cs
    requires forall x :: x in cs && x.field == c.field ==> x == c
    ensures c.field in Map(Filter(cs, p), FieldOf) <==> p(c)
  {
    FieldReported(cs, p, c.field);
    if exists i :: 0 <= i < |cs| && cs[i].field == c.field && p(cs[i]) {
      var i :| 0 <= i < |cs| && cs[i].field == c.field && p(cs[i]);
      assert cs[i] in cs;
    }
  }

  /** A profile check whose field no other profile check has is reported,
      after the account checks, as it says. */
  lemma ProfileCheckReported(name: bool, email: bool, pc: seq<FieldCheck>, c: FieldCheck)
    requires IsProfileField(c.field)
    requires c in pc
    requires forall x :: x in pc && x.field == c.field ==> x == c
    ensures c.field in Map(Filter(AccountChecksOf(name, email) + pc, Done), FieldOf) <==> c.done
    ensures c.field in Map(Filter(AccountChecksOf(name, email) + pc, Open), FieldOf) <==> !c.done
  {
    var cs := AccountChecksOf(name, email) + pc;
    assert forall x :: x in cs ==> x in AccountChecksOf(name, email) || x in pc;
    ReportedUnique(cs, c, Done);
    ReportedUnique(cs, c, Open);
  }

  /** No two checks of the list are about the same field. */
  predicate FieldsDistinct(cs: seq<FieldCheck>) {
    forall a, b :: 0 <= a < b < |cs| ==> cs[a].field != cs[b].field
  }

  lemma LandlordChecksOfDistinct(phone: bool, dni: bool, address: bool, count: bool)
    ensures FieldsDistinct(LandlordChecksOf(phone, dni, address, count))
  {
    var cs := LandlordChecksOf(phone, dni, address, count);
    forall a, b | 0 <= a < b < 4 ensures cs[a].field != cs[b].field {}
  }

  lemma TenantChecksOfDistinct(phone: bool, code: bool, carrer: bool, cicle: bool, origin: bool)
    ensures FieldsDistinct(TenantChecksOf(phone, code, carrer, cicle, origin))
  {
    var cs := TenantChecksOf(phone, code, carrer, cicle, origin);
    forall a, b | 0 <= a < b < 6 ensures cs[a].field != cs[b].field {}
  }

  /** In a list of distinct profile checks, the check at `j` is reported,
      after the account checks, as it says. */
  lemma ProfileCheckAtReported(name: bool, email: bool, pc: seq<FieldCheck>, j: nat)
    requires j < |pc| && ProfileFieldsOnly(pc) && FieldsDistinct(pc)
    ensures pc[j].field in Map(Filter(AccountChecksOf(name, email) + pc, Done), FieldOf) <==> pc[j].done
    ensures pc[j].field in Map(Filter(AccountChecksOf(name, email) + pc, Open), FieldOf) <==> !pc[j].done
  {
    forall x | x in pc && x.field == pc[j].field ensures x == pc[j] {
      var k :| 0 <= k < |pc| && pc[k] == x;
      assert !(k < j) && !(j < k);
    }
    ProfileCheckReported(name, email, pc, pc[j]);
  }

  /** After the account checks, the landlord check at `j` is reported as it says. */
  lemma LandlordCheckReported(name: bool, email: bool, phone: bool, dni: bool, address: bool, count: bool, j: nat)
    requires j < 4
    ensures var cs := AccountChecksOf(name, email) + LandlordChecksOf(phone, dni, address, count);
      var c := LandlordChecksOf(phone, dni, address, count)[j];
      && (c.field in Map(Filter(cs, Done), FieldOf) <==> c.done)
      && (c.field in Map(Filter(cs, Open), FieldOf) <==> !c.done)
  {
    LandlordChecksOfShape(phone, dni, address, count);
    LandlordChecksOfDistinct(phone, dni, address, count);
    ProfileCheckAtReported(name, email, LandlordChecksOf(phone, dni, address, count), j);
  }

  /** After the account checks, the tenant check at `j` is reported as it says. */
  lemma TenantCheckReported(name: bool, email: bool, phone: bool, code: bool, carrer: bool, cicle: bool, origin: bool, j: nat)
    requires j < 6
    ensures var cs := AccountChecksOf(name, email) + TenantChecksOf(phone, code, carrer, cicle, origin);
      var c := TenantChecksOf(phone, code, carrer, cicle, origin)[j];
      && (c.field in Map(Filter(cs, Done), FieldOf) <==> c.done)
      && (c.field in Map(Filter(cs, Open), FieldOf) <==> !c.done)
  {
    TenantChecksOfShape(phone, code, carrer, cicle, origin);
    TenantChecksOfDistinct(phone, code, carrer, cicle, origin);
    ProfileCheckAtReported(name, email, TenantChecksOf(phone, code, carrer, cicle, origin), j);
  }

  /** After the account checks, each landlord check is reported as it says. */
  lemma LandlordChecksReported(name: bool, email: bool, phone: bool, dni: bool, address: bool, count: bool)
    ensures var cs := AccountChecksOf(name, email) + LandlordChecksOf(phone, dni, address, count);
      var completed := Map(Filter(cs, Done), FieldOf);
      var missing := Map(Filter(cs, Open), FieldOf);
      && (LandlordPhone in completed <==> phone) && (LandlordPhone in missing <==> !phone)
      && (LandlordDni in completed <==> dni) && (LandlordDni in missing <==> !dni)
      && (LandlordAddress in completed <==> address) && (LandlordAddress in missing <==> !address)
      && (LandlordPropertyCount in completed <==> count) && (LandlordPropertyCount in missing <==> !count)
  {
    LandlordCheckReported(name, email, phone, dni, address, count, 0);
    LandlordCheckReported(name, email, phone, dni, address, count, 1);
    LandlordCheckReported(name, email, phone, dni, address, count, 2);
    LandlordCheckReported(name, email, phone, dni, address, count, 3);
  }

  /** After the account checks, each tenant check is reported as it says. */
  lemma TenantChecksReported(name: bool, email: bool, phone: bool, code: bool, carrer: bool, cicle: bool, origin: bool)
    ensures var cs := AccountChecksOf(name, email) + TenantChecksOf(phone, code, carrer, cicle, origin);
      var completed := Map(Filter(cs, Done), FieldOf);
      var missing := Map(Filter(cs, Open), FieldOf);
      && (TenantPhone in completed <==> phone) && (TenantPhone in missing <==> !phone)
      && (TenantCode in completed <==> code) && (TenantCode in missing <==> !code)
      && (TenantCarrer in completed <==> carrer) && (TenantCarrer in missing <==> !carrer)
      && (TenantCicle in completed <==> cicle) && (TenantCicle in missing <==> !cicle)
      && TenantMonthlyBudget in completed && TenantMonthlyBudget !in missing
      && (TenantOriginDepartment in completed <==> origin) && (TenantOriginDepartment in missing <==> !origin)
  {
    TenantCheckReported(name, email, phone, code, carrer, cicle, origin, 0);
    TenantCheckReported(name, email, phone, code, carrer, cicle, origin, 1);
    TenantCheckReported(name, email, phone, code, carrer, cicle, origin, 2);
    TenantCheckReported(name, email, phone, code, carrer, cicle, origin, 3);
    TenantCheckReported(name, email, phone, code, carrer, cicle, origin, 4);
    TenantCheckReported(name, email, phone, code, carrer, cicle, origin, 5);
  }

  /** The account checks report no profile field. */
  lemma AccountChecksOmitProfile(name: bool, email: bool, f: Field)
    requires IsProfileField(f)
    ensures f !in Map(Filter(AccountChecksOf(name, email), Done), FieldOf)
    ensures f !in Map(Filter(AccountChecksOf(name, email), Open), FieldOf)
  {
    FieldReported(AccountChecksOf(name, email), Done, f);
    FieldReported(AccountChecksOf(name, email), Open, f);
  }

  /** Without a landlord or tenant role with its profile row there are no profile checks. */
  lemma NoProfileChecks(db: Db, id: Id)
    requires !(RoleName(db, FindById(db, id)) == Some("landlord") && Landlords.FindByUserId(db.landlords, id).Some?)
    requires !(RoleName(db, FindById(db, id)) == Some("tenant") && Tenants.FindByUserId(db.tenants, id).Some?)
    ensures ProfileChecks(db, id, FindById(db, id)) == []
  {
  }

  /** For a landlord with a profile row, each landlord field is reported
      completed exactly when its column is filled, and missing otherwise. */
  lemma LandlordFieldsReported(db: Db, id: Id)
    requires RoleName(db, FindById(db, id)) == Some("landlord")
    requires Landlords.FindByUserId(db.landlords, id).Some?
    ensures var r := CheckRegistrationStatus(db, id);
      var l := Landlords.FindByUserId(db.landlords, id).value;
      && (LandlordPhone in r.completedFields <==> Filled(l.phone))
      && (LandlordPhone in r.missingFields <==> !Filled(l.phone))
      && (LandlordDni in r.completedFields <==> Filled(l.dni))
      && (LandlordDni in r.missingFields <==> !Filled(l.dni))
      && (LandlordAddress in r.completedFields <==> Filled(l.address))
      && (LandlordAddress in r.missingFields <==> !Filled(l.address))
      && (LandlordPropertyCount in r.completedFields <==> Filled(l.propertyCount))
      && (LandlordPropertyCount in r.missingFields <==> !Filled(l.propertyCount))
  {
    var u := FindById(db, id);
    LandlordProfileChecks(db, id);
    ReportLists(db, id);
    var l := Landlords.FindByUserId(db.landlords, id).value;
    LandlordChecksReported(u.Some? && Filled(u.value.fullName), u.Some? && Filled(u.value.email),
      Filled(l.phone), Filled(l.dni), Filled(l.address), Filled(l.propertyCount));
  }

  /** For a tenant with a profile row, each tenant field is reported
      completed exactly when its column is filled, and missing otherwise;
      the budget is always reported completed. */
  lemma TenantFieldsReported(db: Db, id: Id)
    requires RoleName(db, FindById(db, id)) == Some("tenant")
    requires Tenants.FindByUserId(db.tenants, id).Some?
    ensures var r := CheckRegistrationStatus(db, id);
      var t := Tenants.FindByUserId(db.tenants, id).value;
      && (TenantPhone in r.completedFields <==> Filled(t.phone))
      && (TenantPhone in r.missingFields <==> !Filled(t.phone))
      && (TenantCode in r.completedFields <==> Filled(t.code))
      && (TenantCode in r.missingFields <==> !Filled(t.code))
      && (TenantCarrer in r.completedFields <==> Filled(t.carrer))
      && (TenantCarrer in r.missingFields <==> !Filled(t.carrer))
      && (TenantCicle in r.completedFields <==> Filled(t.cicle))
      && (TenantCicle in r.missingFields <==> !Filled(t.cicle))
      && TenantMonthlyBudget in r.completedFields && TenantMonthlyBudget !in r.missingFields
      && (TenantOriginDepartment in r.completedFields <==> Filled(t.originDepartment))
      && (TenantOriginDepartment in r.missingFields <==> !Filled(t.originDepartment))
  {
    var u := FindById(db, id);
    TenantProfileChecks(db, id);
    ReportLists(db, id);
    var t := Tenants.FindByUserId(db.tenants, id).value;
    TenantChecksReported(u.Some? && Filled(u.value.fullName), u.Some? && Filled(u.value.email),
      Filled(t.phone), Filled(t.code), Filled(t.carrer), Filled(t.cicle), Filled(t.originDepartment));
  }

  /** Without a landlord or tenant role, or without the matching profile row,
      no profile field is reported at all. */
  lemma NoProfileFieldsReported(db: Db, id: Id, f: Field)
    requires IsProfileField(f)
    requires !(RoleName(db, FindById(db, id)) == Some("landlord") && Landlords.FindByUserId(db.landlords, id).Some?)
    requires !(RoleName(db, FindById(db, id)) == Some("tenant") && Tenants.FindByUserId(db.tenants, id).Some?)
    ensures f !in CheckRegistrationStatus(db, id).completedFields
    ensures f !in CheckRegistrationStatus(db, id).missingFields
  {
    var u := FindById(db, id);
    var cs := AccountChecksOf(u.Some? && Filled(u.value.fullName), u.Some? && Filled(u.value.email));
    NoProfileChecks(db, id);
    ReportLists(db, id);
    assert cs + [] == cs;
    AccountChecksOmitProfile(u.Some? && Filled(u.value.fullName), u.Some? && Filled(u.value.email), f);
  }

  /** nextSteps has one entry per missing profile field and none for the account fields. */
  lemma NextStepsForProfileOnly(db: Db, id: Id)
    ensures var r := CheckRegistrationStatus(db, id);
      var u := FindById(db, id);
      |r.missingFields| == |r.nextSteps|
        + (if u.Some? && Filled(u.value.fullName) then 0 else 1)
        + (if u.Some? && Filled(u.value.email) then 0 else 1)
    ensures ProfileChecks(db, id, FindById(db, id)) == [] ==> CheckRegistrationStatus(db, id).nextSteps == []
  {
    var u := FindById(db, id);
    ProfileChecksShape(db, id, u);
    StepsForProfileChecks(u.Some? && Filled(u.value.fullName), u.Some? && Filled(u.value.email), ProfileChecks(db, id, u));
  }

  /** Over a check list of the two account checks and profile checks, the
      open checks with a step are the open profile checks. */
  lemma StepsForProfileChecks(name: bool, email: bool, pc: seq<FieldCheck>)
    requires ProfileFieldsOnly(pc)
    ensures var cs := AccountChecksOf(name, email) + pc;
      |Filter(cs, Open)| == |Filter(cs, OpenWithStep)| + (if name then 0 else 1) + (if email then 0 else 1)
    ensures pc == [] ==> Filter(AccountChecksOf(name, email) + pc, OpenWithStep) == []
  {
    var a := AccountChecksOf(name, email);
    FilterAppend(a, pc, Open);
    FilterAppend(a, pc, OpenWithStep);
    assert Filter(a, OpenWithStep) == [] by {
      FilterNone(a, OpenWithStep);
    }
    assert Filter(pc, OpenWithStep) == Filter(pc, Open) by {
      assert forall i :: 0 <= i < |pc| ==> OpenWithStep(pc[i]) == Open(pc[i]);
      FilterCongruent(pc, OpenWithStep, Open);
    }
    assert |Filter(a, Open)| == (if name then 0 else 1) + (if email then 0 else 1) by {
      assert a == [a[0]] + [a[1]];
      FilterAppend([a[0]], [a[1]], Open);
    }
  }
}

=== FILE: wrappers.dfy ===
/** Failure-compatible result types shared by every service of the model.

    The services signal failure by throwing one of the framework's HTTP
    exceptions; the model returns `Err` with the matching `Error` instead.
    `QueryFailed` stands for a query the database itself refuses (a negative
    LIMIT, a duplicate value in a unique column): the source does not catch
    those, so the caller sees a server error.
 */
module Wrappers {

  datatype Option<+T> = None | Some(value: T) {

    /** The value, or `default` when absent (JavaScript's `x ?? default`). */
    function GetOr(default: T): T {
      match this
      case Some(v) => v
      case None => default
    }
  }

  datatype Error =
    | NotFound
    | Forbidden
    | Conflict
    | BadRequest
    | Unauthorized
    | QueryFailed

  datatype Result<+T> = Ok(value: T) | Err(error: Error) {

    predicate IsFailure() {
      Err?
    }

    function PropagateFailure<U>(): Result<U>
      requires Err?
    {
      Err(error)
    }

    function Extract(): T
      requires Ok?
    {
      value
    }
  }

  /** `Ok(())` when `cond` holds, else the given error: a guard at the top of an operation. */
  datatype Outcome = Pass | Fail(error: Error) {

    predicate IsFailure() {
      Fail?
    }

    function PropagateFailure<U>(): Result<U>
      requires Fail?
    {
      Err(error)
    }
  }

  function Need(cond: bool, e: Error): (r: Outcome)
    ensures r.Pass? <==> cond
    ensures r.Fail? ==> r.error == e
  {
    if cond then Pass else Fail(e)
  }
}
